=== FILE: README.md ===
# Fastly for WordPress, modelled in Dafny

This project models the decision logic of the Fastly WordPress plugin ("Purgely"), together with the legacy 0.2b plugin that still ships in its `lib/` directory, and proves properties of that model. All functions are pure. Anything the plugin asks of WordPress, PHP's runtime or the network is a parameter instead: `get_option`, `get_post`, `get_permalink`, the link builders, `esc_url_raw`, HTTP replies, the connection test, and the `.vcl` files on disk.

The model covers:

- **Purge engine.** For each purge type it chooses the verb, the `Fastly-Key` and `Fastly-Soft-Purge` headers and the request URIs, then folds the responses into `success` or `failure` (`PurgeRequest`). It also covers related-URL purging (`PurgeCollection`) and the wrappers in `src/utils.php` (`UtilsPurge`).
- **Automatic purge on post events.** Each post is handled once per request, filtered by status, and its related surrogate keys are purged (`WpPurges`, `RelatedKeys`).
- **Response headers.** `Surrogate-Key`, `Surrogate-Control` and `Cache-Control` (`SurrogateKeysHeader`, `SurrogateControlHeader`, `CacheControlHeader`, `Header`).
- **Settings.** Define-if-absent constants, negotiation of saved values against defaults through per-key sanitisers, and the per-request cache (`Config`, `Settings`, `Utils`).
- **Fastly service-version workflow.** Clone, upsert snippets, conditions and request settings, validate, then optionally activate. This is used by the VCL handler, the Edge Modules page and the 1.1.1 upgrades (`VclHandler`, `Api`, `EdgeModules`, `Upgrades`).
- **Input classifiers and callbacks.** `wp fastly purge` (`Cli`), the related-URL locator (`RelatedUrls`) and the admin AJAX callbacks (`SettingsPage`).
- **Legacy plugin.** URL and header construction in the API adapter (`LegacyApi`), the purge decisions per WordPress event (`LegacyPurge`), and the admin panel's page state, sign-up and test URL (`LegacyAdmin`).

Three helper modules hold the common definitions:

- `Php`: PHP scalars, `empty`, loose comparison as PHP 8 and as PHP 7 do it, `intval`/`absint`, `explode`/`implode`.
- `Assoc`: PHP's ordered string-keyed arrays, as a sequence of entries.
- `Wp`: `trailingslashit` and `sanitize_key`.

PHP integers are unbounded in the model. The plugin does no arithmetic where overflow could matter.

The plugin in `src/` is modelled under PHP 8. The legacy plugin in `lib/` gives its classes PHP-4 style constructors, methods named after the class (lib/admin.php:13, lib/purge.php:13, lib/api.php:16). PHP 8 no longer runs those on `new`, so `lib/` is modelled under PHP 7, the last version that does, and its loose comparisons follow PHP 7's rules (`Php.LooseEq7`): a string compared with an integer is always read as a number, so `0 == "welcome"` holds.

The model follows the code where the code and its documentation disagree. Each such place, and each place where the code does something its authors evidently did not intend, is listed under Findings. There the code is modelled as written, and a corrected variant is modelled next to it.

## Model

| member | source | states |
|---|---|---|
| Config.Name | src/config.php:7-169 | Every constant the file defines carries the `PURGELY_` prefix. |
| Config.DefineIfAbsent | src/config.php:7-9 | A `define` guarded by `defined` sets only the constant it names. It sets it to the file's default only when it was not defined before. |
| Config.DefineAll | src/config.php:7-169 | Running the guarded defines in order gives every listed constant its earlier definition if it had one, otherwise the file's default. Constants not in the list are untouched. |
| Config.Load | src/config.php:7-169 | After loading, every constant is defined, and a constant defined earlier (for example in wp-config.php) keeps its value. |
| Config.InFile | src/config.php:7-169 | Each modelled constant has a guarded define in the file. |
| Config.LoadIsDefineAll | src/config.php:7-169 | The file's sequence of guarded defines has exactly the effect of `Load`, constant by constant. |
| Config.PurgeDefaults | src/config.php:34-36 | Unless predefined, full purges are disabled (line 35), the purge type is `soft` (line 100) and the surrogate TTL is 1800 seconds (line 80). |
| Header.SetName | src/classes/header.php:47-49 | `set_header_name` replaces the name and keeps the value. |
| Header.SetValue | src/classes/header.php:70-72 | `set_value` replaces the value and keeps the name. |
| Header.Line | src/classes/header.php:34-37 | The emitted line is the name, then `": "`, then the value, with the lengths adding up. |
| Header.LineSplitsAtFirstColon | src/classes/header.php:36 | For a name without a colon, splitting the line at its first colon gives back the name and `" "` + value. |
| CacheControlHeader.PrepareValue | src/classes/header-cache-control.php:52-54 | The value is the `sanitize_key`'d directive, `=`, and the decimal `absint` of the seconds. |
| CacheControlHeader.PrepareValueParses | src/classes/header-cache-control.php:52-54 | Reading the value back gives the sanitised directive before the `=` and `absint(seconds)` after it. |
| CacheControlHeader.New | src/classes/header-cache-control.php:36-41 | The constructor names the header `Cache-Control`, stores seconds and directive, and sets the value from them. |
| CacheControlHeader.SetSeconds | src/classes/header-cache-control.php:75-77 | `set_seconds` changes only the stored seconds. |
| CacheControlHeader.SetDirective | src/classes/header-cache-control.php:98-100 | `set_directive` changes only the stored directive. |
| CacheControlHeader.SettersKeepValue | src/classes/header-cache-control.php:36-100 | The setters do not recompute the header value: after either setter, the header still sends the value the constructor prepared. |
| SurrogateControlHeader.OriginalDirectives | src/classes/header-surrogate-control.php:36-47 | The keys are distinct. `max-age` and `stale-while-revalidate` are present iff `enable_stale_while_revalidate` is exactly `true`. `stale-if-error` is present iff `enable_stale_if_error` is exactly `true`. Each value is the `absint` of its TTL setting. |
| SurrogateControlHeader.New | src/classes/header-surrogate-control.php:26-29 | The constructor names the header `Surrogate-Control` and holds the original directives. |
| SurrogateControlHeader.UnsetOne | src/classes/header-surrogate-control.php:64-68 | For one name: a directive with a non-empty value is removed; an empty one, or one that is absent, leaves the list as it is. Other directives are untouched. |
| SurrogateControlHeader.UnsetAll | src/classes/header-surrogate-control.php:58-63 | For a list of names: exactly the listed directives with non-empty values are gone, and every other directive keeps its value. |
| SurrogateControlHeader.UnsetHeaders | src/classes/header-surrogate-control.php:56-69 | `unset_headers`, given one name or an array of names, removes exactly the named directives whose value is not empty. Every other directive keeps its value, and the header's name and stored value are untouched. |
| SurrogateControlHeader.EmptyDirectiveSurvives | src/classes/header-surrogate-control.php:60 | A directive whose value is `empty`, such as `max-age` 0, survives `unset_headers` even when named. |
| SurrogateControlHeader.EditHeaders | src/classes/header-surrogate-control.php:78-85 | With an array, each given directive takes the given value and every other directive keeps its own. The directive names are the old ones in their old order, followed by the given names that were new, in the given order. A non-array changes nothing. |
| Assoc.Merge | src/classes/header-surrogate-control.php:79-83 | Assigning the entries of `b` to `a` one by one: a key of `b` reads as `b` gives it, any other key as `a` gives it. The keys are those of `a` in place, followed by the keys of `b` that `a` lacked, in `b`'s order. |
| Assoc.MergeOverwritesInPlace | src/classes/header-surrogate-control.php:79-83 | When every key of `b` is already in `a`, the keys and their order are those of `a`. |
| SurrogateControlHeader.RenderedList | src/classes/header-surrogate-control.php:97-99 | One `name=value` rendering per directive, in order. |
| SurrogateControlHeader.BuildHeaderValue | src/classes/header-surrogate-control.php:94-102 | No directives render as the empty string. The rendering never ends in a comma or a space. |
| SurrogateControlHeader.ValueIsJoin | src/classes/header-surrogate-control.php:94-102 | When the last value does not itself end in a comma or a space, the header value is exactly the directives joined by `", "`. `rtrim` removes only the trailing separator. |
| SurrogateControlHeader.GetValue | src/classes/header-surrogate-control.php:111-113 | `get_value` is the rendering of the current directives. |
| SurrogateControlHeader.SetValueIgnored | src/classes/header-surrogate-control.php:111-113 | A value set through the parent class never shows: `get_value` ignores it. |
| SurrogateControlHeader.BothFlagsDirectives | src/classes/header-surrogate-control.php:36-47 | With both stale flags on, the directives are `max-age`, `stale-while-revalidate` and `stale-if-error`, in this order. |
| SurrogateControlHeader.BothFlagsValue | src/classes/header-surrogate-control.php:94-113 | With both stale flags on, the value is the three directives joined by `", "`, with nothing trailing. |
| SurrogateKeysHeader.SanitizeAll | src/classes/header-surrogate-keys.php:47 | Every key is passed through the surrogate-key sanitiser, in order, and every result is a valid surrogate key. |
| SurrogateKeysHeader.PrepareKeys | src/classes/header-surrogate-keys.php:46-49 | No keys give the empty string. The value holds only surrogate-key characters and spaces. |
| SurrogateKeysHeader.PrepareKeysSplits | src/classes/header-surrogate-keys.php:46-49 | Splitting the header value at spaces gives back exactly the sanitised keys, one per key. |
| SurrogateKeysHeader.AddKey | src/classes/header-surrogate-keys.php:71-77 | `add_key` appends the key, duplicates included, keeps the earlier keys in place, and returns the new list it stored. |
| SurrogateKeysHeader.Dedup | src/classes/header-surrogate-keys.php:94-97 | The result has no duplicates, holds exactly the elements of the input, keeps each key in the order of its first occurrence in the input, is a subsequence of the input, and is no longer than it. |
| SurrogateKeysHeader.DedupKeepsDistinct | src/classes/header-surrogate-keys.php:94-97 | A list without duplicates is left as it is. |
| SurrogateKeysHeader.DedupIdempotent | src/classes/header-surrogate-keys.php:94-97 | Removing duplicates twice is the same as removing them once. |
| SurrogateKeysHeader.AddKeys | src/classes/header-surrogate-keys.php:87-101 | The result has no duplicates and holds exactly the current keys plus the new ones, each once, in the order of its first occurrence in the current keys followed by the new ones. It is both stored and returned. |
| SurrogateKeysHeader.AddKeysKeepsCurrent | src/classes/header-surrogate-keys.php:87-101 | When the current keys have no duplicates, they keep their places at the front. |
| SurrogateKeysHeader.DedupPrefix | src/classes/header-surrogate-keys.php:91-97 | Deduplicating `p + q`, where `p` has no duplicates, starts with `p`. |
| SurrogateKeysHeader.SetKeys | src/classes/header-surrogate-keys.php:111-124 | `get_keys` after `set_keys` gives the same list back. |
| SurrogateKeysHeader.Send | src/classes/header-surrogate-keys.php:33-36 | Sending sets the value to the prepared keys and emits the name with that value. |
| SurrogateKeysHeader.FreshSendsSurrogateKey | src/classes/header-surrogate-keys.php:22-36 | A fresh header that was given keys sends them under `Surrogate-Key`, sanitised and separated by spaces. |
| Utils.SanitizeSurrogateKey | src/utils.php:12-14 | The result is a valid surrogate key (only `[a-zA-Z0-9_-]`) and is the input with some characters deleted, the rest in order. |
| Utils.SanitizeSurrogateKeyFixesExactlyValid | src/utils.php:12-14 | The sanitiser leaves a key unchanged iff the key is already valid. |
| Utils.SanitizeSurrogateKeyIdempotent | src/utils.php:12-14 | Sanitising twice is the same as sanitising once. |
| Utils.SanitizeSurrogateKeyConcat | src/utils.php:12-14 | Sanitising a concatenation sanitises each part separately. |
| Utils.SanitizeCredential | src/utils.php:154-156 | The result is alphanumeric, is the input with some characters deleted, and equals the input when that is already alphanumeric. |
| Utils.CredentialIsSurrogateKey | src/utils.php:12-14 | A sanitised credential is also a valid surrogate key and survives that sanitiser unchanged. |
| Utils.SanitizeCheckbox | src/utils.php:166-168 | The result is true iff the value is strictly one of `'1'`, `1`, `'true'` and `true`. Such a value is non-empty and loosely 1 unless it is `'true'`; null is off. |
| Utils.SanitizeCheckboxStable | src/utils.php:166-168 | A sanitised checkbox fed back through the sanitiser keeps its meaning. |
| Utils.SanitizeCheckboxStrict | src/utils.php:167 | The comparison is strict: `"01"`, `"TRUE"`, `"on"` and `2` are off, while `"1"` and `true` are on. |
| Utils.SanitizeCheckboxStricterThanLoose | src/utils.php:166-168 | Every value the sanitiser turns on is loosely in its list, but not the reverse: `"on"` is loosely equal to `true` yet is off. |
| Utils.ConstantNameOf | src/utils.php:134 | An option's constant name is `PURGELY_` followed by the upper-cased key, of matching length. |
| Utils.ConstantNamed | src/utils.php:136-137 | A name that belongs to a constant of src/config.php reads that constant's definition; any other name, such as one defined in wp-config.php, reads the site's other constants. |
| Utils.OptionsFromConstants | src/utils.php:113-139 | The collected options are exactly the listed keys whose constant is defined, whether by src/config.php or elsewhere, each mapped to its constant's value. |
| Utils.GetOptions | src/utils.php:112-144 | A stored `fastly-settings` option replaces the constants wholesale. Without one, the options are exactly the fifteen listed keys whose constant is defined anywhere, each holding that constant's value. |
| Utils.GetOption | src/utils.php:92-101 | The result is the option's value iff the name is set in the options `purgely_get_options` returns (present and not null), and `""` otherwise, so it is never null. |
| Utils.GetOptionFromStored | src/utils.php:92-141 | With a stored `fastly-settings` option, a name set in it reads as the stored value and a name missing from it reads as `""`, whatever constants are defined. |
| Utils.GetOptionFallsBackToConstant | src/utils.php:92-144 | Without a stored option, a listed option whose constant is defined reads as that constant. |
| Utils.GetOptionFromOtherConstant | src/utils.php:92-144 | Without a stored option, a listed option whose constant is not one of src/config.php's but is defined elsewhere reads as that constant. |
| Utils.GetOptionUnknownKey | src/utils.php:92-144 | Without a stored option, a key outside the list reads as `""`. |
| Utils.ConfiguredApiConstantsUnread | src/utils.php:113-134 | As written, the API key and the API host fall back to `PURGELY_FASTLY_API_KEY` and `PURGELY_FASTLY_API_HOSTNAME`. Without a stored option, and with those two constants undefined, both read as `""` whatever src/config.php configured. |
| Utils.ApiConstantNamesNotConfig | src/config.php:7-169 | Neither `PURGELY_FASTLY_API_KEY` nor `PURGELY_FASTLY_API_HOSTNAME` is a constant that src/config.php defines. |
| Utils.IntendedGetOptions | src/utils.php:103-144 | Corrected: a stored option still replaces the constants wholesale. Without one, the options are the listed keys whose intended constant is defined, each read from that constant. The intended constant is the default src/classes/settings.php registers for the same setting. |
| Utils.IntendedReadsConstant | src/utils.php:103-144 | Corrected, without a stored option, a listed key reads as the defined constant it is meant to fall back to. |
| Utils.IntendedReadsConfiguredApiConstants | src/classes/settings.php:23-49 | Corrected, without a stored option, the API key reads as `PURGELY_FASTLY_KEY` and the API host as `PURGELY_API_ENDPOINT`, the defaults the settings table registers for them. |
| Utils.IntendedAgreesElsewhere | src/utils.php:92-144 | The correction changes nothing when a stored option exists, and nothing for any key other than the API key and host. |
| Utils.ConfiguredKeyCounterexample | src/utils.php:113-134 | With the API key configured only as `PURGELY_FASTLY_KEY` = `abc`, it reads as `""` as written and as `abc` when corrected. |
| Settings.KeyNamed | src/classes/settings.php:20-96 | A name is found iff it is the stored name of a registered setting, and the setting found is stored under that name. |
| Settings.KeyNameInjective | src/classes/settings.php:20-96 | Different settings are registered under different names. |
| Settings.Sanitize | src/classes/settings.php:20-131 | Each value goes through its registered callback. A credential becomes `purgely_sanitize_key` of its string form: only its letters and digits, unchanged when it has nothing else. A checkbox becomes `true` iff `purgely_sanitize_checkbox` accepts it. The API host and webhook URL become `esc_url` of their string form. A TTL becomes `absint` of it, unchanged when it is already a non-negative integer. The purge type and the webhook user and channel become `sanitize_key` of their string form, unchanged when it is already a valid key. |
| Settings.SanitizeIdempotent | src/classes/settings.php:126-128 | Sanitising a sanitised value changes nothing, for every callback (given an idempotent `esc_url`). |
| Settings.SavedSettings | src/classes/settings.php:112-114 | The merged saved settings hold exactly the names of the three groups. A later group wins: webhooks over advanced over general. |
| Settings.Negotiate | src/classes/settings.php:117-131 | The negotiated map has an entry for every registered setting. |
| Settings.NegotiatedTypes | src/classes/settings.php:117-131 | Every negotiated setting is set and has its sanitiser's type. |
| Settings.NegotiateStable | src/classes/settings.php:106-137 | Saving the negotiated values and negotiating again gives the same settings, whatever the constants say. |
| Settings.SavedWins | src/classes/settings.php:120-121 | A saved setting wins over its constant and is sanitised. |
| Settings.DefaultPurgeAllOff | src/classes/settings.php:31-34 | Unless saved or predefined, `allow_purge_all` negotiates to `false`. |
| Settings.DefaultSoftPurge | src/classes/settings.php:75-78 | Unless saved or predefined, `default_purge_type` negotiates to `soft`. |
| Settings.DefaultSurrogateTtl | src/classes/settings.php:67-70 | Unless saved or predefined, `surrogate_control_ttl` negotiates to 1800. |
| Settings.CandidateFromFile | src/classes/settings.php:122-123 | A setting that is neither saved nor predefined starts from the value the config file gives its constant. |
| Settings.NegotiatedValue | src/classes/settings.php:117-131 | A saved value that is set wins, sanitised. Otherwise a defined, non-null constant gives the sanitised constant, and failing both the sanitised `""`. |
| Settings.GetSettings | src/classes/settings.php:106-137 | A non-empty cache is served as it is. An empty cache is filled with a fresh negotiation, and the result is also stored. |
| Settings.CachedAfterFirstRead | src/classes/settings.php:108-110 | Once settings are negotiated, later changes to the saved options are not seen. |
| Settings.GetSetting | src/classes/settings.php:145-159 | Reading a setting leaves the cache as `get_settings` leaves it. A registered name reads its negotiated value when that is set, else its defined constant, else `""`. A name that is not registered reads as `""`. |
| Settings.GetSettingNegotiated | src/classes/settings.php:152-153 | On a fresh cache, reading a registered setting gives its negotiated value. |
| PurgeRequest.EffectiveArgs | src/classes/purge-request.php:81-85 | The `purge-type` is always set: the caller's value if given, else the default purge type setting. Every caller argument is kept. |
| PurgeRequest.SoftOverridesDefault | src/classes/purge-request.php:81-85 | Whether a purge is soft depends on the caller's `purge-type` when given, in both directions, and on the default setting only otherwise. |
| PurgeRequest.BuildRequestArgs | src/classes/purge-request.php:88-96 | The verb is POST with a `Fastly-Key` header iff the type is `surrogate-key`, `all` or `surrogate-key-collection`, else PURGE without a key. `Fastly-Soft-Purge: 1` is sent iff the effective `purge-type` is exactly `soft`. |
| PurgeRequest.ServiceBase | src/classes/purge-request.php:207-211 | Service URIs start with the API host with a trailing slash, followed by `service/`. |
| PurgeRequest.KeyUri | src/classes/purge-request.php:207-212 | A key's URI starts with the service base and `/purge/`, and its last path segment is the sanitised key, so the key can be read back from it. |
| PurgeRequest.KeyCollectionUris | src/classes/purge-request.php:222-232 | One key URI per key, in order. |
| PurgeRequest.PurgeAllUri | src/classes/purge-request.php:241-246 | The purge-all URI starts with the service base and is never empty. |
| PurgeRequest.PurgeAllIsNoKeyUri | src/classes/purge-request.php:211-245 | A purge-all URI is never the URI of any key. |
| PurgeRequest.TargetFor | src/classes/purge-request.php:98-106 | `url` targets the thing itself, `surrogate-key` targets its key URI, and `surrogate-key-collection` targets one URI per key. Every other type falls into the `else if ('all')` branch, which is always truthy, and targets the purge-all URI. |
| PurgeRequest.BatchRequests | src/classes/purge-request.php:113-122 | One request per URI, in order, each with the shared verb and headers. |
| PurgeRequest.AllOk | src/classes/purge-request.php:125-136 | The batch flag is true iff every decoded status is `ok`. |
| PurgeRequest.Dispatch | src/classes/purge-request.php:108-158 | An empty target sends nothing and leaves the response false. A single URI sends one request and returns its reply. A list sends one request per URI, and the response is the all-ok flag. |
| PurgeRequest.Issue | src/classes/purge-request.php:73-164 | Every request sent carries the verb and headers built from the type and the effective arguments. |
| PurgeRequest.Purge | src/classes/purge-request.php:55-61 | A purge of type `all` without `allow-all` exactly `true` sends nothing and returns false. Anything else is issued. |
| PurgeRequest.VerbAndKey | src/classes/purge-request.php:88-96 | Each request of a purge is a POST iff the type is credentialed, is a PURGE otherwise, and carries the key iff the type is credentialed. It is soft iff the effective purge type is `soft`. |
| PurgeRequest.UrlPurgeSendsUrl | src/classes/purge-request.php:98-99 | A non-empty URL purge sends exactly one PURGE request, to the URL itself. |
| PurgeRequest.KeyPurgeSendsKeyUri | src/classes/purge-request.php:100-101 | A surrogate-key purge sends exactly one POST request, to the key's purge URI. |
| PurgeRequest.CollectionOnePostPerKey | src/classes/purge-request.php:102-136 | A key collection sends one POST per key, in order, to each key's purge URI. Its response is true iff every status is `ok`. |
| PurgeRequest.UnknownTypePurgesAll | src/classes/purge-request.php:104-105 | Any type outside the known ones sends one PURGE, without a key, to the purge-all URI. |
| PurgeRequest.GetResult | src/classes/purge-request.php:173-182 | The result is `success` or `failure`. |
| PurgeRequest.GetResultSuccessIff | src/classes/purge-request.php:177 | Only an HTTP 200 reply counts as success. False, a WP_Error, `true` and other codes all fail. |
| PurgeRequest.BatchNeverSucceeds | src/classes/purge-request.php:125-177 | A non-empty key-collection purge is always reported as `failure`, whatever the statuses say. |
| PurgeRequest.IntendedTarget | src/classes/purge-request.php:98-106 | The corrected chain gives the code's target for the four known types and no target for any other type. |
| PurgeRequest.IntendedPurge | src/classes/purge-request.php:55-106 | The corrected purge keeps the `allow-all` rule and sends nothing for an unknown type. |
| PurgeRequest.IntendedPurgeAllNeedsPermission | src/classes/purge-request.php:56-105 | Corrected, a request to the purge-all URI from a non-URL purge is only ever sent for type `all` with `allow-all` exactly true. |
| PurgeRequest.IntendedAgreesOnKnownTypes | src/classes/purge-request.php:98-103 | For the four known types, the corrected purge behaves exactly as the code does. |
| PurgeRequest.KeyCollectionTypeCounterexample | src/classes/purge-request.php:104 | As written, the type `key-collection` sends one PURGE, without a `Fastly-Key`, to the purge-all URI; corrected, it sends nothing. |
| PurgeRequest.IntendedResult | src/classes/purge-request.php:125-177 | Corrected, the result is `success` iff the reply is a 200 or the batch path's `true`. |
| PurgeRequest.IntendedBatchResult | src/classes/purge-request.php:125-177 | With the corrected result, a batch succeeds iff every status is `ok`. |
| PurgeCollection.Build | src/classes/purge-request-collection.php:51-63 | The map holds the main URL under `url` (unless a related category is named `url`), every related category unchanged, and nothing else. |
| PurgeCollection.BuildStartsWithUrl | src/classes/purge-request-collection.php:59 | The built map's first category is `url`, whatever the related categories are. |
| PurgeCollection.SetUrl | src/classes/purge-request-collection.php:232-234 | `set_url` appends the URL to its category, creating the category when needed, and leaves the others alone. |
| PurgeCollection.Record | src/classes/purge-request-collection.php:92-99 | Each URL in turn gets its own response recorded, later entries overwrite, and other entries are kept. Keys stay distinct. |
| PurgeCollection.PurgeRelated | src/classes/purge-request-collection.php:86-106 | The URLs purged are the categories' URLs flattened in order. A URL has a recorded response iff it was purged, and that response is its own URL purge with the same arguments. |
| PurgeCollection.MainUrlPurgedFirst | src/classes/purge-request-collection.php:59-95 | With no related category named `url`, the main URL is purged first. |
| PurgeCollection.BuildPrefixes | src/classes/purge-request-collection.php:59 | With no related category named `url`, the map is the main URL's entry followed by the related entries. The flattened URLs follow the same order. |
| PurgeCollection.GetResult | src/classes/purge-request-collection.php:115-128 | `success` iff every recorded response is an HTTP 200. An empty collection succeeds. |
| PurgeCollection.ResultIffAllOk | src/classes/purge-request-collection.php:86-128 | The collection succeeds iff every URL purged got a 200. |
| UtilsPurge.PurgeUrl | src/utils.php:25-35 | The result is `success` or `failure`. |
| UtilsPurge.PurgeUrlSingle | src/utils.php:29-34 | Without `related` exactly true, the result is that of the one URL purge: success iff it got a 200. |
| UtilsPurge.PurgeUrlRelated | src/utils.php:26-28 | With `related` exactly true, the main URL and then every related URL is purged, and the result is success iff each got a 200. |
| UtilsPurge.PurgeSurrogateKey | src/utils.php:47-51 | The result is `success` or `failure`. |
| UtilsPurge.PurgeSurrogateKeySuccess | src/utils.php:47-51 | One POST goes to the key's purge URI, and the result is success iff that request got a 200. |
| UtilsPurge.PurgeSurrogateKeyCollection | src/utils.php:62-66 | The result is `success` or `failure`. |
| UtilsPurge.PurgeSurrogateKeyCollectionFails | src/utils.php:62-66 | The batch path reports `true` or `false` and never a 200, so this wrapper always reports `failure`. |
| UtilsPurge.PurgeAllArgs | src/utils.php:78 | `allow-all` is always set: the caller's value when given, else the `allow_purge_all` setting. Every other caller argument is kept. |
| UtilsPurge.PurgeAll | src/utils.php:76-82 | The result is `success` or `failure`. |
| UtilsPurge.PurgeAllPermission | src/utils.php:76-82 | A purge-all request is sent iff the caller's `allow-all`, or else the setting, is exactly `true`. |
| UtilsPurge.PurgeAllRefused | src/utils.php:76-82 | Without that permission nothing is sent and the wrapper reports `failure`. |
| RelatedKeys.PostKey | src/classes/related-surrogate-keys.php:43 | The first key is `p-` followed by the identifier's string form. |
| RelatedKeys.TermKey | src/classes/related-surrogate-keys.php:114 | A term key is `t-` followed by the term id. |
| RelatedKeys.AuthorKey | src/classes/related-surrogate-keys.php:131 | The author key is `a-` followed by the decimal `absint` of the post's author. |
| RelatedKeys.Truthy | src/classes/related-surrogate-keys.php:112-113 | The ids the loop keeps are truthy ids of the list, there are as many of them as the list has truthy ids, and every truthy id of the list is among them. |
| RelatedKeys.TermKeys | src/classes/related-surrogate-keys.php:107-119 | There are exactly as many keys as truthy term ids, and each key starts with `t-`. |
| RelatedKeys.TermKeysSound | src/classes/related-surrogate-keys.php:112-116 | Every key is `t-` followed by a truthy term id of the list. |
| RelatedKeys.TermKeysComplete | src/classes/related-surrogate-keys.php:112-116 | Every truthy term id of the list gives a key. |
| RelatedKeys.TruthyConcat | src/classes/related-surrogate-keys.php:112-116 | The truthy ids of two lists are those of the first, then those of the second: the loop keeps term order. |
| RelatedKeys.TermKeysConcat | src/classes/related-surrogate-keys.php:112-116 | The keys of two lists are the keys of the first, then those of the second. |
| RelatedKeys.TermKeysOne | src/classes/related-surrogate-keys.php:112-116 | One term id gives its `t-` key when truthy and nothing otherwise. |
| RelatedKeys.TermKeysAt | src/classes/related-surrogate-keys.php:112-116 | The key at each position is the `t-` key of the truthy id at that position. |
| RelatedKeys.TaxonomyKeys | src/classes/related-surrogate-keys.php:109-111 | A taxonomy whose lookup is not an array gives no keys. Otherwise it gives its term keys. |
| RelatedKeys.AllTaxonomyKeys | src/classes/related-surrogate-keys.php:91-99 | Every key gathered from the taxonomies starts with `t-`. |
| RelatedKeys.AllTaxonomyKeysComplete | src/classes/related-surrogate-keys.php:91-119 | Every truthy term id of every taxonomy that answers with an array gives a key. |
| RelatedKeys.AllTaxonomyKeysConcat | src/classes/related-surrogate-keys.php:96-98 | The keys of two lists of taxonomies are those of the first followed by those of the second. |
| RelatedKeys.AuthorKeys | src/classes/related-surrogate-keys.php:126-134 | No author key for a post that does not resolve. Exactly one for a post that does. |
| RelatedKeys.LocateAll | src/classes/related-surrogate-keys.php:37-67 | The list is the post key, then the taxonomy keys, then the author key, then the always-purged `tm-post`, `tm-home`, `tm-feed` and `holos`. The lengths add up. |
| RelatedKeys.AuthorKeyIffPost | src/classes/related-surrogate-keys.php:126-134 | A key starting with `a-` appears iff the post resolves. |
| RelatedKeys.NoDeduplication | src/classes/related-surrogate-keys.php:112-116 | Keys are only appended: a truthy term listed twice gives two equal keys, eight keys in all. |
| WpPurges.GetPostId | src/wp-purges.php:77-83 | A post object gives its ID. Anything else passes through unchanged. |
| WpPurges.Trigger | src/wp-purges.php:47-75 | An id already processed is skipped. Otherwise it is recorded first. Keys are derived and purged only for a `publish`, `trash` or `draft` post with a working connection, and the keys handed on are exactly the related surrogate keys of that id. A WP_Post argument crashes at the `'p-' .` concatenation. |
| WpPurges.TriggerExtends | src/wp-purges.php:49-53 | The processed ids only grow, and earlier ids keep their order. |
| WpPurges.SecondCallSkipped | src/wp-purges.php:49-53 | Once a call has seen a post, a later call for the same post in the same request does nothing, whatever the post's status is then. |
| WpPurges.PurgedKeysShape | src/wp-purges.php:67-68 | A purged run's keys are, in order, the post key, the term keys of every taxonomy, the author key when the post resolves, and the always-purged keys. |
| WpPurges.KeyPurges | src/wp-purges.php:70-74 | One purge per derived key, in order, each with empty arguments. |
| WpPurges.AsWrittenPurgesAll | src/wp-purges.php:73 | As written, every derived key sends one request, to the purge-all URI. |
| WpPurges.IntendedTrigger | src/wp-purges.php:47-75 | Corrected, a call never crashes, records ids as the code does, and purges iff the id is new, the status is purgeable and the connection works. The keys handed on are the related surrogate keys of the normalised id. |
| WpPurges.IntendedAgreesOnScalars | src/wp-purges.php:47-75 | For a scalar post id the corrected trigger gives the same state and the same run as the code as written. |
| WpPurges.PostObjectCounterexample | src/wp-purges.php:67 | The scheduled-publish hook passes a WP_Post: as written the call crashes, corrected it purges. |
| WpPurges.IntendedPurgesKey | src/wp-purges.php:73 | Corrected, every derived key sends one POST to that key's own purge URI, never to the purge-all URI. |
| Api.FirstActiveAt | src/classes/api.php:70-75 | The index found is the first version whose `active` flag is truthy: all earlier versions are inactive. It is the list's length when no version is active. |
| Api.FirstActive | src/classes/api.php:70-75 | No version is found iff none is active. Otherwise the one found is the first active version. |
| Api.HeadersGet | src/classes/api.php:26-29 | The GET headers carry the API key as `Fastly-Key`. |
| Api.HeadersPost | src/classes/api.php:30-34 | The POST headers are the GET headers plus the form content type. |
| Api.BaseUrl | src/classes/api.php:35-39 | The base URL starts with the host with a trailing slash and ends in `/`. |
| Api.BaseUrlIgnoresTrailingSlash | src/classes/api.php:35-39 | The base URL is `host/` + `service/` + `sid/` and does not depend on whether host or service id were stored with a trailing slash. |
| Api.New | src/classes/api.php:24-40 | A new client knows no active version and holds the key and the base URL. |
| Api.GetActiveVersion | src/classes/api.php:66-78 | A known active version is returned without asking. Otherwise the first active version of the reply is returned and remembered. |
| Api.ActiveVersionMemoised | src/classes/api.php:68 | Once an active version has been found, later calls return it whatever the service says. |
| Api.NoActiveVersionRefetched | src/classes/api.php:68-76 | While no version is active the memo stays null, so the next call asks the service again. |
| Api.CloneActiveVersion | src/classes/api.php:80-89 | A PUT goes to `version/<active>/clone`, and the reply is the new version. Afterwards an active version is known, unless none exists. |
| Api.ValidateVersion | src/classes/api.php:92-101 | Validation fails iff the reply's status is exactly the string `error`. |
| Api.ActivateVersion | src/classes/api.php:103-108 | A PUT goes to `version/<v>/activate`, and the memoised active version becomes the reply, whatever it is. |
| Api.GetAllSnippets | src/classes/api.php:110-129 | A truthy explicit version is used as it is. Otherwise the active version's number is used, else nothing. Without a version, `{}` is decoded and no snippets are listed. |
| Api.StaticUpdateBody | src/classes/api.php:153 | The update payload drops `name`, `type`, `dynamic` and `priority` and keeps every other field. |
| Api.UploadRequest | src/classes/api.php:144-160 | The upload is sent with the POST headers. |
| Api.UploadSnippet | src/classes/api.php:160-165 | The upload succeeds iff the reply carries a non-empty id. |
| Api.UploadNewSnippet | src/classes/api.php:147-148 | A snippet the service does not know is created with a POST of the whole payload to `version/<v>/snippet`. |
| Api.UploadExistingStatic | src/classes/api.php:150-153 | An existing static snippet is updated with a PUT to its own URL. The payload no longer names, types or places it, and its content is kept. |
| Api.UploadExistingDynamic | src/classes/api.php:154-157 | An existing dynamic snippet is updated with a PUT to `snippet/<id>`, outside any version, with its name replaced by the id. |
| Api.DeleteSnippet | src/classes/api.php:168-177 | A DELETE goes to the snippet's URL, and it succeeds iff the status is exactly `ok`. |
| Api.MissingStatus | src/classes/api.php:96-172 | A reply without a status is a failed delete but not a failed validation. |
| VclHandler.AddError | src/classes/vcl-handler.php:524-527 | Exactly one message is appended to the error list, and the rest of the handler is unchanged. |
| VclHandler.GetLastVersion | src/classes/vcl-handler.php:298-312 | The next clone number is one past the number of versions. A version is found iff one is active, and it is the first active one. |
| VclHandler.New | src/classes/vcl-handler.php:58-93 | If the connection test fails, its message is the only error and no version is known. Otherwise there are no errors, the version base URL is `host/service/sid/version`, and the last active version is the first active one. |
| VclHandler.ConnectionFailure | src/classes/vcl-handler.php:68-72 | A failed connection test leaves exactly one error, and no version numbers are set. |
| VclHandler.SnippetUpsert | src/classes/vcl-handler.php:219-231 | The entry's request names the snippet `wordpressplugin_<type>` and carries the file's content at priority 50. It is a PUT to the snippet's URL iff the clone already has that snippet, else a POST to the collection. |
| VclHandler.PrepareVcl | src/classes/vcl-handler.php:209-238 | Requests are returned iff every entry has a type and an existing file, one per entry in order. Otherwise exactly one error (type not set or file missing) is recorded. |
| VclHandler.PrepareCondition | src/classes/vcl-handler.php:340-361 | If every condition is complete and exists, one update per condition is queued. An incomplete condition records one error. A missing one is inserted immediately, and the result is that insert's (an empty list or false). |
| VclHandler.InsertDropsTheRest | src/classes/vcl-handler.php:353-358 | Once the first missing complete condition is inserted, the run continues with only that insert's result. The updates queued before it and every later condition are dropped. |
| VclHandler.SettingUpsert | src/classes/vcl-handler.php:434-438 | A setting's request carries the setting. It is a PUT iff the clone already has that request setting, else a POST. |
| VclHandler.PrepareSetting | src/classes/vcl-handler.php:422-441 | Requests are returned iff every setting has a name, an action and a request condition, one upsert per setting in order. Otherwise one error is recorded. |
| VclHandler.CloneLastActive | src/classes/vcl-handler.php:319-334 | Without a last version the result is false and nothing changes. Otherwise the clone's number, or false when the reply has none, is returned and recorded. |
| VclHandler.WithHeaders | src/classes/vcl-handler.php:150-157 | Each request keeps its place, and it gets the POST headers iff it is a POST or a PUT. |
| VclHandler.CountFailed | src/classes/vcl-handler.php:162-171 | The count of failed responses is zero iff every response succeeded. |
| VclHandler.Failures | src/classes/vcl-handler.php:163-166 | The response loop adds one "requests failed" error per failed response. |
| VclHandler.Dispatch | src/classes/vcl-handler.php:160-191 | After validation the batch is sent with its headers. Activation is tried iff it was asked for and everything passed. The run passes iff every response and the activation succeeded, with one error per failure. |
| VclHandler.Validate | src/classes/vcl-handler.php:145-157 | A clone that does not validate ends the run with the "not validated" error, and nothing is sent. Otherwise the batch sent is exactly the queued requests, each with the header set its verb selects. |
| VclHandler.SettingsStep | src/classes/vcl-handler.php:141-143 | With complete settings the run returns a result. A batch that is sent is the requests queued so far followed by the setting upserts of `prepare_setting`. |
| VclHandler.ConditionsStep | src/classes/vcl-handler.php:132-143 | A false from `prepare_condition` ends the run with "unable to insert new condition". A batch that is sent is the requests queued so far, then the condition updates of `prepare_condition`, then the setting upserts. |
| VclHandler.Upsert | src/classes/vcl-handler.php:128-143 | With usable VCL entries and complete settings the run returns a result. Any batch sent starts with the VCL entries' snippet requests, in order. It is exactly the snippet requests, the condition updates and the setting upserts, in that order. |
| VclHandler.Execute | src/classes/vcl-handler.php:100-202 | Errors already recorded are kept as a prefix. A run that did not send the batch sent no activation either. |
| VclHandler.ExistingErrorsStop | src/classes/vcl-handler.php:103-106 | Errors from the constructor make `execute` return false at once, adding and sending nothing. |
| VclHandler.NoLastVersionStops | src/classes/vcl-handler.php:109-112 | Without an active version the run returns false with exactly that error. |
| VclHandler.NoDataStops | src/classes/vcl-handler.php:115-118 | Without VCL, condition or setting data the run returns false with exactly that error, before cloning. |
| VclHandler.CloneFailureStops | src/classes/vcl-handler.php:121-124 | A clone without a number makes the run return false with exactly that error, and false is recorded as the clone. |
| VclHandler.ValidatedBeforeBatch | src/classes/vcl-handler.php:145-160 | The batch is only ever sent for a clone that validated. |
| VclHandler.PassIffAllSucceed | src/classes/vcl-handler.php:160-202 | Once the batch is sent, the run returns true iff every response and the requested activation succeeded. Activation is tried iff asked for and the batch passed. |
| VclHandler.FalseHasErrors | src/classes/vcl-handler.php:100-202 | Every run that does not return true leaves at least one error to report. |
| VclHandler.SnippetsLeadTheBatch | src/classes/vcl-handler.php:126-160 | The batch sent starts with the snippet request of every VCL entry, in order. |
| VclHandler.BatchIsVclConditionsSettings | src/classes/vcl-handler.php:126-160 | A batch that went out is exactly the lists of `prepare_vcl`, `prepare_condition` and `prepare_setting` for the clone, concatenated in that order, each request with the header set its verb selects. |
| VclHandler.HaltsOnlyOnBadData | src/classes/vcl-handler.php:128-143 | With usable VCL entries and complete settings, `execute` always returns a boolean. |
| VclHandler.MissingVclFileHalts | src/classes/vcl-handler.php:128-130 | As written, an entry whose file is missing records the error and hands `false` to `array_merge`, so the run stops without a result or a batch. |
| VclHandler.IntendedExecute | src/classes/vcl-handler.php:128-143 | Corrected, `execute` always returns a boolean, and false always comes with an error. It agrees with the original whenever that returns. |
| VclHandler.IntendedMissingVclFileFails | src/classes/vcl-handler.php:128-136 | Corrected, the same run returns false with the one error and sends nothing. |
| EdgeModules.ModuleData | src/classes/edgemodules.php:124 | A module's data is its stored entry when there is one, else the empty array. |
| EdgeModules.Views | src/classes/edgemodules.php:123-132 | One view per module, in order, each with its stored data. A module is enabled iff some snippet name starts with `edgemodule_<id>`. |
| EdgeModules.GetModulesWithData | src/classes/edgemodules.php:119-133 | Every module is listed with its stored data. A module is marked enabled iff one of the active version's snippets carries its prefix. |
| EdgeModules.OwnSnippetEnables | src/classes/edgemodules.php:125-128 | A module whose own uploaded snippet is in the active version shows as enabled. |
| EdgeModules.PrefixMatchOverreaches | src/classes/edgemodules.php:127 | The test is a prefix match, so the snippets of any module whose id extends another's (`foobar` for `foo`) also mark that other module as enabled. |
| EdgeModules.SnippetName | src/classes/edgemodules.php:278 | A module's snippet names start with that module's prefix. |
| EdgeModules.UploadPayload | src/classes/edgemodules.php:277-283 | The uploaded array has distinct keys, is named `edgemodule_<key>_<type>`, and has `dynamic` "0". |
| EdgeModules.EdgeUploadsAreStatic | src/classes/edgemodules.php:280 | A `dynamic` of "0" never counts as dynamic, so an existing module snippet is updated within the version. |
| EdgeModules.Keyed | src/classes/edgemodules.php:275-276 | Each decoded snippet is paired with its module's key, in order. |
| EdgeModules.UntilFailure | src/classes/edgemodules.php:276-287 | The loop sends requests in item order and stops after the first failure. It reports success iff every item succeeded. When it fails, the last request sent is the failed one. |
| EdgeModules.StoredEntry | src/classes/edgemodules.php:295-299 | A stored entry has no `snippet` field, its `uploaded_at` is the upload time, and every other field is as submitted. |
| EdgeModules.StoredEntries | src/classes/edgemodules.php:295-299 | The stored entries keep the form's keys and order, one entry per submitted module. |
| EdgeModules.SubmissionGates | src/classes/edgemodules.php:269-301 | Settings are written iff every upload succeeded and the clone validated, and the activation is then the last request. After a failed upload nothing follows it. |
| EdgeModules.SubmissionStores | src/classes/edgemodules.php:294-300 | On success each submitted module's entry is replaced by its new stored entry, and every other module's entry is kept. |
| EdgeModules.DeletesTargetModuleSnippets | src/classes/edgemodules.php:306-311 | The disable loop sends one DELETE per snippet type, to the URL of `edgemodule_<module>_<type>`. |
| EdgeModules.ProcessFormSubmissionDisable | src/classes/edgemodules.php:303-321 | The settings are written exactly when every delete succeeded and the clone validated. Then the requests are the clone, the deletes and the activation, in that order, and the stored settings are the current ones without that module's entry. |
| EdgeModules.DisableForgetsOnlyModule | src/classes/edgemodules.php:318-320 | A successful disable removes that module's entry and keeps all others. |
| EdgeModules.DisableFailureWritesNothing | src/classes/edgemodules.php:306-315 | After a failed delete or validation, nothing is stored and nothing is activated. The requests end with the failed one. |
| Upgrades.VersionLessIrreflexive | src/classes/upgrades.php:32 | No version is older than itself. |
| Upgrades.VersionLessTransitive | src/classes/upgrades.php:32 | The version order is transitive. |
| Upgrades.VersionLessTotal | src/classes/upgrades.php:32 | Of two different versions, one is older than the other. |
| Upgrades.UnsetSchemaUpgrades | src/classes/upgrades.php:29-35 | An install that never stored a schema version runs the 1.1.1 upgrade. |
| Upgrades.UpgradeOnlyOnce | src/classes/upgrades.php:29-35 | Once the upgrade has stored 1.1.1, the check does not run it again. |
| Upgrades.DropEmpty | src/classes/upgrades.php:52-62 | The entries kept are exactly those whose value is neither false nor empty, in order. |
| Upgrades.Upgrade111 | src/classes/upgrades.php:42-70 | The schema becomes "1.1.1", and neither group stores an empty value. |
| Upgrades.Upgrade111KeepsSetCredentials | src/classes/upgrades.php:47-56 | Each old credential option moves to the general group iff it held a non-empty value. |
| Upgrades.Upgrade111KeepsSetLogFlag | src/classes/upgrades.php:58-66 | The old log-purges flag moves to the advanced group iff it held a non-empty value, and nothing else is written there. |
| Upgrades.Upgrade111GeneralKeys | src/classes/upgrades.php:45-49 | The general group holds only the hostname, the key and the service id, each with its old value. |
| Upgrades.UpgradeData | src/classes/upgrades.php:81-115 | The upgrade data has four VCL entries, one condition and one request setting. |
| Upgrades.UpgradeDataTypes | src/classes/upgrades.php:82-99 | The snippet types are recv, deliver, error and fetch, in that order. |
| Upgrades.UpgradeSettingUsesCondition | src/classes/upgrades.php:100-114 | The request setting names the condition that the same data creates. |
| Upgrades.UpgradeDataComplete | src/classes/upgrades.php:100-114 | The condition and the setting pass the handler's completeness checks. |
| Upgrades.UpgradeNeverHaltsWithFiles | src/classes/upgrades.php:119-120 | With all four `.vcl` files present, the VCL run always returns a result. |
| Upgrades.VclUpgrade111 | src/classes/upgrades.php:117-136 | Built on the handler as written. The result is true iff its run returned true, the request dies iff its run stopped with a PHP error, and otherwise the result is the handler's errors, which are never empty. |
| Upgrades.VclUpgradeAnswersWithFiles | src/classes/upgrades.php:117-136 | With all four `.vcl` files present, `vcl_upgrade_1_1_1` answers true or with errors and never dies. |
| Upgrades.VclUpgradeConnectionFailure | src/classes/upgrades.php:119-133 | A failed connection test comes back as exactly its message. |
| RelatedUrls.PostIdOf | src/classes/related-urls.php:102-110 | There is a post ID to look up iff an `id` or a `url` was given. An `id` takes precedence. |
| RelatedUrls.DeterminePost | src/classes/related-urls.php:96-118 | A given post is used as it is. Otherwise, when the ID (`id`, else the post ID of `url`) has a positive `absint`, the result is `get_post` of that number; when there is no such ID, or its `absint` is 0, no post is found. |
| RelatedUrls.IdFindsItsPost | src/classes/related-urls.php:106-113 | Without a given post, an ID with a positive `absint` finds `get_post` of that number, whatever the URL. |
| RelatedUrls.UrlFindsItsPost | src/classes/related-urls.php:101-113 | Without a given post or an ID, a URL whose `url_to_postid` has a positive `absint` finds that post. |
| RelatedUrls.PostObjectWins | src/classes/related-urls.php:99-100 | A given `WP_Post` wins over any URL or ID. |
| RelatedUrls.IdOverridesUrl | src/classes/related-urls.php:102-110 | Once an ID is set, the URL does not matter. |
| RelatedUrls.ZeroIdFindsNothing | src/classes/related-urls.php:112 | An ID whose `absint` is 0 finds no post. |
| RelatedUrls.NoIdentifiersNoPost | src/classes/related-urls.php:96-118 | Without a post, an ID or a URL there is no post. |
| RelatedUrls.New | src/classes/related-urls.php:56-63 | The locator holds the determined post, its permalink and its ID, and no related URLs yet. |
| RelatedUrls.AppendUrl | src/classes/related-urls.php:331-333 | The URL is appended to its category, which is created at the end of the map when new. Every other category is unchanged. |
| RelatedUrls.SetCategory | src/classes/related-urls.php:344-346 | The category holds exactly the given URLs, in the same place or at the end when new. Every other category is unchanged. |
| RelatedUrls.SetRelatedUrls | src/classes/related-urls.php:318-320 | The whole map is replaced, and the post, its URL and its ID are unchanged. |
| RelatedUrls.AppendAll | src/classes/related-urls.php:134-141 | Appending URLs one by one gives the category plus all of them, in order, and leaves the other categories alone. |
| RelatedUrls.AppendTwice | src/classes/related-urls.php:161-162 | Two appends to one category land in the order they were made. |
| RelatedUrls.GetRelatedUrls | src/classes/related-urls.php:300-308 | One category is returned iff the type is non-empty and present. Otherwise the whole map is returned. |
| RelatedUrls.TermLinks | src/classes/related-urls.php:134-142 | The result holds exactly the links of the terms whose link is not an error. |
| RelatedUrls.TermLinksConcat | src/classes/related-urls.php:134-142 | The links of two lists of terms are those of the first, then those of the second: term order is kept. |
| RelatedUrls.TermLinksOne | src/classes/related-urls.php:134-142 | One term gives its link when it has one and nothing when the link is an error. |
| RelatedUrls.LocateTerms | src/classes/related-urls.php:129-145 | Every term link found is appended under the taxonomy and returned. |
| RelatedUrls.LocateAuthor | src/classes/related-urls.php:155-168 | The author page and then the author feed are appended under `author` and returned. Other categories are unchanged. |
| RelatedUrls.ArchiveUrls | src/classes/related-urls.php:182-191 | At most two links, and none iff the post type has neither an archive page nor an archive feed. |
| RelatedUrls.LocateArchive | src/classes/related-urls.php:178-198 | `post-type-archive` is written only when some link was found, and the map is unchanged otherwise. |
| RelatedUrls.FeedUrls | src/classes/related-urls.php:209-216 | Six feeds, the last being the post's comments feed. |
| RelatedUrls.LocateFeeds | src/classes/related-urls.php:208-221 | `feed` is replaced by the six feeds, which are returned. |
| RelatedUrls.LocateAll | src/classes/related-urls.php:72-82 | The result is the whole map after all lookups. The post, its URL and its ID are unchanged. |
| RelatedUrls.LocateAllCategories | src/classes/related-urls.php:72-82 | For a fresh locator the categories are, in order: `category` and `post_tag` when they have links, then `author`, `post-type-archive` when it has links, and `feed`. |
| RelatedUrls.LocateAllTerms | src/classes/related-urls.php:73-74 | For a fresh locator the two term categories hold exactly the term links. |
| RelatedUrls.LocateAllAuthor | src/classes/related-urls.php:75 | For a fresh locator `author` holds the author page and then the author feed. |
| RelatedUrls.LocateAllArchive | src/classes/related-urls.php:76 | For a fresh locator `post-type-archive` holds the archive links that exist. |
| RelatedUrls.LocateAllFeeds | src/classes/related-urls.php:77 | `feed` always holds exactly the six feeds, whatever the map held before. |
| RelatedUrls.CategoryListDistinct | src/classes/related-urls.php:72-82 | The category list has no name twice and no `url` entry. |
| RelatedUrls.LocateAllPurgeable | src/classes/purge-request-collection.php:73-76 | A fresh result is a well-formed URL map that a related purge accepts. |
| RelatedUrls.CollectionRelated | src/classes/purge-request-collection.php:73-76 | The purge collection's related URLs have distinct categories and no `url` category. |
| RelatedUrls.PurgeUrlWithRelated | src/utils.php:25-30 | With `related` set, a URL purge succeeds iff the URL and every related URL got a 200. |
| Cli.PurgeArgs | src/wp-cli.php:88-95 | `related` is true iff `--related` was given. A purge type is passed iff `--soft` or `--instant` was given, and `soft` wins. No other argument is passed. |
| Cli.SoftOverInstant | src/wp-cli.php:91-95 | With `--soft`, adding `--instant` changes nothing, and the type is soft. |
| Cli.NoTypeFlagNoType | src/wp-cli.php:91-95 | Without either flag no purge type is passed, so the purge engine's default applies. |
| Cli.IsIds | src/wp-cli.php:158-173 | The loop answers true iff there is at least one argument and every argument is numeric with an `absint` of at least 1. Numeric allows blanks around the number, as PHP 8's `is_numeric` does. |
| Cli.IsKeyIff | src/wp-cli.php:191-193 | A thing is a key iff it is a valid surrogate key other than "" and "0". |
| Cli.Classify | src/wp-cli.php:98-108 | The request type follows a strict precedence: IDs, then a URL, then a key, then `--all`, else unknown. Each case holds iff the earlier ones fail and its own test passes. |
| Cli.PositionalAllIsKey | src/wp-cli.php:98-105 | A positional `all` is purged as a surrogate key, even when `--all` is also given. |
| Cli.LetterFirstNotId | src/wp-cli.php:158-173 | An argument that begins with a letter is not numeric, so it is not an ID. |
| Cli.LoneKeyIsKey | src/wp-cli.php:98-105 | A lone argument that is not an ID, does not start with `http` and is a valid key is purged as a key, whatever the flags. |
| Cli.ShortWordIsKey | src/wp-cli.php:98-105 | A lone word of one to three lower-case letters is purged as a surrogate key, whatever the flags. |
| Cli.AllFlagAlone | src/wp-cli.php:104-105 | `--all` with no positional argument is a purge of everything. |
| Cli.ZeroIsNeither | src/wp-cli.php:162-192 | A lone "0" is neither an ID nor a key, so nothing is purged. |
| Cli.ZeroDigitNotId | src/wp-cli.php:163 | "0" is numeric, but its `absint` is 0, so it is not an ID. |
| Cli.DigitIsId | src/wp-cli.php:163 | A single digit from 1 to 9 is an ID, and `absint` reads it as its value. |
| Cli.LoneIdIsIds | src/wp-cli.php:98-99 | A lone ID is classified as IDs, whatever the flags. |
| Cli.BlankBeforeIdIsId | src/wp-cli.php:163 | A leading blank does not change whether an argument is an ID. |
| Cli.PaddedIdIsIds | src/wp-cli.php:98-108 | The lone argument " 5" is classified as IDs, and its `absint` is 5. |
| Cli.PaddedDigitIsIds | src/wp-cli.php:98-108 | A digit from 1 to 9 behind one blank is a lone ID, and its `absint` is that digit's value. |
| Cli.IdsIgnoreFlags | src/wp-cli.php:98-99 | When the arguments are IDs, `--all` is ignored. |
| Cli.PurgeOneUrl | src/wp-cli.php:204-206 | A URL purge reports "success" or "failure". |
| Cli.IdLine | src/wp-cli.php:139-147 | An ID's line is never an error. It is a success iff its permalink's purge succeeded, else a warning. |
| Cli.Purge | src/wp-cli.php:83-150 | Unknown writes nothing. IDs write one line per ID, in order. A URL, key or all purge writes exactly one success or error line. |
| Cli.IdsIndependent | src/wp-cli.php:139-148 | Each ID is purged on its own: its line is what it gets when given alone, so a failed ID does not stop the later ones. |
| Cli.KeyPurgeReports | src/wp-cli.php:122-129 | A key purge reports success iff its one request got a 200. |
| Cli.AllNeedsSetting | src/wp-cli.php:130-137 | `--all` fails with "cache could not be purged" unless the `allow_purge_all` setting is exactly true. |
| Cli.IntendedClassify | src/wp-cli.php:54-55 | Corrected, a first argument `all` that is neither an ID nor a URL is a purge of everything, as the usage text shows. It is no longer a key. Each kind holds iff the earlier ones fail and its own test passes. |
| Cli.IntendedPurge | src/wp-cli.php:83-150 | With the corrected classification, unknown writes nothing, and a URL, key or all purge writes exactly one success or error line. |
| Cli.IntendedAllWordIsAll | src/wp-cli.php:54-55 | Corrected, `wp fastly purge all` asks for a purge of everything, whatever the flags. |
| Cli.AllFlagNoPurgeArg | src/wp-cli.php:87-95 | `--all` adds nothing to the purge arguments. |
| Cli.IntendedPositionalAllPurgesAll | src/wp-cli.php:54-55 | Corrected, `wp fastly purge all` writes exactly what `wp fastly purge --all` writes, with the same other flags. |
| Cli.IntendedAgreesUnlessAll | src/wp-cli.php:97-108 | The correction changes nothing unless the first argument is `all`. |
| SettingsPage.VclUpdateOk | src/settings-page.php:694-726 | Nothing is done unless the stored VCL version is older than 1.1.1. Otherwise the request dies with no reply iff the upgrade died; else the status is true iff the upgrade succeeded, a failure reports its first error, and 1.1.1 is stored iff the upgrade succeeded and was activated. |
| SettingsPage.VclUpdateOnce | src/settings-page.php:706 | Once 1.1.1 is recorded, the callback does nothing more. |
| SettingsPage.NotActivatedKeepsVersion | src/settings-page.php:714-716 | A successful upgrade that was not activated does not record the new version. |
| SettingsPage.VclUpdateConnectionFailure | src/settings-page.php:718-719 | A failed connection test is answered with its own message. |
| SettingsPage.PurgeByUrl | src/settings-page.php:731-749 | An empty URL asks for one. Otherwise the status is true iff the message is a success, and that holds iff the purge returned anything but `false`. |
| SettingsPage.PurgeByUrlSendsOne | src/settings-page.php:737-739 | A non-empty URL is purged with one request to the URL itself. The response is that request's answer. |
| SettingsPage.PurgeByUrlReports500AsSuccess | src/settings-page.php:739-741 | As written, a 500 reply, which the purge engine calls a failure, is reported as "Successfully purged!". |
| SettingsPage.IntendedPurgeByUrl | src/settings-page.php:731-749 | Corrected, an empty URL asks for one, and the status is true iff the message is a success. |
| SettingsPage.IntendedPurgeByUrlIff | src/settings-page.php:739-744 | Corrected, the status is true iff the URL's one request got a 200. |
| SettingsPage.PurgeAllCallback | src/settings-page.php:764-782 | When the setting is off the answer is "allow first". Otherwise the status is true iff the message is a success. |
| SettingsPage.PurgeAllCallbackNeverSucceeds | src/settings-page.php:772-779 | As written, the purge lacks `allow-all`, so no request is sent and the answer is never a success. |
| SettingsPage.IntendedPurgeAllCallback | src/settings-page.php:764-782 | Corrected, the setting is checked first and the purge passes `allow-all`. The status is true iff the message is a success. |
| SettingsPage.IntendedPurgeAllIff | src/settings-page.php:772-776 | Corrected, an allowed purge-all sends one request to the purge-all URL and succeeds iff it got a 200. |
| SettingsPage.CleanSettings | src/settings-page.php:1241-1248 | Exactly the registered settings are kept: every submitted registered setting appears with its sanitise callback applied, and everything kept is registered and comes from a submitted value. |
| SettingsPage.CleanSettingsConcat | src/settings-page.php:1244-1248 | Cleaning works entry by entry: cleaning two lists joined is joining their cleaned lists, so the submitted order is kept. |
| SettingsPage.CleanSettingsOne | src/settings-page.php:1244-1248 | A single registered setting is kept, sanitised; a single unregistered one is dropped. |
| SettingsPage.CleanSettingsIdempotent | src/settings-page.php:1244-1248 | With an idempotent URL escaper, cleaning already-clean settings changes nothing. |
| SettingsPage.SanitizeSettings | src/settings-page.php:1239-1251 | As written, the sanitiser returns its input unchanged. |
| SettingsPage.UnregisteredSettingSurvives | src/settings-page.php:1245-1250 | An unregistered name is dropped from the cleaned array, yet it comes back from the sanitiser. |
| SettingsPage.IntendedSanitizeSettings | src/settings-page.php:1239-1251 | Corrected, every submitted registered setting is returned sanitised, every returned entry is a submitted entry run through its setting's sanitiser, and no unregistered name survives. |
| SettingsPage.IntendedSanitizeStable | src/settings-page.php:1239-1251 | Corrected, saving the saved settings again changes nothing. |
| LegacyApi.StripScheme | lib/api.php:20 | The host name is a suffix of the host: at most a leading scheme is removed. |
| LegacyApi.StripSchemeRemoves | lib/api.php:20 | A host starting with `ssl://`, `http://` or `https://` loses exactly that scheme. |
| LegacyApi.StripSchemeKeeps | lib/api.php:20 | A host without one of those schemes is kept as it is. |
| LegacyApi.New | lib/api.php:16-21 | The adapter keeps the key, host and port, and its host name is the host without its scheme. |
| LegacyApi.DefaultHostName | lib/api.php:16-20 | The default host is addressed as `api.fastly.com`. |
| LegacyApi.Headers | lib/api.php:56-59 | `Host` and `Accept` are always sent, and `X-Fastly-Key` is sent iff a key is set. |
| LegacyApi.PortGuardAlwaysTrue | lib/api.php:62 | As written, the port guard cannot fail: under PHP 7 a null port is loosely equal to "". |
| LegacyApi.PostUrl | lib/api.php:61-65 | As written, the URL is always `host:port` followed by the path. |
| LegacyApi.NoPortGivesEmptyPort | lib/api.php:61-65 | With no port configured, the URL carries an empty port: `host:/path`. |
| LegacyApi.IntendedPostUrl | lib/api.php:61-65 | Corrected, `:port` is added only for a port that is set and not empty. |
| LegacyApi.IntendedNoPort | lib/api.php:61-65 | Corrected, a host without a port is addressed as it is, which differs from the URL as written. |
| LegacyApi.MakePost | lib/api.php:54-74 | A POST goes to the built URL, with the adapter's headers and the given data. |
| LegacyApi.PurgePosts | lib/api.php:36-38 | Each URI becomes one POST to `/purge/<uri>` with no data, in order. |
| LegacyApi.Purge | lib/api.php:27-39 | Without a key nothing is sent. Otherwise one POST is sent per URI, in order, and a single URI counts as a one-element list. |
| LegacyApi.PurgeOneIsList | lib/api.php:32-34 | One URI is purged exactly like a one-element list holding it. |
| LegacyApi.PurgeConcat | lib/api.php:36-38 | Purging two lists one after the other sends what purging their concatenation sends. |
| LegacyApi.PurgeAll | lib/api.php:44-46 | A purge-all is one POST to `host:port/service/<id>/purge_all`, with the adapter's headers and no data. |
| LegacyApi.PurgeAllWithoutKey | lib/api.php:44-46 | A purge-all is sent even without a key, but then it carries no key header. |
| LegacyPurge.Absolute | lib/purge.php:56-60 | A URL starting with "http" is purged as it is, and any other URL is prefixed with the blog URL. |
| LegacyPurge.AbsoluteIsAbsolute | lib/purge.php:58-60 | With a blog URL that starts with "http", every purged URL does too. |
| LegacyPurge.AbsoluteIdempotent | lib/purge.php:58-60 | With such a blog URL, prefixing twice is the same as prefixing once. |
| LegacyPurge.PathIsPrefixed | lib/purge.php:58-60 | A site-relative path, starting with '/', is always prefixed with the blog URL. |
| LegacyPurge.Purge | lib/purge.php:56-62 | `purge` is one URL purge, of the URL itself or the URL under the blog URL. |
| LegacyPurge.Common | lib/purge.php:74-78 | The common pages are the front page, the RSS feed and the Atom feed, in that order, under the blog URL. |
| LegacyPurge.PurgePost | lib/purge.php:90-92 | A post purge is one purge of its permalink. |
| LegacyPurge.Category | lib/purge.php:149-156 | A category change purges everything iff the categories widget is shown. Otherwise it purges the category's page. |
| LegacyPurge.CategoryWidgetIgnoresId | lib/purge.php:150-152 | With the categories widget shown, which category changed does not matter. |
| LegacyPurge.TagCategory | lib/purge.php:172-174 | A tag change purges the tag's page. |
| LegacyPurge.Links | lib/purge.php:139-143 | A links change purges everything iff the links widget is shown, and nothing otherwise. |
| LegacyPurge.LinkCategory | lib/purge.php:162-166 | A link-category change makes the same decision as a links change, whatever the category. |
| LegacyPurge.Categories | lib/purge.php:108-113 | One category purge per category of the post, in order. |
| LegacyPurge.Tags | lib/purge.php:196-201 | One tag purge per tag of the post, in order. |
| LegacyPurge.TagsAreUrls | lib/purge.php:196-201 | Tag purges never escalate to a purge of everything. |
| LegacyPurge.Archives | lib/purge.php:180-190 | As written, three URL purges: the day and month pages with the year in local time but the month and day in GMT, then the year page in local time. |
| LegacyPurge.IntendedArchives | lib/purge.php:180-190 | Corrected, three URL purges: the day, month and year pages, all read in local time. |
| LegacyPurge.IntendedArchivesIgnoreGmt | lib/purge.php:181-185 | Corrected, the archive pages depend only on the post's local date, not on its GMT reading. |
| LegacyPurge.NewYearBlog | lib/purge.php:182-184 | A post published just after midnight on 1 January 2011, local time, which is still December 2010 in GMT. |
| LegacyPurge.ArchivesMixClocks | lib/purge.php:182-183 | As written, that post's month page is December 2011, a page that has nothing to do with the post. Corrected, it is January 2011. |
| LegacyPurge.PostDependencies | lib/purge.php:97-102 | A post's dependencies are the common pages, its categories, its three archive pages as written and its tags, in that order. |
| LegacyPurge.IntendedPostDependencies | lib/purge.php:97-102 | Corrected, the dependencies use the local-time archive pages and agree with the as-written list everywhere else. |
| LegacyPurge.DependenciesAgreeAwayFromMidnight | lib/purge.php:97-102 | When the post's month and day are the same in GMT and local time, the corrected and as-written dependencies coincide. |
| LegacyPurge.CategoriesPurgeAllIff | lib/purge.php:108-113 | A post's categories purge everything iff it has a category and the categories widget is shown. |
| LegacyPurge.DependenciesPurgeAllIff | lib/purge.php:97-102 | A post's dependencies purge everything iff it has a category and the categories widget is shown. Otherwise every call is a URL purge. |
| LegacyPurge.PostStatus | lib/purge.php:206-209 | A status change purges the post's permalink, then its dependencies. |
| LegacyPurge.PostComments | lib/purge.php:118-134 | At most one purge. It happens iff the comment exists and its status is loosely equal to 1 or "trash", and it is the comments popup of the comment's post. |
| LegacyPurge.WordIsNotNumber | lib/purge.php:122 | A word is not a numeric string, and PHP 7 reads it as the number 0, so it is never loosely equal to 1. |
| LegacyPurge.DigitValue | lib/purge.php:122 | A single decimal digit compares by its own value. |
| LegacyPurge.CommentStatuses | lib/purge.php:122 | Of the statuses WordPress stores for a comment, only approved ("1") and trashed purge the popup. Pending ("0"), spam and post-trashed do not. |
| LegacyPurge.WordPurgesIffTrash | lib/purge.php:122 | A lower-case word of two or more letters purges the comments popup iff it is `trash`. |
| LegacyPurge.DigitPurgesIffOne | lib/purge.php:122 | A single-digit status purges the comments popup iff it is `1`. |
| LegacyPurge.Execute | lib/purge.php:56-69 | With a key, each call sends exactly one POST. |
| LegacyPurge.ExecuteConcat | lib/purge.php:56-69 | Sending two lists of calls one after the other sends what their concatenation sends. |
| LegacyPurge.ExecuteWithoutKey | lib/purge.php:58-68 | Without an API key only the purge-everything calls reach Fastly, one POST each. |
| LegacyPurge.ExecuteWithKey | lib/purge.php:56-69 | With a key, each URL call becomes the POST `/purge/<url>`, and a purge of everything becomes the service's purge-all POST. |
| LegacyPurge.Hooks | lib/purge.php:15-42 | Twenty action hooks are registered, and the five comment actions share one callback. |
| LegacyPurge.WrittenHooks | lib/purge.php:15-42 | The hooks as registered: twenty of them, the five comment actions calling `purgeComments`. |
| LegacyPurge.CommentHooksMissing | lib/purge.php:22-26 | As written, the comment actions are hooked to `purgeComments`, which the purger does not define. |
| LegacyPurge.IntendedHooks | lib/purge.php:15-42 | Corrected, the same twenty hooks with the five comment actions calling `purgePostComments`. |
| LegacyPurge.IntendedHooksCallable | lib/purge.php:15-42 | Corrected, every action reaches a method of the purger. |
| LegacyAdmin.GetOption | lib/admin.php:141 | A stored option is returned as it is, and an option that is not set reads as false. |
| LegacyAdmin.ValidPageIff | lib/admin.php:53-55 | A page is valid iff it is `welcome`, `configure`, `true` or `0`, since PHP 7's loose comparison finds `true` and `0` equal to any non-empty name. |
| LegacyAdmin.LooseEqWord | lib/admin.php:53-55 | A page name (non-empty, starting with neither a blank, a digit, a sign nor a point) is loosely equal under PHP 7 exactly to itself, to `true` and to `0`. |
| LegacyAdmin.AjaxSetPage | lib/admin.php:60-66 | A requested page that is set and valid is stored; otherwise nothing changes. No other option is touched, and the stored page is valid afterwards iff it was before or a valid page was requested. `die(1)` prints nothing. |
| LegacyAdmin.AdminInit | lib/admin.php:123-146 | The page shown is always valid. A valid stored page is shown unchanged. An invalid one is replaced by `welcome`, both shown and stored. |
| LegacyAdmin.AdminInitIdempotent | lib/admin.php:141-145 | Running `adminInit` again changes nothing. |
| LegacyAdmin.SetPageThenInit | lib/admin.php:60-145 | A valid page chosen through `ajaxSetPage` is the page the next `adminInit` shows. |
| LegacyAdmin.New | lib/admin.php:13-47 | The constructor stores `configure` as the page and builds the API adapter from the key, hostname and port options. |
| LegacyAdmin.PanelAlwaysConfigures | lib/admin.php:13-145 | Under PHP 7 the PHP-4 style constructor runs on every request, so the panel shows `configure` whatever page was stored before. |
| LegacyAdmin.SignUpData | lib/admin.php:72-73 | The sign-up request has no `action`, has `wizard` set to `wordpress`, and keeps every other field. |
| LegacyAdmin.HostOf | lib/admin.php:91-94 | A host is found iff the address has at least three `/`-separated parts. It is the third part, which holds no `/`. |
| LegacyAdmin.HostOfUrl | lib/admin.php:91-94 | The host of `scheme://host/path` is the part between `//` and the next `/`. |
| LegacyAdmin.HostOfBareName | lib/admin.php:92 | A bare domain, with fewer than two `/`, leaves the stored host name alone. |
| LegacyAdmin.SwitchOnCode | lib/admin.php:84-110 | The `switch ($code)` compares loosely: 200 stores the sign-up and succeeds, 400 fails with the record's message, 404 fails with the default error, and the response itself is the answer exactly when no case matches. |
| LegacyAdmin.SignUpAsWritten | lib/admin.php:71-117 | As written, `post` returns a boolean and the code read from it is null, so no case of the switch matches and that boolean is printed as the answer. |
| LegacyAdmin.SignUpNeverStores | lib/admin.php:75-116 | As written, no sign-up stores anything, whatever Fastly replies. |
| LegacyAdmin.BadRequestMessage | lib/admin.php:98-110 | The message for a 400 reply depends on the failing record's class. A Customer already exists. A User has either an invalid e-mail (when there are login errors) or an existing address. Anything else gets the default error. |
| LegacyAdmin.Stored | lib/admin.php:85-95 | A successful sign-up stores the key, the service and the `configure` page. It also stores the host name iff the address has one. |
| LegacyAdmin.IntendedSignUp | lib/admin.php:71-117 | Corrected, an unreachable API dies with "could not connect" and stores nothing. The answer is success iff the code is 200, and an error iff it is 400 or 404. Options change only on success. |
| LegacyAdmin.StoredConfigures | lib/admin.php:88 | After a successful sign-up the panel shows the configuration page. |
| LegacyAdmin.StoredHost | lib/admin.php:91-94 | The host name stored for a blog at `http://host/path` is `host`. |
| LegacyAdmin.IntendedSignUpStores | lib/admin.php:85-97 | Corrected, a successful sign-up stores the key and the service, takes the host name from the blog URL, and turns the panel to `configure`. |
| LegacyAdmin.TestUrl | lib/admin.php:252-256 | The test URL always starts with `http://`. |
| LegacyAdmin.TestUrlOfBlog | lib/admin.php:252-256 | A blog at `http://host/path` is probed at `http://host.a.prod.fastly.net/path`. |
| LegacyAdmin.TestUrlOfRoot | lib/admin.php:252-256 | A blog at its root, `http://host`, is probed at `http://host.a.prod.fastly.net/`. |
| LegacyAdmin.IndexOfAfter | lib/admin.php:253 | The first `/` of `host/path` is the one right after the host. |

## Left out

- HTTP transport (`Requests::request`, `Requests::request_multiple`, `wp_remote_request`, curl): replies are function parameters, and the parallelism of `request_multiple` is not modelled.
- The `Requests_Exception` catch in `Vcl_Handler::execute` (src/classes/vcl-handler.php:193-200) is not modelled. Every oracle reply is a value, so no exception can arise in the model.
- `test_fastly_api_connection` is an oracle: only its `status` field is used. `send_web_hook`, `error_log` and the debug log are not modelled.
- Logging of purges (`fastly_log_purges`, src/classes/purge-request.php:128-155) is not modelled. For a single purge with logging on and a `WP_Error` reply, line 155 reads `$response['response']['message']` from an object, which is a fatal error; the model drops that failure path and always records and returns the response.
- `Purgely_Purge::URL` and `Purgely_Purge::ALL` are not declared anywhere in src/classes/purge-request.php, so the two callbacks that use them (src/settings-page.php:739 and 773) die with an "Undefined constant" error before anything else. The model does not stop there: it reads them as the strings `url` and `all`, which is what their names and the surrounding branches expect, and every claim about those two callbacks holds under that reading.
- Cli.Purge: the `empty( $type )` branch of src/wp-cli.php:110-112 cannot be reached, because the classification always yields a type, so it is not modelled. The success message for a URL uses `esc_url`, and the model uses the `esc_url_raw` oracle for it; the difference is display text only.
- IsNumeric: `is_numeric` is modelled as PHP 8 reads a string: optional leading and trailing blanks around an optional sign, digits and an optional fraction. Exponent forms (`"1e3"`) and hexadecimal are not modelled.
- LooseEq: only integer strings (`IsIntString`: numeric with no `.`) are compared as numbers, against an integer or against another integer string. A string with a fraction is compared as a string, so the model says `1 == "1.0"` and `"1" == "1.0"` are false where PHP 8 says true. `LooseEq7` has the same gap for two strings, and there PHP 7 would also not accept trailing blanks. This reaches two places: a snippet whose `dynamic` is `"1.0"` is read as not dynamic (src/classes/api.php:151), and a post id `"5.0"` is not matched against an earlier `5` in `postIdsProcessed` (src/wp-purges.php:49).
- `intval` and `absint` are modelled for optional leading blanks, an optional sign and digits. Exponents and hexadecimal are not modelled.
- LooseEq7: PHP 7 reads a string compared with an integer through its leading blanks, sign and digits; a fraction or an exponent after the digits (`"1.5"`, `"1e3"`) is ignored in the model, where PHP 7 would compare a float.
- `version_compare` is modelled on the numeric parts of dotted versions only. Suffixes such as `-beta` are not modelled.
- `json_decode` of API replies is an oracle returning the fields the code reads. Other fields of VCL snippets, conditions and request settings are not modelled.
- `get_snippet` with a null version is not modelled.
- `Purgely_Settings::set_settings` (src/classes/settings.php:167-170) is a plain setter and is not modelled.
- `get_all_acls` and `get_all_dictionaries` in src/classes/api.php, and the Edge Modules `getAcls`/`getDictionaries`, feed the HTML forms only and are not modelled.
- All rendering is not modelled: settings page markup, Edge Module forms, legacy admin markup and JavaScript. The model covers only the decisions the callbacks take and what they return.
- Hook wiring (`add_action`/`add_filter` in purgely.php, fastly.php and `_purge_actions`) is not modelled. The exception is the hook table of lib/purge.php, which is modelled because one of its entries names a missing method.
- `get_permalink` is an oracle returning a string. Its `false` result for a missing post is folded into that string.
- In `Purgely_Related_Urls`, a missing post or term reaches the link builders, which are oracles. The model does not separate `false` from a URL.
- The construction of the legacy `FastlyAPI` object inside `FastlyPurge` and `FastlyAdmin` is not modelled; the API object is a parameter.
- The legacy sign-up and test answers are modelled as a datatype. The `json_encode` text and the `die` that ends each AJAX request are not modelled; `ajaxSetPage` ends with `die(1)`, which prints nothing, so it is modelled by the options it leaves.
- The Edge Module form data is taken after the nonce field is removed. Nonce checks and capability checks are not modelled.
- The current date in Edge Module version comments is a parameter.
- Singleton instances and per-object caches (`instance()`, the static settings cache) are modelled as explicit state passed in and returned.

## Findings

| source | as written | input that shows it | evidently intended | confidence | as-written member | corrected member |
|---|---|---|---|---|---|---|
| src/wp-cli.php:54-55 | The usage text gives `wp fastly purge all` as the way to purge everything. The classification at lines 98-107 tests for a key before `--all`, and `all` is a valid key, so the command purges the surrogate key `all` instead. | `wp fastly purge all`, with or without `--all`. | A positional `all` purges everything, as `--all` does. The other reading, a slip in the usage text, is also possible. | not executed; medium, since the usage text or the code may be the one at fault | Cli.PositionalAllIsKey | Cli.IntendedPositionalAllPurgesAll |
| src/utils.php:113-134 | `purgely_get_options` falls back to `'PURGELY_' . strtoupper( $key )`, so the API key and host are read from `PURGELY_FASTLY_API_KEY` and `PURGELY_FASTLY_API_HOSTNAME`. src/config.php defines neither: it defines `PURGELY_FASTLY_KEY` (line 17) and `PURGELY_API_ENDPOINT` (line 8). | No stored `fastly-settings` option, and wp-config.php defines `PURGELY_FASTLY_KEY` as `abc`: `purgely_get_option( 'fastly_api_key' )` is `""`. | The fallback "to the constant configuration" of lines 104-106 reads the constants src/config.php defines. These are the defaults src/classes/settings.php:23-49 registers for the same settings. | not executed | Utils.ConfiguredKeyCounterexample | Utils.IntendedReadsConfiguredApiConstants |
| src/classes/purge-request.php:98-106 | The last branch is `else if ( 'all' )`, and a non-empty string literal is always truthy, so every type other than `url`, `surrogate-key` and `surrogate-key-collection` selects the purge-all URI. The `allow-all` check applies only to the type `all`. | `purge( 'key-collection', 'p-1', array() )` sends one PURGE to the service's `purge_all` URI. | The branch tests `'all' === $type`, so an unknown type selects no URI. | not executed | PurgeRequest.KeyCollectionTypeCounterexample | PurgeRequest.IntendedPurgeAllNeedsPermission |
| src/wp-purges.php:73 | The automatic purge on post events passes the unknown type `key-collection` for every related surrogate key. | Any published post: each of its keys, such as `p-7`, reaches the purge-all URI. | The type `surrogate-key`, so each key is purged on its own. | not executed | WpPurges.AsWrittenPurgesAll | WpPurges.IntendedPurgesKey |
| src/wp-purges.php:67 | `getPostId` unwraps a `WP_Post` for the de-duplication only. The raw argument goes to `Purgely_Related_Surrogate_Keys`, which concatenates it into `'p-' . $id`. | A scheduled post being published passes a `WP_Post` (ID 7); the string conversion of the object aborts the request. | The unwrapped post ID is passed on. | not executed | WpPurges.PostObjectCounterexample | WpPurges.IntendedTrigger |
| src/classes/purge-request.php:177 | `get_result` reads `(int) wp_remote_retrieve_response_code( $response )`. The batch path stores `true` as its response, and that reads as 0. | A `surrogate-key-collection` purge of `['a']` whose one request answers `ok` is reported as `failure`. | A batch whose requests all answer `ok` is a success. | not executed | PurgeRequest.BatchNeverSucceeds | PurgeRequest.IntendedBatchResult |
| src/classes/vcl-handler.php:128-130 | `prepare_vcl` returns `false` when a `.vcl` file is missing, and `execute` passes that `false` to `array_merge`, a fatal error in PHP 8. | A VCL entry with a snippet type whose file does not exist, after a successful clone. | `execute` returns `false` with the recorded error, as it does for a failed condition at 134-137. | not executed | VclHandler.MissingVclFileHalts | VclHandler.IntendedMissingVclFileFails |
| lib/api.php:62 | The guard `!is_null( $port ) \|\| $port == ""` is always true, because `null == ""` holds. | An API object with a null port posts to `https://api.fastly.com:/purge/...`. | The port is appended only when it is set and not empty. | not executed | LegacyApi.NoPortGivesEmptyPort | LegacyApi.IntendedNoPort |
| lib/admin.php:75-80 | `FastlyAPI::post` returns a boolean, but `ajaxSignUp` compares it with `-1` and reads `$response['code']` and `$response['body']` from it. | Any sign-up reply: nothing is stored, and the answer is the bare boolean. | `post` returns the status code and body, and a 200 reply stores the API key and service ID. | not executed | LegacyAdmin.SignUpNeverStores | LegacyAdmin.IntendedSignUpStores |
| src/settings-page.php:1250 | `sanitize_settings` builds a cleaned array, then returns the unsanitised input. | The input `not_a_setting => 'x'` is saved as given, while the cleaned array is empty. | It returns the cleaned array. | not executed | SettingsPage.UnregisteredSettingSurvives | SettingsPage.IntendedSanitizeStable |
| src/settings-page.php:773-775 | First, `Purgely_Purge::ALL` is not declared (the class opens at src/classes/purge-request.php:8), so as written the callback dies with an "Undefined constant" error. Under the reading of `ALL` as `all` admitted under Left out, it then calls `purge( ALL )` without `allow-all`, so no request is sent, and it compares the result with `=== true`, which a response never is. | Any call, with `allow_purge_all` on or off: the answer is never a success. | It uses declared type names, passes `allow-all` after checking the setting, and its status follows the purge's result. | not executed | SettingsPage.PurgeAllCallbackNeverSucceeds | SettingsPage.IntendedPurgeAllIff |
| src/settings-page.php:739-741 | First, `Purgely_Purge::URL` is not declared (the class opens at src/classes/purge-request.php:8), so as written the callback dies with an "Undefined constant" error. Under the reading of `URL` as `url` admitted under Left out, it then tests the raw response for truthiness. | A URL whose purge answers HTTP 500 is reported as "Successfully purged!". | It uses a declared type name and tests `get_result() === 'success'`. | not executed | SettingsPage.PurgeByUrlReports500AsSuccess | SettingsPage.IntendedPurgeByUrlIff |
| lib/purge.php:22-26 | The five comment actions are hooked to `purgeComments`, a method the class does not define. | Posting a comment triggers a call to a missing method. | They are hooked to `purgePostComments`. | not executed | LegacyPurge.CommentHooksMissing | LegacyPurge.IntendedHooksCallable |
| lib/purge.php:182-183 | The archive links take the year in local time and the month and day in GMT. | A post published at 00:30 on 1 January 2011 in a zone east of GMT purges `/2011/12/` instead of `/2011/01/`. | All three parts in local time. | not executed | LegacyPurge.ArchivesMixClocks | LegacyPurge.IntendedArchivesIgnoreGmt |

=== FILE: api.dfy ===
/**
 * src/classes/api.php: the thin client the Edge Modules page uses for the
 * Fastly service API. It memoises the active version, clones, validates
 * and activates versions, and lists, uploads and deletes VCL snippets.
 *
 * Every HTTP exchange is answered by `Net`, which gives the decoded field
 * of the JSON reply that the client reads.
 */
module Api {
  import opened Php
  import Assoc
  import Wp

  /** One entry of the service's version list. */
  datatype Version = Version(number: Value, active: Value)

  datatype Verb = Get | Post | Put | Delete

  datatype Request = Request(verb: Verb, url: string, headers: Assoc.Assoc<Value>, body: Assoc.Assoc<Value>)

  /** The client: its base URL, the API key and the memoised active version (`None` is null). */
  datatype Client = Client(base: string, apiKey: Value, active: Option<Version>)

  /** The decoded replies, by URL or by request. */
  datatype Net = Net(
    versions: seq<Version>,                 // GET <base>version
    idAt: string -> Value,                  // `->id` of a GET reply
    statusAt: string -> Value,              // `->status` of a GET or DELETE reply
    snippetsAt: string -> seq<string>,      // the snippet names a GET of a snippet list decodes to
    versionAt: string -> Option<Version>,   // the version a PUT of clone or activate decodes to
    sentId: Request -> Value)               // `->id` of the reply to a request with a payload

  // ---------------------------------------------------------------------------
  // Versions

  /** The index of the first version whose `active` flag is truthy, `|vs|` when there is none. */
  function FirstActiveAt(vs: seq<Version>): (k: nat)
    ensures k <= |vs|
    ensures forall j :: 0 <= j < k ==> Empty(vs[j].active)
    ensures k < |vs| ==> !Empty(vs[k].active)
  {
    if vs == [] then 0 else if !Empty(vs[0].active) then 0 else 1 + FirstActiveAt(vs[1..])
  }

  /** The loop `foreach ... if ($version->active) { ...; break; }`. */
  function FirstActive(vs: seq<Version>): (r: Option<Version>)
    ensures r.None? <==> forall j :: 0 <= j < |vs| ==> Empty(vs[j].active)
    ensures r.Some? ==> r.value == vs[FirstActiveAt(vs)]
  {
    var k := FirstActiveAt(vs);
    if k < |vs| then Some(vs[k]) else None
  }

  // ---------------------------------------------------------------------------
  // Construction

  const Accept: (string, Value) := ("Accept", Str("application/json"))
  const FormContent: (string, Value) := ("Content-Type", Str("application/x-www-form-urlencoded"))

  function HeadersGet(apiKey: Value): (r: Assoc.Assoc<Value>)
    ensures Assoc.Field(r, "Fastly-Key") == apiKey
  {
    [("Fastly-Key", apiKey), Accept]
  }

  /** The POST headers are the GET headers plus the form content type. */
  function HeadersPost(apiKey: Value): (r: Assoc.Assoc<Value>)
    ensures r == HeadersGet(apiKey) + [FormContent]
  {
    [("Fastly-Key", apiKey), Accept, FormContent]
  }

  /** `implode('', [trailingslashit(host), trailingslashit('service'), trailingslashit(sid)])` */
  function BaseUrl(host: string, sid: string): (r: string)
    ensures StartsWith(r, Wp.TrailingSlash(host))
    ensures |r| > 0 && r[|r| - 1] == '/'
  {
    Wp.TrailingSlash(host) + Wp.TrailingSlash("service") + Wp.TrailingSlash(sid)
  }

  /** The base URL does not depend on whether host or service id were stored with a trailing slash. */
  lemma BaseUrlIgnoresTrailingSlash(host: string, sid: string)
    ensures BaseUrl(host + "/", sid + "/") == BaseUrl(host, sid)
    ensures BaseUrl(host, sid) == Wp.TrailingSlash(host) + "service/" + Wp.TrailingSlash(sid)
  {
    Wp.TrailingSlashOfSlashed(host);
    Wp.TrailingSlashOfSlashed(sid);
    assert Wp.TrailingSlash("service") == "service/" by {
      assert Wp.Untrailing("service") == "service";
    }
  }

  /** The constructor: no active version is known yet. */
  function New(host: string, sid: string, apiKey: Value): (r: Client)
    ensures r.active.None? && r.apiKey == apiKey && r.base == BaseUrl(host, sid)
  {
    Client(BaseUrl(host, sid), apiKey, None)
  }

  /** `get_active_version`: fetched only while the memo is null. */
  function GetActiveVersion(c: Client, net: Net): (r: (Client, Option<Version>))
    ensures r.0 == c.(active := r.1)
    ensures c.active.Some? ==> r.1 == c.active
    ensures c.active.None? ==> r.1 == FirstActive(net.versions)
  {
    if c.active.Some? then (c, c.active) else (c.(active := FirstActive(net.versions)), FirstActive(net.versions))
  }

  /** Once an active version has been found, later calls return it whatever the service says. */
  lemma ActiveVersionMemoised(c: Client, net: Net, net': Net)
    requires GetActiveVersion(c, net).1.Some?
    ensures var (c', v) := GetActiveVersion(c, net);
      GetActiveVersion(c', net') == (c', v)
  {
  }

  /** Before any version is active the memo stays null, so the next call asks again. */
  lemma NoActiveVersionRefetched(c: Client, net: Net, net': Net)
    requires c.active.None? && FirstActive(net.versions).None?
    ensures GetActiveVersion(GetActiveVersion(c, net).0, net').1 == FirstActive(net'.versions)
  {
  }

  /** `->number` of a possibly null version. */
  function NumberOf(v: Option<Version>): Value {
    if v.Some? then v.value.number else Null
  }

  function VersionUrl(c: Client, version: Value): string {
    c.base + "version/" + ToStr(version)
  }

  /** `clone_active_version`: PUT `version/<active>/clone`; the reply is the new version. */
  function CloneActiveVersion(c: Client, net: Net): (r: (Client, Request, Option<Version>))
    ensures r.0.active.Some?
      || (c.active.None? && FirstActive(net.versions).None?)
    ensures r.1.verb == Put && r.1.url == VersionUrl(c, NumberOf(r.0.active)) + "/clone"
    ensures r.2 == net.versionAt(r.1.url)
  {
    var (c', active) := GetActiveVersion(c, net);
    var url := VersionUrl(c', NumberOf(active)) + "/clone";
    (c', Request(Put, url, HeadersPost(c.apiKey), []), net.versionAt(url))
  }

  /** `validate_version`: false exactly when the reply's status is the string 'error'. */
  function ValidateVersion(c: Client, version: Value, net: Net): (r: bool)
    ensures !r <==> net.statusAt(VersionUrl(c, version) + "/validate") == Str("error")
  {
    net.statusAt(VersionUrl(c, version) + "/validate") != Str("error")
  }

  /** `activate_version`: the memo becomes the reply, whatever it is. */
  function ActivateVersion(c: Client, version: Value, net: Net): (r: (Client, Request))
    ensures r.1.verb == Put && r.1.url == VersionUrl(c, version) + "/activate"
    ensures r.0 == c.(active := net.versionAt(r.1.url))
  {
    var url := VersionUrl(c, version) + "/activate";
    (c.(active := net.versionAt(url)), Request(Put, url, HeadersPost(c.apiKey), []))
  }

  // ---------------------------------------------------------------------------
  // Snippets

  /**
   * `get_all_snippets`: the explicit version when truthy, else the active
   * version's number, else 0; a falsy choice decodes '{}' and lists nothing.
   */
  function GetAllSnippets(c: Client, version: Value, net: Net): (r: (Client, Option<string>, seq<string>))
    ensures r.1.None? ==> r.2 == []
    ensures r.1.Some? ==> r.2 == net.snippetsAt(r.1.value)
    ensures !Empty(version) ==> r.0 == c && r.1 == Some(VersionUrl(c, version) + "/snippet")
    ensures Empty(version) && c.active.Some? && !Empty(c.active.value.number) ==>
      r.1 == Some(VersionUrl(c, c.active.value.number) + "/snippet")
    ensures Empty(version) && GetActiveVersion(c, net).1.None? ==> r.1.None? && r.2 == []
  {
    var (c', v) :=
      if !Empty(version) then (c, version)
      else
        var (c1, active) := GetActiveVersion(c, net);
        (c1, if active.Some? then active.value.number else Int(0));
    if !Empty(v) then
      var url := VersionUrl(c', v) + "/snippet";
      (c', Some(url), net.snippetsAt(url))
    else (c', None, [])
  }

  function SnippetUrl(c: Client, version: Value, name: string): string {
    VersionUrl(c, version) + "/snippet/" + name
  }

  /** `snippet_exists`: the reply's id cast to bool. */
  predicate SnippetExists(c: Client, version: Value, name: string, net: Net) {
    !Empty(net.idAt(SnippetUrl(c, version, name)))
  }

  /** `isset($snippet['dynamic']) && $snippet['dynamic'] == 1` */
  predicate Dynamic(snippet: Assoc.Assoc<Value>) {
    Assoc.Field(snippet, "dynamic") != Null && LooseEq(Assoc.Field(snippet, "dynamic"), Int(1))
  }

  /** The payload of an update of a static snippet: everything but its identity and placement. */
  function StaticUpdateBody(snippet: Assoc.Assoc<Value>): (r: Assoc.Assoc<Value>)
    ensures forall k :: k in Assoc.Keys(r) ==> k !in ["name", "type", "dynamic", "priority"]
    ensures forall k :: k !in ["name", "type", "dynamic", "priority"] ==> Assoc.Get(r, k) == Assoc.Get(snippet, k)
  {
    Assoc.Remove(Assoc.Remove(Assoc.Remove(Assoc.Remove(snippet, "name"), "type"), "dynamic"), "priority")
  }

  /** The request `upload_snippet` sends. */
  function UploadRequest(c: Client, version: Value, snippet: Assoc.Assoc<Value>, net: Net): (r: Request)
    ensures r.headers == HeadersPost(c.apiKey)
  {
    var name := ToStr(Assoc.Field(snippet, "name"));
    var url := VersionUrl(c, version) + "/snippet";
    if !SnippetExists(c, version, name, net) then Request(Post, url, HeadersPost(c.apiKey), snippet)
    else if !Dynamic(snippet) then Request(Put, url + "/" + name, HeadersPost(c.apiKey), StaticUpdateBody(snippet))
    else
      var id := net.idAt(SnippetUrl(c, version, name));
      Request(Put, c.base + "snippet/" + ToStr(id), HeadersPost(c.apiKey), Assoc.Put(snippet, "name", id))
  }

  /** `upload_snippet`: the request, and whether the reply carries a non-empty id. */
  function UploadSnippet(c: Client, version: Value, snippet: Assoc.Assoc<Value>, net: Net): (r: (Request, bool))
    ensures r.1 <==> !Empty(net.sentId(r.0))
  {
    var req := UploadRequest(c, version, snippet, net);
    (req, !Empty(net.sentId(req)))
  }

  /** A snippet the service does not know is created with a POST of the whole payload. */
  lemma UploadNewSnippet(c: Client, version: Value, snippet: Assoc.Assoc<Value>, net: Net)
    requires !SnippetExists(c, version, ToStr(Assoc.Field(snippet, "name")), net)
    ensures var r := UploadRequest(c, version, snippet, net);
      r.verb == Post && r.url == VersionUrl(c, version) + "/snippet" && r.body == snippet
  {
  }

  /**
   * An existing static snippet is updated in place under its name, and the
   * payload no longer names, types or places it.
   */
  lemma UploadExistingStatic(c: Client, version: Value, snippet: Assoc.Assoc<Value>, net: Net)
    requires SnippetExists(c, version, ToStr(Assoc.Field(snippet, "name")), net) && !Dynamic(snippet)
    ensures var r := UploadRequest(c, version, snippet, net);
      && r.verb == Put
      && r.url == SnippetUrl(c, version, ToStr(Assoc.Field(snippet, "name")))
      && Assoc.Get(r.body, "name").None? && Assoc.Get(r.body, "type").None?
      && Assoc.Get(r.body, "dynamic").None? && Assoc.Get(r.body, "priority").None?
      && Assoc.Get(r.body, "content") == Assoc.Get(snippet, "content")
  {
    var name := ToStr(Assoc.Field(snippet, "name"));
    var url := VersionUrl(c, version) + "/snippet";
    var b := StaticUpdateBody(snippet);
    StaticUpdateBodyStrips(snippet);
    assert UploadRequest(c, version, snippet, net) == Request(Put, url + "/" + name, HeadersPost(c.apiKey), b);
    SnippetPath(VersionUrl(c, version), name);
  }

  /** A snippet URL is its version URL, then `/snippet/`, then the name. */
  lemma SnippetPath(v: string, name: string)
    ensures v + "/snippet" + "/" + name == v + "/snippet/" + name
  {
    assert "/snippet" + "/" == "/snippet/";
  }

  lemma StaticUpdateBodyStrips(snippet: Assoc.Assoc<Value>)
    ensures var b := StaticUpdateBody(snippet);
      && Assoc.Get(b, "name").None? && Assoc.Get(b, "type").None?
      && Assoc.Get(b, "dynamic").None? && Assoc.Get(b, "priority").None?
      && Assoc.Get(b, "content") == Assoc.Get(snippet, "content")
  {
    var b := StaticUpdateBody(snippet);
    assert "content" !in ["name", "type", "dynamic", "priority"];
  }

  /** An existing dynamic snippet is updated through its id, outside any version. */
  lemma UploadExistingDynamic(c: Client, version: Value, snippet: Assoc.Assoc<Value>, net: Net)
    requires SnippetExists(c, version, ToStr(Assoc.Field(snippet, "name")), net) && Dynamic(snippet)
    ensures var id := net.idAt(SnippetUrl(c, version, ToStr(Assoc.Field(snippet, "name"))));
      var r := UploadRequest(c, version, snippet, net);
      r.verb == Put && r.url == c.base + "snippet/" + ToStr(id) && Assoc.Field(r.body, "name") == id
  {
  }

  /** `delete_snippet`: a DELETE of the snippet, successful exactly when the status is 'ok'. */
  function DeleteSnippet(c: Client, version: Value, name: string, net: Net): (r: (Request, bool))
    ensures r.0.verb == Delete && r.0.url == SnippetUrl(c, version, name)
    ensures r.1 <==> net.statusAt(SnippetUrl(c, version, name)) == Str("ok")
  {
    var url := SnippetUrl(c, version, name);
    (Request(Delete, url, HeadersGet(c.apiKey), []), net.statusAt(url) == Str("ok"))
  }

  /** A reply without a status is a failed delete, but not a failed validation. */
  lemma MissingStatus(c: Client, version: Value, name: string, net: Net)
    requires net.statusAt(SnippetUrl(c, version, name)) == Null
    requires net.statusAt(VersionUrl(c, version) + "/validate") == Null
    ensures !DeleteSnippet(c, version, name, net).1
    ensures ValidateVersion(c, version, net)
  {
  }
}

=== FILE: assoc.dfy ===
/**
 * PHP arrays with string keys, as the plugin uses them for ordered maps:
 * a sequence of (key, value) entries in insertion order. `Put` is the
 * assignment `$a[$k] = $v` (overwrite in place, else append), `Remove`
 * is `unset($a[$k])` and `Merge` is `array_merge` on string keys.
 */
module Assoc {
  import opened Php

  type Assoc<V> = seq<(string, V)>

  function Keys<V>(a: Assoc<V>): (ks: seq<string>)
    ensures |ks| == |a|
    ensures forall i :: 0 <= i < |a| ==> ks[i] == a[i].0
  {
    if a == [] then [] else [a[0].0] + Keys(a[1..])
  }

  predicate DistinctKeys(ks: seq<string>) {
    forall i, j :: 0 <= i < j < |ks| ==> ks[i] != ks[j]
  }

  /** Every PHP array has pairwise different keys. */
  predicate Distinct<V>(a: Assoc<V>) {
    DistinctKeys(Keys(a))
  }

  /** `$a[$k]` when it is set. */
  function Get<V>(a: Assoc<V>, k: string): (r: Option<V>)
    ensures r.Some? <==> k in Keys(a)
    ensures r.Some? ==> (k, r.value) in a
  {
    if a == [] then None else if a[0].0 == k then Some(a[0].1) else Get(a[1..], k)
  }

  /** `$a[$k]` read as a scalar: null when the key is not set. */
  function Field(a: Assoc<Value>, k: string): (r: Value)
    ensures k !in Keys(a) ==> r == Null
    ensures k in Keys(a) ==> Some(r) == Get(a, k)
  {
    match Get(a, k)
    case Some(v) => v
    case None => Null
  }

  /** `$a[$k] = $v`. */
  function Put<V>(a: Assoc<V>, k: string, v: V): (r: Assoc<V>)
    ensures Get(r, k) == Some(v)
    ensures forall k' :: k' != k ==> Get(r, k') == Get(a, k')
    ensures k in Keys(a) ==> Keys(r) == Keys(a)
    ensures k !in Keys(a) ==> Keys(r) == Keys(a) + [k]
  {
    if a == [] then [(k, v)]
    else if a[0].0 == k then
      PutHead(a, k, v);
      [(k, v)] + a[1..]
    else
      var rest := Put(a[1..], k, v);
      PutStep(a, k, v, rest);
      [a[0]] + rest
  }

  /** `Put` on the first entry's key replaces that entry. */
  lemma PutHead<V>(a: Assoc<V>, k: string, v: V)
    requires a != [] && a[0].0 == k
    ensures var r := [(k, v)] + a[1..];
      && Get(r, k) == Some(v)
      && (forall k' :: k' != k ==> Get(r, k') == Get(a, k'))
      && Keys(r) == Keys(a)
  {
    Cons((k, v), a[1..]);
  }

  /** `Put` past the first entry keeps it in front of the updated rest. */
  lemma PutStep<V>(a: Assoc<V>, k: string, v: V, rest: Assoc<V>)
    requires a != [] && a[0].0 != k
    requires Get(rest, k) == Some(v)
    requires forall k' :: k' != k ==> Get(rest, k') == Get(a[1..], k')
    requires k in Keys(a[1..]) ==> Keys(rest) == Keys(a[1..])
    requires k !in Keys(a[1..]) ==> Keys(rest) == Keys(a[1..]) + [k]
    ensures var r := [a[0]] + rest;
      && Get(r, k) == Some(v)
      && (forall k' :: k' != k ==> Get(r, k') == Get(a, k'))
      && (k in Keys(a) ==> Keys(r) == Keys(a))
      && (k !in Keys(a) ==> Keys(r) == Keys(a) + [k])
  {
    PutStepGet(a, k, v, rest);
    PutStepKeys(a, k, rest);
  }

  lemma PutStepGet<V>(a: Assoc<V>, k: string, v: V, rest: Assoc<V>)
    requires a != [] && a[0].0 != k
    requires Get(rest, k) == Some(v)
    requires forall k' :: k' != k ==> Get(rest, k') == Get(a[1..], k')
    ensures var r := [a[0]] + rest;
      && Get(r, k) == Some(v)
      && (forall k' :: k' != k ==> Get(r, k') == Get(a, k'))
  {
    var r := [a[0]] + rest;
    GetCons(a[0], rest, k);
    forall k' | k' != k
      ensures Get(r, k') == Get(a, k')
    {
      GetCons(a[0], rest, k');
    }
  }

  lemma PutStepKeys<V>(a: Assoc<V>, k: string, rest: Assoc<V>)
    requires a != [] && a[0].0 != k
    requires k in Keys(a[1..]) ==> Keys(rest) == Keys(a[1..])
    requires k !in Keys(a[1..]) ==> Keys(rest) == Keys(a[1..]) + [k]
    ensures var r := [a[0]] + rest;
      && (k in Keys(a) ==> Keys(r) == Keys(a))
      && (k !in Keys(a) ==> Keys(r) == Keys(a) + [k])
  {
    Cons(a[0], rest);
    assert Keys(a) == [a[0].0] + Keys(a[1..]);
    if k !in Keys(a[1..]) {
      assert Keys([a[0]] + rest) == [a[0].0] + (Keys(a[1..]) + [k]);
    }
  }

  /** `$a[$x]` of a consed array: the first entry, else the rest. */
  lemma GetCons<V>(e: (string, V), b: Assoc<V>, x: string)
    ensures Get([e] + b, x) == if e.0 == x then Some(e.1) else Get(b, x)
  {
    assert ([e] + b)[1..] == b;
  }

  /** Taking a consed array apart again. */
  lemma Cons<V>(e: (string, V), b: Assoc<V>)
    ensures ([e] + b)[0] == e && ([e] + b)[1..] == b
    ensures Keys([e] + b) == [e.0] + Keys(b)
  {
    assert ([e] + b)[1..] == b;
  }

  /** Assigning a fresh key appends the entry. */
  lemma {:induction false} PutAbsent<V>(a: Assoc<V>, k: string, v: V)
    requires k !in Keys(a)
    ensures Put(a, k, v) == a + [(k, v)]
  {
    if a != [] {
      assert Keys(a) == [a[0].0] + Keys(a[1..]);
      PutAbsent(a[1..], k, v);
      assert Put(a, k, v) == [a[0]] + Put(a[1..], k, v);
      assert [a[0]] + (a[1..] + [(k, v)]) == a + [(k, v)];
    }
  }

  lemma PutDistinct<V>(a: Assoc<V>, k: string, v: V)
    requires Distinct(a)
    ensures Distinct(Put(a, k, v))
  {
  }

  /** With distinct keys, `$a[$k]` of an entry's key is that entry's value. */
  lemma {:induction false} GetEntry<V>(a: Assoc<V>, i: nat)
    requires Distinct(a) && i < |a|
    ensures Get(a, a[i].0) == Some(a[i].1)
  {
    if i > 0 {
      DistinctTail(a);
      assert a[i].0 != a[0].0 by { assert Keys(a)[i] != Keys(a)[0]; }
      GetEntry(a[1..], i - 1);
    }
  }

  function RemoveKey(ks: seq<string>, k: string): (r: seq<string>)
    ensures k !in r
    ensures forall x :: x in r <==> x in ks && x != k
  {
    if ks == [] then [] else (if ks[0] == k then [] else [ks[0]]) + RemoveKey(ks[1..], k)
  }

  /** `unset($a[$k])`. */
  function Remove<V>(a: Assoc<V>, k: string): (r: Assoc<V>)
    ensures Keys(r) == RemoveKey(Keys(a), k)
    ensures Get(r, k) == None
    ensures forall k' :: k' != k ==> Get(r, k') == Get(a, k')
    ensures |r| <= |a|
  {
    if a == [] then []
    else if a[0].0 == k then Remove(a[1..], k)
    else [a[0]] + Remove(a[1..], k)
  }

  /** The keys of `bs` that `ks` lacks, in the order of `bs`. */
  function NewKeys(ks: seq<string>, bs: seq<string>): (r: seq<string>)
    ensures forall x :: x in r <==> x in bs && x !in ks
  {
    if bs == [] then [] else (if bs[0] in ks then [] else [bs[0]]) + NewKeys(ks, bs[1..])
  }

  /** A key that none of `bs` mentions does not change which of them are new. */
  lemma {:induction false} NewKeysSnoc(ks: seq<string>, x: string, bs: seq<string>)
    requires x !in bs
    ensures NewKeys(ks + [x], bs) == NewKeys(ks, bs)
  {
    if bs != [] {
      NewKeysSnoc(ks, x, bs[1..]);
    }
  }

  /** One step of `Merge` keeps the old keys in front and adds the first key of `b` if it is new. */
  lemma MergeKeysStep<V>(a: Assoc<V>, b: Assoc<V>)
    requires b != [] && b[0].0 !in Keys(b[1..])
    ensures var a' := Put(a, b[0].0, b[0].1);
      Keys(a') + NewKeys(Keys(a'), Keys(b[1..])) == Keys(a) + NewKeys(Keys(a), Keys(b))
  {
    var k, ks, tail := b[0].0, Keys(a), Keys(b[1..]);
    assert Keys(b) == [k] + tail by {
      Cons(b[0], b[1..]);
      assert b == [b[0]] + b[1..];
    }
    if k in ks {
      assert NewKeys(ks, Keys(b)) == NewKeys(ks, tail);
    } else {
      assert NewKeys(ks, Keys(b)) == [k] + NewKeys(ks, tail);
      NewKeysSnoc(ks, k, tail);
    }
  }

  /**
   * `array_merge($a, $b)`: an entry of `b` overwrites the value of its key
   * where that key stands in `a`, and the entries whose keys `a` lacks
   * follow, in the order of `b`.
   */
  function Merge<V>(a: Assoc<V>, b: Assoc<V>): (r: Assoc<V>)
    ensures Distinct(b) ==> forall k :: Get(r, k) == (if k in Keys(b) then Get(b, k) else Get(a, k))
    ensures Distinct(b) ==> Keys(r) == Keys(a) + NewKeys(Keys(a), Keys(b))
    decreases |b|
  {
    if b == [] then a
    else
      assert Distinct(b) ==> Distinct(b[1..]) && b[0].0 !in Keys(b[1..]) by {
        if Distinct(b) { DistinctTail(b); }
      }
      assert Distinct(b) ==> Keys(Merge(Put(a, b[0].0, b[0].1), b[1..])) == Keys(a) + NewKeys(Keys(a), Keys(b)) by {
        if Distinct(b) { MergeKeysStep(a, b); }
      }
      Merge(Put(a, b[0].0, b[0].1), b[1..])
  }

  /** `array_merge` with keys that are all in `a` already keeps the keys of `a` where they are. */
  lemma MergeOverwritesInPlace<V>(a: Assoc<V>, b: Assoc<V>)
    requires Distinct(b)
    requires forall i :: 0 <= i < |b| ==> b[i].0 in Keys(a)
    ensures Keys(Merge(a, b)) == Keys(a)
  {
    NoNewKeys(Keys(a), Keys(b));
  }

  lemma {:induction false} NoNewKeys(ks: seq<string>, bs: seq<string>)
    requires forall i :: 0 <= i < |bs| ==> bs[i] in ks
    ensures NewKeys(ks, bs) == []
  {
    if bs != [] {
      assert bs[0] in ks;
      NoNewKeys(ks, bs[1..]);
    }
  }

  /** `array_merge` of arrays with no key in common is their concatenation. */
  lemma {:induction false} MergeDisjoint<V>(a: Assoc<V>, b: Assoc<V>)
    requires Distinct(b)
    requires forall i :: 0 <= i < |b| ==> b[i].0 !in Keys(a)
    ensures Merge(a, b) == a + b
    decreases |b|
  {
    if b != [] {
      DisjointStep(a, b);
      MergeStep(a, b);
      MergeDisjoint(a + [b[0]], b[1..]);
      SnocConcat(a, b);
    }
  }

  lemma SnocConcat<T>(a: seq<T>, b: seq<T>)
    requires b != []
    ensures (a + [b[0]]) + b[1..] == a + b
  {
    assert b == [b[0]] + b[1..];
  }

  lemma MergeStep<V>(a: Assoc<V>, b: Assoc<V>)
    requires b != [] && b[0].0 !in Keys(a)
    ensures Merge(a, b) == Merge(a + [b[0]], b[1..])
  {
    PutAbsent(a, b[0].0, b[0].1);
  }

  lemma DisjointStep<V>(a: Assoc<V>, b: Assoc<V>)
    requires b != [] && Distinct(b)
    requires forall i :: 0 <= i < |b| ==> b[i].0 !in Keys(a)
    ensures b[0].0 !in Keys(a)
    ensures Distinct(b[1..])
    ensures forall i :: 0 <= i < |b[1..]| ==> b[1..][i].0 !in Keys(a + [b[0]])
  {
    DistinctTail(b);
    KeysSnoc(a, b[0]);
    forall i | 0 <= i < |b[1..]|
      ensures b[1..][i].0 !in Keys(a + [b[0]])
    {
      assert b[1..][i].0 == Keys(b[1..])[i];
      assert b[1..][i] == b[i + 1];
    }
  }

  lemma KeysSnoc<V>(a: Assoc<V>, e: (string, V))
    ensures Keys(a + [e]) == Keys(a) + [e.0]
  {
    var l := Keys(a + [e]);
    assert forall i :: 0 <= i < |a| ==> l[i] == (a + [e])[i].0 == a[i].0;
  }

  lemma DistinctTail<V>(b: Assoc<V>)
    requires b != [] && Distinct(b)
    ensures Distinct(b[1..])
    ensures b[0].0 !in Keys(b[1..])
  {
    var t := Keys(b[1..]);
    forall j | 0 <= j < |t|
      ensures t[j] != b[0].0
    {
      assert t[j] == Keys(b)[j + 1];
    }
    forall i, j | 0 <= i < j < |t|
      ensures t[i] != t[j]
    {
      assert t[i] == Keys(b)[i + 1] && t[j] == Keys(b)[j + 1];
    }
  }

  /** The values of all entries, concatenated in order. */
  function Flatten<T>(a: Assoc<seq<T>>): (r: seq<T>)
    ensures |a| > 0 ==> r == a[0].1 + Flatten(a[1..])
  {
    if a == [] then [] else a[0].1 + Flatten(a[1..])
  }

  lemma {:induction false} FlattenConcat<T>(a: Assoc<seq<T>>, b: Assoc<seq<T>>)
    ensures Flatten(a + b) == Flatten(a) + Flatten(b)
  {
    if a != [] {
      assert (a + b)[1..] == a[1..] + b;
      FlattenConcat(a[1..], b);
    } else {
      assert a + b == b;
    }
  }
}

=== FILE: cli.dfy ===
/**
 * src/wp-cli.php: the `wp fastly purge` command. The positional arguments
 * are classified as post IDs, a URL or a surrogate key (in that order of
 * precedence), the `--all` flag asks for a purge of everything, and the
 * `--related`, `--soft` and `--instant` flags become purge arguments.
 */
module Cli {
  import opened Php
  import Assoc
  import Utils
  import PurgeRequest
  import UtilsPurge
  import RelatedUrls

  /** What the command decided to purge. */
  datatype Kind = Ids | Url | Key | All | Unknown

  /** A line the command writes; `Error` also ends the command. */
  datatype Line = Success(text: string) | Warning(text: string) | Error(text: string)

  /**
   * What the command consults: `esc_url_raw`, `get_permalink` of an ID, the
   * site the related URLs are located in, the `allow_purge_all` setting and
   * the purge engine's settings and network.
   */
  datatype World = World(
    escUrlRaw: string -> string,
    permalink: string -> string,
    site: RelatedUrls.Site,
    allowSetting: Value,
    env: PurgeRequest.Env,
    net: PurgeRequest.Net)

  // ---------------------------------------------------------------------------
  // Arguments

  /** `$args[0]`, or "" when there is none. */
  function Thing(args: seq<string>): string {
    if |args| > 0 then args[0] else ""
  }

  /** The purge arguments built from the flags. */
  function PurgeArgs(flags: set<string>): (r: PurgeRequest.Args)
    ensures "related" in r && r["related"] == Bool("related" in flags)
    ensures "purge-type" in r <==> "soft" in flags || "instant" in flags
    ensures "purge-type" in r ==> r["purge-type"] == if "soft" in flags then Str("soft") else Str("instant")
    ensures forall k :: k in r ==> k == "related" || k == "purge-type"
  {
    var base := map["related" := Bool("related" in flags)];
    if "soft" in flags then base["purge-type" := Str("soft")]
    else if "instant" in flags then base["purge-type" := Str("instant")]
    else base
  }

  /** `--soft` wins over `--instant`, whatever else is given. */
  lemma SoftOverInstant(flags: set<string>)
    requires "soft" in flags
    ensures PurgeArgs(flags + {"instant"}) == PurgeArgs(flags)
    ensures PurgeArgs(flags)["purge-type"] == Str("soft")
  {
    assert "related" in flags + {"instant"} <==> "related" in flags;
  }

  /** With neither flag no purge type is passed, so the engine's default applies. */
  lemma NoTypeFlagNoType(flags: set<string>)
    requires "soft" !in flags && "instant" !in flags
    ensures "purge-type" !in PurgeArgs(flags)
  {
  }

  // ---------------------------------------------------------------------------
  // Classification

  /** An argument that names a post: numeric, with `absint` at least 1. */
  predicate IsId(a: string) {
    IsNumeric(a) && Absint(Str(a)) >= 1
  }

  /** The reference reading of `_is_ids`: at least one argument, and all of them IDs. */
  predicate AreIds(args: seq<string>) {
    |args| > 0 && forall i :: 0 <= i < |args| ==> IsId(args[i])
  }

  /** `_is_ids`: the loop that stops at the first argument that is not an ID. */
  method IsIds(args: seq<string>) returns (areIds: bool)
    ensures areIds <==> AreIds(args)
  {
    areIds := true;
    if |args| > 0 {
      var i := 0;
      while i < |args|
        invariant 0 <= i <= |args|
        invariant areIds
        invariant forall j :: 0 <= j < i ==> IsId(args[j])
      {
        if !IsId(args[i]) {
          NotAllIds(args, i);
          areIds := false;
          break;
        }
        IdsExtend(args, i);
        i := i + 1;
      }
      if areIds {
        assert AreIds(args);
      }
    } else {
      areIds := false;
    }
  }

  /** The IDs checked so far grow by one. */
  lemma IdsExtend(args: seq<string>, i: nat)
    requires i < |args| && IsId(args[i])
    requires forall j :: 0 <= j < i ==> IsId(args[j])
    ensures forall j :: 0 <= j < i + 1 ==> IsId(args[j])
  {
  }

  /** One argument that is not an ID makes the whole list fail. */
  lemma NotAllIds(args: seq<string>, i: nat)
    requires i < |args| && !IsId(args[i])
    ensures !AreIds(args)
  {
  }

  /** `_is_url`: starts with "http" and `esc_url_raw` leaves it alone. */
  predicate IsUrl(thing: string, escUrlRaw: string -> string) {
    StartsWith(thing, "http") && escUrlRaw(thing) == thing
  }

  /** `_is_key`: not empty and unchanged by the surrogate-key sanitiser. */
  predicate IsKey(thing: string) {
    !EmptyStr(thing) && Utils.SanitizeSurrogateKey(thing) == thing
  }

  /** A key is exactly a valid surrogate key other than "" and "0". */
  lemma IsKeyIff(thing: string)
    ensures IsKey(thing) <==> thing != "" && thing != "0" && Utils.IsSurrogateKey(thing)
  {
    Utils.SanitizeSurrogateKeyFixesExactlyValid(thing);
  }

  /** The type of request: IDs, then URL, then key, then `--all`, else unknown. */
  function Classify(args: seq<string>, flags: set<string>, escUrlRaw: string -> string): (r: Kind)
    ensures r == Ids <==> AreIds(args)
    ensures r == Url <==> !AreIds(args) && IsUrl(Thing(args), escUrlRaw)
    ensures r == Key <==> !AreIds(args) && !IsUrl(Thing(args), escUrlRaw) && IsKey(Thing(args))
    ensures r == All <==>
      !AreIds(args) && !IsUrl(Thing(args), escUrlRaw) && !IsKey(Thing(args)) && "all" in flags
  {
    if AreIds(args) then Ids
    else if IsUrl(Thing(args), escUrlRaw) then Url
    else if IsKey(Thing(args)) then Key
    else if "all" in flags then All
    else Unknown
  }

  /** An argument that begins with a letter is no number, so it is not an ID. */
  lemma LetterFirstNotId(a: string)
    requires a != [] && IsLower(a[0])
    ensures !IsId(a)
  {
    assert SkipSpaces(a) == a;
    DropTrailingKeepsHead(a);
    assert DigitPrefix(DropTrailingSpaces(a)) == [];
  }

  /** A lone argument that is neither an ID nor a URL but a valid key is purged as a key. */
  lemma LoneKeyIsKey(a: string, flags: set<string>, escUrlRaw: string -> string)
    requires !IsId(a) && !StartsWith(a, "http") && IsKey(a)
    ensures Classify([a], flags, escUrlRaw) == Key
  {
    NotAllIds([a], 0);
    assert Thing([a]) == a;
  }

  /** A lone word of one to three lower-case letters is purged as a key, whatever the flags. */
  lemma ShortWordIsKey(a: string, flags: set<string>, escUrlRaw: string -> string)
    requires 0 < |a| < 4 && forall i :: 0 <= i < |a| ==> IsLower(a[i])
    ensures Classify([a], flags, escUrlRaw) == Key
  {
    LetterFirstNotId(a);
    assert Utils.IsSurrogateKey(a);
    IsKeyIff(a);
    assert a != "0" by { assert a[0] != '0'; }
    LoneKeyIsKey(a, flags, escUrlRaw);
  }

  /** A positional `all` is a surrogate key, not a purge of everything, even with `--all`. */
  lemma PositionalAllIsKey(flags: set<string>, escUrlRaw: string -> string)
    ensures Classify(["all"], flags, escUrlRaw) == Key
  {
    var a := "all";
    assert forall i :: 0 <= i < |a| ==> IsLower(a[i]);
    ShortWordIsKey(a, flags, escUrlRaw);
  }

  /** `--all` with no positional argument purges everything. */
  lemma AllFlagAlone(flags: set<string>, escUrlRaw: string -> string)
    requires "all" in flags
    ensures Classify([], flags, escUrlRaw) == All
  {
  }

  /** The single digit 0 is numeric but its `absint` is 0, so it is not an ID. */
  lemma ZeroDigitNotId(z: string)
    requires |z| == 1 && z[0] == '0'
    ensures !IsId(z)
  {
    assert AllDigits(z);
    AbsintOfDigits(z);
    assert DigitsValue(z) == 0 by {
      assert z[..0] == [];
    }
  }

  /** A lone "0" is neither an ID (its `absint` is 0) nor a key (it is `empty`). */
  lemma ZeroIsNeither(escUrlRaw: string -> string)
    ensures Classify(["0"], {}, escUrlRaw) == Unknown
  {
    var z := "0";
    ZeroDigitNotId(z);
    NotAllIds([z], 0);
    assert !StartsWith(z, "http") by {
      assert |z| < |"http"|;
    }
    assert Thing([z]) == z;
  }

  /** A leading blank does not change whether an argument is an ID, as `is_numeric` and `absint` skip it. */
  lemma BlankBeforeIdIsId(a: string)
    ensures IsId(" " + a) <==> IsId(a)
  {
    LeadingBlankKept(a);
  }

  /** A single digit other than 0 is an ID, and `absint` reads it as its value. */
  lemma DigitIsId(f: string)
    requires |f| == 1 && '1' <= f[0] <= '9'
    ensures IsId(f) && Absint(Str(f)) == DigitOf(f[0])
  {
    assert AllDigits(f);
    DigitsAreNumeric(f);
    AbsintOfDigits(f);
    assert DigitsValue(f) == DigitOf(f[0]) by {
      assert f[..0] == [];
    }
  }

  /** A lone ID is purged as IDs, whatever the flags. */
  lemma LoneIdIsIds(a: string, flags: set<string>, escUrlRaw: string -> string)
    requires IsId(a)
    ensures Classify([a], flags, escUrlRaw) == Ids
  {
    assert AreIds([a]);
  }

  /** A digit other than 0 behind one blank is a lone ID, read as its value. */
  lemma PaddedDigitIsIds(f: string, flags: set<string>, escUrlRaw: string -> string)
    requires |f| == 1 && '1' <= f[0] <= '9'
    ensures Classify([" " + f], flags, escUrlRaw) == Ids
    ensures Absint(Str(" " + f)) == DigitOf(f[0])
  {
    DigitIsId(f);
    BlankBeforeIdIsId(f);
    LeadingBlankKept(f);
    LoneIdIsIds(" " + f, flags, escUrlRaw);
  }

  /** `wp fastly purge " 5"` purges post 5: the padded argument is an ID. */
  lemma PaddedIdIsIds(flags: set<string>, escUrlRaw: string -> string)
    ensures Classify([" 5"], flags, escUrlRaw) == Ids
    ensures Absint(Str(" 5")) == 5
  {
    var f := "5";
    PaddedDigitIsIds(f, flags, escUrlRaw);
    assert " " + f == " 5";
  }

  /** IDs take precedence over the flags: `--all` is ignored when the arguments are IDs. */
  lemma IdsIgnoreFlags(args: seq<string>, flags: set<string>, escUrlRaw: string -> string)
    requires AreIds(args)
    ensures Classify(args, flags, escUrlRaw) == Ids
  {
  }

  // ---------------------------------------------------------------------------
  // Purging

  /** `_purge_url`: the URL, with its related URLs located when `--related` is given. */
  function PurgeOneUrl(url: string, args: PurgeRequest.Args, w: World): (r: string)
    ensures r == "success" || r == "failure"
  {
    UtilsPurge.PurgeUrl(url, args, RelatedUrls.CollectionRelated(url, w.site), w.env, w.net)
  }

  /** What one ID of an ID purge reports: the purge of its permalink. */
  function IdLine(id: string, args: PurgeRequest.Args, w: World): (r: Line)
    ensures !r.Error?
    ensures r.Success? <==> PurgeOneUrl(w.permalink(id), args, w) == "success"
  {
    var detail := NatToString(Absint(Str(id))) + " " + w.permalink(id);
    if PurgeOneUrl(w.permalink(id), args, w) == "success" then Success("purged " + detail)
    else Warning("could not purge " + detail)
  }

  /** `purge( $args, $assoc_args )`: the lines it writes. */
  function Purge(args: seq<string>, flags: set<string>, w: World): (r: seq<Line>)
    ensures Classify(args, flags, w.escUrlRaw) == Unknown ==> r == []
    ensures Classify(args, flags, w.escUrlRaw) == Ids ==>
      |r| == |args| && forall i :: 0 <= i < |args| ==> r[i] == IdLine(args[i], PurgeArgs(flags), w)
    ensures Classify(args, flags, w.escUrlRaw) in {Url, Key, All} ==> |r| == 1 && !r[0].Warning?
  {
    Lines(Classify(args, flags, w.escUrlRaw), args, flags, w)
  }

  /** The lines written once the kind of request is decided. */
  function Lines(kind: Kind, args: seq<string>, flags: set<string>, w: World): (r: seq<Line>)
    ensures kind == Unknown ==> r == []
    ensures kind == Ids ==> |r| == |args| && forall i :: 0 <= i < |args| ==> r[i] == IdLine(args[i], PurgeArgs(flags), w)
    ensures kind in {Url, Key, All} ==> r == [SingleLine(kind, Thing(args), PurgeArgs(flags), w)]
  {
    var purgeArgs := PurgeArgs(flags);
    match kind
    case Ids => seq(|args|, i requires 0 <= i < |args| => IdLine(args[i], purgeArgs, w))
    case Unknown => []
    case _ => [SingleLine(kind, Thing(args), purgeArgs, w)]
  }

  /** The one line of a URL, key or `--all` purge: success, or an error that ends the command. */
  function SingleLine(kind: Kind, thing: string, purgeArgs: PurgeRequest.Args, w: World): (r: Line)
    requires kind in {Url, Key, All}
    ensures !r.Warning?
  {
    match kind
    case Url =>
      if PurgeOneUrl(thing, purgeArgs, w) == "success" then Success("purged " + w.escUrlRaw(thing))
      else Error("URL could not be purged")
    case Key =>
      if UtilsPurge.PurgeSurrogateKey(thing, purgeArgs, w.env, w.net) == "success" then
        Success("purged " + Utils.SanitizeSurrogateKey(thing))
      else Error("key could not be purged")
    case All =>
      if UtilsPurge.PurgeAll(purgeArgs, w.allowSetting, w.env, w.net) == "success" then Success("purged all")
      else Error("cache could not be purged")
  }

  /**
   * Each ID is purged on its own: its line is the line it would get if it
   * were the only argument, so a failed ID does not stop the later ones.
   */
  lemma IdsIndependent(args: seq<string>, flags: set<string>, w: World, i: nat)
    requires AreIds(args) && i < |args|
    ensures |Purge(args, flags, w)| == |args|
    ensures Purge(args, flags, w)[i] == Purge([args[i]], flags, w)[0]
  {
    assert AreIds([args[i]]);
  }

  /** A key purge reports success exactly when its one request got a 200. */
  lemma KeyPurgeReports(args: seq<string>, flags: set<string>, w: World)
    requires Classify(args, flags, w.escUrlRaw) == Key
    ensures Purge(args, flags, w)[0].Success? <==>
      var o := PurgeRequest.Purge("surrogate-key", PurgeRequest.One(Thing(args)), PurgeArgs(flags), w.env, w.net);
      w.net.send(o.sent[0]) == PurgeRequest.Http(200)
  {
    UtilsPurge.PurgeSurrogateKeySuccess(Thing(args), PurgeArgs(flags), w.env, w.net);
  }

  /**
   * The command passes no `allow-all` of its own, so `--all` can only
   * succeed when the `allow_purge_all` setting is exactly true.
   */
  lemma AllNeedsSetting(args: seq<string>, flags: set<string>, w: World)
    requires Classify(args, flags, w.escUrlRaw) == All && w.allowSetting != Bool(true)
    ensures Purge(args, flags, w) == [Error("cache could not be purged")]
  {
    UtilsPurge.PurgeAllRefused(PurgeArgs(flags), w.allowSetting, w.env, w.net);
  }
  // ---------------------------------------------------------------------------
  // A positional `all`

  /**
   * The classification the command's own usage text describes, where
   * `wp fastly purge all` purges everything: a first argument `all` that is
   * not a URL is read as `--all` before the key test.
   */
  function IntendedClassify(args: seq<string>, flags: set<string>, escUrlRaw: string -> string): (r: Kind)
    ensures r == Ids <==> AreIds(args)
    ensures r == Url <==> !AreIds(args) && IsUrl(Thing(args), escUrlRaw)
    ensures r == All <==>
      (!AreIds(args) && !IsUrl(Thing(args), escUrlRaw) && (Thing(args) == "all" || (!IsKey(Thing(args)) && "all" in flags)))
    ensures r == Key <==> !AreIds(args) && !IsUrl(Thing(args), escUrlRaw) && Thing(args) != "all" && IsKey(Thing(args))
  {
    if AreIds(args) then Ids
    else if IsUrl(Thing(args), escUrlRaw) then Url
    else if Thing(args) == "all" then All
    else Classify(args, flags, escUrlRaw)
  }

  /** The command with the corrected classification. */
  function IntendedPurge(args: seq<string>, flags: set<string>, w: World): (r: seq<Line>)
    ensures IntendedClassify(args, flags, w.escUrlRaw) == Unknown ==> r == []
    ensures IntendedClassify(args, flags, w.escUrlRaw) in {Url, Key, All} ==> |r| == 1 && !r[0].Warning?
  {
    Lines(IntendedClassify(args, flags, w.escUrlRaw), args, flags, w)
  }

  /** Corrected, a positional `all` asks for a purge of everything, whatever the flags. */
  lemma IntendedAllWordIsAll(flags: set<string>, escUrlRaw: string -> string)
    ensures IntendedClassify(["all"], flags, escUrlRaw) == All
  {
    var a := "all";
    LetterFirstNotId(a);
    NotAllIds([a], 0);
    assert Thing([a]) == a;
    assert !StartsWith(a, "http") by {
      assert a[0] != "http"[0];
    }
  }

  /** `--all` is not a purge argument: adding it changes none of them. */
  lemma AllFlagNoPurgeArg(flags: set<string>)
    ensures PurgeArgs(flags + {"all"}) == PurgeArgs(flags)
  {
  }

  /** Corrected, `wp fastly purge all` does what `wp fastly purge --all` does, whatever the other flags. */
  lemma IntendedPositionalAllPurgesAll(flags: set<string>, w: World)
    ensures IntendedPurge(["all"], flags, w) == Purge([], flags + {"all"}, w)
  {
    IntendedAllWordIsAll(flags, w.escUrlRaw);
    AllFlagAlone(flags + {"all"}, w.escUrlRaw);
    AllFlagNoPurgeArg(flags);
    assert SingleLine(All, "all", PurgeArgs(flags), w) == SingleLine(All, "", PurgeArgs(flags), w);
  }

  /** As written and corrected, the command behaves the same unless the first argument is `all`. */
  lemma IntendedAgreesUnlessAll(args: seq<string>, flags: set<string>, w: World)
    requires Thing(args) != "all"
    ensures IntendedClassify(args, flags, w.escUrlRaw) == Classify(args, flags, w.escUrlRaw)
    ensures IntendedPurge(args, flags, w) == Purge(args, flags, w)
  {
  }
}

=== FILE: config.dfy ===
/**
 * src/config.php: every `PURGELY_*` constant is defined only when it is not
 * defined already, so a value set earlier (in wp-config.php, say) always wins
 * over the compiled-in default.
 */
module Config {
  import opened Php

  /** The constants the file defines. */
  datatype Const =
    | ApiEndpoint | FastlyKey | FastlyServiceId | AllowPurgeAll
    | EnableStaleWhileRevalidate | StaleWhileRevalidateTtl
    | EnableStaleIfError | StaleIfErrorTtl
    | SurrogateControlTtl | CacheControlTtl | DefaultPurgeType
    | FastlyLogPurges | FastlyDebugMode | FastlyVclVersion
    | WebhooksUrlEndpoint | WebhooksUsername | WebhooksChannel | WebhooksActivate

  /** The PHP name of a constant. */
  function Name(c: Const): (r: string)
    ensures StartsWith(r, "PURGELY_")
  {
    "PURGELY_" +
    match c
    case ApiEndpoint => "API_ENDPOINT"
    case FastlyKey => "FASTLY_KEY"
    case FastlyServiceId => "FASTLY_SERVICE_ID"
    case AllowPurgeAll => "ALLOW_PURGE_ALL"
    case EnableStaleWhileRevalidate => "ENABLE_STALE_WHILE_REVALIDATE"
    case StaleWhileRevalidateTtl => "STALE_WHILE_REVALIDATE_TTL"
    case EnableStaleIfError => "ENABLE_STALE_IF_ERROR"
    case StaleIfErrorTtl => "STALE_IF_ERROR_TTL"
    case SurrogateControlTtl => "SURROGATE_CONTROL_TTL"
    case CacheControlTtl => "CACHE_CONTROL_TTL"
    case DefaultPurgeType => "DEFAULT_PURGE_TYPE"
    case FastlyLogPurges => "FASTLY_LOG_PURGES"
    case FastlyDebugMode => "FASTLY_DEBUG_MODE"
    case FastlyVclVersion => "FASTLY_VCL_VERSION"
    case WebhooksUrlEndpoint => "WEBHOOKS_URL_ENDPOINT"
    case WebhooksUsername => "WEBHOOKS_USERNAME"
    case WebhooksChannel => "WEBHOOKS_CHANNEL"
    case WebhooksActivate => "WEBHOOKS_ACTIVATE"
  }

  /** Which constants are defined so far, and with what value (`defined` and `constant`). */
  type Defines = Const -> Option<Value>

  /** Nothing defined yet. */
  const NoneDefined: Defines := c => None

  const OneDay: int := 60 * 60 * 24

  /** The value the file gives each constant. */
  function Default(c: Const): Value {
    match c
    case ApiEndpoint => Str("https://api.fastly.com/")
    case FastlyKey => Str("")
    case FastlyServiceId => Str("")
    case AllowPurgeAll => Bool(false)
    case EnableStaleWhileRevalidate => Bool(true)
    case StaleWhileRevalidateTtl => Int(OneDay)
    case EnableStaleIfError => Bool(true)
    case StaleIfErrorTtl => Int(OneDay)
    case SurrogateControlTtl => Int(1800)
    case CacheControlTtl => Int(0)
    case DefaultPurgeType => Str("soft")
    case FastlyLogPurges => Bool(false)
    case FastlyDebugMode => Bool(false)
    case FastlyVclVersion => Bool(false)
    case WebhooksUrlEndpoint => Str("https://hooks.slack.com/services/")
    case WebhooksUsername => Str("")
    case WebhooksChannel => Str("general")
    case WebhooksActivate => Bool(false)
  }

  /** The order in which the file defines the constants. */
  const FileOrder: seq<Const> := [
    ApiEndpoint, FastlyKey, FastlyServiceId, AllowPurgeAll,
    EnableStaleWhileRevalidate, StaleWhileRevalidateTtl,
    EnableStaleIfError, StaleIfErrorTtl,
    SurrogateControlTtl, CacheControlTtl, DefaultPurgeType,
    FastlyLogPurges, FastlyDebugMode, FastlyVclVersion,
    WebhooksUrlEndpoint, WebhooksUsername, WebhooksChannel, WebhooksActivate
  ]

  /** `if ( ! defined( c ) ) define( c, default );` */
  function DefineIfAbsent(d: Defines, c: Const): (r: Defines)
    ensures r(c) == if d(c).Some? then d(c) else Some(Default(c))
    ensures forall n :: n != c ==> r(n) == d(n)
  {
    n => if n == c && d(c).None? then Some(Default(c)) else d(n)
  }

  /** Running a list of define-if-absent statements in order, as the file does. */
  function DefineAll(d: Defines, cs: seq<Const>): (r: Defines)
    ensures forall n :: n in cs ==> r(n) == if d(n).Some? then d(n) else Some(Default(n))
    ensures forall n :: n !in cs ==> r(n) == d(n)
    decreases |cs|
  {
    if cs == [] then d
    else
      var r := DefineAll(DefineIfAbsent(d, cs[0]), cs[1..]);
      assert forall n :: n in cs <==> n == cs[0] || n in cs[1..];
      r
  }

  /**
   * Loading src/config.php on top of the constants already defined: each
   * constant keeps an earlier definition and otherwise gets the file's value.
   */
  function Load(pre: Defines): (r: Defines)
    ensures forall c :: pre(c).Some? ==> r(c) == pre(c)
    ensures forall c :: r(c).Some?
  {
    c => if pre(c).Some? then pre(c) else Some(Default(c))
  }

  /** The file defines every constant. */
  lemma InFile(c: Const)
    ensures c in FileOrder
  {
    match c
    case ApiEndpoint => assert FileOrder[0] == c;
    case FastlyKey => assert FileOrder[1] == c;
    case FastlyServiceId => assert FileOrder[2] == c;
    case AllowPurgeAll => assert FileOrder[3] == c;
    case EnableStaleWhileRevalidate => assert FileOrder[4] == c;
    case StaleWhileRevalidateTtl => assert FileOrder[5] == c;
    case EnableStaleIfError => assert FileOrder[6] == c;
    case StaleIfErrorTtl => assert FileOrder[7] == c;
    case SurrogateControlTtl => assert FileOrder[8] == c;
    case CacheControlTtl => assert FileOrder[9] == c;
    case DefaultPurgeType => assert FileOrder[10] == c;
    case FastlyLogPurges => assert FileOrder[11] == c;
    case FastlyDebugMode => assert FileOrder[12] == c;
    case FastlyVclVersion => assert FileOrder[13] == c;
    case WebhooksUrlEndpoint => assert FileOrder[14] == c;
    case WebhooksUsername => assert FileOrder[15] == c;
    case WebhooksChannel => assert FileOrder[16] == c;
    case WebhooksActivate => assert FileOrder[17] == c;
  }

  /** The file's define-if-absent sequence has exactly the effect of `Load`. */
  lemma LoadIsDefineAll(pre: Defines, c: Const)
    ensures DefineAll(pre, FileOrder)(c) == Load(pre)(c)
  {
    InFile(c);
  }

  /** Unless predefined, purge-all is disabled, purges are soft and surrogate content lives 1800 seconds. */
  lemma PurgeDefaults(pre: Defines)
    ensures pre(AllowPurgeAll).None? ==> Load(pre)(AllowPurgeAll) == Some(Bool(false))
    ensures pre(DefaultPurgeType).None? ==> Load(pre)(DefaultPurgeType) == Some(Str("soft"))
    ensures pre(SurrogateControlTtl).None? ==> Load(pre)(SurrogateControlTtl) == Some(Int(1800))
    ensures pre(ApiEndpoint).None? ==> Load(pre)(ApiEndpoint) == Some(Str("https://api.fastly.com/"))
  {
  }
}

=== FILE: edge_modules.dfy ===
/**
 * src/classes/edgemodules.php without its rendering: which modules show
 * as enabled, and the two form handlers that upload or delete a module's
 * snippets in a clone of the active version, validate and activate it,
 * and then record the module's settings.
 */
module EdgeModules {
  import opened Php
  import Assoc
  import Api

  const EdgePrefix: string := "edgemodule"

  /** `self::EDGE_PREFIX . '_' . $id`: the prefix of every snippet of one module. */
  function ModulePrefix(id: string): string {
    EdgePrefix + "_" + id
  }

  /** A module shows as enabled when some snippet name starts with its prefix. */
  predicate Enabled(id: string, names: seq<string>) {
    exists j :: 0 <= j < |names| && StartsWith(names[j], ModulePrefix(id))
  }

  /** A module as the page lists it. */
  datatype ModuleView = ModuleView(id: string, data: Assoc.Assoc<Value>, enabled: bool)

  /** The stored form data of every module, by module id. */
  type Stored = Assoc.Assoc<Assoc.Assoc<Value>>

  /** `$localData[$id]` when set, else `[]`. */
  function ModuleData(local: Stored, id: string): (r: Assoc.Assoc<Value>)
    ensures id in Assoc.Keys(local) ==> Some(r) == Assoc.Get(local, id)
    ensures id !in Assoc.Keys(local) ==> r == []
  {
    match Assoc.Get(local, id)
    case Some(d) => d
    case None => []
  }

  function Views(ids: seq<string>, local: Stored, names: seq<string>): (r: seq<ModuleView>)
    ensures |r| == |ids|
    ensures forall i :: 0 <= i < |ids| ==>
      r[i].id == ids[i] && r[i].data == ModuleData(local, ids[i]) && (r[i].enabled <==> Enabled(ids[i], names))
  {
    if ids == [] then [] else [ModuleView(ids[0], ModuleData(local, ids[0]), Enabled(ids[0], names))] + Views(ids[1..], local, names)
  }

  /** `getModulesWithData`: every module with its stored data, marked by the snippets of the active version. */
  function GetModulesWithData(c: Api.Client, ids: seq<string>, local: Stored, net: Api.Net): (r: (Api.Client, seq<ModuleView>))
    ensures var names := Api.GetAllSnippets(c, Null, net).2;
      && |r.1| == |ids|
      && forall i :: 0 <= i < |ids| ==>
           r.1[i].id == ids[i] && r.1[i].data == ModuleData(local, ids[i]) && (r.1[i].enabled <==> Enabled(ids[i], names))
  {
    var (c', _, names) := Api.GetAllSnippets(c, Null, net);
    (c', Views(ids, local, names))
  }

  /** A module's own uploads mark it enabled. */
  lemma OwnSnippetEnables(id: string, key: string, t: Value, names: seq<string>)
    requires id == key && SnippetName(key, t) in names
    ensures Enabled(id, names)
  {
    var n := SnippetName(key, t);
    var j :| 0 <= j < |names| && names[j] == n;
    assert n[..|ModulePrefix(id)|] == ModulePrefix(id);
  }

  /**
   * The match is on a prefix: the snippets of any module whose id extends
   * `id` (`foobar` for `foo`) also mark module `id` as enabled.
   */
  lemma PrefixMatchOverreaches(id: string, rest: string, t: Value)
    ensures Enabled(id, [SnippetName(id + rest, t)])
  {
    var n := SnippetName(id + rest, t);
    assert n == ModulePrefix(id) + (rest + "_" + ToStr(t));
    assert n[..|ModulePrefix(id)|] == ModulePrefix(id);
    assert [n][0] == n;
  }

  // ---------------------------------------------------------------------------
  // Uploading a module

  /** One snippet of the submitted form, as decoded from its `snippet` field. */
  datatype SnippetSpec = SnippetSpec(snippetType: Value, priority: Value, snippet: Value)

  /** `self::EDGE_PREFIX . '_' . $key . '_' . $snippet->type` */
  function SnippetName(key: string, t: Value): (r: string)
    ensures StartsWith(r, ModulePrefix(key))
  {
    ModulePrefix(key) + "_" + ToStr(t)
  }

  /** The array `processFormSubmission` passes to `upload_snippet`. */
  function UploadPayload(key: string, s: SnippetSpec): (r: Assoc.Assoc<Value>)
    ensures Assoc.Distinct(r)
    ensures Assoc.Field(r, "name") == Str(SnippetName(key, s.snippetType))
    ensures Assoc.Field(r, "dynamic") == Str("0")
  {
    var name := Str(SnippetName(key, s.snippetType));
    PayloadShape(name, s.snippetType, Str("0"), s.priority, s.snippet);
    [("name", name), ("type", s.snippetType), ("dynamic", Str("0")), ("priority", s.priority), ("content", s.snippet)]
  }

  /** The five fields of an upload are distinct, and the name and dynamic flag read back as given. */
  lemma PayloadShape(name: Value, kind: Value, dynamic: Value, priority: Value, content: Value)
    ensures var r := [("name", name), ("type", kind), ("dynamic", dynamic), ("priority", priority), ("content", content)];
      Assoc.Distinct(r) && Assoc.Field(r, "name") == name && Assoc.Field(r, "dynamic") == dynamic
  {
    var r := [("name", name), ("type", kind), ("dynamic", dynamic), ("priority", priority), ("content", content)];
    var ks := ["name", "type", "dynamic", "priority", "content"];
    PayloadNamesDistinct();
    assert Assoc.Keys(r) == ks;
    assert Assoc.Get(r, "name") == Some(name);
    assert Assoc.Get(r, "dynamic") == Some(dynamic) by {
      assert r[0].0 != "dynamic" && r[1].0 != "dynamic" && r[2].0 == "dynamic";
      assert Assoc.Get(r, "dynamic") == Assoc.Get(r[2..], "dynamic");
    }
  }

  lemma PayloadNamesDistinct()
    ensures Assoc.DistinctKeys(["name", "type", "dynamic", "priority", "content"])
    ensures "name" != "dynamic" && "type" != "dynamic"
  {
  }

  /** The `dynamic` of "0" never equals 1, so an existing module snippet is updated in place. */
  lemma EdgeUploadsAreStatic(key: string, s: SnippetSpec)
    ensures !Api.Dynamic(UploadPayload(key, s))
  {
    assert IsIntString("0") by {
      assert DigitPrefix("0") == "0";
    }
  }

  /** The snippets of every submitted module, in form order, each with its module's key. */
  function FormSnippets(form: Stored, decode: Value -> seq<SnippetSpec>): (r: seq<(string, SnippetSpec)>)
  {
    if form == [] then []
    else
      var specs := decode(Assoc.Field(form[0].1, "snippet"));
      Keyed(form[0].0, specs) + FormSnippets(form[1..], decode)
  }

  function Keyed(key: string, specs: seq<SnippetSpec>): (r: seq<(string, SnippetSpec)>)
    ensures |r| == |specs|
    ensures forall i :: 0 <= i < |specs| ==> r[i] == (key, specs[i])
  {
    if specs == [] then [] else [(key, specs[0])] + Keyed(key, specs[1..])
  }

  /**
   * A loop that sends one request per item and returns at the first
   * failure: the requests sent, and whether every item succeeded.
   */
  function UntilFailure<T, R>(items: seq<T>, step: T -> (R, bool)): (r: (seq<R>, bool))
    ensures |r.0| <= |items|
    ensures forall i :: 0 <= i < |r.0| ==> r.0[i] == step(items[i]).0
    ensures r.1 <==> |r.0| == |items| && forall i :: 0 <= i < |items| ==> step(items[i]).1
    ensures !r.1 ==> |r.0| > 0 && !step(items[|r.0| - 1]).1
    ensures forall i :: 0 <= i < |r.0| - 1 ==> step(items[i]).1
  {
    if items == [] then ([], true)
    else
      var (req, ok) := step(items[0]);
      if !ok then ([req], false)
      else
        var rest := UntilFailure(items[1..], step);
        assert forall i :: 1 <= i < |items| ==> items[i] == items[1..][i - 1];
        var sent := [req] + rest.0;
        assert forall i :: 1 <= i < |sent| ==> sent[i] == rest.0[i - 1];
        (sent, rest.1)
  }

  /** One upload of the submission loop. */
  function Upload(c: Api.Client, version: Value, net: Api.Net): ((string, SnippetSpec)) -> (Api.Request, bool) {
    (item: (string, SnippetSpec)) => Api.UploadSnippet(c, version, UploadPayload(item.0, item.1), net)
  }

  /** The stored entry for a submitted module: its form fields without `snippet`, stamped with the upload time. */
  function StoredEntry(fields: Assoc.Assoc<Value>, now: Value): (r: Assoc.Assoc<Value>)
    ensures Assoc.Get(r, "snippet").None?
    ensures Assoc.Get(r, "uploaded_at") == Some(now)
    ensures forall k :: k != "snippet" && k != "uploaded_at" ==> Assoc.Get(r, k) == Assoc.Get(fields, k)
  {
    Assoc.Put(Assoc.Remove(fields, "snippet"), "uploaded_at", now)
  }

  /** `array_map` of `StoredEntry` over the form, keys kept. */
  function StoredEntries(form: Stored, now: Value): (r: Stored)
    ensures Assoc.Keys(r) == Assoc.Keys(form)
    ensures forall i :: 0 <= i < |form| ==> r[i] == (form[i].0, StoredEntry(form[i].1, now))
  {
    if form == [] then [] else [(form[0].0, StoredEntry(form[0].1, now))] + StoredEntries(form[1..], now)
  }

  /**
   * The result of a form handler: the clone, upload or delete and activation
   * requests in the order sent (the validation GET is not listed), whether
   * the clone validated, and the settings written, if any.
   */
  datatype Submission = Submission(client: Api.Client, requests: seq<Api.Request>, validated: bool, stored: Option<Stored>)

  /**
   * `processFormSubmission`, with `form` the submitted data after its
   * nonce is removed, `decode` the decoding of a `snippet` field, `current`
   * the stored settings and `now` the upload time.
   */
  function ProcessFormSubmission(c: Api.Client, form: Stored, decode: Value -> seq<SnippetSpec>, current: Stored,
                                 now: Value, net: Api.Net): (r: Submission)
    requires Assoc.Distinct(form)
  {
    var (c1, cloneReq, clone) := Api.CloneActiveVersion(c, net);
    var number := Api.NumberOf(clone);
    var (uploads, ok) := UntilFailure(FormSnippets(form, decode), Upload(c1, number, net));
    if !ok then Submission(c1, [cloneReq] + uploads, false, None)
    else if !Api.ValidateVersion(c1, number, net) then Submission(c1, [cloneReq] + uploads, false, None)
    else
      var (c2, activation) := Api.ActivateVersion(c1, number, net);
      Submission(c2, [cloneReq] + uploads + [activation], true, Some(Assoc.Merge(current, StoredEntries(form, now))))
  }

  /**
   * The settings are written only after every upload succeeded and the
   * clone validated, and then the activation is the last request; a failed
   * upload is the last request sent.
   */
  lemma SubmissionGates(c: Api.Client, form: Stored, decode: Value -> seq<SnippetSpec>, current: Stored, now: Value, net: Api.Net)
    requires Assoc.Distinct(form)
    ensures var r := ProcessFormSubmission(c, form, decode, current, now, net);
      var c1 := Api.CloneActiveVersion(c, net).0;
      var number := Api.NumberOf(Api.CloneActiveVersion(c, net).2);
      var ups := UntilFailure(FormSnippets(form, decode), Upload(c1, number, net));
      && (r.stored.Some? <==> ups.1 && Api.ValidateVersion(c1, number, net))
      && (r.stored.Some? ==> r.validated && r.requests[|r.requests| - 1] == Api.ActivateVersion(c1, number, net).1)
      && (!ups.1 ==> r.requests == [Api.CloneActiveVersion(c, net).1] + ups.0 && r.stored.None?)
  {
  }

  /** On success every submitted module's entry is replaced, and the others are kept. */
  lemma SubmissionStores(c: Api.Client, form: Stored, decode: Value -> seq<SnippetSpec>, current: Stored, now: Value, net: Api.Net, id: string)
    requires Assoc.Distinct(form)
    requires ProcessFormSubmission(c, form, decode, current, now, net).stored.Some?
    ensures var s := ProcessFormSubmission(c, form, decode, current, now, net).stored.value;
      && (id in Assoc.Keys(form) ==> Assoc.Get(s, id) == Some(StoredEntry(ModuleData(form, id), now)))
      && (id !in Assoc.Keys(form) ==> Assoc.Get(s, id) == Assoc.Get(current, id))
  {
    var entries := StoredEntries(form, now);
    assert Assoc.Distinct(entries);
    if id in Assoc.Keys(form) {
      var i :| 0 <= i < |form| && Assoc.Keys(form)[i] == id;
      Assoc.GetEntry(form, i);
      Assoc.GetEntry(entries, i);
    }
  }

  // ---------------------------------------------------------------------------
  // Disabling a module

  /** One delete of the disable loop. */
  function Deletion(c: Api.Client, version: Value, moduleName: string, net: Api.Net): Value -> (Api.Request, bool) {
    t => Api.DeleteSnippet(c, version, SnippetName(moduleName, t), net)
  }

  /** The delete loop sends one DELETE per snippet type of the module, to that snippet's URL. */
  lemma DeletesTargetModuleSnippets(c: Api.Client, version: Value, moduleName: string, types: seq<Value>, net: Api.Net)
    ensures var r := UntilFailure(types, Deletion(c, version, moduleName, net));
      forall i :: 0 <= i < |r.0| ==>
        r.0[i].verb == Api.Delete && r.0[i].url == Api.SnippetUrl(c, version, SnippetName(moduleName, types[i]))
  {
  }

  /**
   * `processFormSubmissionDisable`: delete the module's snippets, validate,
   * activate, forget its settings. The settings are written exactly when
   * every delete succeeded and the clone validated, and then they are the
   * current ones without that module's entry, written after the activation.
   */
  function ProcessFormSubmissionDisable(c: Api.Client, moduleName: string, types: seq<Value>, current: Stored, net: Api.Net): (r: Submission)
    ensures r.stored.Some? ==> r.validated
    ensures var c1 := Api.CloneActiveVersion(c, net).0;
      var number := Api.NumberOf(Api.CloneActiveVersion(c, net).2);
      var deletes := UntilFailure(types, Deletion(c1, number, moduleName, net));
      && (r.stored.Some? <==> deletes.1 && Api.ValidateVersion(c1, number, net))
      && (deletes.1 && Api.ValidateVersion(c1, number, net) ==>
            && r.validated
            && r.stored == Some(Assoc.Remove(current, moduleName))
            && r.requests == [Api.CloneActiveVersion(c, net).1] + deletes.0 + [Api.ActivateVersion(c1, number, net).1])
  {
    var (c1, cloneReq, clone) := Api.CloneActiveVersion(c, net);
    var number := Api.NumberOf(clone);
    var (deletes, ok) := UntilFailure(types, Deletion(c1, number, moduleName, net));
    if !ok then Submission(c1, [cloneReq] + deletes, false, None)
    else if !Api.ValidateVersion(c1, number, net) then Submission(c1, [cloneReq] + deletes, false, None)
    else
      var (c2, activation) := Api.ActivateVersion(c1, number, net);
      Submission(c2, [cloneReq] + deletes + [activation], true, Some(Assoc.Remove(current, moduleName)))
  }

  /** A successful disable removes only that module's entry. */
  lemma DisableForgetsOnlyModule(c: Api.Client, moduleName: string, types: seq<Value>, current: Stored, net: Api.Net, id: string)
    requires ProcessFormSubmissionDisable(c, moduleName, types, current, net).stored.Some?
    ensures var s := ProcessFormSubmissionDisable(c, moduleName, types, current, net).stored.value;
      Assoc.Get(s, id) == (if id == moduleName then None else Assoc.Get(current, id))
  {
  }

  /** A failed delete or validation leaves the settings alone and activates nothing. */
  lemma DisableFailureWritesNothing(c: Api.Client, moduleName: string, types: seq<Value>, current: Stored, net: Api.Net)
    ensures var c1 := Api.CloneActiveVersion(c, net).0;
      var number := Api.NumberOf(Api.CloneActiveVersion(c, net).2);
      var r := ProcessFormSubmissionDisable(c, moduleName, types, current, net);
      !UntilFailure(types, Deletion(c1, number, moduleName, net)).1 || !Api.ValidateVersion(c1, number, net) ==>
        r.stored.None? && r.requests == [Api.CloneActiveVersion(c, net).1] + UntilFailure(types, Deletion(c1, number, moduleName, net)).0
  {
  }
}

=== FILE: header.dfy ===
/**
 * src/classes/header.php: the name/value record every response header of
 * the plugin shares, and the header line it sends.
 */
module Header {
  import opened Php

  datatype Header = Header(name: string, value: string)

  /** A fresh header: both fields start as the empty string. */
  const Fresh: Header := Header("", "")

  function SetName(h: Header, name: string): (r: Header)
    ensures r.name == name && r.value == h.value
  {
    h.(name := name)
  }

  function SetValue(h: Header, value: string): (r: Header)
    ensures r.value == value && r.name == h.name
  {
    h.(value := value)
  }

  /** The line `send_header` emits: `name . ': ' . value`. */
  function Line(name: string, value: string): (r: string)
    ensures |r| == |name| + 2 + |value|
    ensures StartsWith(r, name) && r[|name|..|name| + 2] == ": " && r[|name| + 2..] == value
  {
    name + ": " + value
  }

  /** A header name without a colon is read back by splitting the line at its first colon. */
  lemma LineSplitsAtFirstColon(name: string, value: string)
    requires ':' !in name
    ensures var l := Line(name, value);
      IndexOf(l, ':') == |name| && l[..IndexOf(l, ':')] == name && l[IndexOf(l, ':') + 2..] == value
  {
    var l := Line(name, value);
    assert l[..|name|] == name;
    assert l[|name|] == ':';
    IndexOfAt(l, ':', |name|);
  }

  /** When `c` first occurs at `k`, `IndexOf` finds it there. */
  lemma {:induction false} IndexOfAt(s: string, c: char, k: nat)
    requires k < |s| && s[k] == c && c !in s[..k]
    ensures IndexOf(s, c) == k
  {
    if k > 0 {
      assert s[0] in s[..k];
      assert s[1..][..k - 1] == s[1..k];
      assert forall x :: x in s[1..k] ==> x in s[..k];
      IndexOfAt(s[1..], c, k - 1);
    }
  }
}

=== FILE: header_cache_control.dfy ===
/**
 * src/classes/header-cache-control.php: the `Cache-Control` response
 * header, `directive=seconds`, with the directive passed through
 * `sanitize_key` and the seconds through `absint`.
 */
module CacheControlHeader {
  import opened Php
  import Wp
  import Header

  datatype CacheHeader = CacheHeader(base: Header.Header, seconds: Value, directive: Value)

  const Name: string := "Cache-Control"

  /** `prepare_value`. */
  function PrepareValue(seconds: Value, directive: Value): (r: string)
    ensures var k := Wp.SanitizeKey(ToStr(directive));
      |r| > |k| && StartsWith(r, k) && r[|k|] == '=' && r[|k| + 1..] == NatToString(Absint(seconds))
  {
    Wp.SanitizeKey(ToStr(directive)) + "=" + NatToString(Absint(seconds))
  }

  /** The value can be read back: the part before '=' is the sanitised directive, the rest gives the seconds. */
  lemma PrepareValueParses(seconds: Value, directive: Value)
    ensures var v := PrepareValue(seconds, directive);
      var k := IndexOf(v, '=');
      k < |v| && v[..k] == Wp.SanitizeKey(ToStr(directive)) && Absint(Str(v[k + 1..])) == Absint(seconds)
  {
    var key := Wp.SanitizeKey(ToStr(directive));
    var v := PrepareValue(seconds, directive);
    assert forall i :: 0 <= i < |key| ==> key[i] != '=';
    assert v[..|key|] == key;
    Header.IndexOfAt(v, '=', |key|);
    AbsintOfDecimal(Absint(seconds));
  }

  /** The constructor. */
  function New(seconds: Value, directive: Value): (r: CacheHeader)
    ensures r.base.name == Name
    ensures r.base.value == PrepareValue(seconds, directive)
    ensures r.seconds == seconds && r.directive == directive
  {
    CacheHeader(Header.Header(Name, PrepareValue(seconds, directive)), seconds, directive)
  }

  function SetSeconds(h: CacheHeader, seconds: Value): (r: CacheHeader)
    ensures r.seconds == seconds && r.directive == h.directive && r.base == h.base
  {
    h.(seconds := seconds)
  }

  function SetDirective(h: CacheHeader, directive: Value): (r: CacheHeader)
    ensures r.directive == directive && r.seconds == h.seconds && r.base == h.base
  {
    h.(directive := directive)
  }

  /**
   * The setters do not recompute the value: after `set_seconds` the header
   * still sends the constructor's seconds.
   */
  lemma SettersKeepValue(seconds: Value, directive: Value, later: Value)
    ensures SetSeconds(New(seconds, directive), later).base.value == PrepareValue(seconds, directive)
    ensures SetDirective(New(seconds, directive), later).base.value == PrepareValue(seconds, directive)
  {
  }
}

=== FILE: header_surrogate_control.dfy ===
/**
 * src/classes/header-surrogate-control.php: the `Surrogate-Control`
 * response header. Its directives are an ordered name => value array,
 * seeded from the stale-content settings and rendered as
 * `name=value, name=value`.
 */
module SurrogateControlHeader {
  import opened Php
  import Assoc
  import Header

  type Directives = Assoc.Assoc<Value>

  datatype ControlHeader = ControlHeader(base: Header.Header, directives: Directives)

  const Name: string := "Surrogate-Control"

  /** The settings `build_original_headers` reads, by option name. */
  type Setting = string -> Value

  /** `build_original_headers`: each directive is gated by its flag being exactly `true`. */
  function OriginalDirectives(setting: Setting): (r: Directives)
    ensures Assoc.Distinct(r)
    ensures Assoc.Get(r, "max-age").Some? <==> setting("enable_stale_while_revalidate") == Bool(true)
    ensures Assoc.Get(r, "stale-while-revalidate").Some? <==> setting("enable_stale_while_revalidate") == Bool(true)
    ensures Assoc.Get(r, "stale-if-error").Some? <==> setting("enable_stale_if_error") == Bool(true)
    ensures Assoc.Get(r, "max-age").Some? ==>
      Assoc.Get(r, "max-age").value == Int(Absint(setting("surrogate_control_ttl")))
    ensures Assoc.Get(r, "stale-while-revalidate").Some? ==>
      Assoc.Get(r, "stale-while-revalidate").value == Int(Absint(setting("stale_while_revalidate_ttl")))
    ensures Assoc.Get(r, "stale-if-error").Some? ==>
      Assoc.Get(r, "stale-if-error").value == Int(Absint(setting("stale_if_error_ttl")))
    ensures forall k :: k in Assoc.Keys(r) ==> k == "max-age" || k == "stale-while-revalidate" || k == "stale-if-error"
  {
    var swr := setting("enable_stale_while_revalidate") == Bool(true);
    var sie := setting("enable_stale_if_error") == Bool(true);
    var m := Int(Absint(setting("surrogate_control_ttl")));
    var w := Int(Absint(setting("stale_while_revalidate_ttl")));
    var e := Int(Absint(setting("stale_if_error_ttl")));
    StaleFacts(swr, sie, m, w, e);
    Stale(swr, sie, m, w, e)
  }

  /** The directives `build_original_headers` appends, given the two flags and three values. */
  function Stale(swr: bool, sie: bool, m: Value, w: Value, e: Value): Directives {
    (if swr then [("max-age", m), ("stale-while-revalidate", w)] else [])
    + (if sie then [("stale-if-error", e)] else [])
  }

  /** Which names `Stale` holds, and with which values. */
  lemma StaleFacts(swr: bool, sie: bool, m: Value, w: Value, e: Value)
    ensures Assoc.Keys(Stale(swr, sie, m, w, e)) ==
      (if swr then ["max-age", "stale-while-revalidate"] else []) + (if sie then ["stale-if-error"] else [])
    ensures Assoc.Distinct(Stale(swr, sie, m, w, e))
    ensures Assoc.Get(Stale(swr, sie, m, w, e), "max-age") == if swr then Some(m) else None
    ensures Assoc.Get(Stale(swr, sie, m, w, e), "stale-while-revalidate") == if swr then Some(w) else None
    ensures Assoc.Get(Stale(swr, sie, m, w, e), "stale-if-error") == if sie then Some(e) else None
  {
    StaleKeys(swr, sie, m, w, e);
    StaleGets(swr, sie, m, w, e);
  }

  lemma StaleKeys(swr: bool, sie: bool, m: Value, w: Value, e: Value)
    ensures Assoc.Keys(Stale(swr, sie, m, w, e)) ==
      (if swr then ["max-age", "stale-while-revalidate"] else []) + (if sie then ["stale-if-error"] else [])
    ensures Assoc.Distinct(Stale(swr, sie, m, w, e))
  {
    DirectiveNamesDiffer();
    var t: Directives := if sie then [("stale-if-error", e)] else [];
    var kt: seq<string> := if sie then ["stale-if-error"] else [];
    assert Assoc.Keys(t) == kt;
    if swr {
      var u := [("stale-while-revalidate", w)] + t;
      assert Stale(swr, sie, m, w, e) == [("max-age", m)] + u;
      Assoc.Cons(("stale-while-revalidate", w), t);
      Assoc.Cons(("max-age", m), u);
      assert Assoc.Keys(Stale(swr, sie, m, w, e)) == ["max-age", "stale-while-revalidate"] + kt;
    } else {
      assert Stale(swr, sie, m, w, e) == t;
    }
  }

  lemma StaleGets(swr: bool, sie: bool, m: Value, w: Value, e: Value)
    ensures Assoc.Get(Stale(swr, sie, m, w, e), "max-age") == if swr then Some(m) else None
    ensures Assoc.Get(Stale(swr, sie, m, w, e), "stale-while-revalidate") == if swr then Some(w) else None
    ensures Assoc.Get(Stale(swr, sie, m, w, e), "stale-if-error") == if sie then Some(e) else None
  {
    DirectiveNamesDiffer();
    var t: Directives := if sie then [("stale-if-error", e)] else [];
    assert Assoc.Get(t, "max-age") == None && Assoc.Get(t, "stale-while-revalidate") == None;
    assert Assoc.Get(t, "stale-if-error") == if sie then Some(e) else None;
    if swr {
      var u := [("stale-while-revalidate", w)] + t;
      assert Stale(swr, sie, m, w, e) == [("max-age", m)] + u;
      Assoc.GetCons(("stale-while-revalidate", w), t, "max-age");
      Assoc.GetCons(("stale-while-revalidate", w), t, "stale-if-error");
      Assoc.GetCons(("max-age", m), u, "stale-while-revalidate");
      Assoc.GetCons(("max-age", m), u, "stale-if-error");
    } else {
      assert Stale(swr, sie, m, w, e) == t;
    }
  }

  lemma DirectiveNamesDiffer()
    ensures "max-age" != "stale-while-revalidate" && "max-age" != "stale-if-error"
    ensures "stale-while-revalidate" != "stale-if-error"
  {
  }

  /** The constructor. */
  function New(setting: Setting): (r: ControlHeader)
    ensures r.base.name == Name && r.directives == OriginalDirectives(setting)
  {
    ControlHeader(Header.SetName(Header.Fresh, Name), OriginalDirectives(setting))
  }

  /** `! empty( $this->_headers[ $k ] )`: the directive is set and its value is not empty. */
  predicate Removable(d: Directives, k: string) {
    Assoc.Get(d, k).Some? && !Empty(Assoc.Get(d, k).value)
  }

  /** `unset_headers` for one name: only a directive whose value is not empty goes. */
  function UnsetOne(d: Directives, k: string): (r: Directives)
    ensures Removable(d, k) ==> Assoc.Get(r, k).None?
    ensures !Removable(d, k) ==> r == d
    ensures forall k' :: k' != k ==> Assoc.Get(r, k') == Assoc.Get(d, k')
  {
    if Removable(d, k) then Assoc.Remove(d, k) else d
  }

  /** The argument of `unset_headers`: one name or an array of names. */
  datatype Names = OneName(name: string) | NameList(names: seq<string>)

  function UnsetAll(d: Directives, ks: seq<string>): (r: Directives)
    ensures forall k :: !Removable(d, k) || k !in ks ==> Assoc.Get(r, k) == Assoc.Get(d, k)
    ensures forall k :: Removable(d, k) && k in ks ==> Assoc.Get(r, k).None?
    decreases |ks|
  {
    if ks == [] then d
    else
      var d' := UnsetOne(d, ks[0]);
      assert forall k :: k != ks[0] ==> (Removable(d', k) <==> Removable(d, k));
      var r := UnsetAll(d', ks[1..]);
      assert forall k :: k in ks <==> k == ks[0] || k in ks[1..];
      r
  }

  /** Whether `unset_headers` was asked to remove directive `k`. */
  predicate Named(names: Names, k: string) {
    match names
    case OneName(n) => n == k
    case NameList(ks) => k in ks
  }

  /**
   * `unset_headers`: a named directive with a non-empty value is gone, and
   * every other directive keeps its value.
   */
  function UnsetHeaders(h: ControlHeader, names: Names): (r: ControlHeader)
    ensures r.base == h.base
    ensures forall k :: Named(names, k) && Removable(h.directives, k) ==> Assoc.Get(r.directives, k).None?
    ensures forall k :: !(Named(names, k) && Removable(h.directives, k)) ==>
      Assoc.Get(r.directives, k) == Assoc.Get(h.directives, k)
  {
    match names
    case OneName(k) => h.(directives := UnsetOne(h.directives, k))
    case NameList(ks) => h.(directives := UnsetAll(h.directives, ks))
  }

  /** A directive whose value is empty, such as `max-age` 0, survives `unset_headers`. */
  lemma EmptyDirectiveSurvives(h: ControlHeader, names: Names, k: string)
    requires Assoc.Get(h.directives, k).Some? && Empty(Assoc.Get(h.directives, k).value)
    ensures Assoc.Get(UnsetHeaders(h, names).directives, k) == Assoc.Get(h.directives, k)
  {
  }

  /**
   * `edit_headers`: each given pair overwrites its directive in place or is
   * appended, in the given order; a non-array argument changes nothing.
   */
  function EditHeaders(h: ControlHeader, pairs: Option<Directives>): (r: ControlHeader)
    requires pairs.Some? ==> Assoc.Distinct(pairs.value)
    ensures r.base == h.base
    ensures pairs.None? ==> r == h
    ensures pairs.Some? ==>
      forall k :: Assoc.Get(r.directives, k) ==
        (if k in Assoc.Keys(pairs.value) then Assoc.Get(pairs.value, k) else Assoc.Get(h.directives, k))
    ensures pairs.Some? ==>
      Assoc.Keys(r.directives) ==
        Assoc.Keys(h.directives) + Assoc.NewKeys(Assoc.Keys(h.directives), Assoc.Keys(pairs.value))
  {
    match pairs
    case None => h
    case Some(p) => h.(directives := Assoc.Merge(h.directives, p))
  }

  /** One rendered directive, `name=value`. */
  function Directive(e: (string, Value)): string {
    e.0 + "=" + ToStr(e.1)
  }

  /** The loop of `build_header_value`: every directive followed by ", ". */
  function Rendered(d: Directives): (r: string)
    ensures d == [] ==> r == ""
  {
    if d == [] then "" else Directive(d[0]) + ", " + Rendered(d[1..])
  }

  /** The rendered directives, as a list. */
  function RenderedList(d: Directives): (r: seq<string>)
    ensures |r| == |d|
    ensures forall i :: 0 <= i < |d| ==> r[i] == Directive(d[i])
  {
    if d == [] then [] else [Directive(d[0])] + RenderedList(d[1..])
  }

  /** `build_header_value`: the loop's string with trailing commas and spaces trimmed. */
  function BuildHeaderValue(d: Directives): (r: string)
    ensures d == [] ==> r == ""
  {
    RTrim(Rendered(d), {',', ' '})
  }

  lemma {:induction false} RenderedIsJoin(d: Directives)
    requires d != []
    ensures Rendered(d) == Join(RenderedList(d), ", ") + ", "
  {
    if |d| > 1 {
      RenderedIsJoin(d[1..]);
      assert RenderedList(d)[1..] == RenderedList(d[1..]);
    } else {
      assert d[1..] == [];
    }
  }

  /** The last character of a joined list is that of its last element. */
  lemma {:induction false} JoinLast(parts: seq<string>, sep: string)
    requires |parts| > 0 && |parts[|parts| - 1]| > 0
    ensures var j := Join(parts, sep);
      |j| > 0 && j[|j| - 1] == parts[|parts| - 1][|parts[|parts| - 1]| - 1]
  {
    if |parts| > 1 {
      JoinLast(parts[1..], sep);
    }
  }

  /**
   * The header value is the directives joined by ", ", with no trailing
   * separator, as long as the last value does not itself end in a comma or
   * a space (which `rtrim` would also strip).
   */
  lemma ValueIsJoin(d: Directives)
    requires d != []
    requires var v := ToStr(d[|d| - 1].1); v == [] || v[|v| - 1] !in {',', ' '}
    ensures BuildHeaderValue(d) == Join(RenderedList(d), ", ")
  {
    var j := Join(RenderedList(d), ", ");
    RenderedIsJoin(d);
    JoinEndsClean(d);
    TrimSeparator(j);
  }

  /** `s` ends with a character `rtrim` keeps. */
  predicate EndsClean(s: string) {
    |s| > 0 && s[|s| - 1] !in {',', ' '}
  }

  /** The joined directives end with a character `rtrim` keeps. */
  lemma JoinEndsClean(d: Directives)
    requires d != []
    requires var v := ToStr(d[|d| - 1].1); v == [] || v[|v| - 1] !in {',', ' '}
    ensures EndsClean(Join(RenderedList(d), ", "))
  {
    var parts := RenderedList(d);
    assert parts[|parts| - 1] == Directive(d[|d| - 1]);
    DirectiveEnd(d[|d| - 1]);
    JoinPartsEndClean(parts);
  }

  /** A list whose last element ends cleanly joins into a string that ends cleanly. */
  lemma JoinPartsEndClean(parts: seq<string>)
    requires |parts| > 0
    requires EndsClean(parts[|parts| - 1])
    ensures EndsClean(Join(parts, ", "))
  {
    JoinLast(parts, ", ");
  }

  /** `rtrim` removes exactly a trailing separator from a string that ends cleanly. */
  lemma TrimSeparator(j: string)
    requires EndsClean(j)
    ensures RTrim(j + ", ", {',', ' '}) == j
  {
    SeparatorTrimmed();
    RTrimKeeps(j, ", ", {',', ' '});
  }

  /** Both characters of the separator are ones `rtrim` strips. */
  lemma SeparatorTrimmed()
    ensures forall i :: 0 <= i < |", "| ==> ", "[i] in {',', ' '}
  {
    assert ", "[0] == ',' && ", "[1] == ' ';
  }

  /** A rendered directive ends with its value's last character, or with '=' when the value is empty. */
  lemma DirectiveEnd(e: (string, Value))
    requires var v := ToStr(e.1); v == [] || v[|v| - 1] !in {',', ' '}
    ensures EndsClean(Directive(e))
  {
    var v := ToStr(e.1);
    var r := Directive(e);
    if v == [] {
      assert r[|r| - 1] == '=';
    } else {
      assert r[|r| - 1] == v[|v| - 1];
    }
  }

  /** `get_value`: the rendering of the directives. */
  function GetValue(h: ControlHeader): (r: string)
    ensures h.directives == [] ==> r == ""
  {
    BuildHeaderValue(h.directives)
  }

  /** A value set through the parent class never shows: `get_value` ignores it. */
  lemma SetValueIgnored(h: ControlHeader, v: string)
    ensures GetValue(h.(base := Header.SetValue(h.base, v))) == GetValue(h)
  {
  }

  /** With both stale flags on, the directives are the three of them, in this order. */
  lemma BothFlagsDirectives(setting: Setting)
    requires setting("enable_stale_while_revalidate") == Bool(true)
    requires setting("enable_stale_if_error") == Bool(true)
    ensures New(setting).directives ==
      [("max-age", Int(Absint(setting("surrogate_control_ttl")))),
       ("stale-while-revalidate", Int(Absint(setting("stale_while_revalidate_ttl")))),
       ("stale-if-error", Int(Absint(setting("stale_if_error_ttl"))))]
  {
  }

  /**
   * With both stale flags on, the header value is the three directives
   * joined by ", " with nothing trailing: the last value is a number.
   */
  lemma BothFlagsValue(setting: Setting)
    requires setting("enable_stale_while_revalidate") == Bool(true)
    requires setting("enable_stale_if_error") == Bool(true)
    ensures var d := New(setting).directives;
      |d| == 3 && GetValue(New(setting)) == Join(RenderedList(d), ", ")
  {
    BothFlagsDirectives(setting);
    var d := New(setting).directives;
    var sie := NatToString(Absint(setting("stale_if_error_ttl")));
    assert ToStr(d[2].1) == sie;
    assert IsDigit(sie[|sie| - 1]);
    ValueIsJoin(d);
  }
}

=== FILE: header_surrogate_keys.dfy ===
/**
 * src/classes/header-surrogate-keys.php: the `Surrogate-Key` response
 * header. Keys are gathered in a list (`add_key` appends, `add_keys`
 * merges and removes duplicates) and sent sanitised and space-separated.
 */
module SurrogateKeysHeader {
  import opened Php
  import Utils
  import Header

  datatype KeysHeader = KeysHeader(base: Header.Header, keys: seq<string>)

  const Name: string := "Surrogate-Key"

  /** The constructor: the header name is set, no keys yet. */
  const Fresh: KeysHeader := KeysHeader(Header.SetName(Header.Fresh, Name), [])

  /** Every key sanitised, in order (`array_map` with the surrogate-key sanitiser). */
  function SanitizeAll(keys: seq<string>): (r: seq<string>)
    ensures |r| == |keys|
    ensures forall i :: 0 <= i < |keys| ==> r[i] == Utils.SanitizeSurrogateKey(keys[i])
    ensures forall i :: 0 <= i < |r| ==> Utils.IsSurrogateKey(r[i])
  {
    if keys == [] then [] else [Utils.SanitizeSurrogateKey(keys[0])] + SanitizeAll(keys[1..])
  }

  predicate KeyCharsOrSpaces(s: string) {
    forall i :: 0 <= i < |s| ==> Utils.IsSurrogateKeyChar(s[i]) || s[i] == ' '
  }

  /** `prepare_keys`: the sanitised keys joined with single spaces. */
  function PrepareKeys(keys: seq<string>): (r: string)
    ensures keys == [] ==> r == ""
    ensures KeyCharsOrSpaces(r)
  {
    JoinedKeyChars(SanitizeAll(keys));
    Join(SanitizeAll(keys), " ")
  }

  lemma {:induction false} JoinedKeyChars(parts: seq<string>)
    requires forall i :: 0 <= i < |parts| ==> Utils.IsSurrogateKey(parts[i])
    ensures KeyCharsOrSpaces(Join(parts, " "))
  {
    if |parts| == 1 {
      assert Utils.IsSurrogateKey(parts[0]);
    } else if |parts| > 1 {
      JoinedKeyChars(parts[1..]);
      var rest := Join(parts[1..], " ");
      var r := parts[0] + " " + rest;
      assert Join(parts, " ") == r;
      assert Utils.IsSurrogateKey(parts[0]);
      forall i | 0 <= i < |r|
        ensures Utils.IsSurrogateKeyChar(r[i]) || r[i] == ' '
      {
        if i < |parts[0]| {
          assert r[i] == parts[0][i];
          assert Utils.IsSurrogateKeyChar(parts[0][i]);
        } else if i > |parts[0]| {
          var j := i - |parts[0]| - 1;
          assert r[i] == rest[j];
          assert Utils.IsSurrogateKeyChar(rest[j]) || rest[j] == ' ';
        } else {
          assert r[i] == ' ';
        }
      }
    }
  }

  /** Splitting the header value at spaces gives the sanitised keys back, one per key. */
  lemma PrepareKeysSplits(keys: seq<string>)
    requires |keys| > 0
    ensures Split(PrepareKeys(keys), ' ') == SanitizeAll(keys)
  {
    var parts := SanitizeAll(keys);
    forall i | 0 <= i < |parts|
      ensures ' ' !in parts[i]
    {
      KeyHasNoSpace(parts[i]);
    }
    SplitJoin(parts, ' ');
    assert PrepareKeys(keys) == Join(parts, [' ']);
  }

  lemma KeyHasNoSpace(k: string)
    requires Utils.IsSurrogateKey(k)
    ensures ' ' !in k
  {
    assert forall j :: 0 <= j < |k| ==> k[j] != ' ';
  }

  /** `add_key`: append, duplicates included; the new list is returned. */
  function AddKey(h: KeysHeader, key: string): (r: (KeysHeader, seq<string>))
    ensures r.1 == r.0.keys && r.0.base == h.base
    ensures |r.1| == |h.keys| + 1 && r.1[..|h.keys|] == h.keys && r.1[|h.keys|] == key
  {
    var keys := h.keys + [key];
    (h.(keys := keys), keys)
  }

  /** A list without repeated elements. */
  predicate NoDuplicates(s: seq<string>) {
    forall i, j :: 0 <= i < j < |s| ==> s[i] != s[j]
  }

  /** `a` is `b` with some elements left out, the rest in order. */
  predicate Subsequence(a: seq<string>, b: seq<string>)
    decreases |b|
  {
    if a == [] then true
    else if b == [] then false
    else if a[|a| - 1] == b[|b| - 1] then Subsequence(a[..|a| - 1], b[..|b| - 1])
    else Subsequence(a, b[..|b| - 1])
  }

  /** The index of the first occurrence of `x` in `s`. */
  function FirstIndex(s: seq<string>, x: string): (k: nat)
    requires x in s
    ensures k < |s| && s[k] == x
    ensures forall j :: 0 <= j < k ==> s[j] != x
  {
    if s[0] == x then 0 else 1 + FirstIndex(s[1..], x)
  }

  /** Appending to a list does not move the first occurrence of what it already holds. */
  lemma FirstIndexPrefix(p: seq<string>, x: string, y: string)
    requires y in p
    ensures y in p + [x] && FirstIndex(p + [x], y) == FirstIndex(p, y)
  {
    var s := p + [x];
    var a, b := FirstIndex(s, y), FirstIndex(p, y);
    assert s[b] == y;
  }

  /** Every element of `r` occurs in `s`, and their first occurrences there come in `r`'s order. */
  ghost predicate InFirstOccurrenceOrder(r: seq<string>, s: seq<string>) {
    forall i, j :: 0 <= i < j < |r| ==> r[i] in s && r[j] in s && FirstIndex(s, r[i]) < FirstIndex(s, r[j])
  }

  /** One step of `Dedup`: the order of first occurrences survives appending `x`. */
  lemma DedupOrderStep(p: seq<string>, x: string, d: seq<string>)
    requires forall y :: y in d <==> y in p
    requires InFirstOccurrenceOrder(d, p)
    ensures InFirstOccurrenceOrder(if x in d then d else d + [x], p + [x])
  {
    var s := p + [x];
    forall y | y in p
      ensures y in s && FirstIndex(s, y) == FirstIndex(p, y)
    {
      FirstIndexPrefix(p, x, y);
    }
    if x !in d {
      assert FirstIndex(s, x) == |p| by {
        assert forall j :: 0 <= j < |p| ==> s[j] == p[j] && p[j] != x;
      }
    }
  }

  /**
   * `array_values( array_unique( $keys ) )`: the first occurrence of each
   * key, in the order of those first occurrences.
   */
  function Dedup(s: seq<string>): (r: seq<string>)
    ensures NoDuplicates(r)
    ensures forall x :: x in r <==> x in s
    ensures InFirstOccurrenceOrder(r, s)
    ensures |r| <= |s|
    ensures Subsequence(r, s)
  {
    if s == [] then []
    else
      var p, x := s[..|s| - 1], s[|s| - 1];
      var d := Dedup(p);
      assert s == p + [x];
      DedupExtend(p, x, d);
      if x in d then d else d + [x]
  }

  /** One step of `Dedup`: what holds of `d` for `p` holds of its extension for `p + [x]`. */
  lemma DedupExtend(p: seq<string>, x: string, d: seq<string>)
    requires NoDuplicates(d) && (forall y :: y in d <==> y in p)
    requires InFirstOccurrenceOrder(d, p) && |d| <= |p| && Subsequence(d, p)
    ensures var r, s := if x in d then d else d + [x], p + [x];
      && NoDuplicates(r) && (forall y :: y in r <==> y in s)
      && InFirstOccurrenceOrder(r, s) && |r| <= |s| && Subsequence(r, s)
  {
    var s := p + [x];
    assert forall y :: y in s <==> y in p || y == x;
    DedupOrderStep(p, x, d);
    if x in d {
      SubsequenceExtend(d, p, x);
    } else {
      var r := d + [x];
      assert r[..|r| - 1] == d && s[..|s| - 1] == p;
    }
  }

  lemma SubsequenceExtend(a: seq<string>, b: seq<string>, x: string)
    requires Subsequence(a, b)
    ensures Subsequence(a, b + [x])
    decreases |b|, 1
  {
    var c := b + [x];
    assert c[..|c| - 1] == b;
    if a != [] && a[|a| - 1] == x {
      SubsequenceDropLast(a, b);
    }
  }

  lemma {:induction false} SubsequenceDropLast(a: seq<string>, b: seq<string>)
    requires a != [] && Subsequence(a, b)
    ensures Subsequence(a[..|a| - 1], b)
    decreases |b|, 0
  {
    if b != [] {
      if a[|a| - 1] == b[|b| - 1] {
        SubsequenceExtend(a[..|a| - 1], b[..|b| - 1], b[|b| - 1]);
        assert b[..|b| - 1] + [b[|b| - 1]] == b;
      } else {
        SubsequenceDropLast(a, b[..|b| - 1]);
        SubsequenceExtend(a[..|a| - 1], b[..|b| - 1], b[|b| - 1]);
        assert b[..|b| - 1] + [b[|b| - 1]] == b;
      }
    }
  }

  /** A list without duplicates is left as it is. */
  lemma {:induction false} DedupKeepsDistinct(s: seq<string>)
    requires NoDuplicates(s)
    ensures Dedup(s) == s
  {
    if s != [] {
      var p, x := s[..|s| - 1], s[|s| - 1];
      assert NoDuplicates(p);
      DedupKeepsDistinct(p);
      LastNotInFront(s);
      DedupUnfold(s);
      assert p + [x] == s;
    }
  }

  /** `Dedup` keeps the last element exactly when it has not occurred before. */
  lemma DedupUnfold(s: seq<string>)
    requires s != []
    ensures var p, x := s[..|s| - 1], s[|s| - 1];
      Dedup(s) == if x in Dedup(p) then Dedup(p) else Dedup(p) + [x]
  {
  }

  /** In a list without duplicates the last element does not occur before it. */
  lemma LastNotInFront(s: seq<string>)
    requires s != [] && NoDuplicates(s)
    ensures s[|s| - 1] !in s[..|s| - 1]
  {
    var p := s[..|s| - 1];
    assert forall i :: 0 <= i < |p| ==> p[i] == s[i] && s[i] != s[|s| - 1];
  }

  /** Removing duplicates twice is removing them once. */
  lemma DedupIdempotent(s: seq<string>)
    ensures Dedup(Dedup(s)) == Dedup(s)
  {
    DedupKeepsDistinct(Dedup(s));
  }

  /** `add_keys`: merge the new keys after the current ones, then drop duplicates. */
  function AddKeys(h: KeysHeader, keys: seq<string>): (r: (KeysHeader, seq<string>))
    ensures r.1 == r.0.keys && r.0.base == h.base
    ensures NoDuplicates(r.1)
    ensures forall x :: x in r.1 <==> x in h.keys || x in keys
    ensures Subsequence(r.1, h.keys + keys)
    ensures InFirstOccurrenceOrder(r.1, h.keys + keys)
  {
    var all := h.keys + keys;
    assert forall x :: x in all <==> x in h.keys || x in keys;
    var d := Dedup(all);
    (h.(keys := d), d)
  }

  /** When the current keys hold no duplicate, they keep their places at the front. */
  lemma AddKeysKeepsCurrent(h: KeysHeader, keys: seq<string>)
    requires NoDuplicates(h.keys)
    ensures var r := AddKeys(h, keys).1;
      |h.keys| <= |r| && r[..|h.keys|] == h.keys
  {
    DedupPrefix(h.keys, keys);
  }

  /** Dedup of `p + q` with `p` free of duplicates starts with `p`. */
  lemma {:induction false} DedupPrefix(p: seq<string>, q: seq<string>)
    requires NoDuplicates(p)
    ensures |p| <= |Dedup(p + q)| && Dedup(p + q)[..|p|] == p
    decreases |q|
  {
    if q == [] {
      assert p + q == p;
      DedupKeepsDistinct(p);
    } else {
      var s := p + q;
      var q' := q[..|q| - 1];
      assert s[..|s| - 1] == p + q';
      DedupPrefix(p, q');
      var d := Dedup(p + q');
      DedupStep(s);
      if Dedup(s) != d {
        SnocKeepsPrefix(d, s[|s| - 1], |p|);
      }
    }
  }

  lemma SnocKeepsPrefix(d: seq<string>, x: string, n: nat)
    requires n <= |d|
    ensures (d + [x])[..n] == d[..n]
  {
  }

  lemma DedupStep(s: seq<string>)
    requires s != []
    ensures Dedup(s) == Dedup(s[..|s| - 1]) || Dedup(s) == Dedup(s[..|s| - 1]) + [s[|s| - 1]]
  {
  }

  /** `set_keys` then `get_keys` gives the list back. */
  function SetKeys(h: KeysHeader, keys: seq<string>): (r: KeysHeader)
    ensures r.keys == keys && r.base == h.base
  {
    h.(keys := keys)
  }

  /** `send_header`: the value becomes the prepared keys, sent under `Surrogate-Key`. */
  function Send(h: KeysHeader): (r: (KeysHeader, string))
    ensures r.0.base.value == PrepareKeys(h.keys) && r.0.keys == h.keys && r.0.base.name == h.base.name
    ensures r.1 == Header.Line(h.base.name, PrepareKeys(h.keys))
  {
    var h' := h.(base := Header.SetValue(h.base, PrepareKeys(h.keys)));
    (h', Header.Line(h'.base.name, h'.base.value))
  }

  /** A fresh header that gathered keys sends them under `Surrogate-Key`, sanitised and space-separated. */
  lemma FreshSendsSurrogateKey(keys: seq<string>)
    requires |keys| > 0
    ensures var line := Send(SetKeys(Fresh, keys)).1;
      StartsWith(line, Name + ": ") && Split(line[|Name| + 2..], ' ') == SanitizeAll(keys)
  {
    var line := Send(SetKeys(Fresh, keys)).1;
    assert line == Name + ": " + PrepareKeys(keys);
    assert line[|Name| + 2..] == PrepareKeys(keys);
    PrepareKeysSplits(keys);
  }
}

=== FILE: legacy_admin.dfy ===
/**
 * lib/admin.php: the admin panel of the legacy plugin. It keeps the page
 * the panel shows (`welcome` or `configure`) in the `fastly_page` option,
 * signs a new customer up through the API adapter, and shows the test URL
 * under which the blog is reachable through Fastly. WordPress options are a
 * map; the markup is not modelled.
 */
module LegacyAdmin {
  import opened Php
  import Assoc
  import LegacyApi

  /** The WordPress options the panel reads and writes. */
  type Options = map<string, Value>

  /** `get_option( $k )`: false when the option is not set. */
  function GetOption(o: Options, k: string): (r: Value)
    ensures k in o ==> r == o[k]
    ensures k !in o ==> r == Bool(false)
  {
    if k in o then o[k] else Bool(false)
  }

  // ---------------------------------------------------------------------------
  // Pages

  /** The keys of the front-end templates, in order. */
  const Templates: seq<Value> := [Str("welcome"), Str("configure")]

  /** `validPage( $p )`: `in_array` against the template keys, loosely. */
  predicate ValidPage(p: Value) {
    InArray7(p, Templates)
  }

  /**
   * Exactly the two page names are valid, and `true` and `0`, which PHP 7's
   * loose comparison finds equal to any non-empty name.
   */
  lemma ValidPageIff(p: Value)
    ensures ValidPage(p) <==>
      p == Str("welcome") || p == Str("configure") || p == Bool(true) || p == Int(0)
  {
    WordStarts();
    LooseEqWord(p, "welcome");
    LooseEqWord(p, "configure");
    if ValidPage(p) {
      var i :| 0 <= i < |Templates| && LooseEq7(p, Templates[i]);
    } else {
      assert !LooseEq7(p, Templates[0]) && !LooseEq7(p, Templates[1]);
    }
  }

  lemma WordStarts()
    ensures "welcome"[0] == 'w' && "configure"[0] == 'c'
  {
  }

  /**
   * A non-empty string that starts with neither a blank, a digit, a sign
   * nor a point is loosely equal only to itself, to `true` and to `0`.
   */
  lemma LooseEqWord(p: Value, w: string)
    requires w != [] && !IsSpace(w[0]) && w[0] != '-' && w[0] != '+' && w[0] != '.' && !IsDigit(w[0])
    ensures LooseEq7(p, Str(w)) <==> p == Str(w) || p == Bool(true) || p == Int(0)
  {
    match p
    case Int(i) => WordIsZero7(i, w);
    case Str(s) =>
      WordNotNumeric(w);
      StrAgainstWord7(s, w);
    case Bool(b) =>
      assert w != "0" by { assert w[0] != '0'; }
      FullStringAgainstBoolOrNull7(p, w);
    case Null =>
      assert w != "0" by { assert w[0] != '0'; }
      FullStringAgainstBoolOrNull7(p, w);
  }

  /**
   * `ajaxSetPage()`: store the requested page when one is set and valid.
   * Either way the request ends with `die`, which prints nothing: `die(1)`
   * only sets the exit status.
   */
  function AjaxSetPage(page: Option<Value>, o: Options): (r: Options)
    ensures page.Some? && page.value != Null && ValidPage(page.value) ==>
      GetOption(r, "fastly_page") == page.value
    ensures !(page.Some? && page.value != Null && ValidPage(page.value)) ==> r == o
    ensures forall k :: k != "fastly_page" ==> GetOption(r, k) == GetOption(o, k)
    ensures ValidPage(GetOption(r, "fastly_page")) <==>
      ValidPage(GetOption(o, "fastly_page")) || (page.Some? && page.value != Null && ValidPage(page.value))
  {
    if page.Some? && page.value != Null && ValidPage(page.value) then o["fastly_page" := page.value]
    else o
  }

  /** The page the panel shows after `adminInit()`, and the options afterwards. */
  datatype Init = Init(page: Value, options: Options)

  /** `adminInit()`: a stored page that is not valid is replaced by `welcome`. */
  function AdminInit(o: Options): (r: Init)
    ensures ValidPage(r.page)
    ensures ValidPage(GetOption(o, "fastly_page")) ==> r == Init(GetOption(o, "fastly_page"), o)
    ensures !ValidPage(GetOption(o, "fastly_page")) ==>
      r == Init(Str("welcome"), o["fastly_page" := Str("welcome")])
  {
    var page := GetOption(o, "fastly_page");
    if ValidPage(page) then Init(page, o)
    else
      assert ValidPage(Str("welcome")) by { assert LooseEq7(Str("welcome"), Templates[0]); }
      Init(Str("welcome"), o["fastly_page" := Str("welcome")])
  }

  /** Running `adminInit()` again changes nothing. */
  lemma AdminInitIdempotent(o: Options)
    ensures AdminInit(AdminInit(o).options) == AdminInit(o)
  {
  }

  /** A page chosen through `ajaxSetPage()` is the page the next `adminInit()` shows. */
  lemma SetPageThenInit(p: Value, o: Options)
    requires p != Null && ValidPage(p)
    ensures AdminInit(AjaxSetPage(Some(p), o)).page == p
  {
  }

  /** The panel's state after its constructor: the options and the API adapter. */
  datatype Admin = Admin(options: Options, api: LegacyApi.FastlyApi)

  /** The constructor: it forces the page to `configure` and builds the API adapter from the options. */
  function New(o: Options): (r: Admin)
    ensures r.options == o["fastly_page" := Str("configure")]
    ensures r.api.apiKey == GetOption(o, "fastly_api_key") && r.api.port == GetOption(o, "fastly_api_port")
    ensures r.api.host == ToStr(GetOption(o, "fastly_api_hostname"))
  {
    var api := LegacyApi.New(GetOption(o, "fastly_api_key"), ToStr(GetOption(o, "fastly_api_hostname")),
      GetOption(o, "fastly_api_port"));
    Admin(o["fastly_page" := Str("configure")], api)
  }

  /**
   * Under PHP 7 the PHP-4 style constructor runs on every request, so
   * whatever page was stored before, the panel shows `configure`.
   */
  lemma PanelAlwaysConfigures(o: Options)
    ensures AdminInit(New(o).options).page == Str("configure")
  {
    assert LooseEq7(Str("configure"), Templates[1]);
  }

  // ---------------------------------------------------------------------------
  // Sign up

  const DefaultError: string :=
    "An error occurred while connecting to the fastly API, please try your request again."
  const CustomerExists: string := "A customer with that name already exists."
  const InvalidEmail: string := "Invalid e-mail address."
  const UserExists: string := "A user with the given e-mail address already exists."
  const CannotConnect: string := "Could not connect to Fastly API."

  /** The request fields posted to `/signup`: `action` removed, `wizard` set to `wordpress`. */
  function SignUpData(request: Assoc.Assoc<Value>): (r: Assoc.Assoc<Value>)
    ensures Assoc.Get(r, "action") == None
    ensures Assoc.Get(r, "wizard") == Some(Str("wordpress"))
    ensures forall k :: k != "action" && k != "wizard" ==> Assoc.Get(r, k) == Assoc.Get(request, k)
  {
    Assoc.Put(Assoc.Remove(request, "action"), "wizard", Str("wordpress"))
  }

  /** `explode('/', $address)[2]` when the address has at least three `/`-separated parts. */
  function HostOf(address: string): (r: Option<string>)
    ensures r.Some? <==> |Split(address, '/')| >= 3
    ensures r.Some? ==> r.value == Split(address, '/')[2] && '/' !in r.value
  {
    var parts := Split(address, '/');
    if |parts| >= 3 then Some(parts[2]) else None
  }

  /** The host of `scheme://host/path` is the part between `//` and the next `/`. */
  lemma HostOfUrl(scheme: string, host: string, path: string)
    requires '/' !in scheme && '/' !in host
    ensures HostOf(scheme + "//" + host + "/" + path) == Some(host)
  {
    var s := scheme + "//" + host + "/" + path;
    assert s == scheme + ['/'] + ([] + ['/'] + (host + ['/'] + path));
    SplitAtSeparator(scheme, [] + ['/'] + (host + ['/'] + path), '/');
    SplitAtSeparator([], host + ['/'] + path, '/');
    SplitAtSeparator(host, path, '/');
  }

  /** An address without two `/` (a bare domain) leaves the stored host name alone. */
  lemma HostOfBareName(address: string)
    requires '/' !in address
    ensures HostOf(address) == None
  {
    SplitNoSeparator(address, '/');
  }

  /** What a sign-up request ends with. */
  datatype SignUp = SignUp(sent: LegacyApi.Post, options: Options, answer: Answer)

  /** The answer `die` prints, before JSON encoding. */
  datatype Answer =
    | Succeeded                    // array('status' => 'success')
    | Failed(msg: string)          // array('status' => 'error', 'msg' => ...)
    | Raw(response: Value)         // the response itself, when no case matched
    | Died(message: string)        // wp_die( ... )

  /**
   * The `switch ($code)` of `ajaxSignUp()`: each case compares loosely.
   * It gives the options afterwards and the answer; when no case matches
   * the response itself is the answer.
   */
  function SwitchOnCode(code: Value, response: Value, o: Options, body: Body, address: string)
    : (r: (Options, Answer))
    ensures LooseEq7(code, Int(200)) ==> r == (Stored(o, body, address), Succeeded)
    ensures !LooseEq7(code, Int(200)) && LooseEq7(code, Int(400)) ==> r == (o, Failed(BadRequestMessage(body)))
    ensures !LooseEq7(code, Int(200)) && !LooseEq7(code, Int(400)) && LooseEq7(code, Int(404)) ==>
      r == (o, Failed(DefaultError))
    ensures r.1.Raw? <==> !LooseEq7(code, Int(200)) && !LooseEq7(code, Int(400)) && !LooseEq7(code, Int(404))
    ensures r.1.Raw? ==> r == (o, Raw(response))
  {
    if LooseEq7(code, Int(200)) then (Stored(o, body, address), Succeeded)
    else if LooseEq7(code, Int(400)) then (o, Failed(BadRequestMessage(body)))
    else if LooseEq7(code, Int(404)) then (o, Failed(DefaultError))
    else (o, Raw(response))
  }

  /**
   * `ajaxSignUp()` as written: `post` returns a boolean (lib/api.php), so
   * `$response === -1` never holds, `$response['code']` is null, no case of
   * the switch matches and the boolean itself is printed.
   */
  function SignUpAsWritten(api: LegacyApi.FastlyApi, request: Assoc.Assoc<Value>, o: Options, curlBody: Value)
    : (r: SignUp)
    ensures r.sent == LegacyApi.MakePost(api, "/signup", SignUpData(request))
    ensures r.answer.Raw? && r.answer.response.Bool?
  {
    var sent := LegacyApi.MakePost(api, "/signup", SignUpData(request));
    var response := Bool(LegacyApi.PostResult(curlBody));
    var address := ToStr(Assoc.Field(request, "website_address"));
    NullMatchesNoCode();
    var (o', answer) := SwitchOnCode(Null, response, o, Body(Null, Null, Null, Null), address);
    SignUp(sent, o', answer)
  }

  /** A null code is loosely equal to none of the codes the switch lists. */
  lemma NullMatchesNoCode()
    ensures !LooseEq7(Null, Int(200)) && !LooseEq7(Null, Int(400)) && !LooseEq7(Null, Int(404))
  {
  }

  /** As written, no sign-up, whatever Fastly replies, stores an API key or a service. */
  lemma SignUpNeverStores(api: LegacyApi.FastlyApi, request: Assoc.Assoc<Value>, o: Options, curlBody: Value)
    ensures SignUpAsWritten(api, request, o, curlBody).options == o
    ensures SignUpAsWritten(api, request, o, curlBody).answer == Raw(Bool(!Empty(curlBody)))
  {
  }

  /** The decoded body of a sign-up reply: the fields the panel reads. */
  datatype Body = Body(apiKey: Value, serviceId: Value, kind: Value, loginErrors: Value)

  /** The message for a 400 reply, chosen by the class of the failing record. */
  function BadRequestMessage(body: Body): (r: string)
    ensures LooseEq7(body.kind, Str("Customer")) ==> r == CustomerExists
    ensures !LooseEq7(body.kind, Str("Customer")) && LooseEq7(body.kind, Str("User")) ==>
      r == (if Empty(body.loginErrors) then UserExists else InvalidEmail)
    ensures !LooseEq7(body.kind, Str("Customer")) && !LooseEq7(body.kind, Str("User")) ==> r == DefaultError
  {
    if LooseEq7(body.kind, Str("Customer")) then CustomerExists
    else if LooseEq7(body.kind, Str("User")) then
      if !Empty(body.loginErrors) then InvalidEmail else UserExists
    else DefaultError
  }

  /** The options a successful sign-up stores. */
  function Stored(o: Options, body: Body, address: string): (r: Options)
    ensures "fastly_api_key" in r && r["fastly_api_key"] == body.apiKey
    ensures "fastly_service_id" in r && r["fastly_service_id"] == body.serviceId
    ensures "fastly_page" in r && r["fastly_page"] == Str("configure")
    ensures HostOf(address).Some? ==> r == o["fastly_api_key" := body.apiKey]
      ["fastly_service_id" := body.serviceId]["fastly_page" := Str("configure")]
      ["fastly_hostname" := Str(HostOf(address).value)]
    ensures HostOf(address).None? ==> r == o["fastly_api_key" := body.apiKey]
      ["fastly_service_id" := body.serviceId]["fastly_page" := Str("configure")]
  {
    var o1 := o["fastly_api_key" := body.apiKey]["fastly_service_id" := body.serviceId]["fastly_page" := Str("configure")];
    match HostOf(address)
    case Some(h) => o1["fastly_hostname" := Str(h)]
    case None => o1
  }

  /**
   * `ajaxSignUp()` as intended: `post` hands back the reply's code and
   * decoded body, or nothing when Fastly cannot be reached.
   */
  function IntendedSignUp(api: LegacyApi.FastlyApi, request: Assoc.Assoc<Value>, o: Options,
                          reply: Option<(int, Body)>): (r: SignUp)
    ensures r.sent == LegacyApi.MakePost(api, "/signup", SignUpData(request))
    ensures reply.None? ==> r.answer == Died(CannotConnect) && r.options == o
    ensures r.answer == Succeeded <==> reply.Some? && reply.value.0 == 200
    ensures r.answer.Failed? <==> reply.Some? && (reply.value.0 == 400 || reply.value.0 == 404)
    ensures r.options != o ==> r.answer == Succeeded
  {
    var sent := LegacyApi.MakePost(api, "/signup", SignUpData(request));
    match reply
    case None => SignUp(sent, o, Died(CannotConnect))
    case Some((code, body)) =>
      var address := ToStr(Assoc.Field(request, "website_address"));
      IntCodes(code);
      var (o', answer) := SwitchOnCode(Int(code), Int(code), o, body, address);
      SignUp(sent, o', answer)
  }

  /** An integer code matches a case of the switch exactly when it is that number. */
  lemma IntCodes(code: int)
    ensures LooseEq7(Int(code), Int(200)) <==> code == 200
    ensures LooseEq7(Int(code), Int(400)) <==> code == 400
    ensures LooseEq7(Int(code), Int(404)) <==> code == 404
  {
  }

  /** After a successful sign-up the panel shows the configuration page. */
  lemma StoredConfigures(o: Options, body: Body, address: string)
    ensures AdminInit(Stored(o, body, address)).page == Str("configure")
  {
    assert LooseEq7(Str("configure"), Templates[1]);
  }

  /** The host name stored for a blog at `http://host/path` is `host`. */
  lemma StoredHost(o: Options, body: Body, host: string, path: string)
    requires '/' !in host
    ensures var r := Stored(o, body, "http://" + host + "/" + path);
      "fastly_hostname" in r && r["fastly_hostname"] == Str(host)
  {
    assert "http://" + host + "/" + path == "http:" + "//" + host + "/" + path;
    HostOfUrl("http:", host, path);
  }

  /**
   * Corrected, a successful sign-up stores the key and the service, turns
   * the panel to `configure`, and takes the host name from the blog URL.
   */
  lemma IntendedSignUpStores(api: LegacyApi.FastlyApi, request: Assoc.Assoc<Value>, o: Options,
                             body: Body, host: string, path: string)
    requires Assoc.Field(request, "website_address") == Str("http://" + host + "/" + path)
    requires '/' !in host
    ensures IntendedSignUp(api, request, o, Some((200, body))).answer == Succeeded
    ensures var r := IntendedSignUp(api, request, o, Some((200, body))).options;
      "fastly_api_key" in r && r["fastly_api_key"] == body.apiKey
      && "fastly_service_id" in r && r["fastly_service_id"] == body.serviceId
      && "fastly_hostname" in r && r["fastly_hostname"] == Str(host)
      && AdminInit(r).page == Str("configure")
  {
    var address := "http://" + host + "/" + path;
    assert IntendedSignUp(api, request, o, Some((200, body))).options == Stored(o, body, address);
    StoredHost(o, body, host, path);
    StoredConfigures(o, body, address);
  }

  // ---------------------------------------------------------------------------
  // The test URL

  /**
   * The test URL of the `configure` page: `http://` is stripped from the
   * blog URL, the rest is split at its first `/` into a host and a path
   * (empty when there is none), and the host gets Fastly's test domain.
   */
  function TestUrl(wpurl: string): (r: string)
    ensures StartsWith(r, "http://")
  {
    var address := if StartsWith(wpurl, "http://") then wpurl[7..] else wpurl;
    var k := IndexOf(address, '/');
    var host := address[..k];
    var path := if k < |address| then address[k + 1..] else "";
    var r := "http://" + host + ".a.prod.fastly.net/" + path;
    assert r[..7] == "http://";
    r
  }

  /** A blog at `http://host/path` is probed at `http://host.a.prod.fastly.net/path`. */
  lemma TestUrlOfBlog(host: string, path: string)
    requires '/' !in host
    ensures TestUrl("http://" + host + "/" + path) == "http://" + host + ".a.prod.fastly.net/" + path
  {
    var wpurl := "http://" + host + "/" + path;
    assert StartsWith(wpurl, "http://") by { assert wpurl[..7] == "http://"; }
    var address := wpurl[7..];
    assert address == host + "/" + path;
    IndexOfAfter(host, path);
    assert address[..|host|] == host;
    assert address[|host| + 1..] == path;
  }

  /** A blog at its root, `http://host`, is probed at `http://host.a.prod.fastly.net/`. */
  lemma TestUrlOfRoot(host: string)
    requires '/' !in host
    ensures TestUrl("http://" + host) == "http://" + host + ".a.prod.fastly.net/"
  {
    var wpurl := "http://" + host;
    assert StartsWith(wpurl, "http://") by { assert wpurl[..7] == "http://"; }
    assert wpurl[7..] == host;
    assert host[..|host|] == host;
  }

  /** The first `/` of `host/path` is the one after the host. */
  lemma {:induction false} IndexOfAfter(host: string, path: string)
    requires '/' !in host
    ensures IndexOf(host + "/" + path, '/') == |host|
  {
    var s := host + "/" + path;
    if host == [] {
      assert s[0] == '/';
    } else {
      assert s[0] == host[0] && s[1..] == host[1..] + "/" + path;
      IndexOfAfter(host[1..], path);
    }
  }
}

=== FILE: legacy_api.dfy ===
/**
 * lib/api.php: the API adapter of the legacy plugin. It remembers the API
 * key, the API host and port, and the host name without its scheme. Every
 * call is a POST to `host:port/path` carrying `Host`, `Accept` and, when a
 * key is set, `X-Fastly-Key` headers. curl is a parameter.
 */
module LegacyApi {
  import opened Php

  /** A `FastlyAPI` object. */
  datatype FastlyApi = FastlyApi(apiKey: Value, host: string, port: Value, hostName: string)

  /** A POST as curl would send it. */
  datatype Post = Post(url: string, headers: seq<string>, data: seq<(string, Value)>)

  /** A single URI or an array of URIs, as `purge` accepts them. */
  datatype Uris = One(uri: string) | Many(uris: seq<string>)

  /** `preg_replace('/^(ssl|https?):\/\//', '', $host)`. */
  function StripScheme(host: string): (r: string)
    ensures |r| <= |host| && r == host[|host| - |r|..]
  {
    if StartsWith(host, "ssl://") then host[6..]
    else if StartsWith(host, "http://") then host[7..]
    else if StartsWith(host, "https://") then host[8..]
    else host
  }

  /** A host with one of the three schemes loses exactly that scheme. */
  lemma StripSchemeRemoves(scheme: string, name: string)
    requires scheme in ["ssl", "http", "https"]
    ensures StripScheme(scheme + "://" + name) == name
  {
    var h := scheme + "://" + name;
    if scheme == "ssl" {
      assert h[..6] == "ssl://" && h[6..] == name;
    } else if scheme == "http" {
      assert h[..6] != "ssl://" by { assert h[0] == 'h'; }
      assert h[..7] == "http://" && h[7..] == name;
    } else {
      assert h[..6] != "ssl://" by { assert h[0] == 'h'; }
      assert h[..7] != "http://" by { assert h[4] == 's'; }
      assert h[..8] == "https://" && h[8..] == name;
    }
  }

  /** A host without a scheme is kept as it is. */
  lemma StripSchemeKeeps(host: string)
    requires !StartsWith(host, "ssl://") && !StartsWith(host, "http://") && !StartsWith(host, "https://")
    ensures StripScheme(host) == host
  {
  }

  /** The constructor; the defaults are `''`, `'https://api.fastly.com'` and `null`. */
  function New(apiKey: Value, host: string, port: Value): (r: FastlyApi)
    ensures r.apiKey == apiKey && r.host == host && r.port == port
    ensures r.hostName == StripScheme(host)
  {
    FastlyApi(apiKey, host, port, StripScheme(host))
  }

  const DefaultHost: string := "https://api.fastly.com"

  /** The default API host is addressed as `api.fastly.com`. */
  lemma DefaultHostName()
    ensures New(Str(""), DefaultHost, Null).hostName == "api.fastly.com"
  {
    assert DefaultHost == "https" + "://" + "api.fastly.com";
    StripSchemeRemoves("https", "api.fastly.com");
  }

  /** `Host`, `Accept`, and the key header when a key is set. */
  function Headers(api: FastlyApi): (r: seq<string>)
    ensures |r| >= 2 && r[0] == "Host: " + api.hostName && r[1] == "Accept: */*"
    ensures |r| == 3 <==> !Empty(api.apiKey)
    ensures |r| == 3 ==> r[2] == "X-Fastly-Key: " + ToStr(api.apiKey)
    ensures |r| <= 3
  {
    var base := ["Host: " + api.hostName, "Accept: */*"];
    if !Empty(api.apiKey) then base + ["X-Fastly-Key: " + ToStr(api.apiKey)] else base
  }

  /** The port guard as written: `!is_null( $port ) || $port == ""`. */
  predicate PortGuard(port: Value) {
    !port.Null? || LooseEq7(port, Str(""))
  }

  /** The guard cannot fail: a null port is loosely equal to "". */
  lemma PortGuardAlwaysTrue(port: Value)
    ensures PortGuard(port)
  {
  }

  /** The URL `post` builds, as written: the port part is always appended. */
  function PostUrl(api: FastlyApi, path: string): (r: string)
    ensures r == api.host + ":" + ToStr(api.port) + path
  {
    PortGuardAlwaysTrue(api.port);
    api.host + (if PortGuard(api.port) then ":" + ToStr(api.port) else "") + path
  }

  /** With no port configured the URL carries an empty port: `host:/path`. */
  lemma NoPortGivesEmptyPort(api: FastlyApi, path: string)
    requires api.port == Null
    ensures PostUrl(api, path) == api.host + ":" + path
  {
  }

  /** The port part as intended: `:port` only for a port that is set and not "". */
  function IntendedPostUrl(api: FastlyApi, path: string): (r: string)
    ensures api.port.Null? || api.port == Str("") ==> r == api.host + path
    ensures !api.port.Null? && api.port != Str("") ==> r == api.host + ":" + ToStr(api.port) + path
  {
    api.host + (if !api.port.Null? && api.port != Str("") then ":" + ToStr(api.port) else "") + path
  }

  /** Corrected, a host without a port is addressed as it is. */
  lemma IntendedNoPort(api: FastlyApi, path: string)
    requires api.port == Null
    ensures IntendedPostUrl(api, path) == api.host + path
    ensures IntendedPostUrl(api, path) != PostUrl(api, path)
  {
    assert |IntendedPostUrl(api, path)| < |PostUrl(api, path)|;
  }

  /** `post( $path, $data )`: the request sent. */
  function MakePost(api: FastlyApi, path: string, data: seq<(string, Value)>): (r: Post)
    ensures r.url == PostUrl(api, path) && r.headers == Headers(api) && r.data == data
  {
    Post(PostUrl(api, path), Headers(api), data)
  }

  /** The POSTs the loop of `purge` sends: one to `/purge/<uri>` for each URI, in order. */
  function PurgePosts(api: FastlyApi, uris: seq<string>): (r: seq<Post>)
    ensures |r| == |uris|
    ensures forall i :: 0 <= i < |uris| ==> r[i] == MakePost(api, "/purge/" + uris[i], [])
  {
    if uris == [] then [] else [MakePost(api, "/purge/" + uris[0], [])] + PurgePosts(api, uris[1..])
  }

  /** `purge( $uris )`: nothing without a key; one URI is wrapped into a list. */
  function Purge(api: FastlyApi, uris: Uris): (r: seq<Post>)
    ensures Empty(api.apiKey) ==> r == []
    ensures !Empty(api.apiKey) ==>
      var list := if uris.One? then [uris.uri] else uris.uris;
      |r| == |list| && forall i :: 0 <= i < |list| ==> r[i] == MakePost(api, "/purge/" + list[i], [])
  {
    if Empty(api.apiKey) then []
    else PurgePosts(api, if uris.One? then [uris.uri] else uris.uris)
  }

  /** One URI is purged exactly like a one-element list holding it. */
  lemma PurgeOneIsList(api: FastlyApi, uri: string)
    ensures Purge(api, One(uri)) == Purge(api, Many([uri]))
  {
  }

  /** Purging two lists one after the other sends what purging their concatenation sends. */
  lemma PurgeConcat(api: FastlyApi, a: seq<string>, b: seq<string>)
    ensures Purge(api, Many(a + b)) == Purge(api, Many(a)) + Purge(api, Many(b))
  {
    PurgePostsConcat(api, a, b);
  }

  lemma {:induction false} PurgePostsConcat(api: FastlyApi, a: seq<string>, b: seq<string>)
    ensures PurgePosts(api, a + b) == PurgePosts(api, a) + PurgePosts(api, b)
  {
    if a == [] {
      assert a + b == b;
    } else {
      assert (a + b)[0] == a[0] && (a + b)[1..] == a[1..] + b;
      PurgePostsConcat(api, a[1..], b);
    }
  }

  /** `purgeAll( $service_id )`: one POST, whether or not a key is set. */
  function PurgeAll(api: FastlyApi, serviceId: Value): (r: Post)
    ensures r.url == api.host + ":" + ToStr(api.port) + "/service/" + ToStr(serviceId) + "/purge_all"
    ensures r.headers == Headers(api) && r.data == []
  {
    MakePost(api, "/service/" + ToStr(serviceId) + "/purge_all", [])
  }

  /** A purge-all is sent even without a key, but then it carries no key header. */
  lemma PurgeAllWithoutKey(api: FastlyApi, serviceId: Value)
    requires Empty(api.apiKey)
    ensures |PurgeAll(api, serviceId).headers| == 2
  {
  }

  /** What `post` returns: `!!curl_exec(...)`, true for any non-empty body. */
  function PostResult(response: Value): bool {
    !Empty(response)
  }
}

=== FILE: legacy_purge.dfy ===
/**
 * lib/purge.php: the purger of the legacy plugin. WordPress events are
 * turned into purges of single URLs (relative ones are prefixed with the
 * blog URL) or into a purge of the whole service. The decisions are
 * modelled as the list of calls the purger makes; `Execute` turns that list
 * into the POSTs the API adapter sends. WordPress lookups are parameters.
 */
module LegacyPurge {
  import opened Php
  import LegacyApi

  /** `get_comment( $id )`: its approval status and the ID of its post. */
  datatype Comment = Comment(approved: Value, postId: Value)

  /** What the purger looks up in WordPress. */
  datatype Blog = Blog(
    wpurl: string,                                  // get_bloginfo('wpurl')
    permalink: Value -> string,                     // get_permalink
    categories: Value -> seq<Value>,                // the cat_ID of each of get_the_category
    categoryLink: Value -> string,                  // get_category_link
    tags: Value -> seq<Value>,                      // the term_id of each of wp_get_post_tags
    tagLink: Value -> string,                       // get_tag_link
    postTime: (string, bool, Value) -> string,      // get_post_time( format, gmt, post )
    dayLink: (string, string, string) -> string,    // get_day_link
    monthLink: (string, string) -> string,          // get_month_link
    yearLink: string -> string,                     // get_year_link
    activeWidget: string -> bool,                   // is_active_widget( false, false, name )
    comment: Value -> Option<Comment>,              // get_comment, None for no comment
    serviceId: Value)                               // get_option('fastly_service_id')

  /** One call the purger makes: `purge( $url )` or `purgeAll()`. */
  datatype Call = Url(url: string) | All

  // ---------------------------------------------------------------------------
  // Single purges

  /** The URL `purge` hands to the API: relative URLs are prefixed with the blog URL. */
  function Absolute(b: Blog, url: string): (r: string)
    ensures StartsWith(url, "http") ==> r == url
    ensures !StartsWith(url, "http") ==> r == b.wpurl + url
  {
    if StartsWith(url, "http") then url else b.wpurl + url
  }

  /** With a blog URL that starts with "http", every purged URL does too. */
  lemma AbsoluteIsAbsolute(b: Blog, url: string)
    requires StartsWith(b.wpurl, "http")
    ensures StartsWith(Absolute(b, url), "http")
  {
    if !StartsWith(url, "http") {
      assert (b.wpurl + url)[..4] == b.wpurl[..4];
    }
  }

  /** Prefixing twice is prefixing once, when the blog URL starts with "http". */
  lemma AbsoluteIdempotent(b: Blog, url: string)
    requires StartsWith(b.wpurl, "http")
    ensures Absolute(b, Absolute(b, url)) == Absolute(b, url)
  {
    AbsoluteIsAbsolute(b, url);
  }

  /** A site-relative path is always prefixed with the blog URL. */
  lemma PathIsPrefixed(b: Blog, path: string)
    requires |path| > 0 && path[0] == '/'
    ensures Absolute(b, path) == b.wpurl + path
  {
  }

  /** `purge( $url )`. */
  function Purge(b: Blog, url: string): (r: Call)
    ensures r.Url? && (r.url == url || r.url == b.wpurl + url)
  {
    Url(Absolute(b, url))
  }

  /** `purgeCommon()`: the front page and the two feeds, in that order. */
  function Common(b: Blog): (r: seq<Call>)
    ensures |r| == 3
    ensures r[0] == Url(b.wpurl + "/") && r[1] == Url(b.wpurl + "/feed/") && r[2] == Url(b.wpurl + "/feed/atom/")
  {
    PathIsPrefixed(b, "/");
    PathIsPrefixed(b, "/feed/");
    PathIsPrefixed(b, "/feed/atom/");
    [Purge(b, "/"), Purge(b, "/feed/"), Purge(b, "/feed/atom/")]
  }

  /** `purgePost( $postId )`: the post's permalink. */
  function PurgePost(b: Blog, postId: Value): (r: seq<Call>)
    ensures |r| == 1 && r[0] == Url(Absolute(b, b.permalink(postId)))
  {
    [Purge(b, b.permalink(postId))]
  }

  /** `purgeCategory( $id )`: everything if the categories widget is shown, else the category page. */
  function Category(b: Blog, categoryId: Value): (r: Call)
    ensures r.All? <==> b.activeWidget("categories")
    ensures r.Url? ==> r.url == Absolute(b, b.categoryLink(categoryId))
  {
    if b.activeWidget("categories") then All else Purge(b, b.categoryLink(categoryId))
  }

  /** With the categories widget shown, which category changed does not matter. */
  lemma CategoryWidgetIgnoresId(b: Blog, x: Value, y: Value)
    requires b.activeWidget("categories")
    ensures Category(b, x) == Category(b, y) == All
  {
  }

  /** `purgeTagCategory( $id )`: the tag page. */
  function TagCategory(b: Blog, tagId: Value): (r: Call)
    ensures r == Url(Absolute(b, b.tagLink(tagId)))
  {
    Purge(b, b.tagLink(tagId))
  }

  /** `purgeLinks()`: everything when the links widget is shown, else nothing. */
  function Links(b: Blog): (r: seq<Call>)
    ensures |r| <= 1
    ensures r != [] <==> b.activeWidget("links")
    ensures r != [] ==> r[0] == All
  {
    if b.activeWidget("links") then [All] else []
  }

  /** `purgeLinkCategory( $id )`: the same decision as `purgeLinks`, whatever the category. */
  function LinkCategory(b: Blog, categoryId: Value): (r: seq<Call>)
    ensures r == Links(b)
  {
    if b.activeWidget("links") then [All] else []
  }

  // ---------------------------------------------------------------------------
  // Purges for a post

  /** `purgeCategories( $postId )`: one category purge per category of the post, in order. */
  function Categories(b: Blog, postId: Value): (r: seq<Call>)
    ensures |r| == |b.categories(postId)|
    ensures forall i :: 0 <= i < |r| ==> r[i] == Category(b, b.categories(postId)[i])
  {
    var cats := b.categories(postId);
    seq(|cats|, i requires 0 <= i < |cats| => Category(b, cats[i]))
  }

  /** `purgeTags( $postId )`: one tag purge per tag of the post, in order. */
  function Tags(b: Blog, postId: Value): (r: seq<Call>)
    ensures |r| == |b.tags(postId)|
    ensures forall i :: 0 <= i < |r| ==> r[i] == TagCategory(b, b.tags(postId)[i])
  {
    var tags := b.tags(postId);
    seq(|tags|, i requires 0 <= i < |tags| => TagCategory(b, tags[i]))
  }

  /** Tag purges never escalate to a purge of everything. */
  lemma TagsAreUrls(b: Blog, postId: Value, i: nat)
    requires i < |Tags(b, postId)|
    ensures Tags(b, postId)[i].Url?
  {
  }

  /**
   * `purgeArchives( $postId )` as written: the year is read in local time
   * but the month and day in GMT, for the day link and the month link.
   */
  function Archives(b: Blog, postId: Value): (r: seq<Call>)
    ensures |r| == 3 && r[0].Url? && r[1].Url? && r[2].Url?
    ensures r[0] == Url(Absolute(b, b.dayLink(b.postTime("Y", false, postId), b.postTime("m", true, postId),
                                              b.postTime("d", true, postId))))
    ensures r[1] == Url(Absolute(b, b.monthLink(b.postTime("Y", false, postId), b.postTime("m", true, postId))))
    ensures r[2] == Url(Absolute(b, b.yearLink(b.postTime("Y", false, postId))))
  {
    var y := b.postTime("Y", false, postId);
    var m := b.postTime("m", true, postId);
    var d := b.postTime("d", true, postId);
    [Purge(b, b.dayLink(y, m, d)), Purge(b, b.monthLink(y, m)), Purge(b, b.yearLink(y))]
  }

  /** `purgeArchives` as intended: every part of the date read in the blog's local time. */
  function IntendedArchives(b: Blog, postId: Value): (r: seq<Call>)
    ensures |r| == 3 && r[0].Url? && r[1].Url? && r[2].Url?
    ensures r[0] == Url(Absolute(b, b.dayLink(b.postTime("Y", false, postId), b.postTime("m", false, postId),
                                              b.postTime("d", false, postId))))
    ensures r[1] == Url(Absolute(b, b.monthLink(b.postTime("Y", false, postId), b.postTime("m", false, postId))))
    ensures r[2] == Url(Absolute(b, b.yearLink(b.postTime("Y", false, postId))))
  {
    var y := b.postTime("Y", false, postId);
    var m := b.postTime("m", false, postId);
    var d := b.postTime("d", false, postId);
    [Purge(b, b.dayLink(y, m, d)), Purge(b, b.monthLink(y, m)), Purge(b, b.yearLink(y))]
  }

  /** Two blogs that differ only in their clocks' GMT readings. */
  ghost predicate SameLocalDates(b: Blog, c: Blog, postId: Value) {
    b.wpurl == c.wpurl && b.dayLink == c.dayLink && b.monthLink == c.monthLink && b.yearLink == c.yearLink
    && forall f :: b.postTime(f, false, postId) == c.postTime(f, false, postId)
  }

  /** The intended archive pages depend only on the post's local date. */
  lemma IntendedArchivesIgnoreGmt(b: Blog, c: Blog, postId: Value)
    requires SameLocalDates(b, c, postId)
    ensures IntendedArchives(b, postId) == IntendedArchives(c, postId)
  {
    assert b.postTime("m", false, postId) == c.postTime("m", false, postId);
    assert b.postTime("d", false, postId) == c.postTime("d", false, postId);
    assert b.postTime("Y", false, postId) == c.postTime("Y", false, postId);
  }

  /** A blog whose post was published at 00:30 on 1 January 2011 local time, 31 December 2010 in GMT. */
  function NewYearBlog(): (b: Blog)
    ensures b.wpurl == "http://blog"
    ensures b.postTime("Y", false, Int(1)) == "2011"
    ensures b.postTime("m", true, Int(1)) == "12" && b.postTime("m", false, Int(1)) == "01"
    ensures b.monthLink("2011", "12") == "/2011/12/" && b.monthLink("2011", "01") == "/2011/01/"
  {
    Blog("http://blog", _ => "", _ => [], _ => "", _ => [], _ => "",
      (f: string, gmt: bool, p: Value) =>
        if f == "Y" then (if gmt then "2010" else "2011")
        else if f == "m" then (if gmt then "12" else "01")
        else (if gmt then "31" else "01"),
      (y: string, m: string, d: string) => "/" + y + "/" + m + "/" + d + "/",
      (y: string, m: string) => "/" + y + "/" + m + "/",
      (y: string) => "/" + y + "/",
      _ => false, _ => None, Str("svc"))
  }

  /**
   * As written, the archives purged for a post published just after midnight
   * on New Year's day (in a time zone east of GMT) are December of that
   * year, a page that has nothing to do with the post, instead of January.
   */
  lemma ArchivesMixClocks()
    ensures Archives(NewYearBlog(), Int(1))[1] == Url("http://blog/2011/12/")
    ensures IntendedArchives(NewYearBlog(), Int(1))[1] == Url("http://blog/2011/01/")
  {
    var b := NewYearBlog();
    ArchiveMonths(b, Int(1));
    PurgePath(b, "/2011/12/");
    PurgePath(b, "/2011/01/");
    NewYearUrls();
  }

  /** Purging a site-relative path purges it under the blog URL. */
  lemma PurgePath(b: Blog, path: string)
    requires |path| > 0 && path[0] == '/'
    ensures Purge(b, path) == Url(b.wpurl + path)
  {
    PathIsPrefixed(b, path);
  }

  lemma NewYearUrls()
    ensures "http://blog" + "/2011/12/" == "http://blog/2011/12/"
    ensures "http://blog" + "/2011/01/" == "http://blog/2011/01/"
  {
  }

  /** The month archive: as written from the local year and the GMT month; as intended from both local. */
  lemma ArchiveMonths(b: Blog, postId: Value)
    ensures Archives(b, postId)[1] ==
      Purge(b, b.monthLink(b.postTime("Y", false, postId), b.postTime("m", true, postId)))
    ensures IntendedArchives(b, postId)[1] ==
      Purge(b, b.monthLink(b.postTime("Y", false, postId), b.postTime("m", false, postId)))
  {
  }

  /** `purgePostDependencies( $postId )`: common pages, categories, archives, tags, in that order. */
  function PostDependencies(b: Blog, postId: Value): (r: seq<Call>)
    ensures |r| == 6 + |b.categories(postId)| + |b.tags(postId)|
    ensures r[..3] == Common(b)
    ensures r[3..3 + |b.categories(postId)|] == Categories(b, postId)
    ensures r[3 + |b.categories(postId)|..6 + |b.categories(postId)|] == Archives(b, postId)
    ensures r[6 + |b.categories(postId)|..] == Tags(b, postId)
  {
    Common(b) + Categories(b, postId) + Archives(b, postId) + Tags(b, postId)
  }

  /** The dependencies with the archives read in local time throughout. */
  function IntendedPostDependencies(b: Blog, postId: Value): (r: seq<Call>)
    ensures |r| == |PostDependencies(b, postId)| == 6 + |b.categories(postId)| + |b.tags(postId)|
    ensures r[..3 + |b.categories(postId)|] == PostDependencies(b, postId)[..3 + |b.categories(postId)|]
    ensures r[3 + |b.categories(postId)|..6 + |b.categories(postId)|] == IntendedArchives(b, postId)
    ensures r[6 + |b.categories(postId)|..] == PostDependencies(b, postId)[6 + |b.categories(postId)|..]
  {
    var front, tags := Common(b) + Categories(b, postId), Tags(b, postId);
    var p := PostDependencies(b, postId);
    assert p == front + Archives(b, postId) + tags;
    assert p[..|front|] == front && p[|front| + 3..] == tags;
    front + IntendedArchives(b, postId) + tags
  }

  /**
   * Where the GMT and the local readings of the post's month and day agree
   * (a post not published near midnight), the code and the corrected chain
   * purge the same pages.
   */
  lemma DependenciesAgreeAwayFromMidnight(b: Blog, postId: Value)
    requires b.postTime("m", true, postId) == b.postTime("m", false, postId)
    requires b.postTime("d", true, postId) == b.postTime("d", false, postId)
    ensures IntendedPostDependencies(b, postId) == PostDependencies(b, postId)
  {
    assert IntendedArchives(b, postId) == Archives(b, postId);
  }

  /** A post's categories purge everything exactly when it has one and the categories widget is shown. */
  lemma CategoriesPurgeAllIff(b: Blog, postId: Value)
    ensures All in Categories(b, postId) <==> b.activeWidget("categories") && |b.categories(postId)| > 0
  {
    var r := Categories(b, postId);
    if !b.activeWidget("categories") {
      forall i | 0 <= i < |r|
        ensures r[i] != All
      {
      }
    } else if |r| > 0 {
      assert r[0] == All;
    }
  }

  /**
   * A post's dependencies purge everything exactly when it has a category
   * and the categories widget is shown; otherwise every call is a URL.
   */
  lemma DependenciesPurgeAllIff(b: Blog, postId: Value)
    ensures All in PostDependencies(b, postId) <==>
      b.activeWidget("categories") && |b.categories(postId)| > 0
  {
    var common, cats, archives, tags := Common(b), Categories(b, postId), Archives(b, postId), Tags(b, postId);
    assert PostDependencies(b, postId) == common + cats + archives + tags;
    assert All !in common;
    assert All !in archives;
    assert All !in tags by {
      forall i | 0 <= i < |tags|
        ensures tags[i] != All
      {
        TagsAreUrls(b, postId, i);
      }
    }
    CategoriesPurgeAllIff(b, postId);
  }

  /** `purgePostStatus( $new, $old, $post )`: the post itself, then its dependencies. */
  function PostStatus(b: Blog, postId: Value): (r: seq<Call>)
    ensures |r| == 7 + |b.categories(postId)| + |b.tags(postId)|
    ensures r[0] == Url(Absolute(b, b.permalink(postId)))
    ensures r[1..] == PostDependencies(b, postId)
  {
    PurgePost(b, postId) + PostDependencies(b, postId)
  }

  // ---------------------------------------------------------------------------
  // Comments

  /** `$approved == 1 || $approved == 'trash'`, with PHP 7's loose comparison. */
  predicate PurgesComments(approved: Value) {
    LooseEq7(approved, Int(1)) || LooseEq7(approved, Str("trash"))
  }

  /** `purgePostComments( $commentId )`: the comments popup of the comment's post. */
  function PostComments(b: Blog, commentId: Value): (r: seq<Call>)
    ensures |r| <= 1
    ensures r != [] <==> b.comment(commentId).Some? && PurgesComments(b.comment(commentId).value.approved)
    ensures r != [] ==> r[0] == Url(b.wpurl + "/?comments_popup=" + ToStr(b.comment(commentId).value.postId))
  {
    match b.comment(commentId)
    case None => []
    case Some(c) =>
      PathIsPrefixed(b, "/?comments_popup=" + ToStr(c.postId));
      if PurgesComments(c.approved) then [Purge(b, "/?comments_popup=" + ToStr(c.postId))] else []
  }

  /** A word is not a numeric string, and as a number it is worth 0, not 1. */
  lemma WordIsNotNumber(s: string)
    requires |s| > 1 && IsLower(s[0])
    ensures !IsIntString(s) && StringToInt(s) == 0
  {
    assert DigitPrefix(s) == [];
    assert SkipSpaces(s) == s;
  }

  /** A single decimal digit reads as its own value. */
  lemma DigitValue(s: string)
    requires |s| == 1 && IsDigit(s[0])
    ensures StringToInt(s) == DigitOf(s[0])
  {
    assert !IsSpace(s[0]) && s[0] != '-' && s[0] != '+';
    assert SkipSpaces(s) == s;
    assert DigitPrefix(s) == s by {
      assert DigitPrefix(s[1..]) == [];
    }
    assert DigitsValue(s) == DigitOf(s[0]) by {
      assert s[..0] == [];
    }
  }

  /**
   * Of the statuses WordPress stores for a comment, an approved ("1") and a
   * trashed one purge the popup; pending ("0"), spam and a comment trashed
   * with its post do not.
   */
  lemma CommentStatuses(s: string)
    requires s in ["0", "1", "spam", "trash", "post-trashed"]
    ensures PurgesComments(Str(s)) <==> s == "1" || s == "trash"
  {
    if s == "0" || s == "1" {
      DigitPurgesIffOne(s);
    } else {
      assert |s| > 1 && IsLower(s[0]);
      WordPurgesIffTrash(s);
    }
  }

  /** A single digit purges the popup only when it is `1`. */
  lemma DigitPurgesIffOne(s: string)
    requires |s| == 1 && IsDigit(s[0])
    ensures PurgesComments(Str(s)) <==> s == "1"
  {
    DigitValue(s);
    StrAgainstInt7(s, 1);
    WordIsNotNumber("trash");
    StrAgainstWord7(s, "trash");
    assert s != "trash";
    assert s == "1" <==> s[0] == '1';
  }

  /** A word purges the popup only when it is `trash`. */
  lemma WordPurgesIffTrash(s: string)
    requires |s| > 1 && IsLower(s[0])
    ensures PurgesComments(Str(s)) <==> s == "trash"
  {
    WordIsNotNumber(s);
    StrAgainstInt7(s, 1);
    WordIsNotNumber("trash");
    StrAgainstWord7(s, "trash");
  }

  // ---------------------------------------------------------------------------
  // Sending

  /** The POSTs a list of calls sends through the API adapter, in order. */
  function Execute(api: LegacyApi.FastlyApi, b: Blog, calls: seq<Call>): (r: seq<LegacyApi.Post>)
    ensures !Empty(api.apiKey) ==> |r| == |calls|
    decreases |calls|
  {
    if calls == [] then []
    else
      var head := match calls[0]
        case Url(u) => LegacyApi.Purge(api, LegacyApi.One(u))
        case All => [LegacyApi.PurgeAll(api, b.serviceId)];
      head + Execute(api, b, calls[1..])
  }

  /** The number of purge-everything calls in a list. */
  function CountAll(calls: seq<Call>): nat {
    if calls == [] then 0 else (if calls[0].All? then 1 else 0) + CountAll(calls[1..])
  }

  /** Sending two lists of calls one after the other sends their concatenation. */
  lemma {:induction false} ExecuteConcat(api: LegacyApi.FastlyApi, b: Blog, a: seq<Call>, c: seq<Call>)
    ensures Execute(api, b, a + c) == Execute(api, b, a) + Execute(api, b, c)
  {
    if a == [] {
      assert a + c == c;
    } else {
      assert (a + c)[0] == a[0] && (a + c)[1..] == a[1..] + c;
      ExecuteConcat(api, b, a[1..], c);
    }
  }

  /** Without an API key only the purge-everything calls reach Fastly, one POST each. */
  lemma {:induction false} ExecuteWithoutKey(api: LegacyApi.FastlyApi, b: Blog, calls: seq<Call>)
    requires Empty(api.apiKey)
    ensures |Execute(api, b, calls)| == CountAll(calls)
    ensures forall i :: 0 <= i < |Execute(api, b, calls)| ==>
      Execute(api, b, calls)[i] == LegacyApi.PurgeAll(api, b.serviceId)
  {
    if calls != [] {
      ExecuteWithoutKey(api, b, calls[1..]);
    }
  }

  /** With a key, each call sends exactly one POST: a URL purge or a purge of everything. */
  lemma {:induction false} ExecuteWithKey(api: LegacyApi.FastlyApi, b: Blog, calls: seq<Call>, i: nat)
    requires !Empty(api.apiKey) && i < |calls|
    ensures |Execute(api, b, calls)| == |calls|
    ensures Execute(api, b, calls)[i] ==
      match calls[i]
      case Url(u) => LegacyApi.MakePost(api, "/purge/" + u, [])
      case All => LegacyApi.PurgeAll(api, b.serviceId)
  {
    if i > 0 {
      ExecuteWithKey(api, b, calls[1..], i - 1);
    }
  }

  // ---------------------------------------------------------------------------
  // Hooks

  /** The methods `FastlyPurge` defines. */
  const Methods: set<string> := {
    "purge", "purgeAll", "purgeCommon", "purgePost", "purgePostDependencies", "purgeCategories",
    "purgePostComments", "purgeLinks", "purgeCategory", "purgeLinkCategory", "purgeTagCategory",
    "purgeArchives", "purgeTags", "purgePostStatus"}

  /** The comment actions. */
  const CommentActions: seq<string> :=
    ["comment_post", "edit_comment", "trashed_comment", "untrashed_comment", "deleted_comment"]

  /** The actions and the method each is hooked to, as the constructor registers them. */
  function Hooks(stylesheet: string, commentCallback: string): (r: seq<(string, string)>)
    ensures |r| == 20
    ensures forall i :: 0 <= i < 5 ==> r[5 + i] == (CommentActions[i], commentCallback)
  {
    [("edit_post", "purgePost"), ("edit_post", "purgePostDependencies"),
     ("transition_post_status", "purgePostStatus"), ("deleted_post", "purgePost"),
     ("deleted_post", "purgeCommon")]
    + [("comment_post", commentCallback), ("edit_comment", commentCallback)]
    + [("trashed_comment", commentCallback), ("untrashed_comment", commentCallback),
       ("deleted_comment", commentCallback)]
    + [("switch_theme", "purgeAll"), ("update_option_sidebars_widgets", "purgeAll"),
       ("widgets.php", "purgeAll"), ("update_option_theme_mods_" + stylesheet, "purgeAll")]
    + [("deleted_link", "purgeLinks"), ("edit_link", "purgeLinks"), ("add_link", "purgeLinks")]
    + [("edit_category", "purgeCategory"), ("edit_link_category", "purgeLinkCategory"),
       ("edit_post_tag", "purgeTagCategory")]
  }

  /** Every hook names a method the purger defines. */
  predicate Callable(hooks: seq<(string, string)>) {
    forall i :: 0 <= i < |hooks| ==> hooks[i].1 in Methods
  }

  /**
   * As written, the five comment actions are hooked to `purgeComments`,
   * which the class does not define (its method is `purgePostComments`), so
   * firing any of them calls a callback that does not exist.
   */
  function WrittenHooks(stylesheet: string): (r: seq<(string, string)>)
    ensures |r| == 20
    ensures forall i :: 5 <= i < 10 ==> r[i].1 == "purgeComments"
  {
    Hooks(stylesheet, "purgeComments")
  }

  /** The comment actions reach no method of the purger. */
  lemma CommentHooksMissing(stylesheet: string)
    ensures !Callable(WrittenHooks(stylesheet))
    ensures WrittenHooks(stylesheet)[5] == ("comment_post", "purgeComments") && "purgeComments" !in Methods
  {
    assert WrittenHooks(stylesheet)[5] == (CommentActions[0], "purgeComments");
  }

  /** The hooks as intended: comment actions run `purgePostComments`. */
  function IntendedHooks(stylesheet: string): (r: seq<(string, string)>)
    ensures |r| == 20
    ensures forall i :: 5 <= i < 10 ==> r[i].1 == "purgePostComments"
  {
    Hooks(stylesheet, "purgePostComments")
  }

  /** Corrected, every action reaches a method of the purger. */
  lemma IntendedHooksCallable(stylesheet: string)
    ensures Callable(IntendedHooks(stylesheet))
  {
    var r := IntendedHooks(stylesheet);
    forall i | 0 <= i < |r|
      ensures r[i].1 in Methods
    {
    }
  }
}

=== FILE: php.dfy ===
/**
 * The parts of PHP's runtime semantics the plugin leans on: scalar values,
 * truthiness (`empty`, `isset`), string conversion, integer parsing
 * (`intval`, `absint`), and the string helpers its header and URL builders
 * use (`implode`, `explode`, `rtrim`, `preg_replace` with a character class).
 */
module Php {

  datatype Option<+T> = None | Some(value: T)

  /** A PHP scalar (or null) as the plugin stores, passes and compares it. */
  datatype Value = Null | Bool(b: bool) | Int(i: int) | Str(s: string)

  /** `empty()` on a string: only "" and "0" are empty. */
  predicate EmptyStr(s: string) {
    s == "" || s == "0"
  }

  /** `empty()` on a scalar. */
  predicate Empty(v: Value) {
    match v
    case Null => true
    case Bool(b) => !b
    case Int(i) => i == 0
    case Str(s) => EmptyStr(s)
  }

  /** Loose comparison `v == 1`, with numeric strings limited to decimal digits. */
  predicate LooseEqualsOne(v: Value) {
    match v
    case Null => false
    case Bool(b) => b
    case Int(i) => i == 1
    case Str(s) => |s| > 0 && AllDigits(s) && DigitsValue(s) == 1
  }

  // ---------------------------------------------------------------------------
  // Characters

  predicate IsDigit(c: char) { '0' <= c <= '9' }
  predicate IsLower(c: char) { 'a' <= c <= 'z' }
  predicate IsUpper(c: char) { 'A' <= c <= 'Z' }
  predicate IsAlnum(c: char) { IsDigit(c) || IsLower(c) || IsUpper(c) }

  predicate AllDigits(s: string) {
    forall i :: 0 <= i < |s| ==> IsDigit(s[i])
  }

  function DigitChar(d: nat): (c: char)
    requires d < 10
    ensures IsDigit(c)
  {
    ('0' as int + d) as char
  }

  function DigitOf(c: char): (d: nat)
    requires IsDigit(c)
    ensures d < 10
  {
    c as int - '0' as int
  }

  function ToLowerChar(c: char): char {
    if IsUpper(c) then (c as int + 32) as char else c
  }

  function ToUpperChar(c: char): char {
    if IsLower(c) then (c as int - 32) as char else c
  }

  /** `strtolower` on ASCII text. */
  function ToLower(s: string): (r: string)
    ensures |r| == |s|
    ensures forall i :: 0 <= i < |s| ==> r[i] == ToLowerChar(s[i])
  {
    if s == [] then [] else [ToLowerChar(s[0])] + ToLower(s[1..])
  }

  /** `strtoupper` on ASCII text. */
  function ToUpper(s: string): (r: string)
    ensures |r| == |s|
    ensures forall i :: 0 <= i < |s| ==> r[i] == ToUpperChar(s[i])
  {
    if s == [] then [] else [ToUpperChar(s[0])] + ToUpper(s[1..])
  }

  // ---------------------------------------------------------------------------
  // Numbers and their decimal spelling

  /** The value of a string of decimal digits. */
  function DigitsValue(s: string): nat
    requires AllDigits(s)
  {
    if s == [] then 0 else DigitsValue(s[..|s| - 1]) * 10 + DigitOf(s[|s| - 1])
  }

  /** PHP's decimal spelling of a non-negative integer. */
  function NatToString(n: nat): (r: string)
    ensures |r| > 0
    ensures AllDigits(r)
  {
    if n < 10 then [DigitChar(n)] else NatToString(n / 10) + [DigitChar(n % 10)]
  }

  /** Reading the decimal spelling back gives the number. */
  lemma {:induction false} NatToStringRoundTrip(n: nat)
    ensures DigitsValue(NatToString(n)) == n
  {
    var r := NatToString(n);
    if n < 10 {
      assert r[..|r| - 1] == [];
    } else {
      var p := NatToString(n / 10);
      assert r[..|r| - 1] == p;
      NatToStringRoundTrip(n / 10);
    }
  }

  /** PHP's decimal spelling of any integer. */
  function IntToString(i: int): (r: string)
    ensures |r| > 0
  {
    if i < 0 then "-" + NatToString(-i) else NatToString(i)
  }

  /** The string conversion PHP applies when a scalar is concatenated. */
  function ToStr(v: Value): string {
    match v
    case Null => ""
    case Bool(b) => if b then "1" else ""
    case Int(i) => IntToString(i)
    case Str(s) => s
  }

  predicate IsSpace(c: char) {
    c == ' ' || c == '\t' || c == '\n' || c == '\r' || c == 11 as char || c == 12 as char
  }

  /** The longest prefix of decimal digits. */
  function DigitPrefix(s: string): (r: string)
    ensures AllDigits(r)
    ensures |r| <= |s| && r == s[..|r|]
    ensures |r| < |s| ==> !IsDigit(s[|r|])
  {
    if s != [] && IsDigit(s[0]) then [s[0]] + DigitPrefix(s[1..]) else []
  }

  function SkipSpaces(s: string): (r: string)
    ensures |r| <= |s|
    ensures r == s[|s| - |r|..]
  {
    if s != [] && IsSpace(s[0]) then SkipSpaces(s[1..]) else s
  }

  /** `(int)` applied to a string: optional leading blanks, an optional sign, then digits. */
  function StringToInt(s: string): int {
    var t := SkipSpaces(s);
    if t != [] && t[0] == '-' then -(DigitsValue(DigitPrefix(t[1..])) as int)
    else if t != [] && t[0] == '+' then DigitsValue(DigitPrefix(t[1..]))
    else DigitsValue(DigitPrefix(t))
  }

  /** `intval()` on a scalar. */
  function IntVal(v: Value): int {
    match v
    case Null => 0
    case Bool(b) => if b then 1 else 0
    case Int(i) => i
    case Str(s) => StringToInt(s)
  }

  /** WordPress's `absint()`: the absolute value of `intval()`. */
  function Absint(v: Value): (r: nat)
    ensures r == IntVal(v) || r == -IntVal(v)
  {
    if IntVal(v) < 0 then -IntVal(v) else IntVal(v)
  }

  /** `absint` of a decimal spelling gives the number back. */
  lemma AbsintOfDecimal(n: nat)
    ensures Absint(Str(NatToString(n))) == n
  {
    var s := NatToString(n);
    assert SkipSpaces(s) == s;
    DigitPrefixOfDigits(s);
    NatToStringRoundTrip(n);
  }

  lemma {:induction false} DigitPrefixOfDigits(s: string)
    requires AllDigits(s)
    ensures DigitPrefix(s) == s
  {
    if s != [] {
      DigitPrefixOfDigits(s[1..]);
    }
  }

  /** A non-empty string of decimal digits is numeric. */
  lemma DigitsAreNumeric(s: string)
    requires s != [] && AllDigits(s)
    ensures IsNumeric(s)
  {
    assert SkipSpaces(s) == s by {
      assert !IsSpace(s[0]);
    }
    assert DropTrailingSpaces(s) == s by {
      assert !IsSpace(s[|s| - 1]);
    }
    DigitsAreNumberBody(s);
  }

  /** A non-empty string of decimal digits is a number body with no sign and no fraction. */
  lemma DigitsAreNumberBody(s: string)
    requires s != [] && AllDigits(s)
    ensures IsNumberBody(s)
  {
    assert s[0] != '-' && s[0] != '+';
    DigitPrefixOfDigits(s);
    assert s[|s|..] == [];
  }

  /** `absint` of a string of decimal digits is the number they spell. */
  lemma AbsintOfDigits(s: string)
    requires AllDigits(s)
    ensures Absint(Str(s)) == DigitsValue(s)
  {
    assert SkipSpaces(s) == s;
    DigitPrefixOfDigits(s);
  }

  /** `s` without its trailing blanks. */
  function DropTrailingSpaces(s: string): (r: string)
    ensures |r| <= |s| && r == s[..|r|]
    ensures r == [] || !IsSpace(r[|r| - 1])
  {
    if s != [] && IsSpace(s[|s| - 1]) then DropTrailingSpaces(s[..|s| - 1]) else s
  }

  /** The part of a numeric string between its blanks: an optional sign, digits and an optional fraction. */
  predicate IsNumberBody(t: string) {
    var body := if t != [] && (t[0] == '-' || t[0] == '+') then t[1..] else t;
    var whole := DigitPrefix(body);
    var rest := body[|whole|..];
    (rest == [] && |whole| > 0)
    || (|rest| > 0 && rest[0] == '.' && AllDigits(rest[1..]) && |whole| + |rest| > 1)
  }

  /**
   * `is_numeric` as PHP 8 reads a string: leading and trailing blanks are
   * allowed around the number body. Exponent forms are not modelled.
   */
  predicate IsNumeric(s: string) {
    IsNumberBody(DropTrailingSpaces(SkipSpaces(s)))
  }

  /** A string whose first character is not blank keeps it after its trailing blanks go. */
  lemma {:induction false} DropTrailingKeepsHead(s: string)
    requires s != [] && !IsSpace(s[0])
    ensures DropTrailingSpaces(s) != [] && DropTrailingSpaces(s)[0] == s[0]
  {
    if IsSpace(s[|s| - 1]) {
      DropTrailingKeepsHead(s[..|s| - 1]);
    }
  }

  /** A string that starts with neither a blank, a sign, a digit nor a point is not numeric. */
  lemma WordNotNumeric(w: string)
    requires w != [] && !IsSpace(w[0]) && w[0] != '-' && w[0] != '+' && w[0] != '.' && !IsDigit(w[0])
    ensures !IsNumeric(w)
  {
    assert SkipSpaces(w) == w;
    DropTrailingKeepsHead(w);
    var t := DropTrailingSpaces(w);
    assert DigitPrefix(t) == [];
  }

  /** Leading blanks change neither `is_numeric` nor the integer a string casts to. */
  lemma LeadingBlankKept(s: string)
    ensures IsNumeric(" " + s) <==> IsNumeric(s)
    ensures StringToInt(" " + s) == StringToInt(s)
  {
    SkipLeadingBlank(s);
    SameAfterBlanks(" " + s, s);
  }

  /** Two strings that agree once their leading blanks are skipped agree on `is_numeric` and on `(int)`. */
  lemma SameAfterBlanks(x: string, y: string)
    requires SkipSpaces(x) == SkipSpaces(y)
    ensures IsNumeric(x) <==> IsNumeric(y)
    ensures StringToInt(x) == StringToInt(y)
  {
    var t := SkipSpaces(x);
    assert IsNumeric(x) == IsNumberBody(DropTrailingSpaces(t)) == IsNumeric(y);
    IntAfterBlanks(x, y);
  }

  /** `(int)` reads a string only from its first character that is not blank. */
  lemma IntAfterBlanks(x: string, y: string)
    requires SkipSpaces(x) == SkipSpaces(y)
    ensures StringToInt(x) == StringToInt(y)
  {
  }

  /** Skipping the blanks of `" " + s` skips that blank and then those of `s`. */
  lemma SkipLeadingBlank(s: string)
    ensures SkipSpaces(" " + s) == SkipSpaces(s)
  {
    var b := " " + s;
    assert b[0] == ' ' && b[1..] == s;
  }

  /** A numeric string without a fraction: an optional sign and decimal digits. */
  predicate IsIntString(s: string) {
    IsNumeric(s) && '.' !in s
  }

  /**
   * Loose comparison `a == b` as PHP 8 does it: a boolean or null side
   * compares truthiness (null against a string compares with ""), two
   * numbers or numeric strings compare as numbers, anything else compares
   * as strings. Numeric strings are limited to `IsIntString`.
   */
  predicate LooseEq(a: Value, b: Value) {
    match (a, b)
    case (Bool(x), _) => x == !Empty(b)
    case (_, Bool(y)) => y == !Empty(a)
    case (Null, Null) => true
    case (Null, Int(j)) => j == 0
    case (Int(i), Null) => i == 0
    case (Null, Str(t)) => t == ""
    case (Str(s), Null) => s == ""
    case (Int(i), Int(j)) => i == j
    case (Int(i), Str(t)) => if IsIntString(t) then StringToInt(t) == i else IntToString(i) == t
    case (Str(s), Int(j)) => if IsIntString(s) then StringToInt(s) == j else IntToString(j) == s
    case (Str(s), Str(t)) =>
      if IsIntString(s) && IsIntString(t) then StringToInt(s) == StringToInt(t) else s == t
  }

  /** A blank before an integer string keeps it an integer string of the same value. */
  lemma IntStringThroughBlank(s: string)
    requires IsIntString(s)
    ensures IsIntString(" " + s) && StringToInt(" " + s) == StringToInt(s)
  {
    var b := " " + s;
    LeadingBlankKept(s);
    assert '.' !in b by {
      assert forall k :: 1 <= k < |b| ==> b[k] == s[k - 1];
    }
  }

  /** Under PHP 8 a blank before an integer string does not change which integer equals it: `5 == " 5"`. */
  lemma LooseEqThroughBlank(n: int, s: string)
    requires IsIntString(s)
    ensures LooseEq(Int(n), Str(" " + s)) <==> LooseEq(Int(n), Str(s))
  {
    IntStringThroughBlank(s);
  }

  /** `in_array( $v, $list )` with its default loose comparison. */
  predicate InArray(v: Value, list: seq<Value>) {
    exists i :: 0 <= i < |list| && LooseEq(v, list[i])
  }

  /**
   * Loose comparison `a == b` as PHP 7 does it, for the legacy plugin. It
   * differs from PHP 8 only between an integer and a string: PHP 7 always
   * turns the string into a number, through its leading blanks, sign and
   * digits, so `0 == "welcome"` holds.
   */
  predicate LooseEq7(a: Value, b: Value) {
    match (a, b)
    case (Int(i), Str(t)) => StringToInt(t) == i
    case (Str(s), Int(j)) => StringToInt(s) == j
    case _ => LooseEq(a, b)
  }

  /** `in_array( $v, $list )` with PHP 7's loose comparison. */
  predicate InArray7(v: Value, list: seq<Value>) {
    exists i :: 0 <= i < |list| && LooseEq7(v, list[i])
  }

  lemma LooseEq7Symmetric(a: Value, b: Value)
    ensures LooseEq7(a, b) <==> LooseEq7(b, a)
  {
  }

  lemma LooseEq7Reflexive(a: Value)
    ensures LooseEq7(a, a)
  {
  }

  /** PHP 7 and PHP 8 agree on every comparison that does not put an integer against a string. */
  lemma LooseEq7AgreesAwayFromIntString(a: Value, b: Value)
    requires !(a.Int? && b.Str?) && !(a.Str? && b.Int?)
    ensures LooseEq7(a, b) <==> LooseEq(a, b)
  {
  }

  /**
   * A string that does not start with a blank, a sign or a digit is worth 0
   * to PHP 7: it equals the integer 0 and no other.
   */
  lemma WordIsZero7(i: int, w: string)
    requires w == [] || (!IsSpace(w[0]) && w[0] != '-' && w[0] != '+' && !IsDigit(w[0]))
    ensures LooseEq7(Int(i), Str(w)) <==> i == 0
  {
    WordIsWorthZero(w);
  }

  /** A string that does not start with a blank, a sign or a digit casts to the integer 0. */
  lemma WordIsWorthZero(w: string)
    requires w == [] || (!IsSpace(w[0]) && w[0] != '-' && w[0] != '+' && !IsDigit(w[0]))
    ensures StringToInt(w) == 0
  {
    var t := SkipSpaces(w);
    assert t == w;
    assert DigitPrefix(t) == [];
  }

  /** Against a null or a boolean, a string other than "" and "0" equals `true` and nothing else. */
  lemma FullStringAgainstBoolOrNull7(p: Value, w: string)
    requires p.Bool? || p.Null?
    requires !EmptyStr(w)
    ensures LooseEq7(p, Str(w)) <==> p == Bool(true)
  {
  }

  /** Under PHP 7 a string meets an integer as the number it starts with. */
  lemma StrAgainstInt7(s: string, i: int)
    ensures LooseEq7(Str(s), Int(i)) <==> StringToInt(s) == i
  {
  }

  /** Two strings, one of them not numeric, are loosely equal only when they are equal. */
  lemma StrAgainstWord7(s: string, t: string)
    requires !IsIntString(t)
    ensures LooseEq7(Str(s), Str(t)) <==> s == t
  {
  }

  lemma LooseEqSymmetric(a: Value, b: Value)
    ensures LooseEq(a, b) <==> LooseEq(b, a)
  {
  }

  lemma LooseEqReflexive(a: Value)
    ensures LooseEq(a, a)
  {
  }

  // ---------------------------------------------------------------------------
  // Strings

  predicate StartsWith(s: string, prefix: string) {
    |prefix| <= |s| && s[..|prefix|] == prefix
  }

  /** `preg_replace('/[^class]/', '', s)`: keep exactly the characters `keep` accepts. */
  function Filter(s: string, keep: char -> bool): (r: string)
    ensures |r| <= |s|
    ensures forall i :: 0 <= i < |r| ==> keep(r[i])
    ensures (forall i :: 0 <= i < |s| ==> keep(s[i])) ==> r == s
  {
    if s == [] then [] else (if keep(s[0]) then [s[0]] else []) + Filter(s[1..], keep)
  }

  /** Filtering distributes over concatenation: together with the ensures of
      `Filter` on one character, this pins the result down completely. */
  lemma {:induction false} FilterConcat(s: string, t: string, keep: char -> bool)
    ensures Filter(s + t, keep) == Filter(s, keep) + Filter(t, keep)
  {
    if s != [] {
      var h := if keep(s[0]) then [s[0]] else [];
      assert (s + t)[0] == s[0] && (s + t)[1..] == s[1..] + t;
      FilterConcat(s[1..], t, keep);
      assert Filter(s + t, keep) == h + (Filter(s[1..], keep) + Filter(t, keep));
      assert Filter(s, keep) == h + Filter(s[1..], keep);
    } else {
      assert s + t == t;
    }
  }

  /** `a` is obtained from `b` by deleting characters. */
  predicate IsSubsequence(a: string, b: string)
    decreases |b|
  {
    if a == [] then true
    else if b == [] then false
    else if a[0] == b[0] then IsSubsequence(a[1..], b[1..])
    else IsSubsequence(a, b[1..])
  }

  lemma {:induction false} FilterIsSubsequence(s: string, keep: char -> bool)
    ensures IsSubsequence(Filter(s, keep), s)
  {
    if s != [] {
      FilterIsSubsequence(s[1..], keep);
      var tail := Filter(s[1..], keep);
      if keep(s[0]) {
        assert Filter(s, keep) == [s[0]] + tail;
        assert ([s[0]] + tail)[1..] == tail;
      } else {
        assert Filter(s, keep) == tail;
        SubsequenceSkip(tail, s);
      }
    }
  }

  /** Prepending a character to the host keeps a subsequence a subsequence. */
  lemma {:induction false} SubsequenceSkip(a: string, b: string)
    requires b != []
    requires IsSubsequence(a, b[1..])
    ensures IsSubsequence(a, b)
    decreases |b|, |a|
  {
    if a != [] && a[0] == b[0] {
      SubsequenceDropHead(a, b[1..]);
    }
  }

  lemma {:induction false} SubsequenceDropHead(a: string, b: string)
    requires a != []
    requires IsSubsequence(a, b)
    ensures IsSubsequence(a[1..], b)
    decreases |b|, |a|
  {
    if b != [] {
      if a[0] == b[0] {
        SubsequenceSkip(a[1..], b);
      } else {
        SubsequenceDropHead(a, b[1..]);
        SubsequenceSkip(a[1..], b);
      }
    }
  }

  /** Filtering twice with the same class changes nothing. */
  lemma FilterIdempotent(s: string, keep: char -> bool)
    ensures Filter(Filter(s, keep), keep) == Filter(s, keep)
  {
  }

  /** `implode(sep, parts)`. */
  function Join(parts: seq<string>, sep: string): string {
    if |parts| == 0 then ""
    else if |parts| == 1 then parts[0]
    else parts[0] + sep + Join(parts[1..], sep)
  }

  /** `explode(c, s)`: the pieces between occurrences of `c`. */
  function Split(s: string, c: char): (r: seq<string>)
    ensures |r| >= 1
    ensures forall i :: 0 <= i < |r| ==> c !in r[i]
  {
    if s == [] then [""]
    else
      var rest := Split(s[1..], c);
      if s[0] == c then [""] + rest else [[s[0]] + rest[0]] + rest[1..]
  }

  lemma {:induction false} SplitNoSeparator(s: string, c: char)
    requires c !in s
    ensures Split(s, c) == [s]
  {
    if s != [] {
      SplitNoSeparator(s[1..], c);
      assert [s[0]] + s[1..] == s;
    }
  }

  lemma {:induction false} SplitAtSeparator(a: string, b: string, c: char)
    requires c !in a
    ensures Split(a + [c] + b, c) == [a] + Split(b, c)
  {
    if a == [] {
      assert a + [c] + b == [c] + b;
      assert ([c] + b)[1..] == b;
    } else {
      assert (a + [c] + b)[1..] == a[1..] + [c] + b;
      SplitAtSeparator(a[1..], b, c);
      assert [a[0]] + a[1..] == a;
    }
  }

  /** Splitting a joined list gives the list back when no piece holds the separator. */
  lemma {:induction false} SplitJoin(parts: seq<string>, c: char)
    requires |parts| >= 1
    requires forall i :: 0 <= i < |parts| ==> c !in parts[i]
    ensures Split(Join(parts, [c]), c) == parts
  {
    if |parts| == 1 {
      SplitNoSeparator(parts[0], c);
    } else {
      SplitJoin(parts[1..], c);
      SplitAtSeparator(parts[0], Join(parts[1..], [c]), c);
      assert [parts[0]] + parts[1..] == parts;
    }
  }

  /** `rtrim(s, chars)`: drop trailing characters from `cs`. */
  function RTrim(s: string, cs: set<char>): (r: string)
    ensures |r| <= |s| && r == s[..|r|]
    ensures |r| > 0 ==> r[|r| - 1] !in cs
    ensures forall i :: |r| <= i < |s| ==> s[i] in cs
  {
    if |s| > 0 && s[|s| - 1] in cs then RTrim(s[..|s| - 1], cs) else s
  }

  /** Trimming stops at the first character from the right that is not in `cs`. */
  lemma {:induction false} RTrimKeeps(s: string, t: string, cs: set<char>)
    requires s == [] || s[|s| - 1] !in cs
    requires forall i :: 0 <= i < |t| ==> t[i] in cs
    ensures RTrim(s + t, cs) == s
    decreases |t|
  {
    if t == [] {
      assert s + t == s;
    } else {
      assert (s + t)[..|s + t| - 1] == s + t[..|t| - 1];
      RTrimKeeps(s, t[..|t| - 1], cs);
    }
  }

  /** The first index of `c` in `s`, or `|s|` when it does not occur. */
  function IndexOf(s: string, c: char): (k: nat)
    ensures k <= |s|
    ensures c !in s[..k]
    ensures k < |s| ==> s[k] == c
    ensures k == |s| ==> c !in s
  {
    if s == [] then 0 else if s[0] == c then 0 else 1 + IndexOf(s[1..], c)
  }
}

=== FILE: purge_collection.dfy ===
/**
 * src/classes/purge-request-collection.php: purging a URL together with
 * its related URLs. The URL map starts with the category 'url' holding the
 * URL itself, followed by the related categories; every URL of every
 * category gets its own URL purge, and the responses are kept by URL.
 */
module PurgeCollection {
  import opened Php
  import Assoc
  import PurgeRequest

  /** URLs grouped by category, in category order. */
  type UrlMap = Assoc.Assoc<seq<string>>

  /** The constructor: `array_merge( array( 'url' => array( $url ) ), $related )`. */
  function Build(url: string, related: UrlMap): (r: UrlMap)
    requires Assoc.Distinct(related)
    ensures "url" !in Assoc.Keys(related) ==> Assoc.Get(r, "url") == Some([url])
    ensures forall k :: k in Assoc.Keys(related) ==> Assoc.Get(r, k) == Assoc.Get(related, k)
    ensures forall k :: k != "url" && k !in Assoc.Keys(related) ==> Assoc.Get(r, k).None?
  {
    Assoc.Merge([("url", [url])], related)
  }

  /** The map as built starts with the category 'url', whatever the related categories are. */
  lemma {:induction false} BuildStartsWithUrl(url: string, related: UrlMap)
    requires Assoc.Distinct(related)
    ensures |Build(url, related)| > 0 && Build(url, related)[0].0 == "url"
  {
    MergeKeepsFirstKey([("url", [url])], related);
  }

  lemma {:induction false} MergeKeepsFirstKey<V>(a: Assoc.Assoc<V>, b: Assoc.Assoc<V>)
    requires |a| > 0
    ensures |Assoc.Merge(a, b)| > 0 && Assoc.Merge(a, b)[0].0 == a[0].0
    decreases |b|
  {
    if b != [] {
      var a' := Assoc.Put(a, b[0].0, b[0].1);
      PutKeepsFirstKey(a, b[0].0, b[0].1);
      if Assoc.Distinct(b) {
        Assoc.DistinctTail(b);
      }
      MergeKeepsFirstKey(a', b[1..]);
    }
  }

  lemma PutKeepsFirstKey<V>(a: Assoc.Assoc<V>, k: string, v: V)
    requires |a| > 0
    ensures |Assoc.Put(a, k, v)| > 0 && Assoc.Put(a, k, v)[0].0 == a[0].0
  {
  }

  /** `set_url`: append a URL to one category, creating it when needed. */
  function SetUrl(urls: UrlMap, url: string, category: string): (r: UrlMap)
    ensures Assoc.Get(r, category) ==
      Some((if Assoc.Get(urls, category).Some? then Assoc.Get(urls, category).value else []) + [url])
    ensures forall k :: k != category ==> Assoc.Get(r, k) == Assoc.Get(urls, k)
  {
    var current := match Assoc.Get(urls, category) case Some(us) => us case None => [];
    Assoc.Put(urls, category, current + [url])
  }

  /** The response of one URL purge. */
  function UrlResponse(url: string, args: PurgeRequest.Args, env: PurgeRequest.Env, net: PurgeRequest.Net)
    : PurgeRequest.Response
  {
    PurgeRequest.Purge("url", PurgeRequest.One(url), args, env, net).response
  }

  /** Recording `$responses[ $url ] = respond( $url )` for each URL in turn. */
  function Record<R>(responses: Assoc.Assoc<R>, us: seq<string>, respond: string -> R): (r: Assoc.Assoc<R>)
    ensures forall u :: u in us ==> Assoc.Get(r, u) == Some(respond(u))
    ensures forall u :: u !in us ==> Assoc.Get(r, u) == Assoc.Get(responses, u)
    ensures Assoc.Distinct(responses) ==> Assoc.Distinct(r)
    ensures |r| <= |responses| + |us|
    decreases |us|
  {
    if us == [] then responses
    else
      var next := Assoc.Put(responses, us[0], respond(us[0]));
      assert Assoc.Distinct(responses) ==> Assoc.Distinct(next) by {
        if Assoc.Distinct(responses) { Assoc.PutDistinct(responses, us[0], respond(us[0])); }
      }
      var r := Record(next, us[1..], respond);
      assert forall u :: u in us <==> u == us[0] || u in us[1..];
      r
  }

  /** The result of `purge_related`: the URLs purged, in order, and the responses by URL. */
  datatype Related = Related(purged: seq<string>, responses: Assoc.Assoc<PurgeRequest.Response>)

  /** `purge_related`: one URL purge per URL of every category, with the same arguments. */
  function PurgeRelated(urls: UrlMap, args: PurgeRequest.Args, env: PurgeRequest.Env, net: PurgeRequest.Net)
    : (r: Related)
    ensures r.purged == Assoc.Flatten(urls)
    ensures forall u :: Assoc.Get(r.responses, u).Some? <==> u in r.purged
    ensures forall u :: u in r.purged ==> Assoc.Get(r.responses, u) == Some(UrlResponse(u, args, env, net))
    ensures Assoc.Distinct(r.responses)
    ensures |r.responses| <= |r.purged|
  {
    var us := Assoc.Flatten(urls);
    Related(us, Record([], us, u => UrlResponse(u, args, env, net)))
  }

  /** Every URL of every category is purged: the main URL first. */
  lemma MainUrlPurgedFirst(url: string, related: UrlMap, args: PurgeRequest.Args,
                           env: PurgeRequest.Env, net: PurgeRequest.Net)
    requires Assoc.Distinct(related) && "url" !in Assoc.Keys(related)
    ensures var r := PurgeRelated(Build(url, related), args, env, net);
      |r.purged| > 0 && r.purged[0] == url
  {
    var b := Build(url, related);
    BuildStartsWithUrl(url, related);
    assert b[0].0 == "url";
    assert Assoc.Get(b, "url") == Some(b[0].1);
  }

  /** Without a related category named 'url', the map is the main URL's entry followed by the related ones. */
  lemma BuildPrefixes(url: string, related: UrlMap)
    requires Assoc.Distinct(related) && "url" !in Assoc.Keys(related)
    ensures Build(url, related) == [("url", [url])] + related
    ensures Assoc.Flatten(Build(url, related)) == [url] + Assoc.Flatten(related)
  {
    forall i | 0 <= i < |related|
      ensures related[i].0 !in Assoc.Keys([("url", [url])])
    {
      assert related[i].0 == Assoc.Keys(related)[i];
    }
    Assoc.MergeDisjoint([("url", [url])], related);
    Assoc.FlattenConcat([("url", [url])], related);
  }

  /** An HTTP reply with code 200; `(int)` of the code of anything else is not 200. */
  predicate Ok(response: PurgeRequest.Response) {
    response == PurgeRequest.Http(200)
  }

  /** `get_result`: "failure" as soon as one response is a WP_Error or not a 200. */
  function GetResult(responses: Assoc.Assoc<PurgeRequest.Response>): (r: string)
    ensures r == "success" <==> forall i :: 0 <= i < |responses| ==> Ok(responses[i].1)
    ensures r == "success" || r == "failure"
  {
    if responses == [] then "success"
    else if !Ok(responses[0].1) then "failure"
    else GetResult(responses[1..])
  }

  /** The collection succeeds exactly when every URL purged got a 200. */
  lemma ResultIffAllOk(urls: UrlMap, args: PurgeRequest.Args, env: PurgeRequest.Env, net: PurgeRequest.Net)
    ensures var r := PurgeRelated(urls, args, env, net);
      GetResult(r.responses) == "success" <==>
        forall u :: u in r.purged ==> Ok(UrlResponse(u, args, env, net))
  {
    var r := PurgeRelated(urls, args, env, net);
    var rs := r.responses;
    if GetResult(rs) == "success" {
      forall u | u in r.purged
        ensures Ok(UrlResponse(u, args, env, net))
      {
        var v := UrlResponse(u, args, env, net);
        assert (u, v) in rs;
        var i :| 0 <= i < |rs| && rs[i] == (u, v);
        assert Ok(rs[i].1);
      }
    }
    if forall u :: u in r.purged ==> Ok(UrlResponse(u, args, env, net)) {
      forall i | 0 <= i < |rs|
        ensures Ok(rs[i].1)
      {
        Assoc.GetEntry(rs, i);
        assert Assoc.Keys(rs)[i] == rs[i].0;
        assert rs[i].0 in r.purged;
      }
    }
  }
}

=== FILE: purge_request.dfy ===
/**
 * src/classes/purge-request.php: one purge request. The engine picks the
 * verb and headers from the purge type and arguments, builds one URI or a
 * list of URIs, sends them, and folds the responses into one result. The
 * settings it reads and both HTTP transports are parameters.
 */
module PurgeRequest {
  import opened Php
  import Wp
  import Utils
  import Assoc

  /** Purge arguments (`allow-all`, `purge-type`, `related`). */
  type Args = map<string, Value>

  /** What to purge: a URL or key, or a list of them. */
  datatype Thing = One(s: string) | Many(items: seq<string>)

  /** The settings the engine reads: API host, service id, API key and default purge type. */
  datatype Env = Env(host: Value, serviceId: Value, apiKey: Value, defaultPurgeType: Value)

  /** `$remote_request_args`: the verb and the headers collected so far. */
  datatype RequestArgs = RequestArgs(verb: string, headers: Assoc.Assoc<Value>)

  datatype Request = Request(url: string, verb: string, headers: Assoc.Assoc<Value>)

  /** `$request_uri`: a single URI or a list of them. */
  datatype Target = Single(uri: string) | Multiple(uris: seq<string>)

  /**
   * What `_issue_purge_request` records: `false`, the `true` of the batch
   * path, a WP_Error, or an HTTP response with its status code.
   */
  datatype Response = Flag(b: bool) | WpError | Http(code: int)

  /**
   * The transports: `wp_remote_request` for one URI, and the decoded
   * `status` of each body that `Requests::request_multiple` returns.
   */
  datatype Net = Net(send: Request -> Response, batchStatus: Request -> Option<string>)

  /** The requests sent, in order, and the recorded response. */
  datatype Outcome = Outcome(sent: seq<Request>, response: Response)

  const KeyHeader: string := "Fastly-Key"
  const SoftHeader: string := "Fastly-Soft-Purge"

  // ---------------------------------------------------------------------------
  // Arguments and headers

  /** `isset($purge_args['allow-all']) && true === $purge_args['allow-all']` */
  predicate AllowAll(args: Args) {
    "allow-all" in args && args["allow-all"] == Bool(true)
  }

  /** The types that carry the API key and go out as POST. */
  predicate Credentialed(t: string) {
    t == "surrogate-key" || t == "all" || t == "surrogate-key-collection"
  }

  /** The default purge type merged under the caller's arguments (`array_merge`). */
  function EffectiveArgs(args: Args, env: Env): (r: Args)
    ensures "purge-type" in r
    ensures r["purge-type"] == if "purge-type" in args then args["purge-type"] else env.defaultPurgeType
    ensures forall k :: k in args ==> k in r && r[k] == args[k]
  {
    map["purge-type" := env.defaultPurgeType] + args
  }

  /** `isset($purge_args['purge-type']) && 'soft' === $purge_args['purge-type']` */
  predicate Soft(args: Args) {
    "purge-type" in args && args["purge-type"] == Str("soft")
  }

  /** A `purge-type` argument overrides the default purge type setting, in both directions. */
  lemma SoftOverridesDefault(args: Args, env: Env)
    ensures Soft(EffectiveArgs(args, env)) <==>
      if "purge-type" in args then args["purge-type"] == Str("soft") else env.defaultPurgeType == Str("soft")
  {
  }

  /** `_maybe_add_credentials` followed by `_maybe_add_soft_purge`. */
  function BuildRequestArgs(t: string, merged: Args, env: Env): (r: RequestArgs)
    ensures r.verb == if Credentialed(t) then "POST" else "PURGE"
    ensures Assoc.Get(r.headers, KeyHeader) == if Credentialed(t) then Some(env.apiKey) else None
    ensures Assoc.Get(r.headers, SoftHeader) == if Soft(merged) then Some(Int(1)) else None
    ensures forall h :: h in Assoc.Keys(r.headers) ==> h == KeyHeader || h == SoftHeader
  {
    var withKey :=
      if Credentialed(t) then RequestArgs("POST", Assoc.Put([], KeyHeader, env.apiKey))
      else RequestArgs("PURGE", []);
    if Soft(merged) then withKey.(headers := Assoc.Put(withKey.headers, SoftHeader, Int(1)))
    else withKey
  }

  // ---------------------------------------------------------------------------
  // URIs

  /** `trailingslashit(host) . 'service/' . sid`, shared by the API URIs. */
  function ServiceBase(env: Env): (r: string)
    ensures StartsWith(r, Wp.TrailingSlash(ToStr(env.host)) + "service/")
  {
    Wp.TrailingSlash(ToStr(env.host)) + "service/" + ToStr(env.serviceId)
  }

  /**
   * `_build_request_uri_for_surrogate_key`: the service's purge path, and
   * after it exactly the sanitised key, which reads back as the URI's last
   * `/`-segment.
   */
  function KeyUri(env: Env, key: string): (r: string)
    ensures StartsWith(r, ServiceBase(env) + "/purge/")
    ensures |r| == |ServiceBase(env) + "/purge/"| + |Utils.SanitizeSurrogateKey(key)|
    ensures LastSegment(r) == Utils.SanitizeSurrogateKey(key)
  {
    var k := Utils.SanitizeSurrogateKey(key);
    assert '/' !in k by {
      assert forall i :: 0 <= i < |k| ==> k[i] != '/';
    }
    PurgePathOfKey(ServiceBase(env), k);
    ServiceBase(env) + "/purge/" + k
  }

  /** `base/purge/tail` starts with `base/purge/` and ends in the segment `tail`, for a `tail` without `/`. */
  lemma PurgePathOfKey(base: string, tail: string)
    requires '/' !in tail
    ensures StartsWith(base + "/purge/" + tail, base + "/purge/")
    ensures LastSegment(base + "/purge/" + tail) == tail
  {
    var r := base + "/purge/" + tail;
    assert r == (base + "/purge") + "/" + tail;
    assert r[..|base + "/purge/"|] == base + "/purge/";
    LastSegmentAfterSlash(base + "/purge", tail);
  }

  /** The text after the last '/' of a URI. */
  function LastSegment(s: string): (r: string)
    ensures '/' !in r
    ensures |r| <= |s| && r == s[|s| - |r|..]
    ensures |r| < |s| ==> s[|s| - |r| - 1] == '/'
  {
    if s == [] then []
    else if s[|s| - 1] == '/' then []
    else LastSegment(s[..|s| - 1]) + [s[|s| - 1]]
  }

  /** The last segment of `prefix + "/" + tail` is `tail` when `tail` holds no slash. */
  lemma {:induction false} LastSegmentAfterSlash(prefix: string, tail: string)
    requires '/' !in tail
    ensures LastSegment(prefix + "/" + tail) == tail
    decreases |tail|
  {
    var s := prefix + "/" + tail;
    if tail == [] {
      assert s[|s| - 1] == '/';
    } else {
      assert s[..|s| - 1] == prefix + "/" + tail[..|tail| - 1];
      LastSegmentAfterSlash(prefix, tail[..|tail| - 1]);
      assert tail[..|tail| - 1] + [tail[|tail| - 1]] == tail;
    }
  }

  /** `_build_request_uri_for_surrogate_key_collection`: one key URI per key, in order. */
  function KeyCollectionUris(env: Env, keys: seq<string>): (r: seq<string>)
    ensures |r| == |keys|
    ensures forall i :: 0 <= i < |keys| ==> r[i] == KeyUri(env, keys[i])
  {
    seq(|keys|, i requires 0 <= i < |keys| => KeyUri(env, keys[i]))
  }

  /** `_build_request_uri_for_purge_all`. */
  function PurgeAllUri(env: Env): (r: string)
    ensures StartsWith(r, ServiceBase(env))
    ensures !EmptyStr(r)
  {
    ServiceBase(env) + "/purge_all"
  }

  /** A purge-all URI is never a key URI: it ends in "/purge_all", not "/purge/<key>". */
  lemma PurgeAllIsNoKeyUri(env: Env, key: string)
    ensures PurgeAllUri(env) != KeyUri(env, key)
  {
    var b := ServiceBase(env);
    assert PurgeAllUri(env)[|b| + 6] == '_';
    assert KeyUri(env, key)[|b| + 6] == '/';
  }

  /** PHP's string conversion of the thing in a string context ("Array" for a list). */
  function ThingString(thing: Thing): string {
    match thing
    case One(s) => s
    case Many(_) => "Array"
  }

  /**
   * The URI selection chain of `_issue_purge_request`. The final branch
   * tests the literal 'all', which is always truthy, so every type other
   * than the first three gets the purge-all URI.
   */
  function TargetFor(t: string, thing: Thing, env: Env): (r: Target)
    ensures t == "url" && thing.One? ==> r == Single(thing.s)
    ensures t == "url" && thing.Many? ==> r == Multiple(thing.items)
    ensures t == "surrogate-key" ==> r == Single(KeyUri(env, ThingString(thing)))
    ensures t == "surrogate-key-collection" && thing.Many? ==> r == Multiple(KeyCollectionUris(env, thing.items))
    ensures t == "surrogate-key-collection" && thing.One? ==> r == Multiple([])
    ensures t != "url" && t != "surrogate-key" && t != "surrogate-key-collection" ==> r == Single(PurgeAllUri(env))
  {
    if t == "url" then
      match thing
      case One(s) => Single(s)
      case Many(items) => Multiple(items)
    else if t == "surrogate-key" then Single(KeyUri(env, ThingString(thing)))
    else if t == "surrogate-key-collection" then
      match thing
      // foreach over a string iterates nothing
      case One(_) => Multiple([])
      case Many(keys) => Multiple(KeyCollectionUris(env, keys))
    else Single(PurgeAllUri(env))
  }

  /** `! empty( $request_uri )`. */
  predicate NonEmptyTarget(target: Target) {
    match target
    case Single(u) => !EmptyStr(u)
    case Multiple(us) => |us| > 0
  }

  // ---------------------------------------------------------------------------
  // Sending

  /** The batch requests: every URI with the shared verb and headers. */
  function BatchRequests(uris: seq<string>, ra: RequestArgs): (r: seq<Request>)
    ensures |r| == |uris|
    ensures forall i :: 0 <= i < |r| ==> r[i] == Request(uris[i], ra.verb, ra.headers)
  {
    if uris == [] then [] else [Request(uris[0], ra.verb, ra.headers)] + BatchRequests(uris[1..], ra)
  }

  /** The batch result: `false` as soon as one decoded status is not 'ok'. */
  function AllOk(reqs: seq<Request>, status: Request -> Option<string>): (ok: bool)
    ensures ok <==> forall i :: 0 <= i < |reqs| ==> status(reqs[i]) == Some("ok")
  {
    if reqs == [] then true else status(reqs[0]) == Some("ok") && AllOk(reqs[1..], status)
  }

  /** Sending the selected target, when it is not empty. */
  function Dispatch(target: Target, ra: RequestArgs, net: Net): (r: Outcome)
    ensures !NonEmptyTarget(target) ==> r == Outcome([], Flag(false))
    ensures NonEmptyTarget(target) && target.Single? ==>
      r.sent == [Request(target.uri, ra.verb, ra.headers)] && r.response == net.send(r.sent[0])
    ensures NonEmptyTarget(target) && target.Multiple? ==>
      |r.sent| == |target.uris|
      && (forall i :: 0 <= i < |r.sent| ==> r.sent[i].url == target.uris[i] && r.sent[i].verb == ra.verb)
      && (r.response == Flag(forall i :: 0 <= i < |r.sent| ==> net.batchStatus(r.sent[i]) == Some("ok")))
  {
    if !NonEmptyTarget(target) then Outcome([], Flag(false))
    else
      match target
      case Single(u) =>
        var req := Request(u, ra.verb, ra.headers);
        Outcome([req], net.send(req))
      case Multiple(us) =>
        var reqs := BatchRequests(us, ra);
        Outcome(reqs, Flag(AllOk(reqs, net.batchStatus)))
  }

  /** `_issue_purge_request`. */
  function Issue(t: string, thing: Thing, args: Args, env: Env, net: Net): (r: Outcome)
    ensures forall i :: 0 <= i < |r.sent| ==>
      r.sent[i].verb == BuildRequestArgs(t, EffectiveArgs(args, env), env).verb
      && r.sent[i].headers == BuildRequestArgs(t, EffectiveArgs(args, env), env).headers
  {
    var ra := BuildRequestArgs(t, EffectiveArgs(args, env), env);
    Dispatch(TargetFor(t, thing, env), ra, net)
  }

  /** `Purgely_Purge::purge`: a purge of everything needs `allow-all` to be exactly true. */
  function Purge(t: string, thing: Thing, args: Args, env: Env, net: Net): (r: Outcome)
    ensures t == "all" && !AllowAll(args) ==> r == Outcome([], Flag(false))
    ensures !(t == "all" && !AllowAll(args)) ==> r == Issue(t, thing, args, env, net)
  {
    if t == "all" && !AllowAll(args) then Outcome([], Flag(false)) else Issue(t, thing, args, env, net)
  }

  /** Every request of a purge is a POST carrying the API key exactly when the type is credentialed. */
  lemma VerbAndKey(t: string, thing: Thing, args: Args, env: Env, net: Net, i: nat)
    requires i < |Purge(t, thing, args, env, net).sent|
    ensures var req := Purge(t, thing, args, env, net).sent[i];
      && (req.verb == "POST" <==> Credentialed(t))
      && (req.verb == "PURGE" <==> !Credentialed(t))
      && (Assoc.Get(req.headers, KeyHeader).Some? <==> Credentialed(t))
      && (Assoc.Get(req.headers, SoftHeader) == Some(Int(1)) <==> Soft(EffectiveArgs(args, env)))
  {
  }

  /** A URL purge sends exactly one request, to the URL itself. */
  lemma UrlPurgeSendsUrl(url: string, args: Args, env: Env, net: Net)
    requires !EmptyStr(url)
    ensures var r := Purge("url", One(url), args, env, net);
      |r.sent| == 1 && r.sent[0].url == url && r.sent[0].verb == "PURGE"
  {
  }

  /** Any type but `all` goes straight to the URI selection and the dispatch. */
  lemma PurgeDispatches(t: string, thing: Thing, args: Args, env: Env, net: Net)
    requires t != "all"
    ensures Purge(t, thing, args, env, net) ==
      Dispatch(TargetFor(t, thing, env), BuildRequestArgs(t, EffectiveArgs(args, env), env), net)
  {
  }

  lemma KeyTypesAreNotAll()
    ensures "surrogate-key" != "all" && "surrogate-key-collection" != "all"
  {
    assert |"surrogate-key"| != |"all"| && |"surrogate-key-collection"| != |"all"|;
  }

  /** A surrogate-key purge sends exactly one POST, to the key's purge URI. */
  lemma KeyPurgeSendsKeyUri(key: string, args: Args, env: Env, net: Net)
    ensures var r := Purge("surrogate-key", One(key), args, env, net);
      |r.sent| == 1 && r.sent[0].url == KeyUri(env, key) && r.sent[0].verb == "POST"
  {
    var t := "surrogate-key";
    KeyTypesAreNotAll();
    PurgeDispatches(t, One(key), args, env, net);
    assert TargetFor(t, One(key), env) == Single(KeyUri(env, key));
    assert KeyUri(env, key) != [];
    assert BuildRequestArgs(t, EffectiveArgs(args, env), env).verb == "POST";
  }

  /** A key collection goes to one URI per key, with the credentialed request arguments. */
  lemma CollectionDispatches(keys: seq<string>, args: Args, env: Env, net: Net)
    ensures Purge("surrogate-key-collection", Many(keys), args, env, net) ==
      Dispatch(Multiple(KeyCollectionUris(env, keys)), BuildRequestArgs("surrogate-key-collection", EffectiveArgs(args, env), env), net)
    ensures BuildRequestArgs("surrogate-key-collection", EffectiveArgs(args, env), env).verb == "POST"
  {
    var t := "surrogate-key-collection";
    KeyTypesAreNotAll();
    PurgeDispatches(t, Many(keys), args, env, net);
    assert TargetFor(t, Many(keys), env) == Multiple(KeyCollectionUris(env, keys));
    assert Credentialed(t);
  }

  /** A key collection sends one POST per key, in order, to that key's purge URI. */
  lemma CollectionOnePostPerKey(keys: seq<string>, args: Args, env: Env, net: Net)
    requires |keys| > 0
    ensures var r := Purge("surrogate-key-collection", Many(keys), args, env, net);
      && |r.sent| == |keys|
      && (forall i :: 0 <= i < |keys| ==> r.sent[i].url == KeyUri(env, keys[i]) && r.sent[i].verb == "POST")
      && r.response == Flag(forall i :: 0 <= i < |r.sent| ==> net.batchStatus(r.sent[i]) == Some("ok"))
  {
    CollectionDispatches(keys, args, env, net);
    assert NonEmptyTarget(Multiple(KeyCollectionUris(env, keys)));
  }

  /** Any type outside the three known ones reaches the purge-all URI. */
  lemma UnknownTypePurgesAll(t: string, thing: Thing, args: Args, env: Env, net: Net)
    requires t != "url" && t != "surrogate-key" && t != "surrogate-key-collection" && t != "all"
    ensures var r := Purge(t, thing, args, env, net);
      && |r.sent| == 1 && r.sent[0].url == PurgeAllUri(env)
      && r.sent[0].verb == "PURGE" && Assoc.Get(r.sent[0].headers, KeyHeader).None?
  {
  }

  // ---------------------------------------------------------------------------
  // The result

  /**
   * `get_result`: "failure" when the response is false, a WP_Error, or its
   * status code (read with `(int)`, so 0 for anything but an HTTP reply)
   * is not 200.
   */
  function GetResult(response: Response): (r: string)
    ensures r == "success" || r == "failure"
  {
    var code := match response
      case Http(c) => c
      case _ => 0;
    if response == Flag(false) || response.WpError? || code != 200 then "failure" else "success"
  }

  /** Only an HTTP 200 reply counts as success. */
  lemma GetResultSuccessIff(response: Response)
    ensures GetResult(response) == "success" <==> response == Http(200)
  {
  }

  /** A batch purge is always reported as a failure, whatever the statuses say. */
  lemma BatchNeverSucceeds(keys: seq<string>, args: Args, env: Env, net: Net)
    requires |keys| > 0
    ensures GetResult(Purge("surrogate-key-collection", Many(keys), args, env, net).response) == "failure"
  {
  }

  // ---------------------------------------------------------------------------
  // Corrected variants

  /**
   * The URI selection with the last branch testing the type against 'all':
   * an unrecognised type selects nothing.
   */
  function IntendedTarget(t: string, thing: Thing, env: Env): (r: Option<Target>)
    ensures t == "url" || t == "surrogate-key" || t == "surrogate-key-collection" || t == "all"
            ==> r == Some(TargetFor(t, thing, env))
    ensures t != "url" && t != "surrogate-key" && t != "surrogate-key-collection" && t != "all" ==> r.None?
  {
    if t == "url" || t == "surrogate-key" || t == "surrogate-key-collection" || t == "all" then
      Some(TargetFor(t, thing, env))
    else None
  }

  /** `purge` with the corrected URI selection. */
  function IntendedPurge(t: string, thing: Thing, args: Args, env: Env, net: Net): (r: Outcome)
    ensures t == "all" && !AllowAll(args) ==> r == Outcome([], Flag(false))
  {
    if t == "all" && !AllowAll(args) then Outcome([], Flag(false))
    else
      match IntendedTarget(t, thing, env)
      case None => Outcome([], Flag(false))
      case Some(target) => Dispatch(target, BuildRequestArgs(t, EffectiveArgs(args, env), env), net)
  }

  /**
   * With the corrected selection, a purge-all request is only ever sent for
   * the type 'all' with `allow-all` exactly true; the known types behave as
   * the code does.
   */
  lemma IntendedPurgeAllNeedsPermission(t: string, thing: Thing, args: Args, env: Env, net: Net, i: nat)
    requires i < |IntendedPurge(t, thing, args, env, net).sent|
    requires IntendedPurge(t, thing, args, env, net).sent[i].url == PurgeAllUri(env)
    requires t != "url"
    ensures t == "all" && AllowAll(args)
  {
    if t == "surrogate-key" {
      PurgeAllIsNoKeyUri(env, ThingString(thing));
    } else if t == "surrogate-key-collection" && thing.Many? {
      PurgeAllIsNoKeyUri(env, thing.items[i]);
    }
  }

  lemma IntendedAgreesOnKnownTypes(t: string, thing: Thing, args: Args, env: Env, net: Net)
    requires t == "url" || t == "surrogate-key" || t == "surrogate-key-collection" || t == "all"
    ensures IntendedPurge(t, thing, args, env, net) == Purge(t, thing, args, env, net)
  {
  }

  /**
   * As written, the unknown type 'key-collection' sends one unauthenticated
   * PURGE to the purge-all URI; corrected, it sends nothing.
   */
  lemma KeyCollectionTypeCounterexample(env: Env, net: Net)
    ensures var r := Purge("key-collection", One("p-1"), map[], env, net);
      && |r.sent| == 1 && r.sent[0].url == PurgeAllUri(env)
      && r.sent[0].verb == "PURGE" && Assoc.Get(r.sent[0].headers, KeyHeader).None?
    ensures IntendedPurge("key-collection", One("p-1"), map[], env, net).sent == []
  {
    UnknownTypePurgesAll("key-collection", One("p-1"), map[], env, net);
  }

  /** `get_result` with the batch path's `true` counted as success. */
  function IntendedResult(response: Response): (r: string)
    ensures r == "success" <==> response == Http(200) || response == Flag(true)
  {
    if response == Http(200) || response == Flag(true) then "success" else "failure"
  }

  /** With the corrected result, a batch succeeds exactly when every status is 'ok'. */
  lemma IntendedBatchResult(keys: seq<string>, args: Args, env: Env, net: Net)
    requires |keys| > 0
    ensures var r := Purge("surrogate-key-collection", Many(keys), args, env, net);
      IntendedResult(r.response) == "success" <==>
        forall i :: 0 <= i < |keys| ==> net.batchStatus(r.sent[i]) == Some("ok")
  {
    var r := Purge("surrogate-key-collection", Many(keys), args, env, net);
    CollectionDispatches(keys, args, env, net);
    assert NonEmptyTarget(Multiple(KeyCollectionUris(env, keys)));
    assert |r.sent| == |keys|;
  }
}

=== FILE: related_keys.dfy ===
/**
 * src/classes/related-surrogate-keys.php: the surrogate keys related to a
 * post, in the order the automatic purge uses them: the post key, the term
 * keys of every taxonomy, the author key, then the keys that are always
 * purged. Keys are only ever appended; nothing is deduplicated.
 *
 * WordPress lookups are parameters: the taxonomy list, the term ids of the
 * post in each taxonomy (`None` when the lookup does not return an array,
 * for instance a WP_Error), and the post itself (`None` when `get_post`
 * finds nothing).
 */
module RelatedKeys {
  import opened Php

  /** The one field of a post the derivation reads. */
  datatype Post = Post(author: Value)

  /** `wp_get_post_terms( $post_id, $taxonomy, array( 'fields' => 'ids' ) )` for the post. */
  type TermLookup = string -> Option<seq<Value>>

  /** `get_always_purged_types`. */
  const AlwaysPurged: seq<string> := ["tm-post", "tm-home", "tm-feed", "holos"]

  /** The constructor's first key, `'p-' . $identifier`. */
  function PostKey(id: Value): (r: string)
    ensures StartsWith(r, "p-") && r[2..] == ToStr(id)
  {
    "p-" + ToStr(id)
  }

  function TermKey(term: Value): (r: string)
    ensures StartsWith(r, "t-") && r[2..] == ToStr(term)
  {
    "t-" + ToStr(term)
  }

  /** The author key, `'a-' . absint( $post->post_author )`. */
  function AuthorKey(post: Post): (r: string)
    ensures StartsWith(r, "a-") && r[2..] == NatToString(Absint(post.author))
  {
    "a-" + NatToString(Absint(post.author))
  }

  /** The number of truthy term ids. */
  function CountTruthy(terms: seq<Value>): nat {
    if terms == [] then 0 else (if Empty(terms[0]) then 0 else 1) + CountTruthy(terms[1..])
  }

  /** The truthy term ids, in order: the ones the loop turns into keys. */
  function Truthy(terms: seq<Value>): (r: seq<Value>)
    ensures |r| == CountTruthy(terms)
    ensures forall v :: v in r ==> v in terms && !Empty(v)
    ensures forall j :: 0 <= j < |terms| && !Empty(terms[j]) ==> terms[j] in r
  {
    if terms == [] then []
    else
      var rest := Truthy(terms[1..]);
      assert forall j :: 1 <= j < |terms| ==> terms[j] == terms[1..][j - 1];
      assert forall v :: v in terms[1..] ==> v in terms;
      (if Empty(terms[0]) then [] else [terms[0]]) + rest
  }

  /** `locate_surrogate_taxonomy_single` over one array of term ids: one key per truthy id, in order. */
  function TermKeys(terms: seq<Value>): (r: seq<string>)
    ensures |r| == CountTruthy(terms)
    ensures forall i :: 0 <= i < |r| ==> StartsWith(r[i], "t-")
  {
    var t := Truthy(terms);
    seq(|t|, i requires 0 <= i < |t| => TermKey(t[i]))
  }

  /** Every key is built from a truthy id of the list. */
  lemma TermKeysSound(terms: seq<Value>, i: nat)
    requires i < |TermKeys(terms)|
    ensures exists j :: 0 <= j < |terms| && !Empty(terms[j]) && TermKeys(terms)[i] == TermKey(terms[j])
  {
    var t := Truthy(terms);
    assert TermKeys(terms)[i] == TermKey(t[i]);
    assert t[i] in terms && !Empty(t[i]);
    var j :| 0 <= j < |terms| && terms[j] == t[i];
  }

  /** Every truthy id of the list gives a key. */
  lemma TermKeysComplete(terms: seq<Value>, j: nat)
    requires j < |terms| && !Empty(terms[j])
    ensures TermKey(terms[j]) in TermKeys(terms)
  {
    var t := Truthy(terms);
    assert terms[j] in t;
    var k :| 0 <= k < |t| && t[k] == terms[j];
    assert TermKeys(terms)[k] == TermKey(terms[j]);
  }

  /** The first term id is kept exactly when it is truthy, ahead of the truthy ids after it. */
  lemma TruthyCons(a: seq<Value>)
    requires a != []
    ensures Truthy(a) == (if Empty(a[0]) then [] else [a[0]]) + Truthy(a[1..])
  {
  }

  /** The truthy ids of two lists one after the other: the order of the terms is kept. */
  lemma {:induction false} TruthyConcat(a: seq<Value>, b: seq<Value>)
    ensures Truthy(a + b) == Truthy(a) + Truthy(b)
  {
    if a != [] {
      assert (a + b)[0] == a[0] && (a + b)[1..] == a[1..] + b;
      TruthyConcat(a[1..], b);
      TruthyCons(a + b);
      TruthyCons(a);
      var h := if Empty(a[0]) then [] else [a[0]];
      assert h + (Truthy(a[1..]) + Truthy(b)) == (h + Truthy(a[1..])) + Truthy(b);
    } else {
      assert a + b == b;
    }
  }

  /** The key at each position is the key of the truthy id at that position. */
  lemma TermKeysAt(terms: seq<Value>, i: nat)
    requires i < |Truthy(terms)|
    ensures |TermKeys(terms)| == |Truthy(terms)| && TermKeys(terms)[i] == TermKey(Truthy(terms)[i])
  {
  }

  /** The keys of two lists of term ids are the keys of the first followed by those of the second. */
  lemma TermKeysConcat(a: seq<Value>, b: seq<Value>)
    ensures TermKeys(a + b) == TermKeys(a) + TermKeys(b)
  {
    TruthyConcat(a, b);
    var ta, tb := Truthy(a), Truthy(b);
    var l, r := TermKeys(a + b), TermKeys(a) + TermKeys(b);
    assert |l| == |r| == |ta| + |tb|;
    forall i | 0 <= i < |l|
      ensures l[i] == r[i]
    {
      TermKeysAt(a + b, i);
      if i < |ta| {
        TermKeysAt(a, i);
      } else {
        TermKeysAt(b, i - |ta|);
      }
    }
  }

  /** One term id gives its key when it is truthy, and nothing otherwise. */
  lemma TermKeysOne(v: Value)
    ensures TermKeys([v]) == if Empty(v) then [] else [TermKey(v)]
  {
    assert Truthy([v]) == (if Empty(v) then [] else [v]) + Truthy([]);
  }

  /** The keys of one taxonomy: none when the lookup is not an array. */
  function TaxonomyKeys(lookup: TermLookup, taxonomy: string): (r: seq<string>)
    ensures lookup(taxonomy).None? ==> r == []
    ensures lookup(taxonomy).Some? ==> r == TermKeys(lookup(taxonomy).value)
  {
    match lookup(taxonomy)
    case None => []
    case Some(terms) => TermKeys(terms)
  }

  /** `locate_surrogate_taxonomies`: the taxonomies' keys one after the other. */
  function AllTaxonomyKeys(lookup: TermLookup, taxonomies: seq<string>): (r: seq<string>)
    ensures forall i :: 0 <= i < |r| ==> StartsWith(r[i], "t-")
  {
    if taxonomies == [] then []
    else TaxonomyKeys(lookup, taxonomies[0]) + AllTaxonomyKeys(lookup, taxonomies[1..])
  }

  /** Every truthy term id of every taxonomy that answers with an array gives a key. */
  lemma {:induction false} AllTaxonomyKeysComplete(lookup: TermLookup, taxonomies: seq<string>, k: nat, j: nat)
    requires k < |taxonomies| && lookup(taxonomies[k]).Some?
    requires j < |lookup(taxonomies[k]).value| && !Empty(lookup(taxonomies[k]).value[j])
    ensures TermKey(lookup(taxonomies[k]).value[j]) in AllTaxonomyKeys(lookup, taxonomies)
  {
    if k > 0 {
      AllTaxonomyKeysComplete(lookup, taxonomies[1..], k - 1, j);
    } else {
      TermKeysComplete(lookup(taxonomies[0]).value, j);
    }
  }

  /** The keys of `taxonomies + more` are those of `taxonomies` followed by those of `more`. */
  lemma {:induction false} AllTaxonomyKeysConcat(lookup: TermLookup, taxonomies: seq<string>, more: seq<string>)
    ensures AllTaxonomyKeys(lookup, taxonomies + more)
      == AllTaxonomyKeys(lookup, taxonomies) + AllTaxonomyKeys(lookup, more)
  {
    if taxonomies == [] {
      assert taxonomies + more == more;
    } else {
      assert (taxonomies + more)[1..] == taxonomies[1..] + more;
      AllTaxonomyKeysConcat(lookup, taxonomies[1..], more);
    }
  }

  /** The author part: one key when the post resolves. */
  function AuthorKeys(post: Option<Post>): (r: seq<string>)
    ensures post.None? ==> r == []
    ensures post.Some? ==> r == [AuthorKey(post.value)]
  {
    match post
    case None => []
    case Some(p) => [AuthorKey(p)]
  }

  /** `locate_all` after the constructor. */
  function LocateAll(id: Value, taxonomies: seq<string>, lookup: TermLookup, post: Option<Post>): (r: seq<string>)
    ensures |r| == 1 + |AllTaxonomyKeys(lookup, taxonomies)| + |AuthorKeys(post)| + |AlwaysPurged|
    ensures r[0] == PostKey(id)
    ensures r[|r| - |AlwaysPurged|..] == AlwaysPurged
    ensures r[1..1 + |AllTaxonomyKeys(lookup, taxonomies)|] == AllTaxonomyKeys(lookup, taxonomies)
    ensures r[1 + |AllTaxonomyKeys(lookup, taxonomies)|..|r| - |AlwaysPurged|] == AuthorKeys(post)
  {
    var t := AllTaxonomyKeys(lookup, taxonomies);
    var a := AuthorKeys(post);
    Parts(PostKey(id), t, a, AlwaysPurged);
    [PostKey(id)] + t + a + AlwaysPurged
  }

  /** Reading the four parts back out of their concatenation. */
  lemma Parts<T>(p: T, t: seq<T>, a: seq<T>, z: seq<T>)
    ensures var r := [p] + t + a + z;
      && |r| == 1 + |t| + |a| + |z|
      && r[0] == p
      && r[1..1 + |t|] == t
      && r[1 + |t|..|r| - |z|] == a
      && r[|r| - |z|..] == z
  {
  }

  /** No key of the list is an author key. */
  predicate NoAuthorKey(s: seq<string>) {
    forall i :: 0 <= i < |s| ==> !StartsWith(s[i], "a-")
  }

  lemma NoAuthorKeyConcat(a: seq<string>, b: seq<string>)
    requires NoAuthorKey(a) && NoAuthorKey(b)
    ensures NoAuthorKey(a + b)
  {
    forall i | 0 <= i < |a + b|
      ensures !StartsWith((a + b)[i], "a-")
    {
      if i < |a| {
        assert (a + b)[i] == a[i];
      } else {
        assert (a + b)[i] == b[i - |a|];
      }
    }
  }

  lemma TaxonomyKeysNoAuthor(t: seq<string>)
    requires forall i :: 0 <= i < |t| ==> StartsWith(t[i], "t-")
    ensures NoAuthorKey(t)
  {
    forall i | 0 <= i < |t|
      ensures !StartsWith(t[i], "a-")
    {
      assert t[i][0] == 't';
    }
  }

  lemma AlwaysPurgedNoAuthor()
    ensures NoAuthorKey(AlwaysPurged)
  {
    forall i | 0 <= i < |AlwaysPurged|
      ensures !StartsWith(AlwaysPurged[i], "a-")
    {
      AlwaysPurgedNotAuthor(i);
    }
  }

  lemma AlwaysPurgedNotAuthor(i: nat)
    requires i < |AlwaysPurged|
    ensures AlwaysPurged[i][0] != 'a'
  {
  }

  /**
   * An author key appears exactly when the post resolves: no other key of
   * the list starts with "a-".
   */
  lemma AuthorKeyIffPost(id: Value, taxonomies: seq<string>, lookup: TermLookup, post: Option<Post>)
    ensures var r := LocateAll(id, taxonomies, lookup, post);
      (exists i :: 0 <= i < |r| && StartsWith(r[i], "a-")) <==> post.Some?
  {
    var r := LocateAll(id, taxonomies, lookup, post);
    var t := AllTaxonomyKeys(lookup, taxonomies);
    var n := |r|;
    if post.Some? {
      assert r[n - 5] == r[1 + |t|..n - 4][0];
      assert StartsWith(r[n - 5], "a-");
    } else {
      var p := [PostKey(id)];
      assert p[0][0] == 'p';
      assert NoAuthorKey(p);
      TaxonomyKeysNoAuthor(t);
      AlwaysPurgedNoAuthor();
      NoAuthorKeyConcat(p, t);
      NoAuthorKeyConcat(p + t, AlwaysPurged);
      assert r == p + t + AlwaysPurged by {
        assert AuthorKeys(post) == [];
        assert p + t + [] == p + t;
      }
    }
  }

  /** Keys are only appended: a truthy term listed twice gives two equal keys. */
  lemma NoDeduplication(id: Value, taxonomy: string, term: Value, post: Post)
    requires !Empty(term)
    ensures var lookup: TermLookup := x => Some([term, term]);
      |LocateAll(id, [taxonomy], lookup, Some(post))| == 8
  {
    var lookup: TermLookup := x => Some([term, term]);
    assert [term, term][1..] == [term];
    assert [term][1..] == [];
    assert CountTruthy([term]) == 1;
    assert CountTruthy([term, term]) == 2;
    assert [taxonomy][1..] == [];
    assert |AllTaxonomyKeys(lookup, [taxonomy])| == 2;
  }
}

=== FILE: related_urls.dfy ===
/**
 * src/classes/related-urls.php: finding the URLs whose cached pages show a
 * post — its category and tag archives, its author's page and feed, the
 * archive of its post type and the site's feeds — grouped by category in
 * the order they are located. WordPress lookups (`url_to_postid`,
 * `get_post`, the link builders) are parameters.
 */
module RelatedUrls {
  import opened Php
  import Assoc
  import PurgeCollection
  import PurgeRequest
  import UtilsPurge

  /** The fields of a `WP_Post` the locator reads. */
  datatype Post = Post(id: Value, author: Value)

  /**
   * The `$identifiers` array: `post` is `Some` when a `WP_Post` object was
   * given; `url` and `id` are null when not set.
   */
  datatype Identifiers = Identifiers(post: Option<Post>, url: Value, id: Value)

  /** The WordPress functions the locator calls; `None` stands for a `WP_Error` or `false`. */
  datatype Site = Site(
    urlToPostId: string -> Value,
    getPost: nat -> Option<Post>,
    permalink: Option<Post> -> string,
    terms: (Value, string) -> Option<seq<Value>>,
    termLink: (Value, string) -> Option<string>,
    authorPage: Value -> string,
    authorFeed: Value -> string,
    postType: Option<Post> -> Value,
    archivePage: Value -> Option<string>,
    archiveFeed: Value -> Option<string>,
    blogFeed: string -> string,
    commentsFeed: Value -> string)

  type UrlMap = PurgeCollection.UrlMap

  /** A `Purgely_Related_Urls` object. */
  datatype Locator = Locator(url: string, postId: Value, post: Option<Post>, related: UrlMap)

  // ---------------------------------------------------------------------------
  // Finding the post

  /** The post ID `_determine_post` ends up with, if any: `id` when set, else the ID of `url`. */
  function PostIdOf(ids: Identifiers, site: Site): (r: Option<Value>)
    ensures r.None? <==> ids.id == Null && ids.url == Null
  {
    if ids.id != Null then Some(ids.id)
    else if ids.url != Null then Some(site.urlToPostId(ToStr(ids.url)))
    else None
  }

  /** `_determine_post`. */
  function DeterminePost(ids: Identifiers, site: Site): (r: Option<Post>)
    ensures ids.post.Some? ==> r == ids.post
    ensures ids.post.None? && PostIdOf(ids, site).Some? && Absint(PostIdOf(ids, site).value) > 0 ==>
      r == site.getPost(Absint(PostIdOf(ids, site).value))
    ensures ids.post.None? && (PostIdOf(ids, site).None? || Absint(PostIdOf(ids, site).value) == 0) ==>
      r.None?
  {
    if ids.post.Some? then ids.post
    else
      match PostIdOf(ids, site)
      case Some(pid) => if Absint(pid) > 0 then site.getPost(Absint(pid)) else None
      case None => None
  }

  /** A given `WP_Post` wins over any URL or ID. */
  lemma PostObjectWins(ids: Identifiers, url: Value, id: Value, site: Site)
    requires ids.post.Some?
    ensures DeterminePost(ids.(url := url, id := id), site) == ids.post
  {
  }

  /** `id` overrides `url`: once an ID is set, the URL does not matter. */
  lemma IdOverridesUrl(ids: Identifiers, url: Value, site: Site)
    requires ids.id != Null
    ensures DeterminePost(ids.(url := url), site) == DeterminePost(ids, site)
  {
  }

  /** An ID whose `absint` is positive finds `get_post` of that number, whatever the URL. */
  lemma IdFindsItsPost(ids: Identifiers, site: Site)
    requires ids.post.None? && ids.id != Null && Absint(ids.id) > 0
    ensures DeterminePost(ids, site) == site.getPost(Absint(ids.id))
  {
  }

  /** Without an ID, a URL is looked up through `url_to_postid`, and a positive result finds its post. */
  lemma UrlFindsItsPost(ids: Identifiers, site: Site)
    requires ids.post.None? && ids.id == Null && ids.url != Null
    requires Absint(site.urlToPostId(ToStr(ids.url))) > 0
    ensures DeterminePost(ids, site) == site.getPost(Absint(site.urlToPostId(ToStr(ids.url))))
  {
  }

  /** An ID that `absint` maps to 0 (0, `false`, a non-number) finds no post. */
  lemma ZeroIdFindsNothing(ids: Identifiers, site: Site)
    requires ids.post.None? && ids.id != Null && Absint(ids.id) == 0
    ensures DeterminePost(ids, site) == None
  {
  }

  /** Without a post, an ID or a URL there is nothing to look up. */
  lemma NoIdentifiersNoPost(site: Site)
    ensures DeterminePost(Identifiers(None, Null, Null), site) == None
  {
  }

  /** `$post->ID` and `$post->post_author`, null on a missing post. */
  function IdOf(p: Option<Post>): Value {
    if p.Some? then p.value.id else Null
  }

  function AuthorOf(p: Option<Post>): Value {
    if p.Some? then p.value.author else Null
  }

  /** The constructor: the post, then its permalink and ID; no related URLs yet. */
  function New(ids: Identifiers, site: Site): (r: Locator)
    ensures r.post == DeterminePost(ids, site)
    ensures r.url == site.permalink(r.post) && r.postId == IdOf(r.post)
    ensures r.related == []
  {
    var p := DeterminePost(ids, site);
    Locator(site.permalink(p), IdOf(p), p, [])
  }

  // ---------------------------------------------------------------------------
  // The related-URL map

  /** The URLs of one category; none when it is not set. */
  function Category(m: UrlMap, category: string): seq<string> {
    match Assoc.Get(m, category)
    case Some(us) => us
    case None => []
  }

  /** `set_related_url`: append one URL to a category, creating it at the end when new. */
  function AppendUrl(m: UrlMap, url: string, category: string): (r: UrlMap)
    ensures Category(r, category) == Category(m, category) + [url]
    ensures forall c :: c != category ==> Assoc.Get(r, c) == Assoc.Get(m, c)
    ensures Assoc.Keys(r) == if category in Assoc.Keys(m) then Assoc.Keys(m) else Assoc.Keys(m) + [category]
  {
    Assoc.Put(m, category, Category(m, category) + [url])
  }

  /** `set_related_urls_by_category`: replace a category's URLs. */
  function SetCategory(m: UrlMap, urls: seq<string>, category: string): (r: UrlMap)
    ensures Assoc.Get(r, category) == Some(urls)
    ensures forall c :: c != category ==> Assoc.Get(r, c) == Assoc.Get(m, c)
    ensures Assoc.Keys(r) == if category in Assoc.Keys(m) then Assoc.Keys(m) else Assoc.Keys(m) + [category]
  {
    Assoc.Put(m, category, urls)
  }

  /** `set_related_urls`: replace the whole map. */
  function SetRelatedUrls(l: Locator, m: UrlMap): (r: Locator)
    ensures r.related == m && r.url == l.url && r.postId == l.postId && r.post == l.post
  {
    l.(related := m)
  }

  /** Repeated `set_related_url` calls on one category, in order. */
  function AppendAll(m: UrlMap, urls: seq<string>, category: string): (r: UrlMap)
    ensures Category(r, category) == Category(m, category) + urls
    ensures forall c :: c != category ==> Assoc.Get(r, c) == Assoc.Get(m, c)
    ensures Assoc.Keys(r) ==
      if urls == [] || category in Assoc.Keys(m) then Assoc.Keys(m) else Assoc.Keys(m) + [category]
    decreases |urls|
  {
    if urls == [] then m
    else
      var m1 := AppendUrl(m, urls[0], category);
      var r := AppendAll(m1, urls[1..], category);
      AppendAllCategoryStep(m, urls, category, r);
      AppendAllKeysStep(m, urls, category, r);
      r
  }

  /** One `set_related_url` followed by the rest appends all the URLs to the category. */
  lemma AppendAllCategoryStep(m: UrlMap, urls: seq<string>, category: string, r: UrlMap)
    requires urls != []
    requires Category(r, category) == Category(AppendUrl(m, urls[0], category), category) + urls[1..]
    ensures Category(r, category) == Category(m, category) + urls
  {
    var x := Category(m, category);
    assert Category(AppendUrl(m, urls[0], category), category) == x + [urls[0]];
    Assoc.SnocConcat(x, urls);
  }

  /** One `set_related_url` followed by the rest adds the category at most once. */
  lemma AppendAllKeysStep(m: UrlMap, urls: seq<string>, category: string, r: UrlMap)
    requires urls != []
    requires var m1 := AppendUrl(m, urls[0], category);
      Assoc.Keys(r) == if urls[1..] == [] || category in Assoc.Keys(m1) then Assoc.Keys(m1) else Assoc.Keys(m1) + [category]
    ensures Assoc.Keys(r) == if category in Assoc.Keys(m) then Assoc.Keys(m) else Assoc.Keys(m) + [category]
  {
    var m1 := AppendUrl(m, urls[0], category);
    assert Assoc.Keys(m1) == if category in Assoc.Keys(m) then Assoc.Keys(m) else Assoc.Keys(m) + [category];
    assert category in Assoc.Keys(m1);
  }

  /** Two appends in a row land in the order they were made. */
  lemma AppendTwice(m: UrlMap, a: string, b: string, category: string)
    ensures Category(AppendUrl(AppendUrl(m, a, category), b, category), category) == Category(m, category) + [a, b]
  {
    var x := Category(m, category);
    var m1 := AppendUrl(m, a, category);
    var x1 := Category(m1, category);
    assert x1 == x + [a];
    assert Category(AppendUrl(m1, b, category), category) == x1 + [b];
    assert (x + [a]) + [b] == x + [a, b];
  }

  /** What `get_related_urls` returns: the whole map or one category. */
  datatype Found = All(map_: UrlMap) | One(urls: seq<string>)

  /** `get_related_urls( $type )`: the category when `$type` is non-empty and set, else everything. */
  function GetRelatedUrls(l: Locator, category: Value): (r: Found)
    ensures r.One? <==> !Empty(category) && ToStr(category) in Assoc.Keys(l.related)
    ensures r.One? ==> Assoc.Get(l.related, ToStr(category)) == Some(r.urls)
    ensures r.All? ==> r.map_ == l.related
  {
    if !Empty(category) && ToStr(category) in Assoc.Keys(l.related) then One(Category(l.related, ToStr(category)))
    else All(l.related)
  }

  // ---------------------------------------------------------------------------
  // Locating

  /** The links of the terms that are not errors, in term order. */
  function TermLinks(terms: seq<Value>, taxonomy: string, site: Site): (r: seq<string>)
    ensures |r| <= |terms|
    ensures forall u :: u in r ==> exists t :: t in terms && site.termLink(t, taxonomy) == Some(u)
    ensures forall t :: t in terms && site.termLink(t, taxonomy).Some? ==> site.termLink(t, taxonomy).value in r
  {
    if terms == [] then []
    else
      var rest := TermLinks(terms[1..], taxonomy, site);
      match site.termLink(terms[0], taxonomy)
      case Some(link) => [link] + rest
      case None => rest
  }

  /** The links of two lists of terms are those of the first followed by those of the second. */
  lemma {:induction false} TermLinksConcat(a: seq<Value>, b: seq<Value>, taxonomy: string, site: Site)
    ensures TermLinks(a + b, taxonomy, site) == TermLinks(a, taxonomy, site) + TermLinks(b, taxonomy, site)
  {
    if a != [] {
      assert (a + b)[0] == a[0] && (a + b)[1..] == a[1..] + b;
      TermLinksConcat(a[1..], b, taxonomy, site);
    } else {
      assert a + b == b;
    }
  }

  /** One term gives its link when it has one, and nothing otherwise. */
  lemma TermLinksOne(t: Value, taxonomy: string, site: Site)
    ensures TermLinks([t], taxonomy, site) == match site.termLink(t, taxonomy) case Some(u) => [u] case None => []
  {
  }

  /** The term links `locate_terms_urls` finds; none when `get_the_terms` gives no array. */
  function TermUrls(postId: Value, taxonomy: string, site: Site): seq<string> {
    match site.terms(postId, taxonomy)
    case Some(ts) => TermLinks(ts, taxonomy, site)
    case None => []
  }

  /** `locate_terms_urls`: every link is appended under the taxonomy and returned. */
  function LocateTerms(l: Locator, taxonomy: string, site: Site): (r: (Locator, seq<string>))
    ensures r.1 == TermUrls(l.postId, taxonomy, site)
    ensures r.0 == l.(related := AppendAll(l.related, r.1, taxonomy))
  {
    var links := TermUrls(l.postId, taxonomy, site);
    (l.(related := AppendAll(l.related, links, taxonomy)), links)
  }

  /** `locate_author_urls`: the author's page and feed, appended under 'author'. */
  function LocateAuthor(l: Locator, site: Site): (r: (Locator, seq<string>))
    ensures r.1 == [site.authorPage(AuthorOf(l.post)), site.authorFeed(AuthorOf(l.post))]
    ensures Category(r.0.related, "author") == Category(l.related, "author") + r.1
    ensures forall c :: c != "author" ==> Assoc.Get(r.0.related, c) == Assoc.Get(l.related, c)
    ensures r.0 == l.(related := r.0.related)
  {
    var author := AuthorOf(l.post);
    var page := site.authorPage(author);
    var feed := site.authorFeed(author);
    AppendTwice(l.related, page, feed, "author");
    (l.(related := AppendUrl(AppendUrl(l.related, page, "author"), feed, "author")), [page, feed])
  }

  /** The post type archive's page and feed links that are not `false`. */
  function ArchiveUrls(post: Option<Post>, site: Site): (r: seq<string>)
    ensures |r| <= 2
    ensures r == [] <==> site.archivePage(site.postType(post)).None? && site.archiveFeed(site.postType(post)).None?
  {
    var postType := site.postType(post);
    (match site.archivePage(postType) case Some(u) => [u] case None => [])
      + (match site.archiveFeed(postType) case Some(u) => [u] case None => [])
  }

  /** `locate_post_type_archive_url`: the category is written only when a link was found. */
  function LocateArchive(l: Locator, site: Site): (r: (Locator, seq<string>))
    ensures r.1 == ArchiveUrls(l.post, site)
    ensures r.1 == [] ==> r.0 == l
    ensures r.1 != [] ==> r.0 == l.(related := SetCategory(l.related, r.1, "post-type-archive"))
  {
    var urls := ArchiveUrls(l.post, site);
    if urls != [] then (l.(related := SetCategory(l.related, urls, "post-type-archive")), urls)
    else (l, urls)
  }

  /** The five site feeds and the post's comments feed. */
  function FeedUrls(post: Option<Post>, site: Site): (r: seq<string>)
    ensures |r| == 6
    ensures r[5] == site.commentsFeed(IdOf(post))
  {
    [site.blogFeed("rdf_url"), site.blogFeed("rss_url"), site.blogFeed("rss2_url"),
     site.blogFeed("atom_url"), site.blogFeed("comments_rss2_url"), site.commentsFeed(IdOf(post))]
  }

  /** `locate_feed_urls`: the 'feed' category is replaced by the six feeds. */
  function LocateFeeds(l: Locator, site: Site): (r: (Locator, seq<string>))
    ensures r.1 == FeedUrls(l.post, site)
    ensures r.0 == l.(related := SetCategory(l.related, r.1, "feed"))
  {
    var feeds := FeedUrls(l.post, site);
    (l.(related := SetCategory(l.related, feeds, "feed")), feeds)
  }

  /** The two term lookups `locate_all` starts with. */
  function TermsPart(l: Locator, site: Site): (r: Locator)
    ensures r.url == l.url && r.postId == l.postId && r.post == l.post
  {
    LocateTerms(LocateTerms(l, "category", site).0, "post_tag", site).0
  }

  /** The author, post type archive and feed lookups that follow. */
  function OthersPart(l: Locator, site: Site): (r: Locator)
    ensures r.url == l.url && r.postId == l.postId && r.post == l.post
  {
    LocateFeeds(LocateArchive(LocateAuthor(l, site).0, site).0, site).0
  }

  /** `locate_all`: categories, tags, author, post type archive, feeds; then the whole map. */
  function LocateAll(l: Locator, site: Site): (r: (Locator, UrlMap))
    ensures r.1 == r.0.related
    ensures r.0.url == l.url && r.0.postId == l.postId && r.0.post == l.post
  {
    var l5 := OthersPart(TermsPart(l, site), site);
    (l5, l5.related)
  }

  /** A category name in the map exactly when it has URLs to hold. */
  function KeyIf(urls: seq<string>, category: string): seq<string> {
    if urls == [] then [] else [category]
  }

  /** The categories the steps after the term lookups write. */
  predicate LaterThanTerms(c: string) {
    c == "author" || c == "post-type-archive" || c == "feed"
  }

  /** The five category names are pairwise different. */
  lemma NamesDiffer()
    ensures "category" != "post_tag"
    ensures "category" != "author" && "post_tag" != "author"
    ensures "category" != "post-type-archive" && "post_tag" != "post-type-archive" && "author" != "post-type-archive"
    ensures "category" != "feed" && "post_tag" != "feed" && "author" != "feed" && "post-type-archive" != "feed"
  {
  }

  lemma TermKeysAreEarly(c1: seq<string>, c2: seq<string>, c: string)
    requires LaterThanTerms(c)
    ensures c !in KeyIf(c1, "category") + KeyIf(c2, "post_tag")
  {
    NamesDiffer();
  }

  /** The two term lookups on an empty map create their categories in order. */
  lemma TermsStage(l: Locator, site: Site)
    requires l.related == []
    ensures Assoc.Keys(TermsPart(l, site).related) ==
      KeyIf(TermUrls(l.postId, "category", site), "category") + KeyIf(TermUrls(l.postId, "post_tag", site), "post_tag")
    ensures Category(TermsPart(l, site).related, "category") == TermUrls(l.postId, "category", site)
    ensures Category(TermsPart(l, site).related, "post_tag") == TermUrls(l.postId, "post_tag", site)
  {
    var c1 := TermUrls(l.postId, "category", site);
    var c2 := TermUrls(l.postId, "post_tag", site);
    var m1 := AppendAll(l.related, c1, "category");
    AppendAllFresh(l.related, c1, "category");
    assert Assoc.Keys(m1) == KeyIf(c1, "category") by {
      assert Assoc.Keys(l.related) == [];
    }
    NamesDiffer();
    assert "post_tag" !in Assoc.Keys(m1);
    var m2 := AppendAll(m1, c2, "post_tag");
    AppendAllFresh(m1, c2, "post_tag");
    assert Assoc.Get(m2, "category") == Assoc.Get(m1, "category");
    assert TermsPart(l, site).related == m2;
  }

  /** Appending to a category the map does not have yet creates it at the end, holding just those URLs. */
  lemma AppendAllFresh(m: UrlMap, urls: seq<string>, category: string)
    requires category !in Assoc.Keys(m)
    ensures Assoc.Keys(AppendAll(m, urls, category)) == Assoc.Keys(m) + KeyIf(urls, category)
    ensures Category(AppendAll(m, urls, category), category) == urls
  {
    assert Category(m, category) == [];
  }

  /** After the term lookups on an empty map, none of the later categories exists yet. */
  lemma TermsStageLeavesLater(l: Locator, site: Site, c: string)
    requires l.related == [] && LaterThanTerms(c)
    ensures c !in Assoc.Keys(TermsPart(l, site).related)
  {
    TermsStage(l, site);
    TermKeysAreEarly(TermUrls(l.postId, "category", site), TermUrls(l.postId, "post_tag", site), c);
  }

  /** The later steps add 'author', then 'post-type-archive' when it has links, then 'feed'. */
  lemma OthersKeys(l: Locator, site: Site)
    requires forall c :: LaterThanTerms(c) ==> c !in Assoc.Keys(l.related)
    ensures Assoc.Keys(OthersPart(l, site).related) ==
      Assoc.Keys(l.related) + ["author"] + KeyIf(ArchiveUrls(l.post, site), "post-type-archive") + ["feed"]
  {
    var k0 := Assoc.Keys(l.related);
    assert LaterThanTerms("author") && LaterThanTerms("post-type-archive") && LaterThanTerms("feed");
    assert "author" !in k0 && "post-type-archive" !in k0 && "feed" !in k0;
    LaterNamesDiffer();
    var l3 := LocateAuthor(l, site).0;
    AuthorStageKeys(l, site);
    var l4 := LocateArchive(l3, site).0;
    ArchiveStageKeys(l3, site);
    FeedStageKeys(l4, site);
    assert OthersPart(l, site) == LocateFeeds(l4, site).0;
  }

  lemma LaterNamesDiffer()
    ensures "post-type-archive" != "author" && "feed" != "author" && "feed" != "post-type-archive"
  {
  }

  /** 'author' is created at the end when it was not there, and the post is kept. */
  lemma AuthorStageKeys(l: Locator, site: Site)
    requires "author" !in Assoc.Keys(l.related)
    ensures var l3 := LocateAuthor(l, site).0;
      Assoc.Keys(l3.related) == Assoc.Keys(l.related) + ["author"] && l3.post == l.post
  {
    var author := AuthorOf(l.post);
    var m1 := AppendUrl(l.related, site.authorPage(author), "author");
    assert Assoc.Keys(m1) == Assoc.Keys(l.related) + ["author"];
    assert LocateAuthor(l, site).0.related == AppendUrl(m1, site.authorFeed(author), "author");
  }

  /** 'post-type-archive' is created at the end when there are links and it was not there. */
  lemma ArchiveStageKeys(l: Locator, site: Site)
    requires "post-type-archive" !in Assoc.Keys(l.related)
    ensures Assoc.Keys(LocateArchive(l, site).0.related) ==
      Assoc.Keys(l.related) + KeyIf(ArchiveUrls(l.post, site), "post-type-archive")
  {
    if ArchiveUrls(l.post, site) == [] {
      assert Assoc.Keys(l.related) + [] == Assoc.Keys(l.related);
    }
  }

  /** 'feed' is created at the end when it was not there. */
  lemma FeedStageKeys(l: Locator, site: Site)
    requires "feed" !in Assoc.Keys(l.related)
    ensures Assoc.Keys(LocateFeeds(l, site).0.related) == Assoc.Keys(l.related) + ["feed"]
  {
  }

  /** The later steps leave every other category alone. */
  lemma OthersKeep(l: Locator, site: Site, c: string)
    requires !LaterThanTerms(c)
    ensures Assoc.Get(OthersPart(l, site).related, c) == Assoc.Get(l.related, c)
  {
  }

  /** The author's page and feed are appended to 'author', which the later steps then leave alone. */
  lemma OthersAuthor(l: Locator, site: Site)
    ensures Category(OthersPart(l, site).related, "author") ==
      Category(l.related, "author") + [site.authorPage(AuthorOf(l.post)), site.authorFeed(AuthorOf(l.post))]
  {
    NamesDiffer();
    var l3 := LocateAuthor(l, site).0;
    var l4 := LocateArchive(l3, site).0;
    assert Category(l4.related, "author") == Category(l3.related, "author");
  }

  /** 'post-type-archive' is replaced by the archive links when there are any. */
  lemma OthersArchive(l: Locator, site: Site)
    ensures Category(OthersPart(l, site).related, "post-type-archive") ==
      if ArchiveUrls(l.post, site) != [] then ArchiveUrls(l.post, site) else Category(l.related, "post-type-archive")
  {
    var c := "post-type-archive";
    assert c != "author" && c != "feed";
    var l3 := LocateAuthor(l, site).0;
    StageKeeps(l.related, l3.related, "author", c);
    var l4 := LocateArchive(l3, site).0;
    ArchiveStageCategory(l3, site);
    StageKeeps(l4.related, LocateFeeds(l4, site).0.related, "feed", c);
    assert OthersPart(l, site) == LocateFeeds(l4, site).0;
  }

  /** A step that only writes category `w` leaves the URLs of any other category as they were. */
  lemma StageKeeps(before: UrlMap, after: UrlMap, w: string, c: string)
    requires forall x :: x != w ==> Assoc.Get(after, x) == Assoc.Get(before, x)
    requires c != w
    ensures Category(after, c) == Category(before, c)
  {
  }

  /** The archive lookup sets 'post-type-archive' exactly when there are links. */
  lemma ArchiveStageCategory(l: Locator, site: Site)
    ensures var urls := ArchiveUrls(l.post, site);
      Category(LocateArchive(l, site).0.related, "post-type-archive") ==
        if urls != [] then urls else Category(l.related, "post-type-archive")
  {
  }

  /**
   * For a fresh locator, as the constructor leaves it, the map holds in this
   * order: 'category' and 'post_tag' when they have links, 'author',
   * 'post-type-archive' when the post type has an archive link, and 'feed'.
   */
  lemma LocateAllCategories(l: Locator, site: Site)
    requires l.related == []
    ensures Assoc.Keys(LocateAll(l, site).1) ==
      KeyIf(TermUrls(l.postId, "category", site), "category")
      + KeyIf(TermUrls(l.postId, "post_tag", site), "post_tag")
      + ["author"]
      + KeyIf(ArchiveUrls(l.post, site), "post-type-archive")
      + ["feed"]
  {
    var l2 := TermsPart(l, site);
    forall c | LaterThanTerms(c)
      ensures c !in Assoc.Keys(l2.related)
    {
      TermsStageLeavesLater(l, site, c);
    }
    OthersKeys(l2, site);
    TermsStage(l, site);
  }

  /** The term categories of a fresh locator hold exactly the term links. */
  lemma LocateAllTerms(l: Locator, site: Site)
    requires l.related == []
    ensures Category(LocateAll(l, site).1, "category") == TermUrls(l.postId, "category", site)
    ensures Category(LocateAll(l, site).1, "post_tag") == TermUrls(l.postId, "post_tag", site)
  {
    var l2 := TermsPart(l, site);
    TermsStage(l, site);
    TermNamesEarly();
    OthersKeep(l2, site, "category");
    OthersKeep(l2, site, "post_tag");
    var m := LocateAll(l, site).1;
    assert m == OthersPart(l2, site).related;
    assert Category(m, "category") == Category(l2.related, "category");
    assert Category(m, "post_tag") == Category(l2.related, "post_tag");
  }

  lemma TermNamesEarly()
    ensures !LaterThanTerms("category") && !LaterThanTerms("post_tag")
  {
    NamesDiffer();
  }

  /** 'author' of a fresh locator holds the author's page and then the author's feed. */
  lemma LocateAllAuthor(l: Locator, site: Site)
    requires l.related == []
    ensures Category(LocateAll(l, site).1, "author") ==
      [site.authorPage(AuthorOf(l.post)), site.authorFeed(AuthorOf(l.post))]
  {
    var l2 := TermsPart(l, site);
    TermsStageLeavesLater(l, site, "author");
    OthersAuthor(l2, site);
  }

  /** 'post-type-archive' of a fresh locator holds the archive links that exist, and no others. */
  lemma LocateAllArchive(l: Locator, site: Site)
    requires l.related == []
    ensures Category(LocateAll(l, site).1, "post-type-archive") == ArchiveUrls(l.post, site)
  {
    var l2 := TermsPart(l, site);
    TermsStageLeavesLater(l, site, "post-type-archive");
    OthersArchive(l2, site);
  }

  /** 'feed' always holds exactly the six feeds, whatever the map held before. */
  lemma LocateAllFeeds(l: Locator, site: Site)
    ensures Assoc.Get(LocateAll(l, site).1, "feed") == Some(FeedUrls(l.post, site))
  {
  }

  lemma DistinctSnoc(ks: seq<string>, k: string)
    requires Assoc.DistinctKeys(ks) && k !in ks
    ensures Assoc.DistinctKeys(ks + [k])
  {
  }

  lemma DistinctKeyIf(ks: seq<string>, urls: seq<string>, k: string)
    requires Assoc.DistinctKeys(ks) && k !in ks
    ensures Assoc.DistinctKeys(ks + KeyIf(urls, k))
  {
    if urls != [] {
      DistinctSnoc(ks, k);
    } else {
      assert ks + KeyIf(urls, k) == ks;
    }
  }

  /** The categories `locate_all` can create, in the order it creates them. */
  function CategoryList(a: seq<string>, b: seq<string>, c: seq<string>): seq<string> {
    KeyIf(a, "category") + KeyIf(b, "post_tag") + ["author"] + KeyIf(c, "post-type-archive") + ["feed"]
  }

  /** The category list `locate_all` produces has no name twice and no 'url'. */
  lemma CategoryListDistinct(a: seq<string>, b: seq<string>, c: seq<string>)
    ensures Assoc.DistinctKeys(CategoryList(a, b, c)) && "url" !in CategoryList(a, b, c)
  {
    CategoryListNoRepeat(a, b, c);
    CategoryListNoUrl(a, b, c);
  }

  lemma CategoryListNoRepeat(a: seq<string>, b: seq<string>, c: seq<string>)
    ensures Assoc.DistinctKeys(CategoryList(a, b, c))
  {
    NamesDiffer();
    var k1 := KeyIf(a, "category");
    var k2 := k1 + KeyIf(b, "post_tag");
    var k4 := k2 + ["author"] + KeyIf(c, "post-type-archive");
    DistinctKeyIf([], a, "category");
    assert [] + k1 == k1;
    DistinctKeyIf(k1, b, "post_tag");
    DistinctSnoc(k2, "author");
    DistinctKeyIf(k2 + ["author"], c, "post-type-archive");
    DistinctSnoc(k4, "feed");
  }

  lemma CategoryListNoUrl(a: seq<string>, b: seq<string>, c: seq<string>)
    ensures "url" !in CategoryList(a, b, c)
  {
    assert "url" != "category" && "url" != "post_tag" && "url" != "author" && "url" != "post-type-archive" && "url" != "feed";
  }

  /** Every fresh result is a well-formed URL map a related purge accepts. */
  lemma LocateAllPurgeable(ids: Identifiers, site: Site)
    ensures var m := LocateAll(New(ids, site), site).1;
      Assoc.Distinct(m) && "url" !in Assoc.Keys(m)
  {
    var l := New(ids, site);
    LocateAllCategories(l, site);
    CategoryListDistinct(TermUrls(l.postId, "category", site), TermUrls(l.postId, "post_tag", site), ArchiveUrls(l.post, site));
  }

  /**
   * `get_related_urls` of the purge collection: the locator started from
   * the URL alone. Purging a URL with `related` set purges it and then
   * every URL located for it, and succeeds exactly when each purge did.
   */
  function CollectionRelated(url: string, site: Site): (r: UrlMap)
    ensures Assoc.Distinct(r) && "url" !in Assoc.Keys(r)
  {
    LocateAllPurgeable(Identifiers(None, Str(url), Null), site);
    LocateAll(New(Identifiers(None, Str(url), Null), site), site).1
  }

  lemma PurgeUrlWithRelated(url: string, args: PurgeRequest.Args, site: Site,
                            env: PurgeRequest.Env, net: PurgeRequest.Net)
    requires UtilsPurge.WantsRelated(args)
    ensures var related := CollectionRelated(url, site);
      UtilsPurge.PurgeUrl(url, args, related, env, net) == "success" <==>
        forall u :: u in [url] + Assoc.Flatten(related) ==>
          PurgeCollection.UrlResponse(u, args, env, net) == PurgeRequest.Http(200)
  {
    UtilsPurge.PurgeUrlRelated(url, args, CollectionRelated(url, site), env, net);
  }
}

=== FILE: settings.dfy ===
/**
 * src/classes/settings.php: the registered settings with their sanitisers
 * and constant defaults, the negotiation of stored values against those
 * defaults, and the per-request cache of the negotiated result.
 */
module Settings {
  import opened Php
  import Wp
  import Utils
  import Config

  /** The registered settings, in registration order. */
  datatype Key =
    | ApiKey | ServiceId | AllowPurgeAll | LogPurges | VclVersion | DebugMode
    | ApiHostname | EnableSwr | SwrTtl | EnableSie | SieTtl
    | SurrogateControlTtl | CacheControlTtl | DefaultPurgeType
    | WebhooksUrlEndpoint | WebhooksUsername | WebhooksChannel | WebhooksActivate

  const Registered: set<Key> := {
    ApiKey, ServiceId, AllowPurgeAll, LogPurges, VclVersion, DebugMode,
    ApiHostname, EnableSwr, SwrTtl, EnableSie, SieTtl,
    SurrogateControlTtl, CacheControlTtl, DefaultPurgeType,
    WebhooksUrlEndpoint, WebhooksUsername, WebhooksChannel, WebhooksActivate
  }

  /** Every setting the model names is registered. */
  lemma AllRegistered(k: Key)
    ensures k in Registered
  {
    match k
    case ApiKey | ServiceId | AllowPurgeAll | LogPurges | VclVersion | DebugMode =>
    case ApiHostname | EnableSwr | SwrTtl | EnableSie | SieTtl =>
    case SurrogateControlTtl | CacheControlTtl | DefaultPurgeType =>
    case WebhooksUrlEndpoint | WebhooksUsername | WebhooksChannel | WebhooksActivate =>
  }

  /** The option name a setting is stored under. */
  function KeyName(k: Key): string {
    match k
    case ApiKey => "fastly_api_key"
    case ServiceId => "fastly_service_id"
    case AllowPurgeAll => "allow_purge_all"
    case LogPurges => "fastly_log_purges"
    case VclVersion => "fastly_vcl_version"
    case DebugMode => "fastly_debug_mode"
    case ApiHostname => "fastly_api_hostname"
    case EnableSwr => "enable_stale_while_revalidate"
    case SwrTtl => "stale_while_revalidate_ttl"
    case EnableSie => "enable_stale_if_error"
    case SieTtl => "stale_if_error_ttl"
    case SurrogateControlTtl => "surrogate_control_ttl"
    case CacheControlTtl => "cache_control_ttl"
    case DefaultPurgeType => "default_purge_type"
    case WebhooksUrlEndpoint => "webhooks_url_endpoint"
    case WebhooksUsername => "webhooks_username"
    case WebhooksChannel => "webhooks_channel"
    case WebhooksActivate => "webhooks_activate"
  }

  /** The sanitise callbacks the registration table names. */
  datatype Sanitizer =
    | Credential   // purgely_sanitize_key
    | Checkbox     // purgely_sanitize_checkbox
    | EscUrl       // esc_url
    | AbsInt       // absint
    | WpKey        // sanitize_key

  function SanitizerOf(k: Key): Sanitizer {
    match k
    case ApiKey | ServiceId => Credential
    case AllowPurgeAll | LogPurges | VclVersion | DebugMode
      | EnableSwr | EnableSie | WebhooksActivate => Checkbox
    case ApiHostname | WebhooksUrlEndpoint => EscUrl
    case SwrTtl | SieTtl | SurrogateControlTtl | CacheControlTtl => AbsInt
    case DefaultPurgeType | WebhooksUsername | WebhooksChannel => WpKey
  }

  /** The constant a setting defaults to. */
  function DefaultOf(k: Key): Config.Const {
    match k
    case ApiKey => Config.FastlyKey
    case ServiceId => Config.FastlyServiceId
    case AllowPurgeAll => Config.AllowPurgeAll
    case LogPurges => Config.FastlyLogPurges
    case VclVersion => Config.FastlyVclVersion
    case DebugMode => Config.FastlyDebugMode
    case ApiHostname => Config.ApiEndpoint
    case EnableSwr => Config.EnableStaleWhileRevalidate
    case SwrTtl => Config.StaleWhileRevalidateTtl
    case EnableSie => Config.EnableStaleIfError
    case SieTtl => Config.StaleIfErrorTtl
    case SurrogateControlTtl => Config.SurrogateControlTtl
    case CacheControlTtl => Config.CacheControlTtl
    case DefaultPurgeType => Config.DefaultPurgeType
    case WebhooksUrlEndpoint => Config.WebhooksUrlEndpoint
    case WebhooksUsername => Config.WebhooksUsername
    case WebhooksChannel => Config.WebhooksChannel
    case WebhooksActivate => Config.WebhooksActivate
  }

  /** The registered setting stored under `name`, if any. */
  function KeyNamed(name: string): (r: Option<Key>)
    ensures r.Some? <==> exists k :: KeyName(k) == name
    ensures r.Some? ==> KeyName(r.value) == name
  {
    if exists k :: KeyName(k) == name then
      KeyNameUnique(name);
      var k :| KeyName(k) == name;
      Some(k)
    else None
  }

  /** At most one setting is stored under a name. */
  lemma KeyNameUnique(name: string)
    ensures forall k, k' :: KeyName(k) == name && KeyName(k') == name ==> k == k'
  {
    forall k, k' | KeyName(k) == name && KeyName(k') == name
      ensures k == k'
    {
      KeyNameInjective(k, k');
    }
  }

  /** Different settings are stored under different names. */
  lemma KeyNameInjective(k: Key, k': Key)
    requires KeyName(k) == KeyName(k')
    ensures k == k'
  {
  }

  /** `esc_url` belongs to WordPress and enters the model as a parameter. */
  type UrlEscaper = string -> string

  /** Running a sanitise callback on a candidate value. */
  function Sanitize(s: Sanitizer, v: Value, escUrl: UrlEscaper): (r: Value)
    ensures s == Credential ==> r == Str(Utils.SanitizeCredential(ToStr(v))) && Utils.IsCredential(r.s)
    ensures s == Credential && Utils.IsCredential(ToStr(v)) ==> r == Str(ToStr(v))
    ensures s == Checkbox ==> r.Bool? && (r.b <==> Utils.SanitizeCheckbox(v))
    ensures s == EscUrl ==> r == Str(escUrl(ToStr(v)))
    ensures s == AbsInt ==> r == Int(Absint(v)) && r.i >= 0 && (v.Int? && v.i >= 0 ==> r == v)
    ensures s == WpKey ==> r == Str(Wp.SanitizeKey(ToStr(v))) && forall i :: 0 <= i < |r.s| ==> Wp.IsKeyChar(r.s[i])
    ensures s == WpKey && (forall i :: 0 <= i < |ToStr(v)| ==> Wp.IsKeyChar(ToStr(v)[i])) ==> r == Str(ToStr(v))
  {
    match s
    case Credential => Str(Utils.SanitizeCredential(ToStr(v)))
    case Checkbox => Bool(Utils.SanitizeCheckbox(v))
    case EscUrl => Str(escUrl(ToStr(v)))
    case AbsInt => Int(Absint(v))
    case WpKey => Str(Wp.SanitizeKey(ToStr(v)))
  }

  /** An escaper that leaves its own output alone. */
  ghost predicate Idempotent(escUrl: UrlEscaper) {
    forall u :: escUrl(escUrl(u)) == escUrl(u)
  }

  /** Sanitising a sanitised value changes nothing. */
  lemma SanitizeIdempotent(s: Sanitizer, v: Value, escUrl: UrlEscaper)
    requires Idempotent(escUrl)
    ensures Sanitize(s, Sanitize(s, v, escUrl), escUrl) == Sanitize(s, v, escUrl)
  {
    match s
    case Credential =>
    case Checkbox => Utils.SanitizeCheckboxStable(v);
    case EscUrl =>
    case AbsInt =>
    case WpKey => Wp.SanitizeKeyFixes(Wp.SanitizeKey(ToStr(v)));
  }

  /**
   * The three stored option groups merged with `array_merge`: a name set in
   * a later group (general, then advanced, then webhooks) wins.
   */
  function SavedSettings(general: map<string, Value>, advanced: map<string, Value>, webhooks: map<string, Value>)
    : (r: map<string, Value>)
    ensures forall n :: n in r <==> n in general || n in advanced || n in webhooks
    ensures forall n :: n in webhooks ==> r[n] == webhooks[n]
    ensures forall n :: n in advanced && n !in webhooks ==> r[n] == advanced[n]
    ensures forall n :: n in general && n !in advanced && n !in webhooks ==> r[n] == general[n]
  {
    general + advanced + webhooks
  }

  /** The value a setting starts from: the saved one if set, else its constant if set, else "". */
  function Candidate(k: Key, saved: map<string, Value>, defines: Config.Defines): Value {
    if KeyName(k) in saved && !saved[KeyName(k)].Null? then saved[KeyName(k)]
    else if defines(DefaultOf(k)).Some? && !defines(DefaultOf(k)).value.Null? then defines(DefaultOf(k)).value
    else Str("")
  }

  /** One pass of the negotiation loop over every registered setting. */
  function Negotiate(saved: map<string, Value>, defines: Config.Defines, escUrl: UrlEscaper)
    : (r: map<Key, Value>)
    ensures forall k :: k in r
  {
    var r := map k | k in Registered :: Sanitize(SanitizerOf(k), Candidate(k, saved, defines), escUrl);
    forall k
      ensures k in r
    {
      AllRegistered(k);
    }
    r
  }

  /**
   * Every negotiated setting is set and has its sanitiser's type: the
   * credentials are alphanumeric, the lifetimes non-negative integers and
   * the switches booleans.
   */
  lemma NegotiatedTypes(saved: map<string, Value>, defines: Config.Defines, escUrl: UrlEscaper, k: Key)
    ensures var neg := Negotiate(saved, defines, escUrl);
      && !neg[k].Null?
      && (SanitizerOf(k) == Credential ==> neg[k].Str? && Utils.IsCredential(neg[k].s))
      && (SanitizerOf(k) == AbsInt ==> neg[k].Int? && neg[k].i >= 0)
      && (SanitizerOf(k) == Checkbox ==> neg[k].Bool?)
  {
    var v := Candidate(k, saved, defines);
    assert Negotiate(saved, defines, escUrl)[k] == Sanitize(SanitizerOf(k), v, escUrl);
  }

  /** The negotiated settings written back as the stored option. */
  function AsSaved(neg: map<Key, Value>): (r: map<string, Value>)
    ensures forall k :: k in neg ==> KeyName(k) in r && r[KeyName(k)] == neg[k]
  {
    forall k, k' | KeyName(k) == KeyName(k')
      ensures k == k'
    {
      KeyNameInjective(k, k');
    }
    map k | k in neg :: KeyName(k) := neg[k]
  }

  /**
   * Negotiation is stable: storing the negotiated values and negotiating
   * again yields the same settings, whatever the constants say.
   */
  lemma NegotiateStable(saved: map<string, Value>, defines: Config.Defines, defines': Config.Defines,
                        escUrl: UrlEscaper)
    requires Idempotent(escUrl)
    ensures Negotiate(AsSaved(Negotiate(saved, defines, escUrl)), defines', escUrl)
            == Negotiate(saved, defines, escUrl)
  {
    var neg := Negotiate(saved, defines, escUrl);
    var neg' := Negotiate(AsSaved(neg), defines', escUrl);
    forall k
      ensures neg'[k] == neg[k]
    {
      NegotiateStableAt(saved, defines, defines', escUrl, k);
    }
    MapsEqual(neg', neg);
  }

  /** Two negotiations that agree on every setting are equal. */
  lemma MapsEqual(a: map<Key, Value>, b: map<Key, Value>)
    requires forall k :: k in a && k in b && a[k] == b[k]
    ensures a == b
  {
  }

  lemma NegotiateStableAt(saved: map<string, Value>, defines: Config.Defines, defines': Config.Defines,
                          escUrl: UrlEscaper, k: Key)
    requires Idempotent(escUrl)
    ensures var neg := Negotiate(saved, defines, escUrl);
            Negotiate(AsSaved(neg), defines', escUrl)[k] == neg[k]
  {
    var neg := Negotiate(saved, defines, escUrl);
    var v := Candidate(k, saved, defines);
    assert neg[k] == Sanitize(SanitizerOf(k), v, escUrl);
    NegotiatedTypes(saved, defines, escUrl, k);
    assert Candidate(k, AsSaved(neg), defines') == neg[k];
    SanitizeIdempotent(SanitizerOf(k), v, escUrl);
  }

  /** A setting that is saved wins over its constant. */
  lemma SavedWins(k: Key, saved: map<string, Value>, defines: Config.Defines, escUrl: UrlEscaper)
    requires KeyName(k) in saved && !saved[KeyName(k)].Null?
    ensures Negotiate(saved, defines, escUrl)[k] == Sanitize(SanitizerOf(k), saved[KeyName(k)], escUrl)
  {
  }

  /** Unless stored or predefined, purge-all is off. */
  lemma DefaultPurgeAllOff(saved: map<string, Value>, pre: Config.Defines, escUrl: UrlEscaper)
    requires KeyName(AllowPurgeAll) !in saved && pre(Config.AllowPurgeAll).None?
    ensures Negotiate(saved, Config.Load(pre), escUrl)[AllowPurgeAll] == Bool(false)
  {
    assert DefaultOf(AllowPurgeAll) == Config.AllowPurgeAll && Config.Default(Config.AllowPurgeAll) == Bool(false);
    CandidateFromFile(AllowPurgeAll, saved, pre);
    NegotiatedValue(saved, Config.Load(pre), escUrl, AllowPurgeAll);
  }

  /** Unless stored or predefined, purges are soft. */
  lemma DefaultSoftPurge(saved: map<string, Value>, pre: Config.Defines, escUrl: UrlEscaper)
    requires KeyName(DefaultPurgeType) !in saved && pre(Config.DefaultPurgeType).None?
    ensures Negotiate(saved, Config.Load(pre), escUrl)[DefaultPurgeType] == Str("soft")
  {
    assert DefaultOf(DefaultPurgeType) == Config.DefaultPurgeType && Config.Default(Config.DefaultPurgeType) == Str("soft");
    CandidateFromFile(DefaultPurgeType, saved, pre);
    NegotiatedValue(saved, Config.Load(pre), escUrl, DefaultPurgeType);
    SanitizeSoft(escUrl);
  }

  /** "soft" passes `sanitize_key` unchanged. */
  lemma SanitizeSoft(escUrl: UrlEscaper)
    ensures Sanitize(SanitizerOf(DefaultPurgeType), Str("soft"), escUrl) == Str("soft")
  {
    assert SanitizerOf(DefaultPurgeType) == WpKey;
    SoftIsKey();
    SanitizeKeyKeeps("soft", escUrl);
  }

  /** A value `sanitize_key` leaves alone passes the key sanitiser unchanged. */
  lemma SanitizeKeyKeeps(s: string, escUrl: UrlEscaper)
    requires Wp.SanitizeKey(s) == s
    ensures Sanitize(WpKey, Str(s), escUrl) == Str(s)
  {
  }

  /** Unless stored or predefined, surrogate content lives 1800 seconds. */
  lemma DefaultSurrogateTtl(saved: map<string, Value>, pre: Config.Defines, escUrl: UrlEscaper)
    requires KeyName(SurrogateControlTtl) !in saved && pre(Config.SurrogateControlTtl).None?
    ensures Negotiate(saved, Config.Load(pre), escUrl)[SurrogateControlTtl] == Int(1800)
  {
    assert DefaultOf(SurrogateControlTtl) == Config.SurrogateControlTtl && Config.Default(Config.SurrogateControlTtl) == Int(1800);
    CandidateFromFile(SurrogateControlTtl, saved, pre);
    NegotiatedValue(saved, Config.Load(pre), escUrl, SurrogateControlTtl);
  }

  /** A setting neither stored nor predefined starts from the file's default. */
  lemma CandidateFromFile(k: Key, saved: map<string, Value>, pre: Config.Defines)
    requires KeyName(k) !in saved && pre(DefaultOf(k)).None? && !Config.Default(DefaultOf(k)).Null?
    ensures Candidate(k, saved, Config.Load(pre)) == Config.Default(DefaultOf(k))
  {
    var c := DefaultOf(k);
    assert Config.Load(pre)(c) == Some(Config.Default(c));
  }

  lemma SoftIsKey()
    ensures Wp.SanitizeKey("soft") == "soft"
  {
    assert forall i :: 0 <= i < |"soft"| ==> Wp.IsKeyChar("soft"[i]);
    Wp.SanitizeKeyFixes("soft");
  }

  /**
   * The order of precedence of a negotiated setting: a saved value that is
   * set, sanitised; otherwise the setting's constant when it is defined and
   * not null, sanitised; otherwise "" through the sanitiser.
   */
  lemma NegotiatedValue(saved: map<string, Value>, defines: Config.Defines, escUrl: UrlEscaper, k: Key)
    ensures var neg := Negotiate(saved, defines, escUrl)[k];
      && (KeyName(k) in saved && !saved[KeyName(k)].Null? ==>
            neg == Sanitize(SanitizerOf(k), saved[KeyName(k)], escUrl))
      && (!(KeyName(k) in saved && !saved[KeyName(k)].Null?)
          && defines(DefaultOf(k)).Some? && !defines(DefaultOf(k)).value.Null? ==>
            neg == Sanitize(SanitizerOf(k), defines(DefaultOf(k)).value, escUrl))
      && (!(KeyName(k) in saved && !saved[KeyName(k)].Null?)
          && !(defines(DefaultOf(k)).Some? && !defines(DefaultOf(k)).value.Null?) ==>
            neg == Sanitize(SanitizerOf(k), Str(""), escUrl))
  {
  }

  // ---------------------------------------------------------------------------
  // The cache

  /** `get_settings`: negotiate once, then serve the cached result. */
  function GetSettings(cache: map<Key, Value>, saved: map<string, Value>, defines: Config.Defines,
                       escUrl: UrlEscaper): (r: (map<Key, Value>, map<Key, Value>))
    ensures r.1 == r.0
    ensures |cache| > 0 ==> r.0 == cache
    ensures |cache| == 0 ==> r.0 == Negotiate(saved, defines, escUrl)
  {
    if |cache| == 0 then
      var neg := Negotiate(saved, defines, escUrl);
      (neg, neg)
    else (cache, cache)
  }

  /** Once negotiated, later changes to the stored options are not seen. */
  lemma CachedAfterFirstRead(saved: map<string, Value>, defines: Config.Defines,
                             saved': map<string, Value>, defines': Config.Defines, escUrl: UrlEscaper)
    ensures var (first, cache) := GetSettings(map[], saved, defines, escUrl);
            GetSettings(cache, saved', defines', escUrl).0 == first
  {
    var first := Negotiate(saved, defines, escUrl);
    assert ApiKey in first;
    assert |first| > 0;
  }

  /**
   * `get_setting`: the negotiated value when it is set, else the setting's
   * constant, else "" (also for names that are not registered).
   */
  function GetSetting(cache: map<Key, Value>, saved: map<string, Value>, defines: Config.Defines,
                      escUrl: UrlEscaper, name: string): (r: (Value, map<Key, Value>))
    ensures r.1 == GetSettings(cache, saved, defines, escUrl).1
    ensures KeyNamed(name).None? ==> r.0 == Str("")
    ensures KeyNamed(name).Some? ==>
      var k := KeyNamed(name).value;
      var settings := GetSettings(cache, saved, defines, escUrl).0;
      && (k in settings && !settings[k].Null? ==> r.0 == settings[k])
      && (!(k in settings && !settings[k].Null?) && defines(DefaultOf(k)).Some? && !defines(DefaultOf(k)).value.Null? ==>
            r.0 == defines(DefaultOf(k)).value)
      && (!(k in settings && !settings[k].Null?) && !(defines(DefaultOf(k)).Some? && !defines(DefaultOf(k)).value.Null?) ==>
            r.0 == Str(""))
  {
    var (neg, cache') := GetSettings(cache, saved, defines, escUrl);
    var value :=
      match KeyNamed(name)
      case None => Str("")
      case Some(k) =>
        if k in neg && !neg[k].Null? then neg[k]
        else if defines(DefaultOf(k)).Some? && !defines(DefaultOf(k)).value.Null? then defines(DefaultOf(k)).value
        else Str("");
    (value, cache')
  }

  /** On a fresh cache, reading a registered setting gives its negotiated value. */
  lemma GetSettingNegotiated(saved: map<string, Value>, defines: Config.Defines, escUrl: UrlEscaper, k: Key)
    ensures GetSetting(map[], saved, defines, escUrl, KeyName(k)).0 == Negotiate(saved, defines, escUrl)[k]
  {
    var r := KeyNamed(KeyName(k));
    KeyNameInjective(r.value, k);
    NegotiatedTypes(saved, defines, escUrl, k);
    var neg := GetSettings(map[], saved, defines, escUrl).0;
    assert neg == Negotiate(saved, defines, escUrl) && k in neg && !neg[k].Null?;
  }
}

=== FILE: settings_page.dfy ===
/**
 * src/settings-page.php: the admin AJAX callbacks that run the VCL upgrade,
 * purge one URL and purge everything, each answering with a status and a
 * message, and the settings sanitiser registered for the options form.
 * The page rendering is not modelled.
 */
module SettingsPage {
  import opened Php
  import Assoc
  import Settings
  import PurgeRequest
  import Upgrades
  import VclHandler

  /**
   * The JSON an AJAX callback prints: `array()` or `array('status' => ...,
   * 'message' => ...)`; or nothing, when the request dies with a PHP error.
   */
  datatype Reply = NoReply | Reply(status: bool, message: string) | Fatal

  // ---------------------------------------------------------------------------
  // VCL update

  /** `$_GET['activate'] === '1'`: only the exact string "1" activates. */
  predicate Activates(param: Value) {
    param == Str("1")
  }

  /** What the VCL upgrade needs: the snippet directory, the API host, the service and the network. */
  datatype UpgradeInputs = UpgradeInputs(vclDir: Value, host: string, serviceId: string, net: VclHandler.Net)

  /** The reply and the new `fastly_vcl_version` option, when it is written. */
  datatype VclUpdate = VclUpdate(reply: Reply, storedVersion: Option<string>)

  const SuccessfullyUpgraded: string := "Successfully upgraded!"
  const NotActivated: string := "VCL upgraded, new version NOT activated!"

  /**
   * `fastly_vcl_update_ok_callback`: when the stored VCL version is older
   * than the plugin's (1.1.1), run the upgrade; report its first error, or
   * success, and record the new version only when it was also activated.
   * When the handler stops with a PHP error the request dies with no reply.
   */
  function VclUpdateOk(activateParam: Value, stored: Upgrades.Parts, u: UpgradeInputs): (r: VclUpdate)
    ensures !Upgrades.VersionLess(stored, Upgrades.Schema111) ==> r == VclUpdate(NoReply, None)
    ensures r.storedVersion.Some? ==> r.storedVersion == Some(Upgrades.Schema111String)
    ensures Upgrades.VersionLess(stored, Upgrades.Schema111) ==>
      var res := Upgrades.VclUpgrade111(u.vclDir, u.host, u.serviceId, Activates(activateParam), u.net);
      && (res == Upgrades.Died <==> r.reply == Fatal)
      && (res != Upgrades.Died ==> r.reply.Reply? && (r.reply.status <==> res == Upgrades.Done))
      && (res.Errors? ==> r.reply.message == res.errors[0])
      && (r.storedVersion.Some? <==> res == Upgrades.Done && Activates(activateParam))
  {
    var activate := Activates(activateParam);
    if Upgrades.VersionLess(stored, Upgrades.Schema111) then
      var res := Upgrades.VclUpgrade111(u.vclDir, u.host, u.serviceId, activate, u.net);
      match res
      case Done =>
        if activate then VclUpdate(Reply(true, SuccessfullyUpgraded), Some(Upgrades.Schema111String))
        else VclUpdate(Reply(true, NotActivated), None)
      case Errors(errors) => VclUpdate(Reply(false, errors[0]), None)
      case Died => VclUpdate(Fatal, None)
    else VclUpdate(NoReply, None)
  }

  /** Once 1.1.1 is recorded the callback does nothing more. */
  lemma VclUpdateOnce(activateParam: Value, u: UpgradeInputs)
    ensures VclUpdateOk(activateParam, Upgrades.Schema111, u) == VclUpdate(NoReply, None)
  {
    Upgrades.UpgradeOnlyOnce();
  }

  /** A successful upgrade that was not activated is reported, but the stored version stays. */
  lemma NotActivatedKeepsVersion(activateParam: Value, stored: Upgrades.Parts, u: UpgradeInputs)
    requires Upgrades.VersionLess(stored, Upgrades.Schema111) && !Activates(activateParam)
    ensures VclUpdateOk(activateParam, stored, u).storedVersion == None
  {
  }

  /** A failed connection test is answered with its own message. */
  lemma VclUpdateConnectionFailure(activateParam: Value, stored: Upgrades.Parts, u: UpgradeInputs)
    requires Upgrades.VersionLess(stored, Upgrades.Schema111) && !u.net.connection.status
    ensures VclUpdateOk(activateParam, stored, u) == VclUpdate(Reply(false, u.net.connection.message), None)
  {
    Upgrades.VclUpgradeConnectionFailure(u.vclDir, u.host, u.serviceId, Activates(activateParam), u.net);
  }

  // ---------------------------------------------------------------------------
  // Purge by URL

  const EnterUrlFirst: string := "Enter url you want to purge first."
  const SuccessfullyPurged: string := "Successfully purged!"
  const PurgeByUrlFailed: string := "Error while purging, check logs."

  /** `if ( $response )` on what `purge` returns: an HTTP reply or a WP_Error is a non-empty array or an object. */
  predicate Truthy(response: PurgeRequest.Response) {
    match response
    case Flag(b) => b
    case WpError => true
    case Http(_) => true
  }

  /** `fastly_purge_by_url_callback`, as written: any response other than `false` counts as a success. */
  function PurgeByUrl(purgeUrl: Value, env: PurgeRequest.Env, net: PurgeRequest.Net): (r: Reply)
    ensures Empty(purgeUrl) ==> r == Reply(false, EnterUrlFirst)
    ensures !Empty(purgeUrl) ==>
      && r.Reply? && (r.status <==> r.message == SuccessfullyPurged)
      && (r.status <==>
            PurgeRequest.Purge("url", PurgeRequest.One(ToStr(purgeUrl)), map[], env, net).response != PurgeRequest.Flag(false))
  {
    if !Empty(purgeUrl) then
      var o := PurgeRequest.Purge("url", PurgeRequest.One(ToStr(purgeUrl)), map[], env, net);
      if Truthy(o.response) then Reply(true, SuccessfullyPurged) else Reply(false, PurgeByUrlFailed)
    else Reply(false, EnterUrlFirst)
  }

  /** A non-empty URL is purged with one request to itself, and the reply follows that request's answer. */
  lemma PurgeByUrlSendsOne(purgeUrl: Value, env: PurgeRequest.Env, net: PurgeRequest.Net)
    requires !Empty(purgeUrl)
    ensures var o := PurgeRequest.Purge("url", PurgeRequest.One(ToStr(purgeUrl)), map[], env, net);
      && |o.sent| == 1 && o.sent[0].url == ToStr(purgeUrl)
      && o.response == net.send(o.sent[0])
  {
    assert !EmptyStr(ToStr(purgeUrl));
    PurgeRequest.UrlPurgeSendsUrl(ToStr(purgeUrl), map[], env, net);
  }

  /** A server that answers every purge with a 500. */
  function Answers500(): PurgeRequest.Net {
    PurgeRequest.Net(req => PurgeRequest.Http(500), req => None)
  }

  /** A 500 reply is reported as "Successfully purged!", though the engine calls it a failure. */
  lemma PurgeByUrlReports500AsSuccess(env: PurgeRequest.Env)
    ensures var o := PurgeRequest.Purge("url", PurgeRequest.One("http://example.com/"), map[], env, Answers500());
      && PurgeRequest.GetResult(o.response) == "failure"
      && PurgeByUrl(Str("http://example.com/"), env, Answers500()) == Reply(true, SuccessfullyPurged)
  {
    PurgeByUrlSendsOne(Str("http://example.com/"), env, Answers500());
  }

  /** The callback as intended: success exactly when the purge's result is "success". */
  function IntendedPurgeByUrl(purgeUrl: Value, env: PurgeRequest.Env, net: PurgeRequest.Net): (r: Reply)
    ensures Empty(purgeUrl) ==> r == Reply(false, EnterUrlFirst)
    ensures !Empty(purgeUrl) ==> r.Reply? && r.status == (r.message == SuccessfullyPurged)
  {
    if !Empty(purgeUrl) then
      var o := PurgeRequest.Purge("url", PurgeRequest.One(ToStr(purgeUrl)), map[], env, net);
      if PurgeRequest.GetResult(o.response) == "success" then Reply(true, SuccessfullyPurged)
      else Reply(false, PurgeByUrlFailed)
    else Reply(false, EnterUrlFirst)
  }

  /** Corrected, the status is true exactly when the URL's one request got a 200. */
  lemma IntendedPurgeByUrlIff(purgeUrl: Value, env: PurgeRequest.Env, net: PurgeRequest.Net)
    requires !Empty(purgeUrl)
    ensures var o := PurgeRequest.Purge("url", PurgeRequest.One(ToStr(purgeUrl)), map[], env, net);
      IntendedPurgeByUrl(purgeUrl, env, net).status <==> net.send(o.sent[0]) == PurgeRequest.Http(200)
  {
    PurgeByUrlSendsOne(purgeUrl, env, net);
    var o := PurgeRequest.Purge("url", PurgeRequest.One(ToStr(purgeUrl)), map[], env, net);
    PurgeRequest.GetResultSuccessIff(o.response);
  }

  // ---------------------------------------------------------------------------
  // Purge all

  const AllowPurgeAllFirst: string := "Allow Full Cache Purges first."
  const PurgeAllFailed: string := "Purging failed, check logs!"

  /** `purge_all_callback`, as written: `purge( 'all' )` without `allow-all`, and success only for `=== true`. */
  function PurgeAllCallback(allowSetting: Value, env: PurgeRequest.Env, net: PurgeRequest.Net): (r: Reply)
    ensures Empty(allowSetting) ==> r == Reply(false, AllowPurgeAllFirst)
    ensures r.Reply? && (r.status <==> r.message == SuccessfullyPurged)
  {
    if Empty(allowSetting) then Reply(false, AllowPurgeAllFirst)
    else
      var o := PurgeRequest.Purge("all", PurgeRequest.One(""), map[], env, net);
      if o.response == PurgeRequest.Flag(true) then Reply(true, SuccessfullyPurged)
      else Reply(false, PurgeAllFailed)
  }

  /** As written no request is ever sent, and the answer is never a success. */
  lemma PurgeAllCallbackNeverSucceeds(allowSetting: Value, env: PurgeRequest.Env, net: PurgeRequest.Net)
    ensures !PurgeAllCallback(allowSetting, env, net).status
    ensures PurgeRequest.Purge("all", PurgeRequest.One(""), map[], env, net).sent == []
  {
  }

  /**
   * The callback as intended: the setting was checked, so the purge passes
   * `allow-all`, and the status follows the purge's result.
   */
  function IntendedPurgeAllCallback(allowSetting: Value, env: PurgeRequest.Env, net: PurgeRequest.Net): (r: Reply)
    ensures Empty(allowSetting) ==> r == Reply(false, AllowPurgeAllFirst)
    ensures r.Reply? && (r.status <==> r.message == SuccessfullyPurged)
  {
    if Empty(allowSetting) then Reply(false, AllowPurgeAllFirst)
    else
      var o := PurgeRequest.Purge("all", PurgeRequest.One(""), map["allow-all" := Bool(true)], env, net);
      if PurgeRequest.GetResult(o.response) == "success" then Reply(true, SuccessfullyPurged)
      else Reply(false, PurgeAllFailed)
  }

  /** Corrected, an allowed purge-all sends its request and succeeds exactly on a 200. */
  lemma IntendedPurgeAllIff(allowSetting: Value, env: PurgeRequest.Env, net: PurgeRequest.Net)
    requires !Empty(allowSetting)
    ensures var o := PurgeRequest.Purge("all", PurgeRequest.One(""), map["allow-all" := Bool(true)], env, net);
      && |o.sent| == 1 && o.sent[0].url == PurgeRequest.PurgeAllUri(env)
      && (IntendedPurgeAllCallback(allowSetting, env, net).status <==> net.send(o.sent[0]) == PurgeRequest.Http(200))
  {
    var o := PurgeRequest.Purge("all", PurgeRequest.One(""), map["allow-all" := Bool(true)], env, net);
    PurgeRequest.GetResultSuccessIff(o.response);
  }

  // ---------------------------------------------------------------------------
  // Settings sanitiser

  /**
   * The array `sanitize_settings` builds: each registered setting run
   * through its sanitise callback, in the order given; everything else dropped.
   */
  function CleanSettings(settings: Assoc.Assoc<Value>, escUrl: Settings.UrlEscaper): (r: Assoc.Assoc<Value>)
    ensures |r| <= |settings|
    ensures forall i :: 0 <= i < |r| ==> Settings.KeyNamed(r[i].0).Some?
    ensures forall e :: e in r ==>
      exists v :: (e.0, v) in settings && e.1 == Settings.Sanitize(Settings.SanitizerOf(Settings.KeyNamed(e.0).value), v, escUrl)
    ensures forall i :: 0 <= i < |settings| && Settings.KeyNamed(settings[i].0).Some? ==>
      Cleaned(settings[i], escUrl) in r
  {
    if settings == [] then []
    else
      var rest := CleanSettings(settings[1..], escUrl);
      match Settings.KeyNamed(settings[0].0)
      case Some(k) => [(settings[0].0, Settings.Sanitize(Settings.SanitizerOf(k), settings[0].1, escUrl))] + rest
      case None => rest
  }

  /** A registered setting's entry with its value run through the setting's callback. */
  function Cleaned(e: (string, Value), escUrl: Settings.UrlEscaper): (string, Value)
    requires Settings.KeyNamed(e.0).Some?
  {
    (e.0, Settings.Sanitize(Settings.SanitizerOf(Settings.KeyNamed(e.0).value), e.1, escUrl))
  }

  /**
   * Cleaning keeps the order of the submitted settings: the cleaned
   * concatenation is the concatenation of the cleaned parts, and a single
   * entry is kept, cleaned, exactly when it is registered.
   */
  lemma {:induction false} CleanSettingsConcat(a: Assoc.Assoc<Value>, b: Assoc.Assoc<Value>, escUrl: Settings.UrlEscaper)
    ensures CleanSettings(a + b, escUrl) == CleanSettings(a, escUrl) + CleanSettings(b, escUrl)
  {
    if a == [] {
      assert a + b == b;
    } else {
      assert (a + b)[0] == a[0] && (a + b)[1..] == a[1..] + b;
      CleanSettingsConcat(a[1..], b, escUrl);
    }
  }

  /** A single submitted entry: kept and cleaned iff its name is registered. */
  lemma CleanSettingsOne(e: (string, Value), escUrl: Settings.UrlEscaper)
    ensures Settings.KeyNamed(e.0).Some? ==> CleanSettings([e], escUrl) == [Cleaned(e, escUrl)]
    ensures Settings.KeyNamed(e.0).None? ==> CleanSettings([e], escUrl) == []
  {
    assert [e][1..] == [];
  }

  /** Cleaning cleaned settings changes nothing. */
  lemma {:induction false} CleanSettingsIdempotent(settings: Assoc.Assoc<Value>, escUrl: Settings.UrlEscaper)
    requires Settings.Idempotent(escUrl)
    ensures CleanSettings(CleanSettings(settings, escUrl), escUrl) == CleanSettings(settings, escUrl)
  {
    if settings != [] {
      CleanSettingsIdempotent(settings[1..], escUrl);
      match Settings.KeyNamed(settings[0].0)
      case Some(k) =>
        Settings.SanitizeIdempotent(Settings.SanitizerOf(k), settings[0].1, escUrl);
      case None =>
    }
  }

  /** `sanitize_settings`, as written: the cleaned array is built and then the input is returned. */
  function SanitizeSettings(settings: Assoc.Assoc<Value>, escUrl: Settings.UrlEscaper): (r: Assoc.Assoc<Value>)
    ensures |r| == |settings| && forall i :: 0 <= i < |r| ==> r[i] == settings[i]
  {
    var clean := CleanSettings(settings, escUrl);
    settings
  }

  /** A name no setting is registered under comes back from the sanitiser as it went in. */
  lemma UnregisteredSettingSurvives(escUrl: Settings.UrlEscaper)
    ensures Settings.KeyNamed("not_a_setting").None?
    ensures SanitizeSettings([("not_a_setting", Str("x"))], escUrl) == [("not_a_setting", Str("x"))]
    ensures CleanSettings([("not_a_setting", Str("x"))], escUrl) == []
  {
    assert forall k :: Settings.KeyName(k) != "not_a_setting";
  }

  /** The sanitiser as intended: it returns the cleaned array. */
  function IntendedSanitizeSettings(settings: Assoc.Assoc<Value>, escUrl: Settings.UrlEscaper): (r: Assoc.Assoc<Value>)
    ensures |r| <= |settings|
    ensures forall i :: 0 <= i < |r| ==> Settings.KeyNamed(r[i].0).Some?
    ensures forall e :: e in r ==>
      exists v :: (e.0, v) in settings && e.1 == Settings.Sanitize(Settings.SanitizerOf(Settings.KeyNamed(e.0).value), v, escUrl)
    ensures forall i :: 0 <= i < |settings| && Settings.KeyNamed(settings[i].0).Some? ==>
      Cleaned(settings[i], escUrl) in r
    ensures forall i :: 0 <= i < |settings| && Settings.KeyNamed(settings[i].0).None? ==>
      settings[i].0 !in Assoc.Keys(r)
  {
    CleanSettings(settings, escUrl)
  }

  /** Corrected, saving the saved settings again changes nothing. */
  lemma IntendedSanitizeStable(settings: Assoc.Assoc<Value>, escUrl: Settings.UrlEscaper)
    requires Settings.Idempotent(escUrl)
    ensures var r := IntendedSanitizeSettings(settings, escUrl);
      IntendedSanitizeSettings(r, escUrl) == r
  {
    CleanSettingsIdempotent(settings, escUrl);
  }
}

=== FILE: upgrades.dfy ===
/**
 * src/classes/upgrades.php: the schema upgrade that runs when the stored
 * schema version is older than 1.1.1 (moving the old separate options into
 * the grouped settings), and the manual VCL upgrade that pushes the
 * plugin's snippets, condition and request setting through the VCL
 * workflow.
 */
module Upgrades {
  import opened Php
  import Assoc
  import VclHandler

  // ---------------------------------------------------------------------------
  // Schema upgrade

  /** A version string as its numeric parts; an unset version (false) is the empty list. */
  type Parts = seq<nat>

  /**
   * `version_compare(a, b, '<')` on numeric parts: the first differing part
   * decides, and a version that is a proper prefix of the other is older.
   */
  predicate VersionLess(a: Parts, b: Parts)
    decreases |a|
  {
    if b == [] then false
    else if a == [] then true
    else a[0] < b[0] || (a[0] == b[0] && VersionLess(a[1..], b[1..]))
  }

  lemma {:induction false} VersionLessIrreflexive(a: Parts)
    ensures !VersionLess(a, a)
    decreases |a|
  {
    if a != [] {
      VersionLessIrreflexive(a[1..]);
    }
  }

  lemma {:induction false} VersionLessTransitive(a: Parts, b: Parts, c: Parts)
    requires VersionLess(a, b) && VersionLess(b, c)
    ensures VersionLess(a, c)
    decreases |a|
  {
    if a != [] && a[0] == b[0] && b[0] == c[0] {
      VersionLessTransitive(a[1..], b[1..], c[1..]);
    }
  }

  /** Two different versions are ordered one way or the other. */
  lemma {:induction false} VersionLessTotal(a: Parts, b: Parts)
    requires a != b
    ensures VersionLess(a, b) || VersionLess(b, a)
    decreases |a|
  {
    if a != [] && b != [] && a[0] == b[0] {
      assert a == [a[0]] + a[1..] && b == [b[0]] + b[1..];
      VersionLessTotal(a[1..], b[1..]);
    }
  }

  const Schema111: Parts := [1, 1, 1]
  const Schema111String: string := "1.1.1"

  /** `check_and_run_upgrades`: the 1.1.1 upgrade runs iff the stored schema is older. */
  predicate RunsUpgrade111(current: Parts) {
    VersionLess(current, Schema111)
  }

  /** An install that never stored a schema version is upgraded. */
  lemma UnsetSchemaUpgrades()
    ensures RunsUpgrade111([])
  {
  }

  /** After the upgrade has stored 1.1.1, the check does not run it again. */
  lemma UpgradeOnlyOnce()
    ensures !RunsUpgrade111(Schema111)
  {
    VersionLessIrreflexive(Schema111);
  }

  /** The entries of an array that are neither false nor empty, in order (the two `unset` loops). */
  function DropEmpty(a: Assoc.Assoc<Value>): (r: Assoc.Assoc<Value>)
    ensures |r| <= |a|
    ensures forall e :: e in r <==> e in a && !Empty(e.1)
  {
    if a == [] then [] else (if Empty(a[0].1) then [] else [a[0]]) + DropEmpty(a[1..])
  }

  /** The options `upgrade1_1_1` writes, in the order it writes them. */
  datatype Writes = Writes(general: Assoc.Assoc<Value>, advanced: Assoc.Assoc<Value>, schema: string)

  /** `upgrade1_1_1`; `option` is `get_option( name, false )`. */
  function Upgrade111(option: string -> Value): (r: Writes)
    ensures r.schema == Schema111String
    ensures forall e :: e in r.general ==> !Empty(e.1)
    ensures forall e :: e in r.advanced ==> !Empty(e.1)
  {
    var general := [("fastly_api_hostname", option("fastly_api_hostname")),
                    ("fastly_api_key", option("fastly_api_key")),
                    ("fastly_service_id", option("fastly_service_id"))];
    var advanced := [("fastly_log_purges", option("fastly_log_purges"))];
    Writes(DropEmpty(general), DropEmpty(advanced), Schema111String)
  }

  /** An old option reaches the general group exactly when it was set to something non-empty. */
  lemma Upgrade111KeepsSetCredentials(option: string -> Value, name: string)
    requires name in ["fastly_api_hostname", "fastly_api_key", "fastly_service_id"]
    ensures (name, option(name)) in Upgrade111(option).general <==> !Empty(option(name))
  {
  }

  /** The old log-purges flag reaches the advanced group exactly when it was set to something non-empty, and nothing else does. */
  lemma Upgrade111KeepsSetLogFlag(option: string -> Value)
    ensures ("fastly_log_purges", option("fastly_log_purges")) in Upgrade111(option).advanced
      <==> !Empty(option("fastly_log_purges"))
    ensures forall e :: e in Upgrade111(option).advanced ==> e == ("fastly_log_purges", option("fastly_log_purges"))
  {
  }

  /** Only the three credentials can appear in the general group. */
  lemma Upgrade111GeneralKeys(option: string -> Value, e: (string, Value))
    requires e in Upgrade111(option).general
    ensures e.0 in ["fastly_api_hostname", "fastly_api_key", "fastly_service_id"] && e.1 == option(e.0)
  {
  }

  // ---------------------------------------------------------------------------
  // Manual VCL upgrade

  /** The data `vcl_upgrade_1_1_1` hands to the VCL handler. */
  function UpgradeData(vclDir: Value): (r: VclHandler.Data)
    ensures |r.vcl| == 4 && |r.conditions| == 1 && |r.settings| == 1
  {
    VclHandler.Data(
      [VclHandler.VclItem(Str("recv"), vclDir), VclHandler.VclItem(Str("deliver"), vclDir),
       VclHandler.VclItem(Str("error"), vclDir), VclHandler.VclItem(Str("fetch"), vclDir)],
      [VclHandler.Condition(Str("wordpressplugin_request1"), Str("req.http.x-pass"), Str("REQUEST"), Int(90))],
      [VclHandler.Setting(Str("wordpressplugin_setting1"), Str("pass"), Str("wordpressplugin_request1"))])
  }

  /** The snippet types the upgrade uploads, in order. */
  lemma UpgradeDataTypes(vclDir: Value)
    ensures var d := UpgradeData(vclDir);
      [d.vcl[0].snippetType, d.vcl[1].snippetType, d.vcl[2].snippetType, d.vcl[3].snippetType]
        == [Str("recv"), Str("deliver"), Str("error"), Str("fetch")]
  {
  }

  /** The request setting is attached to the condition the same data creates. */
  lemma UpgradeSettingUsesCondition(vclDir: Value)
    ensures var d := UpgradeData(vclDir);
      d.settings[0].requestCondition == d.conditions[0].name
  {
  }

  /** The condition and the setting pass the handler's completeness checks. */
  lemma UpgradeDataComplete(vclDir: Value)
    ensures VclHandler.ConditionComplete(UpgradeData(vclDir).conditions[0])
    ensures VclHandler.SettingComplete(UpgradeData(vclDir).settings[0])
  {
  }

  /**
   * With all four `.vcl` files in place the workflow always returns a flag:
   * neither `prepare_vcl` nor `prepare_setting` can fail on this data.
   */
  lemma UpgradeNeverHaltsWithFiles(vclDir: Value, host: string, sid: string, activate: bool, net: VclHandler.Net)
    requires forall i :: 0 <= i < 4 ==> net.files(VclHandler.VclPath(UpgradeData(vclDir).vcl[i])).Some?
    ensures VclHandler.Execute(VclHandler.New(UpgradeData(vclDir), host, sid, net), activate, net).outcome.Returned?
  {
    var d := UpgradeData(vclDir);
    assert forall i :: 0 <= i < |d.vcl| ==> VclHandler.VclReady(d.vcl[i], net);
    assert forall i :: 0 <= i < |d.settings| ==> VclHandler.SettingComplete(d.settings[i]);
    VclHandler.HaltsOnlyOnBadData(VclHandler.New(d, host, sid, net), activate, net);
  }

  /**
   * What `vcl_upgrade_1_1_1` ends with: true, the handler's errors, or a
   * request that dies because `execute` stopped with a PHP error.
   */
  datatype UpgradeOutcome = Done | Errors(errors: seq<string>) | Died

  /** `vcl_upgrade_1_1_1($activate)`. */
  function VclUpgrade111(vclDir: Value, host: string, sid: string, activate: bool, net: VclHandler.Net): (r: UpgradeOutcome)
    ensures var e := VclHandler.Execute(VclHandler.New(UpgradeData(vclDir), host, sid, net), activate, net);
      && (r == Done <==> e.outcome == VclHandler.Returned(true))
      && (r == Died <==> e.outcome.Halted?)
      && (r.Errors? ==> r.errors == e.h.errors && |r.errors| > 0)
  {
    var h := VclHandler.New(UpgradeData(vclDir), host, sid, net);
    var e := VclHandler.Execute(h, activate, net);
    VclHandler.FalseHasErrors(h, activate, net);
    match e.outcome
    case Halted => Died
    case Returned(pass) => if pass then Done else Errors(e.h.errors)
  }

  /** With all four `.vcl` files in place the upgrade never dies: it answers true or with errors. */
  lemma VclUpgradeAnswersWithFiles(vclDir: Value, host: string, sid: string, activate: bool, net: VclHandler.Net)
    requires forall i :: 0 <= i < 4 ==> net.files(VclHandler.VclPath(UpgradeData(vclDir).vcl[i])).Some?
    ensures VclUpgrade111(vclDir, host, sid, activate, net) != Died
  {
    UpgradeNeverHaltsWithFiles(vclDir, host, sid, activate, net);
  }

  /** A failed connection test comes back as exactly its message. */
  lemma VclUpgradeConnectionFailure(vclDir: Value, host: string, sid: string, activate: bool, net: VclHandler.Net)
    requires !net.connection.status
    ensures VclUpgrade111(vclDir, host, sid, activate, net) == Errors([net.connection.message])
  {
    var h := VclHandler.New(UpgradeData(vclDir), host, sid, net);
    VclHandler.ExistingErrorsStop(h, activate, net);
  }
}

=== FILE: utils.dfy ===
/**
 * src/utils.php: the key and checkbox sanitisers and the legacy option
 * lookup that falls back to the `PURGELY_*` constants. The purge helpers of
 * the same file are in module UtilsPurge, which needs the purge engine.
 */
module Utils {
  import opened Php
  import Config

  // ---------------------------------------------------------------------------
  // Sanitisers

  /** The characters a surrogate key may hold: `[a-zA-Z0-9_-]`. */
  predicate IsSurrogateKeyChar(c: char) {
    IsAlnum(c) || c == '_' || c == '-'
  }

  predicate IsSurrogateKey(s: string) {
    forall i :: 0 <= i < |s| ==> IsSurrogateKeyChar(s[i])
  }

  /** `purgely_sanitize_surrogate_key`: delete every character outside `[a-zA-Z0-9_-]`. */
  function SanitizeSurrogateKey(key: string): (r: string)
    ensures IsSurrogateKey(r)
    ensures IsSubsequence(r, key)
  {
    FilterIsSubsequence(key, IsSurrogateKeyChar);
    Filter(key, IsSurrogateKeyChar)
  }

  /** A key is left unchanged by the sanitiser exactly when it is already valid. */
  lemma SanitizeSurrogateKeyFixesExactlyValid(key: string)
    ensures SanitizeSurrogateKey(key) == key <==> IsSurrogateKey(key)
  {
  }

  /** Sanitising twice is sanitising once. */
  lemma SanitizeSurrogateKeyIdempotent(key: string)
    ensures SanitizeSurrogateKey(SanitizeSurrogateKey(key)) == SanitizeSurrogateKey(key)
  {
    SanitizeSurrogateKeyFixesExactlyValid(SanitizeSurrogateKey(key));
  }

  /** Sanitising a concatenation sanitises each part. */
  lemma SanitizeSurrogateKeyConcat(a: string, b: string)
    ensures SanitizeSurrogateKey(a + b) == SanitizeSurrogateKey(a) + SanitizeSurrogateKey(b)
  {
    FilterConcat(a, b, IsSurrogateKeyChar);
  }

  /** The characters a Fastly API key or service id may hold: `[a-zA-Z0-9]`. */
  predicate IsCredential(s: string) {
    forall i :: 0 <= i < |s| ==> IsAlnum(s[i])
  }

  /** `purgely_sanitize_key`: delete every character outside `[a-zA-Z0-9]`. */
  function SanitizeCredential(key: string): (r: string)
    ensures IsCredential(r)
    ensures IsSubsequence(r, key)
    ensures IsCredential(key) ==> r == key
  {
    FilterIsSubsequence(key, IsAlnum);
    Filter(key, IsAlnum)
  }

  /** A sanitised credential is also a valid surrogate key, and survives that sanitiser. */
  lemma CredentialIsSurrogateKey(key: string)
    ensures IsSurrogateKey(SanitizeCredential(key))
    ensures SanitizeSurrogateKey(SanitizeCredential(key)) == SanitizeCredential(key)
  {
  }

  /** The values `purgely_sanitize_checkbox` accepts: '1', 1, 'true' and true. */
  const CheckboxOn: seq<Value> := [Str("1"), Int(1), Str("true"), Bool(true)]

  /**
   * `purgely_sanitize_checkbox`: strict `in_array` against '1', 1, 'true'
   * and true; everything else, including "on", "yes" and 2, is off.
   */
  function SanitizeCheckbox(v: Value): (r: bool)
    ensures r <==> v in CheckboxOn
    ensures r ==> !Empty(v) && LooseEqualsOne(v) == (v != Str("true"))
    ensures v.Null? ==> !r
  {
    v == Str("1") || v == Int(1) || v == Str("true") || v == Bool(true)
  }

  /** A sanitised checkbox fed back through the sanitiser keeps its meaning. */
  lemma SanitizeCheckboxStable(v: Value)
    ensures SanitizeCheckbox(Bool(SanitizeCheckbox(v))) == SanitizeCheckbox(v)
  {
  }

  /**
   * The strict comparison accepts only what the loose `in_array` would
   * accept too, and strictly less: an HTML checkbox's "on" is loosely
   * equal to true but is off.
   */
  lemma SanitizeCheckboxStricterThanLoose(v: Value)
    ensures SanitizeCheckbox(v) ==> InArray(v, CheckboxOn)
    ensures InArray(Str("on"), CheckboxOn) && !SanitizeCheckbox(Str("on"))
  {
    if SanitizeCheckbox(v) {
      var i :| 0 <= i < |CheckboxOn| && CheckboxOn[i] == v;
      LooseEqReflexive(v);
    }
    assert LooseEq(Str("on"), CheckboxOn[3]);
  }

  /** The comparison is strict: near misses are all off. */
  lemma SanitizeCheckboxStrict()
    ensures !SanitizeCheckbox(Str("01")) && !SanitizeCheckbox(Str("TRUE"))
    ensures !SanitizeCheckbox(Str("on")) && !SanitizeCheckbox(Int(2))
    ensures SanitizeCheckbox(Str("1")) && SanitizeCheckbox(Bool(true))
  {
  }

  // ---------------------------------------------------------------------------
  // Legacy options

  /** The option names `purgely_get_options` looks up, in order. */
  const OptionKeys: seq<string> := [
    "fastly_hostname", "fastly_api_port", "fastly_api_key", "fastly_service_id",
    "fastly_page", "fastly_log_purges", "allow_purge_all", "fastly_api_hostname",
    "enable_stale_while_revalidate", "stale_while_revalidate_ttl",
    "enable_stale_if_error", "stale_if_error_ttl", "surrogate_control_ttl",
    "cache_control_ttl", "default_purge_type"
  ]

  /** The name of the constant an option falls back to. */
  function ConstantNameOf(key: string): (r: string)
    ensures StartsWith(r, "PURGELY_")
    ensures |r| == 8 + |key|
  {
    "PURGELY_" + ToUpper(key)
  }

  /**
   * Constants defined outside config.php, by name (wp-config.php may define
   * `PURGELY_FASTLY_API_KEY`, say, which config.php never does).
   */
  type OtherConstants = string -> Option<Value>

  /** Whether src/config.php defines a constant of that name. */
  predicate IsConfigName(name: string) {
    exists c :: Config.Name(c) == name
  }

  /**
   * The defined constant whose name is `name`, if any (`defined` plus
   * `constant`): config.php's constants as `defines` holds them, and any other
   * name as `others` holds it.
   */
  function ConstantNamed(defines: Config.Defines, others: OtherConstants, name: string): (r: Option<Value>)
    ensures forall c :: Config.Name(c) == name ==> r == defines(c)
    ensures !IsConfigName(name) ==> r == others(name)
  {
    if IsConfigName(name) then
      var c :| Config.Name(c) == name;
      NameInjective(c);
      defines(c)
    else others(name)
  }

  /** Different constants have different names. */
  lemma NameInjective(c: Config.Const)
    ensures forall d :: Config.Name(d) == Config.Name(c) ==> d == c
  {
    forall d | Config.Name(d) == Config.Name(c)
      ensures d == c
    {
      assert Config.Name(d)[8..] == Config.Name(c)[8..];
    }
  }

  /**
   * The options collected from constants, before the stored option is
   * consulted, with `nameOf` giving the constant each key falls back to.
   */
  function OptionsFromConstants(defines: Config.Defines, others: OtherConstants, keys: seq<string>,
                                nameOf: string -> string): (r: map<string, Value>)
    ensures forall k :: k in r <==> k in keys && ConstantNamed(defines, others, nameOf(k)).Some?
    ensures forall k :: k in r ==> r[k] == ConstantNamed(defines, others, nameOf(k)).value
  {
    if keys == [] then map[]
    else
      var rest := OptionsFromConstants(defines, others, keys[1..], nameOf);
      var k := keys[0];
      match ConstantNamed(defines, others, nameOf(k))
      case Some(v) => rest[k := v]
      case None => rest
  }

  /**
   * `purgely_get_options`: the stored "fastly-settings" option when there is
   * one (it replaces the constants wholesale), and otherwise the constants.
   */
  function GetOptions(defines: Config.Defines, others: OtherConstants, stored: Option<map<string, Value>>): (r: map<string, Value>)
    ensures stored.Some? ==> r == stored.value
    ensures stored.None? ==> forall k :: k in r <==> k in OptionKeys && ConstantNamed(defines, others, ConstantNameOf(k)).Some?
    ensures stored.None? ==> forall k :: k in r ==> r[k] == ConstantNamed(defines, others, ConstantNameOf(k)).value
  {
    match stored
    case Some(o) => o
    case None => OptionsFromConstants(defines, others, OptionKeys, ConstantNameOf)
  }

  /** The `isset` lookup of `purgely_get_option`: a set (not null) value, and "" otherwise. */
  function OptionValue(options: map<string, Value>, name: string): Value {
    if name in options && !options[name].Null? then options[name] else Str("")
  }

  /** `purgely_get_option`: the option when it is set (not null), and "" otherwise. */
  function GetOption(defines: Config.Defines, others: OtherConstants, stored: Option<map<string, Value>>, name: string): (r: Value)
    ensures name in GetOptions(defines, others, stored) && !GetOptions(defines, others, stored)[name].Null? ==>
      r == GetOptions(defines, others, stored)[name]
    ensures name !in GetOptions(defines, others, stored) || GetOptions(defines, others, stored)[name].Null? ==>
      r == Str("")
    ensures !r.Null?
  {
    OptionValue(GetOptions(defines, others, stored), name)
  }

  /**
   * Without a stored option, an option whose constant is defined reads as
   * that constant, and one outside the list reads as "".
   */
  lemma GetOptionFallsBackToConstant(defines: Config.Defines, others: OtherConstants, c: Config.Const, key: string)
    requires key in OptionKeys && ConstantNameOf(key) == Config.Name(c)
    requires defines(c).Some? && !defines(c).value.Null?
    ensures GetOption(defines, others, None, key) == defines(c).value
  {
    assert ConstantNamed(defines, others, ConstantNameOf(key)) == defines(c);
  }

  /**
   * An option whose constant config.php does not define (such as
   * `fastly_api_key`, read from `PURGELY_FASTLY_API_KEY`) reads as the
   * constant defined elsewhere, when there is one.
   */
  lemma GetOptionFromOtherConstant(defines: Config.Defines, others: OtherConstants, key: string)
    requires key in OptionKeys && !IsConfigName(ConstantNameOf(key))
    requires others(ConstantNameOf(key)).Some? && !others(ConstantNameOf(key)).value.Null?
    ensures GetOption(defines, others, None, key) == others(ConstantNameOf(key)).value
  {
    var name := ConstantNameOf(key);
    var options := OptionsFromConstants(defines, others, OptionKeys, ConstantNameOf);
    assert ConstantNamed(defines, others, name) == others(name);
    assert key in options && options[key] == others(name).value;
  }

  /**
   * With a stored "fastly-settings" option, a name set in it reads as the
   * stored value and any other name reads as "", whatever the constants say.
   */
  lemma GetOptionFromStored(defines: Config.Defines, others: OtherConstants, stored: map<string, Value>, name: string)
    ensures name in stored && !stored[name].Null? ==> GetOption(defines, others, Some(stored), name) == stored[name]
    ensures name !in stored ==> GetOption(defines, others, Some(stored), name) == Str("")
  {
  }

  lemma GetOptionUnknownKey(defines: Config.Defines, others: OtherConstants, key: string)
    requires key !in OptionKeys
    ensures GetOption(defines, others, None, key) == Str("")
  {
  }
  // ---------------------------------------------------------------------------
  // The constants the options are meant to fall back to

  /**
   * As written, the API key and the API host fall back to
   * `PURGELY_FASTLY_API_KEY` and `PURGELY_FASTLY_API_HOSTNAME`, which
   * src/config.php never defines: without a stored option and without those
   * two constants, they read as "" whatever src/config.php configured.
   */
  lemma ConfiguredApiConstantsUnread(defines: Config.Defines, others: OtherConstants, key: string)
    requires key == "fastly_api_key" || key == "fastly_api_hostname"
    requires others(ConstantNameOf(key)).None?
    ensures GetOption(defines, others, None, key) == Str("")
  {
    ApiConstantNamesNotConfig(key);
    assert ConstantNamed(defines, others, ConstantNameOf(key)).None?;
  }

  /** Neither constant name the API options fall back to belongs to src/config.php. */
  lemma ApiConstantNamesNotConfig(key: string)
    requires key == "fastly_api_key" || key == "fastly_api_hostname"
    ensures !IsConfigName(ConstantNameOf(key))
  {
    assert |ConstantNameOf(key)| == 22 || |ConstantNameOf(key)| == 27;
    forall c: Config.Const
      ensures Config.Name(c) != ConstantNameOf(key)
    {
      NameLengths(c);
    }
  }

  /** No constant of src/config.php has a name of 22 or 27 characters. */
  lemma NameLengths(c: Config.Const)
    ensures |Config.Name(c)| != 22 && |Config.Name(c)| != 27
  {
    match c
    case ApiEndpoint | FastlyKey | FastlyServiceId | AllowPurgeAll =>
    case EnableStaleWhileRevalidate | StaleWhileRevalidateTtl | EnableStaleIfError | StaleIfErrorTtl =>
    case SurrogateControlTtl | CacheControlTtl | DefaultPurgeType =>
    case FastlyLogPurges | FastlyDebugMode | FastlyVclVersion =>
    case WebhooksUrlEndpoint | WebhooksUsername | WebhooksChannel | WebhooksActivate =>
  }

  /**
   * The constant an option is evidently meant to fall back to: the default
   * src/classes/settings.php registers for the same setting, which for the
   * API key is `PURGELY_FASTLY_KEY` and for the API host
   * `PURGELY_API_ENDPOINT`.
   */
  function IntendedConstantNameOf(key: string): (r: string)
    ensures key == "fastly_api_key" ==> r == Config.Name(Config.FastlyKey)
    ensures key == "fastly_api_hostname" ==> r == Config.Name(Config.ApiEndpoint)
  {
    if key == "fastly_api_key" then Config.Name(Config.FastlyKey)
    else if key == "fastly_api_hostname" then Config.Name(Config.ApiEndpoint)
    else ConstantNameOf(key)
  }

  /** `purgely_get_options` with the corrected constant names. */
  function IntendedGetOptions(defines: Config.Defines, others: OtherConstants, stored: Option<map<string, Value>>): (r: map<string, Value>)
    ensures stored.Some? ==> r == stored.value
    ensures stored.None? ==>
      forall k :: k in r <==> k in OptionKeys && ConstantNamed(defines, others, IntendedConstantNameOf(k)).Some?
    ensures stored.None? ==> forall k :: k in r ==> r[k] == ConstantNamed(defines, others, IntendedConstantNameOf(k)).value
  {
    match stored
    case Some(o) => o
    case None => OptionsFromConstants(defines, others, OptionKeys, IntendedConstantNameOf)
  }

  /** `purgely_get_option` with the corrected constant names. */
  function IntendedGetOption(defines: Config.Defines, others: OtherConstants, stored: Option<map<string, Value>>, name: string): (r: Value)
    ensures !r.Null?
  {
    OptionValue(IntendedGetOptions(defines, others, stored), name)
  }

  /** Corrected, without a stored option a listed key reads as the constant it is meant to fall back to. */
  lemma IntendedReadsConstant(defines: Config.Defines, others: OtherConstants, key: string, c: Config.Const)
    requires key in OptionKeys && IntendedConstantNameOf(key) == Config.Name(c)
    requires defines(c).Some? && !defines(c).value.Null?
    ensures IntendedGetOption(defines, others, None, key) == defines(c).value
  {
    assert ConstantNamed(defines, others, IntendedConstantNameOf(key)) == defines(c);
  }

  /**
   * Corrected, without a stored option the API key and the API host read as
   * the constants src/config.php defines for them.
   */
  lemma IntendedReadsConfiguredApiConstants(defines: Config.Defines, others: OtherConstants)
    ensures defines(Config.FastlyKey).Some? && !defines(Config.FastlyKey).value.Null? ==>
      IntendedGetOption(defines, others, None, "fastly_api_key") == defines(Config.FastlyKey).value
    ensures defines(Config.ApiEndpoint).Some? && !defines(Config.ApiEndpoint).value.Null? ==>
      IntendedGetOption(defines, others, None, "fastly_api_hostname") == defines(Config.ApiEndpoint).value
  {
    ApiKeysListed();
    if defines(Config.FastlyKey).Some? && !defines(Config.FastlyKey).value.Null? {
      IntendedReadsConstant(defines, others, "fastly_api_key", Config.FastlyKey);
    }
    if defines(Config.ApiEndpoint).Some? && !defines(Config.ApiEndpoint).value.Null? {
      IntendedReadsConstant(defines, others, "fastly_api_hostname", Config.ApiEndpoint);
    }
  }

  lemma ApiKeysListed()
    ensures "fastly_api_key" in OptionKeys && "fastly_api_hostname" in OptionKeys
  {
    assert OptionKeys[2] == "fastly_api_key" && OptionKeys[7] == "fastly_api_hostname";
  }

  /** The correction changes nothing for a stored option or for any other key. */
  lemma IntendedAgreesElsewhere(defines: Config.Defines, others: OtherConstants, stored: Option<map<string, Value>>, name: string)
    requires stored.Some? || (name != "fastly_api_key" && name != "fastly_api_hostname")
    ensures IntendedGetOption(defines, others, stored, name) == GetOption(defines, others, stored, name)
  {
  }

  /**
   * With the API key configured in src/config.php only, the key reads as ""
   * as written and as the configured key when corrected.
   */
  lemma ConfiguredKeyCounterexample(defines: Config.Defines, others: OtherConstants)
    requires defines(Config.FastlyKey) == Some(Str("abc")) && others(ConstantNameOf("fastly_api_key")).None?
    ensures GetOption(defines, others, None, "fastly_api_key") == Str("")
    ensures IntendedGetOption(defines, others, None, "fastly_api_key") == Str("abc")
  {
    ConfiguredApiConstantsUnread(defines, others, "fastly_api_key");
    IntendedReadsConfiguredApiConstants(defines, others);
  }
}

=== FILE: utils_purge.dfy ===
/**
 * The purge helpers of src/utils.php: thin wrappers that build a purge
 * request (or a related-URL collection), send it and report its result
 * string. The related URLs of a URL and the `allow_purge_all` setting are
 * parameters: they come from the related-URL locator and the settings.
 */
module UtilsPurge {
  import opened Php
  import Assoc
  import PurgeRequest
  import PurgeCollection

  /** `isset( $purge_args['related'] ) && true === $purge_args['related']` */
  predicate WantsRelated(args: PurgeRequest.Args) {
    "related" in args && args["related"] == Bool(true)
  }

  /** `purgely_purge_url`: the URL alone, or the URL with its related URLs. */
  function PurgeUrl(url: string, args: PurgeRequest.Args, related: PurgeCollection.UrlMap,
                    env: PurgeRequest.Env, net: PurgeRequest.Net): (r: string)
    requires Assoc.Distinct(related)
    ensures r == "success" || r == "failure"
  {
    if WantsRelated(args) then
      PurgeCollection.GetResult(PurgeCollection.PurgeRelated(PurgeCollection.Build(url, related), args, env, net).responses)
    else
      PurgeRequest.GetResult(PurgeRequest.Purge("url", PurgeRequest.One(url), args, env, net).response)
  }

  /** Without `related` exactly true, the result is that of the one URL purge. */
  lemma PurgeUrlSingle(url: string, args: PurgeRequest.Args, related: PurgeCollection.UrlMap,
                       env: PurgeRequest.Env, net: PurgeRequest.Net)
    requires Assoc.Distinct(related) && !WantsRelated(args)
    ensures PurgeUrl(url, args, related, env, net) == "success" <==>
      PurgeCollection.UrlResponse(url, args, env, net) == PurgeRequest.Http(200)
  {
    PurgeRequest.GetResultSuccessIff(PurgeCollection.UrlResponse(url, args, env, net));
  }

  /**
   * With `related` exactly true, the main URL and then every related URL is
   * purged, and the result is a success exactly when each got a 200.
   */
  lemma PurgeUrlRelated(url: string, args: PurgeRequest.Args, related: PurgeCollection.UrlMap,
                        env: PurgeRequest.Env, net: PurgeRequest.Net)
    requires Assoc.Distinct(related) && "url" !in Assoc.Keys(related) && WantsRelated(args)
    ensures PurgeCollection.PurgeRelated(PurgeCollection.Build(url, related), args, env, net).purged
      == [url] + Assoc.Flatten(related)
    ensures PurgeUrl(url, args, related, env, net) == "success" <==>
      forall u :: u in [url] + Assoc.Flatten(related) ==>
        PurgeCollection.UrlResponse(u, args, env, net) == PurgeRequest.Http(200)
  {
    PurgeCollection.BuildPrefixes(url, related);
    PurgeCollection.ResultIffAllOk(PurgeCollection.Build(url, related), args, env, net);
  }

  /** `purgely_purge_surrogate_key`. */
  function PurgeSurrogateKey(key: string, args: PurgeRequest.Args, env: PurgeRequest.Env, net: PurgeRequest.Net)
    : (r: string)
    ensures r == "success" || r == "failure"
  {
    PurgeRequest.GetResult(PurgeRequest.Purge("surrogate-key", PurgeRequest.One(key), args, env, net).response)
  }

  /** One key purge succeeds exactly when its POST to the key's purge URI got a 200. */
  lemma PurgeSurrogateKeySuccess(key: string, args: PurgeRequest.Args, env: PurgeRequest.Env, net: PurgeRequest.Net)
    ensures var o := PurgeRequest.Purge("surrogate-key", PurgeRequest.One(key), args, env, net);
      && |o.sent| == 1 && o.sent[0].url == PurgeRequest.KeyUri(env, key) && o.sent[0].verb == "POST"
      && (PurgeSurrogateKey(key, args, env, net) == "success" <==> net.send(o.sent[0]) == PurgeRequest.Http(200))
  {
    var o := PurgeRequest.Purge("surrogate-key", PurgeRequest.One(key), args, env, net);
    assert !EmptyStr(PurgeRequest.KeyUri(env, key)) by {
      assert PurgeRequest.KeyUri(env, key) != [];
    }
    PurgeRequest.GetResultSuccessIff(o.response);
  }

  /** `purgely_purge_surrogate_key_collection`. */
  function PurgeSurrogateKeyCollection(keys: seq<string>, args: PurgeRequest.Args,
                                       env: PurgeRequest.Env, net: PurgeRequest.Net): (r: string)
    ensures r == "success" || r == "failure"
  {
    PurgeRequest.GetResult(PurgeRequest.Purge("surrogate-key-collection", PurgeRequest.Many(keys), args, env, net).response)
  }

  /** The batch path reports `true` or `false`, never a 200, so the wrapper always says "failure". */
  lemma PurgeSurrogateKeyCollectionFails(keys: seq<string>, args: PurgeRequest.Args,
                                         env: PurgeRequest.Env, net: PurgeRequest.Net)
    ensures PurgeSurrogateKeyCollection(keys, args, env, net) == "failure"
  {
    if |keys| > 0 {
      PurgeRequest.BatchNeverSucceeds(keys, args, env, net);
    }
  }

  /** `array_merge( array( 'allow-all' => <allow_purge_all setting> ), $purge_args )` */
  function PurgeAllArgs(args: PurgeRequest.Args, allowSetting: Value): (r: PurgeRequest.Args)
    ensures "allow-all" in r
    ensures r["allow-all"] == if "allow-all" in args then args["allow-all"] else allowSetting
    ensures forall k :: k in args ==> k in r && r[k] == args[k]
    ensures forall k :: k in r ==> k in args || k == "allow-all"
  {
    map["allow-all" := allowSetting] + args
  }

  /** `purgely_purge_all`. */
  function PurgeAll(args: PurgeRequest.Args, allowSetting: Value, env: PurgeRequest.Env, net: PurgeRequest.Net)
    : (r: string)
    ensures r == "success" || r == "failure"
  {
    PurgeRequest.GetResult(PurgeRequest.Purge("all", PurgeRequest.One(""), PurgeAllArgs(args, allowSetting), env, net).response)
  }

  /**
   * A caller's `allow-all` overrides the setting: the purge-all request is
   * sent exactly when the caller's value, or else the setting, is exactly true.
   */
  lemma PurgeAllPermission(args: PurgeRequest.Args, allowSetting: Value, env: PurgeRequest.Env, net: PurgeRequest.Net)
    ensures var o := PurgeRequest.Purge("all", PurgeRequest.One(""), PurgeAllArgs(args, allowSetting), env, net);
      (|o.sent| > 0 <==> (if "allow-all" in args then args["allow-all"] else allowSetting) == Bool(true))
  {
  }

  /** Without permission nothing is sent and the wrapper reports "failure". */
  lemma PurgeAllRefused(args: PurgeRequest.Args, allowSetting: Value, env: PurgeRequest.Env, net: PurgeRequest.Net)
    requires (if "allow-all" in args then args["allow-all"] else allowSetting) != Bool(true)
    ensures PurgeAll(args, allowSetting, env, net) == "failure"
  {
  }
}

=== FILE: vcl_handler.dfy ===
/**
 * src/classes/vcl-handler.php: the VCL update workflow of the settings
 * page. From the active version it clones a new one, creates or updates
 * the plugin's VCL snippets, conditions and request settings in the clone,
 * validates it, sends the queued requests as one batch and optionally
 * activates the clone. Every failure appends a message to an error list
 * that only grows.
 *
 * HTTP replies, the connection test and the VCL files on disk are answered
 * by `Net`.
 */
module VclHandler {
  import opened Php
  import Api

  /** One entry of the `vcl` data: a snippet type and the directory of its `.vcl` file. */
  datatype VclItem = VclItem(snippetType: Value, dir: Value)

  /** One entry of the `condition` data. */
  datatype Condition = Condition(name: Value, statement: Value, conditionType: Value, priority: Value)

  /** One entry of the `setting` data. */
  datatype Setting = Setting(name: Value, action: Value, requestCondition: Value)

  /** The constructor's argument; an empty list stands for a missing or empty entry. */
  datatype Data = Data(vcl: seq<VclItem>, conditions: seq<Condition>, settings: seq<Setting>)

  /** The payload of a queued request. */
  datatype Payload =
    | Snippet(name: string, snippetType: Value, dynamic: int, priority: int, content: string)
    | ConditionBody(condition: Condition)
    | SettingBody(setting: Setting)
    | NoBody

  datatype Verb = Get | Post | Put

  datatype Req = Req(url: string, verb: Verb, data: Payload)

  /** Which of the two header sets a request carries. */
  datatype HeaderSet = GetHeaders | PostHeaders

  datatype Sent = Sent(req: Req, headers: HeaderSet)

  /** `_last_version_data`: null before the version list is read, false when no version is active. */
  datatype LastVersion = Unset | NoActive | Found(version: Api.Version)

  datatype Handler = Handler(
    data: Data,
    versionBase: string,
    lastVersion: LastVersion,
    nextClone: Value,
    lastActive: Value,
    lastCloned: Value,
    errors: seq<string>)

  /** `test_fastly_api_connection`'s answer. */
  datatype Connection = Connection(status: bool, message: string)

  datatype Net = Net(
    connection: Connection,
    versions: seq<Api.Version>,            // GET <version base>
    cloneNumber: string -> Value,          // `->number` of a clone reply, null when unset
    getOk: string -> bool,                 // success of a GET of this URL
    sendOk: Sent -> bool,                  // success of a request with a payload or of the activation
    files: string -> Option<string>)       // the `.vcl` files that exist, with their contents

  const NoLastVersion: string := "Last version does not exist"
  const NoData: string := "No update data set, please specify, vcl, condition or setting data"
  const CloneFailed: string := "Unable to clone last version"
  const InsertFailed: string := "Unable to insert new condition"
  const NotValidated: string := "Version not validated"
  const RequestsFailed: string := "Some of the API requests failed, enable debugging and check logs for more information."
  const VclFileMissing: string := "VCL file does not exist."
  const VclTypeNotSet: string := "VCL type not set."
  const ConditionNotSet: string := "Condition data not properly set."
  const SettingNotSet: string := "Setting data not properly set."

  /** `add_error`: one message appended, nothing else changes. */
  function AddError(h: Handler, message: string): (r: Handler)
    ensures r.errors == h.errors + [message]
    ensures r.(errors := h.errors) == h
  {
    h.(errors := h.errors + [message])
  }

  // ---------------------------------------------------------------------------
  // Construction

  /** `get_last_version`: the next clone number is one past the count; the first active version. */
  function GetLastVersion(versions: seq<Api.Version>): (r: (Value, LastVersion))
    ensures r.0 == Int(|versions| + 1)
    ensures r.1.Found? <==> Api.FirstActive(versions).Some?
    ensures r.1.Found? ==> r.1.version == Api.FirstActive(versions).value
    ensures !r.1.Unset?
  {
    var first := Api.FirstActive(versions);
    (Int(|versions| + 1), if first.Some? then Found(first.value) else NoActive)
  }

  /** The constructor. */
  function New(data: Data, host: string, sid: string, net: Net): (r: Handler)
    ensures r.data == data && r.lastCloned == Null
    ensures !net.connection.status ==>
      r.errors == [net.connection.message] && r.lastVersion == Unset && r.nextClone == Null && r.lastActive == Null
    ensures net.connection.status ==>
      && r.errors == []
      && r.versionBase == host + "/service/" + sid + "/version"
      && (r.nextClone, r.lastVersion) == GetLastVersion(net.versions)
      && (r.lastActive == if r.lastVersion.Found? then r.lastVersion.version.number else Null)
  {
    var h := Handler(data, "", Unset, Null, Null, Null, []);
    if !net.connection.status then AddError(h, net.connection.message)
    else
      var (next, last) := GetLastVersion(net.versions);
      h.(versionBase := host + "/service/" + sid + "/version", lastVersion := last, nextClone := next,
         lastActive := if last.Found? then last.version.number else Null)
  }

  /** A failed connection test leaves exactly one error and no version numbers. */
  lemma ConnectionFailure(data: Data, host: string, sid: string, net: Net)
    requires !net.connection.status
    ensures var h := New(data, host, sid, net);
      |h.errors| == 1 && h.lastActive == Null && h.nextClone == Null
  {
  }

  // ---------------------------------------------------------------------------
  // URLs

  /** `_version_base_url . '/' . _last_cloned_version` */
  function CloneUrl(h: Handler): string {
    h.versionBase + "/" + ToStr(h.lastCloned)
  }

  function SnippetName(t: Value): string {
    "wordpressplugin_" + ToStr(t)
  }

  function VclPath(item: VclItem): string {
    ToStr(item.dir) + "/" + ToStr(item.snippetType) + ".vcl"
  }

  /** `check_if_vcl_exists` */
  predicate VclExists(h: Handler, name: string, net: Net) {
    h.lastVersion.Found? && net.getOk(CloneUrl(h) + "/snippet/" + name)
  }

  // ---------------------------------------------------------------------------
  // Snippets

  /** The snippet request queued for one VCL entry, as `prepare_vcl` is meant to build it. */
  predicate SnippetRequest(h: Handler, item: VclItem, req: Req, net: Net) {
    && req.data.Snippet?
    && req.data.name == "wordpressplugin_" + ToStr(item.snippetType)
    && req.data.snippetType == item.snippetType
    && req.data.dynamic == 0 && req.data.priority == 50
    && net.files(VclPath(item)) == Some(req.data.content)
    && (req.verb == Put <==> VclExists(h, req.data.name, net))
    && (req.verb == Put || req.verb == Post)
    && req.url == (if req.verb == Put then CloneUrl(h) + "/snippet/" + req.data.name else CloneUrl(h) + "/snippet")
  }

  /** A VCL entry `prepare_vcl` accepts: a non-empty type whose file exists. */
  predicate VclReady(item: VclItem, net: Net) {
    !Empty(item.snippetType) && net.files(VclPath(item)).Some?
  }

  /** `prepare_update_vcl` / `prepare_insert_vcl` for one entry. */
  function SnippetUpsert(h: Handler, item: VclItem, net: Net): (r: Req)
    requires VclReady(item, net)
    ensures SnippetRequest(h, item, r, net)
  {
    var name := SnippetName(item.snippetType);
    var data := Snippet(name, item.snippetType, 0, 50, net.files(VclPath(item)).value);
    if VclExists(h, name, net) then Req(CloneUrl(h) + "/snippet/" + name, Put, data)
    else Req(CloneUrl(h) + "/snippet", Post, data)
  }

  /** `prepare_vcl` from a given entry on: the queued requests, or false after one error. */
  function PrepareVcl(h: Handler, items: seq<VclItem>, net: Net): (r: (Handler, Option<seq<Req>>))
    ensures r.1.Some? <==> forall i :: 0 <= i < |items| ==> VclReady(items[i], net)
    ensures r.1.Some? ==> r.0 == h && |r.1.value| == |items|
    ensures r.1.Some? ==> forall i :: 0 <= i < |items| ==> SnippetRequest(h, items[i], r.1.value[i], net)
    ensures r.1.None? ==> r.0 == AddError(h, VclTypeNotSet) || r.0 == AddError(h, VclFileMissing)
  {
    if items == [] then (h, Some([]))
    else if Empty(items[0].snippetType) then (AddError(h, VclTypeNotSet), None)
    else if net.files(VclPath(items[0])).None? then (AddError(h, VclFileMissing), None)
    else
      var rest := PrepareVcl(h, items[1..], net);
      if rest.1.None? then rest
      else
        var reqs := [SnippetUpsert(h, items[0], net)] + rest.1.value;
        assert forall i :: 1 <= i < |items| ==> items[i] == items[1..][i - 1];
        (rest.0, Some(reqs))
  }

  // ---------------------------------------------------------------------------
  // Conditions

  predicate ConditionComplete(c: Condition) {
    !Empty(c.name) && !Empty(c.statement) && !Empty(c.conditionType) && !Empty(c.priority)
  }

  /** `get_condition`: the condition already exists in the clone. */
  predicate ConditionExists(h: Handler, c: Condition, net: Net) {
    net.getOk(CloneUrl(h) + "/condition/" + ToStr(c.name))
  }

  /** `prepare_update_condition` */
  function UpdateCondition(h: Handler, c: Condition): Req {
    Req(CloneUrl(h) + "/condition/" + ToStr(c.name), Put, ConditionBody(c))
  }

  /** `insert_condition`'s request, sent immediately with the POST headers. */
  function InsertCondition(h: Handler, c: Condition): Sent {
    Sent(Req(CloneUrl(h) + "/condition", Post, ConditionBody(c)), PostHeaders)
  }

  /**
   * `prepare_condition`: the queued updates, or the result of the insert
   * of the first condition the clone lacks (`array()` or false), with the
   * insert itself when one was sent.
   */
  function PrepareCondition(h: Handler, cs: seq<Condition>, net: Net): (r: (Handler, Option<seq<Req>>, Option<Sent>))
    ensures r.0 == h || r.0 == AddError(h, ConditionNotSet)
    ensures r.2.Some? ==> r.0 == h && r.1 == (if net.sendOk(r.2.value) then Some([]) else None)
    ensures r.1.Some? && r.2.None? ==>
      && |r.1.value| == |cs|
      && forall i :: 0 <= i < |cs| ==> r.1.value[i] == UpdateCondition(h, cs[i]) && ConditionExists(h, cs[i], net)
    ensures r.0 == h <==> r.1.Some? || r.2.Some?
  {
    if cs == [] then (h, Some([]), None)
    else if !ConditionComplete(cs[0]) then (AddError(h, ConditionNotSet), None, None)
    else if ConditionExists(h, cs[0], net) then
      var rest := PrepareCondition(h, cs[1..], net);
      if rest.1.Some? && rest.2.None? then
        assert forall i :: 1 <= i < |cs| ==> cs[i] == cs[1..][i - 1];
        (rest.0, Some([UpdateCondition(h, cs[0])] + rest.1.value), None)
      else rest
    else
      var s := InsertCondition(h, cs[0]);
      (h, if net.sendOk(s) then Some([]) else None, Some(s))
  }

  /**
   * The first complete condition the clone lacks is inserted on the spot,
   * and `prepare_condition` ends with that insert's result: the updates
   * queued for the conditions before it and the conditions after it are
   * dropped.
   */
  lemma {:induction false} InsertDropsTheRest(h: Handler, cs: seq<Condition>, k: nat, net: Net)
    requires k < |cs|
    requires forall j :: 0 <= j < k ==> ConditionComplete(cs[j]) && ConditionExists(h, cs[j], net)
    requires ConditionComplete(cs[k]) && !ConditionExists(h, cs[k], net)
    ensures var r := PrepareCondition(h, cs, net);
      && r.0 == h
      && r.2 == Some(InsertCondition(h, cs[k]))
      && r.1 == (if net.sendOk(InsertCondition(h, cs[k])) then Some([]) else None)
  {
    if k > 0 {
      assert forall j :: 0 <= j < k - 1 ==> cs[1..][j] == cs[j + 1];
      InsertDropsTheRest(h, cs[1..], k - 1, net);
    }
  }

  // ---------------------------------------------------------------------------
  // Request settings

  predicate SettingComplete(s: Setting) {
    !Empty(s.name) && !Empty(s.action) && !Empty(s.requestCondition)
  }

  /** `get_setting`: the request setting already exists in the clone. */
  predicate SettingExists(h: Handler, s: Setting, net: Net) {
    net.getOk(CloneUrl(h) + "/request_settings/" + ToStr(s.name))
  }

  /** `prepare_update_setting` / `prepare_insert_setting` */
  function SettingUpsert(h: Handler, s: Setting, net: Net): (r: Req)
    ensures r.data == SettingBody(s)
    ensures r.verb == Put <==> SettingExists(h, s, net)
    ensures r.verb == Put || r.verb == Post
  {
    if SettingExists(h, s, net) then Req(CloneUrl(h) + "/request_settings/" + ToStr(s.name), Put, SettingBody(s))
    else Req(CloneUrl(h) + "/request_settings", Post, SettingBody(s))
  }

  /** `prepare_setting`: one upsert per setting, or false after one error. */
  function PrepareSetting(h: Handler, ss: seq<Setting>, net: Net): (r: (Handler, Option<seq<Req>>))
    ensures r.1.Some? <==> forall i :: 0 <= i < |ss| ==> SettingComplete(ss[i])
    ensures r.1.Some? ==> r.0 == h && |r.1.value| == |ss|
    ensures r.1.Some? ==> forall i :: 0 <= i < |ss| ==> r.1.value[i] == SettingUpsert(h, ss[i], net)
    ensures r.1.None? ==> r.0 == AddError(h, SettingNotSet)
  {
    if ss == [] then (h, Some([]))
    else if !SettingComplete(ss[0]) then (AddError(h, SettingNotSet), None)
    else
      var rest := PrepareSetting(h, ss[1..], net);
      if rest.1.None? then rest
      else
        assert forall i :: 1 <= i < |ss| ==> ss[i] == ss[1..][i - 1];
        (rest.0, Some([SettingUpsert(h, ss[0], net)] + rest.1.value))
  }

  // ---------------------------------------------------------------------------
  // Cloning, batch and execute

  /** `clone_last_active_version`: the clone's number, or false; the handler records it. */
  function CloneLastActive(h: Handler, net: Net): (r: (Handler, Value))
    ensures !h.lastVersion.Found? ==> r == (h, Bool(false))
    ensures h.lastVersion.Found? ==> r.0 == h.(lastCloned := r.1)
    ensures h.lastVersion.Found? ==>
      var n := net.cloneNumber(h.versionBase + "/" + ToStr(h.lastVersion.version.number) + "/clone");
      r.1 == (if n == Null then Bool(false) else n)
  {
    if !h.lastVersion.Found? then (h, Bool(false))
    else
      var n := net.cloneNumber(h.versionBase + "/" + ToStr(h.lastVersion.version.number) + "/clone");
      var cloned := if n == Null then Bool(false) else n;
      (h.(lastCloned := cloned), cloned)
  }

  /** The "Set Request Headers" loop: POST and PUT requests get the POST headers. */
  function WithHeaders(reqs: seq<Req>): (r: seq<Sent>)
    ensures |r| == |reqs|
    ensures forall i :: 0 <= i < |reqs| ==>
      r[i].req == reqs[i] && (r[i].headers == PostHeaders <==> reqs[i].verb in {Post, Put})
  {
    if reqs == [] then []
    else [Sent(reqs[0], if reqs[0].verb in {Post, Put} then PostHeaders else GetHeaders)] + WithHeaders(reqs[1..])
  }

  /** The number of batch responses that failed. */
  function CountFailed(batch: seq<Sent>, net: Net): (n: nat)
    ensures n <= |batch|
    ensures n == 0 <==> forall i :: 0 <= i < |batch| ==> net.sendOk(batch[i])
  {
    if batch == [] then 0 else (if net.sendOk(batch[0]) then 0 else 1) + CountFailed(batch[1..], net)
  }

  /** The errors the response loop appends: one per failed response. */
  function Failures(batch: seq<Sent>, net: Net): (r: seq<string>)
    ensures |r| == CountFailed(batch, net)
    ensures forall i :: 0 <= i < |r| ==> r[i] == RequestsFailed
  {
    if batch == [] then [] else (if net.sendOk(batch[0]) then [] else [RequestsFailed]) + Failures(batch[1..], net)
  }

  /** `prepare_activate_version`: a PUT with the GET headers. */
  function Activation(h: Handler): Sent {
    Sent(Req(CloneUrl(h) + "/activate", Put, NoBody), GetHeaders)
  }

  /**
   * How `execute` ended: it returned a flag, or it stopped with a PHP
   * error because `array_merge` was handed the `false` of a failed
   * `prepare_vcl` or `prepare_setting`.
   */
  datatype Outcome = Returned(pass: bool) | Halted

  /**
   * The handler afterwards, the outcome, the condition insert if one was
   * sent, whether the batch was sent, the batch, and the activation request
   * if one was sent.
   */
  datatype Exec = Exec(h: Handler, outcome: Outcome, inserted: Option<Sent>, sent: bool, batch: seq<Sent>,
                       activation: Option<Sent>)

  /**
   * What a run that sent its batch promises: the activation was tried
   * exactly when every response succeeded and activation was asked for;
   * the run passes exactly when every response and the activation
   * succeeded; one error was appended per failed response, plus one for a
   * failed activation.
   */
  predicate Dispatched(before: seq<string>, r: Exec, activate: bool, net: Net) {
    && (r.activation.Some? <==> activate && CountFailed(r.batch, net) == 0)
    && (r.activation.Some? ==> r.activation.value == Activation(r.h))
    && (r.outcome == Returned(true) <==>
          CountFailed(r.batch, net) == 0 && (activate ==> r.activation.Some? && net.sendOk(r.activation.value)))
    && r.h.errors == before + Failures(r.batch, net)
                     + (if r.activation.Some? && !net.sendOk(r.activation.value) then [RequestsFailed] else [])
  }

  /** What every stage of `execute` after the clone keeps. */
  predicate Stage(h: Handler, r: Exec, activate: bool, net: Net) {
    && r.h == h.(errors := r.h.errors)
    && |h.errors| <= |r.h.errors| && r.h.errors[..|h.errors|] == h.errors
    && (r.outcome != Returned(true) ==> |r.h.errors| > |h.errors|)
    && (r.sent ==> net.getOk(CloneUrl(h) + "/validate") && Dispatched(h.errors, r, activate, net))
    && (!r.sent ==> r.batch == [] && r.activation.None?)
  }

  predicate VclReadyAll(d: Data, net: Net) {
    forall i :: 0 <= i < |d.vcl| ==> VclReady(d.vcl[i], net)
  }

  predicate SettingsReady(d: Data) {
    forall i :: 0 <= i < |d.settings| ==> SettingComplete(d.settings[i])
  }

  /** Sending the batch of the validated clone, then the activation when asked and everything passed. */
  function Dispatch(h: Handler, reqs: seq<Req>, inserted: Option<Sent>, activate: bool, net: Net): (r: Exec)
    requires net.getOk(CloneUrl(h) + "/validate")
    ensures r.sent && r.batch == WithHeaders(reqs) && r.inserted == inserted
    ensures Stage(h, r, activate, net)
  {
    var batch := WithHeaders(reqs);
    var h' := h.(errors := h.errors + Failures(batch, net));
    var pass := CountFailed(batch, net) == 0;
    if pass && activate then
      if net.sendOk(Activation(h')) then Exec(h', Returned(true), inserted, true, batch, Some(Activation(h')))
      else Exec(AddError(h', RequestsFailed), Returned(false), inserted, true, batch, Some(Activation(h')))
    else Exec(h', Returned(pass), inserted, true, batch, None)
  }

  /** `validate_version`, then the batch. */
  function Validate(h: Handler, reqs: seq<Req>, inserted: Option<Sent>, activate: bool, net: Net): (r: Exec)
    ensures r.sent ==> r.batch == WithHeaders(reqs)
    ensures r.inserted == inserted
    ensures Stage(h, r, activate, net)
    ensures !net.getOk(CloneUrl(h) + "/validate") ==> !r.sent && r.h.errors == h.errors + [NotValidated]
  {
    if !net.getOk(CloneUrl(h) + "/validate") then
      Exec(AddError(h, NotValidated), Returned(false), inserted, false, [], None)
    else Dispatch(h, reqs, inserted, activate, net)
  }

  /** The settings step: a failed `prepare_setting` stops the run. */
  function SettingsStep(h: Handler, reqs: seq<Req>, inserted: Option<Sent>, activate: bool, net: Net): (r: Exec)
    ensures SettingsReady(h.data) ==> r.outcome.Returned?
    ensures r.sent ==> PrepareSetting(h, h.data.settings, net).1.Some?
    ensures r.sent ==> r.batch == WithHeaders(reqs + PrepareSetting(h, h.data.settings, net).1.value)
    ensures r.inserted == inserted
    ensures Stage(h, r, activate, net)
  {
    var (h', setReqs) := if |h.data.settings| > 0 then PrepareSetting(h, h.data.settings, net) else (h, Some([]));
    if setReqs.None? then Exec(h', Halted, inserted, false, [], None)
    else Validate(h', reqs + setReqs.value, inserted, activate, net)
  }

  /** The conditions step: a false `prepare_condition` ends the run with an error. */
  function ConditionsStep(h: Handler, reqs: seq<Req>, activate: bool, net: Net): (r: Exec)
    ensures SettingsReady(h.data) ==> r.outcome.Returned?
    ensures r.sent ==> PrepareCondition(h, h.data.conditions, net).1.Some? && PrepareSetting(h, h.data.settings, net).1.Some?
    ensures r.sent ==>
      r.batch == WithHeaders(reqs + PrepareCondition(h, h.data.conditions, net).1.value
                                  + PrepareSetting(h, h.data.settings, net).1.value)
    ensures Stage(h, r, activate, net)
  {
    var (h', condReqs, inserted) :=
      if |h.data.conditions| > 0 then PrepareCondition(h, h.data.conditions, net) else (h, Some([]), None);
    if condReqs.None? then Exec(AddError(h', InsertFailed), Returned(false), inserted, false, [], None)
    else SettingsStep(h', reqs + condReqs.value, inserted, activate, net)
  }

  /** `prepare_vcl`, `prepare_condition` and `prepare_setting` all yielded a list of requests. */
  predicate PreparedAll(h: Handler, net: Net) {
    && PrepareVcl(h, h.data.vcl, net).1.Some?
    && PrepareCondition(h, h.data.conditions, net).1.Some?
    && PrepareSetting(h, h.data.settings, net).1.Some?
  }

  /** The three lists of `execute`, concatenated in the order it merges them. */
  function Prepared(h: Handler, net: Net): seq<Req>
    requires PreparedAll(h, net)
  {
    PrepareVcl(h, h.data.vcl, net).1.value + PrepareCondition(h, h.data.conditions, net).1.value
      + PrepareSetting(h, h.data.settings, net).1.value
  }

  /** The steps of `execute` after the clone, from `prepare_vcl` on. */
  function Upsert(h: Handler, activate: bool, net: Net): (r: Exec)
    ensures VclReadyAll(h.data, net) && SettingsReady(h.data) ==> r.outcome.Returned?
    ensures r.sent ==> |h.data.vcl| <= |r.batch|
    ensures r.sent ==> forall i :: 0 <= i < |h.data.vcl| ==> SnippetRequest(h, h.data.vcl[i], r.batch[i].req, net)
    ensures r.sent ==> PreparedAll(h, net)
    ensures r.sent ==> r.batch == WithHeaders(Prepared(h, net))
    ensures Stage(h, r, activate, net)
  {
    var (h', vclReqs) := if |h.data.vcl| > 0 then PrepareVcl(h, h.data.vcl, net) else (h, Some([]));
    if vclReqs.None? then Exec(h', Halted, None, false, [], None)
    else ConditionsStep(h', vclReqs.value, activate, net)
  }

  /** `execute($activate)`. */
  function Execute(h: Handler, activate: bool, net: Net): (r: Exec)
    ensures |h.errors| <= |r.h.errors| && r.h.errors[..|h.errors|] == h.errors
    ensures !r.sent ==> r.batch == [] && r.activation.None?
  {
    if |h.errors| > 0 then Exec(h, Returned(false), None, false, [], None)
    else if h.lastVersion.NoActive? then Exec(AddError(h, NoLastVersion), Returned(false), None, false, [], None)
    else if |h.data.vcl| == 0 && |h.data.conditions| == 0 && |h.data.settings| == 0 then
      Exec(AddError(h, NoData), Returned(false), None, false, [], None)
    else
      var (h1, cloned) := CloneLastActive(h, net);
      if cloned == Bool(false) then Exec(AddError(h1, CloneFailed), Returned(false), None, false, [], None)
      else Upsert(h1, activate, net)
  }

  // ---------------------------------------------------------------------------
  // Properties of execute

  /** Errors left by the constructor end the run at once, with nothing added or sent. */
  lemma ExistingErrorsStop(h: Handler, activate: bool, net: Net)
    requires |h.errors| > 0
    ensures Execute(h, activate, net) == Exec(h, Returned(false), None, false, [], None)
  {
  }

  /** Without an active version the run ends with that one error. */
  lemma NoLastVersionStops(h: Handler, activate: bool, net: Net)
    requires h.errors == [] && h.lastVersion == NoActive
    ensures var r := Execute(h, activate, net);
      r.h.errors == [NoLastVersion] && r.outcome == Returned(false) && !r.sent
  {
  }

  /** Without any data the run ends with that one error, before anything is cloned. */
  lemma NoDataStops(h: Handler, activate: bool, net: Net)
    requires h.errors == [] && h.lastVersion != NoActive
    requires h.data == Data([], [], [])
    ensures var r := Execute(h, activate, net);
      r.h.errors == [NoData] && r.outcome == Returned(false) && !r.sent && r.h.lastCloned == h.lastCloned
  {
  }

  /** A clone reply without a number ends the run with that one error. */
  lemma CloneFailureStops(h: Handler, activate: bool, net: Net)
    requires h.errors == [] && h.lastVersion.Found?
    requires h.data != Data([], [], [])
    requires net.cloneNumber(h.versionBase + "/" + ToStr(h.lastVersion.version.number) + "/clone") == Null
    ensures var r := Execute(h, activate, net);
      r.h.errors == [CloneFailed] && r.outcome == Returned(false) && !r.sent && r.h.lastCloned == Bool(false)
  {
  }

  /** The batch is only sent after the clone validated. */
  lemma ValidatedBeforeBatch(h: Handler, activate: bool, net: Net)
    ensures var r := Execute(h, activate, net);
      r.sent ==> net.getOk(CloneUrl(r.h) + "/validate")
  {
  }

  /** Once the batch is sent, the outcome, the activation and the errors are as `Dispatched` says. */
  lemma PassIffAllSucceed(h: Handler, activate: bool, net: Net)
    requires Execute(h, activate, net).sent
    ensures Dispatched([], Execute(h, activate, net), activate, net)
  {
  }

  /** A run that does not pass always leaves at least one error to report. */
  lemma FalseHasErrors(h: Handler, activate: bool, net: Net)
    ensures var r := Execute(h, activate, net);
      r.outcome != Returned(true) ==> |r.h.errors| > 0
  {
  }

  /** When the batch went out, the snippet requests for the VCL entries lead it, in order. */
  lemma SnippetsLeadTheBatch(h: Handler, activate: bool, net: Net)
    requires Execute(h, activate, net).sent
    ensures var r := Execute(h, activate, net);
      && |h.data.vcl| <= |r.batch|
      && forall i :: 0 <= i < |h.data.vcl| ==> SnippetRequest(r.h, h.data.vcl[i], r.batch[i].req, net)
  {
  }

  /**
   * A batch that went out holds exactly the snippet requests, then the
   * condition updates, then the setting upserts, each list as the
   * preparing step built it for the clone, with the header set its verb
   * selects.
   */
  lemma BatchIsVclConditionsSettings(h: Handler, activate: bool, net: Net)
    requires Execute(h, activate, net).sent
    ensures var h1 := CloneLastActive(h, net).0;
      && PreparedAll(h1, net)
      && Execute(h, activate, net).batch == WithHeaders(Prepared(h1, net))
  {
  }

  /** Only an unusable VCL entry or an incomplete setting can stop a run without a result. */
  lemma HaltsOnlyOnBadData(h: Handler, activate: bool, net: Net)
    requires VclReadyAll(h.data, net) && SettingsReady(h.data)
    ensures Execute(h, activate, net).outcome.Returned?
  {
  }

  // ---------------------------------------------------------------------------
  // A VCL entry that cannot be read

  /**
   * As written, a VCL entry without a type or without its file makes
   * `prepare_vcl` record an error and return false, and `execute` hands
   * that false to `array_merge`, which stops the run with a PHP error
   * instead of returning.
   */
  lemma MissingVclFileHalts(h: Handler, activate: bool, net: Net)
    requires h.errors == [] && h.lastVersion.Found? && |h.data.vcl| > 0
    requires net.cloneNumber(h.versionBase + "/" + ToStr(h.lastVersion.version.number) + "/clone") == Int(2)
    requires !Empty(h.data.vcl[0].snippetType) && net.files(VclPath(h.data.vcl[0])).None?
    ensures var r := Execute(h, activate, net);
      r.outcome == Halted && !r.sent && r.h.errors == [VclFileMissing]
  {
  }

  /** `execute` with the result of `prepare_vcl` and `prepare_setting` checked, as that of `prepare_condition` is. */
  function IntendedExecute(h: Handler, activate: bool, net: Net): (r: Exec)
    ensures r.outcome.Returned?
    ensures r.outcome != Returned(true) ==> |r.h.errors| > 0
    ensures |h.errors| <= |r.h.errors| && r.h.errors[..|h.errors|] == h.errors
    ensures Execute(h, activate, net).outcome.Returned? ==> r == Execute(h, activate, net)
  {
    var r := Execute(h, activate, net);
    FalseHasErrors(h, activate, net);
    if r.outcome.Halted? then r.(outcome := Returned(false)) else r
  }

  /** Corrected, the same run returns false with the one error and sends nothing. */
  lemma IntendedMissingVclFileFails(h: Handler, activate: bool, net: Net)
    requires h.errors == [] && h.lastVersion.Found? && |h.data.vcl| > 0
    requires net.cloneNumber(h.versionBase + "/" + ToStr(h.lastVersion.version.number) + "/clone") == Int(2)
    requires !Empty(h.data.vcl[0].snippetType) && net.files(VclPath(h.data.vcl[0])).None?
    ensures var r := IntendedExecute(h, activate, net);
      r.outcome == Returned(false) && !r.sent && r.h.errors == [VclFileMissing]
  {
    MissingVclFileHalts(h, activate, net);
  }
}

=== FILE: wordpress.dfy ===
/**
 * The WordPress core helpers the plugin calls whose definitions are short
 * enough to state exactly: `untrailingslashit`/`trailingslashit` and
 * `sanitize_key`. Everything else WordPress provides (`esc_url`,
 * `get_post`, `get_option`, ...) enters the model as a parameter.
 */
module Wp {
  import opened Php

  const SlashChars: set<char> := {'/', '\\'}

  /** `untrailingslashit`: drop every trailing forward or back slash. */
  function Untrailing(s: string): (r: string)
    ensures |r| <= |s| && r == s[..|r|]
    ensures |r| > 0 ==> r[|r| - 1] !in SlashChars
  {
    RTrim(s, SlashChars)
  }

  /** `trailingslashit`: exactly one trailing slash. */
  function TrailingSlash(s: string): (r: string)
    ensures |r| > 0 && r[|r| - 1] == '/'
    ensures |r| == 1 || r[|r| - 2] !in SlashChars
  {
    Untrailing(s) + "/"
  }

  /** Adding a trailing slash twice is the same as adding it once. */
  lemma TrailingSlashIdempotent(s: string)
    ensures TrailingSlash(TrailingSlash(s)) == TrailingSlash(s)
  {
    RTrimKeeps(Untrailing(s), "/", SlashChars);
  }

  /** A path given with or without its trailing slash gets the same one slash. */
  lemma TrailingSlashOfSlashed(s: string)
    ensures TrailingSlash(s + "/") == TrailingSlash(s)
  {
    assert (s + "/")[..|s|] == s;
  }

  /** The characters `sanitize_key` keeps (after lower-casing). */
  predicate IsKeyChar(c: char) {
    IsLower(c) || IsDigit(c) || c == '_' || c == '-'
  }

  /** `sanitize_key`: lower-case, then keep only `[a-z0-9_-]`. */
  function SanitizeKey(s: string): (r: string)
    ensures forall i :: 0 <= i < |r| ==> IsKeyChar(r[i])
    ensures |r| <= |s|
    ensures (forall i :: 0 <= i < |s| ==> IsKeyChar(s[i])) ==> r == s
  {
    assert (forall i :: 0 <= i < |s| ==> IsKeyChar(s[i])) ==> ToLower(s) == s;
    Filter(ToLower(s), IsKeyChar)
  }

  /** Already-sanitized keys are left alone. */
  lemma {:induction false} SanitizeKeyFixes(s: string)
    requires forall i :: 0 <= i < |s| ==> IsKeyChar(s[i])
    ensures SanitizeKey(s) == s
  {
    assert ToLower(s) == s;
  }
}

=== FILE: wp_purges.dfy ===
/**
 * src/wp-purges.php: the automatic purge run on post events. Each post id
 * is handled once per request: the id is recorded, the post status is
 * filtered, the API connection is checked, the related surrogate keys are
 * derived and each key is handed to the purge engine.
 *
 * The WordPress and network answers for one call (post status, connection
 * test, taxonomies, terms, the post) are gathered in `World`.
 */
module WpPurges {
  import opened Php
  import PurgeRequest
  import RelatedKeys

  /** The hook argument: a WP_Post object, or a scalar post id. */
  datatype PostArg = PostObject(id: Value) | Scalar(v: Value)

  /** What WordPress answers during one call. */
  datatype World = World(
    status: Option<string>,
    connected: bool,
    taxonomies: seq<string>,
    lookup: RelatedKeys.TermLookup,
    post: Option<RelatedKeys.Post>)

  /** The singleton's state: `postIdsProcessed`. */
  datatype Purges = Purges(processed: seq<Value>)

  /**
   * How one call ended: already seen or filtered out, stopped by a failed
   * connection test, aborted by converting a WP_Post to a string, or with
   * the keys handed to the purge engine.
   */
  datatype Run = Skipped | NoConnection | Crashed | Purged(keys: seq<string>)

  datatype Step = Step(state: Purges, run: Run)

  /** `getPostId`: a post object gives its ID, anything else passes through. */
  function GetPostId(arg: PostArg): (r: Value)
    ensures arg.PostObject? ==> r == arg.id
    ensures arg.Scalar? ==> r == arg.v
  {
    match arg
    case PostObject(id) => id
    case Scalar(v) => v
  }

  /** `in_array( get_post_status( $post_id ), array( 'publish', 'trash', 'draft' ) )` */
  predicate PurgeableStatus(status: Option<string>) {
    status.Some? && (status.value == "publish" || status.value == "trash" || status.value == "draft")
  }

  /** `_purge_actions`: the hooks the callback is registered on. */
  const Actions: seq<string> := ["save_post", "deleted_post", "trashed_post", "delete_attachment", "future_to_publish"]

  /**
   * `Purgely_Purges::purge`. The surrogate-key derivation receives the hook
   * argument itself, so a WP_Post argument reaches `'p-' . $identifier`,
   * which PHP cannot evaluate for an object.
   */
  function Trigger(s: Purges, arg: PostArg, w: World): (r: Step)
    ensures InArray(GetPostId(arg), s.processed) ==> r == Step(s, Skipped)
    ensures !InArray(GetPostId(arg), s.processed) ==> r.state.processed == s.processed + [GetPostId(arg)]
    ensures r.run.Purged? || r.run.Crashed? ==> PurgeableStatus(w.status) && w.connected
    ensures r.run.NoConnection? ==> PurgeableStatus(w.status)
    ensures r.run.Purged? <==>
      !InArray(GetPostId(arg), s.processed) && PurgeableStatus(w.status) && w.connected && arg.Scalar?
    ensures r.run.Purged? ==> r.run.keys == RelatedKeys.LocateAll(GetPostId(arg), w.taxonomies, w.lookup, w.post)
  {
    var id := GetPostId(arg);
    if InArray(id, s.processed) then Step(s, Skipped)
    else
      var s' := Purges(s.processed + [id]);
      if !PurgeableStatus(w.status) then Step(s', Skipped)
      else if !w.connected then Step(s', NoConnection)
      else
        match arg
        case PostObject(_) => Step(s', Crashed)
        case Scalar(v) => Step(s', Purged(RelatedKeys.LocateAll(v, w.taxonomies, w.lookup, w.post)))
  }

  /** The state only ever grows: earlier ids stay recorded in their order. */
  lemma TriggerExtends(s: Purges, arg: PostArg, w: World)
    ensures var r := Trigger(s, arg, w);
      |s.processed| <= |r.state.processed| && r.state.processed[..|s.processed|] == s.processed
  {
  }

  /**
   * The id is recorded before the status filter: once a call has seen a
   * post, a later call for the same post in the same request does nothing,
   * whatever its status has become.
   */
  lemma SecondCallSkipped(s: Purges, arg: PostArg, w: World, w': World)
    ensures var r := Trigger(s, arg, w);
      Trigger(r.state, arg, w') == Step(r.state, Skipped)
  {
    var id := GetPostId(arg);
    var r := Trigger(s, arg, w);
    if !InArray(id, s.processed) {
      LooseEqReflexive(id);
      assert r.state.processed[|s.processed|] == id;
    }
  }

  /**
   * A purged run hands on, in order: the post key, the term keys of every
   * taxonomy, the author key when the post resolves, and the always-purged keys.
   */
  lemma PurgedKeysShape(s: Purges, v: Value, w: World)
    requires Trigger(s, Scalar(v), w).run.Purged?
    ensures var keys := Trigger(s, Scalar(v), w).run.keys;
      var t := RelatedKeys.AllTaxonomyKeys(w.lookup, w.taxonomies);
      && |keys| == 1 + |t| + |RelatedKeys.AuthorKeys(w.post)| + |RelatedKeys.AlwaysPurged|
      && keys[0] == RelatedKeys.PostKey(v)
      && keys[1..1 + |t|] == t
      && keys[1 + |t|..|keys| - |RelatedKeys.AlwaysPurged|] == RelatedKeys.AuthorKeys(w.post)
      && keys[|keys| - |RelatedKeys.AlwaysPurged|..] == RelatedKeys.AlwaysPurged
  {
  }

  /** The purge calls for the derived keys: `purge( 'key-collection', $key, array() )` each. */
  function KeyPurges(t: string, keys: seq<string>, env: PurgeRequest.Env, net: PurgeRequest.Net)
    : (r: seq<PurgeRequest.Outcome>)
    ensures |r| == |keys|
    ensures forall i :: 0 <= i < |keys| ==> r[i] == PurgeRequest.Purge(t, PurgeRequest.One(keys[i]), map[], env, net)
  {
    if keys == [] then []
    else [PurgeRequest.Purge(t, PurgeRequest.One(keys[0]), map[], env, net)] + KeyPurges(t, keys[1..], env, net)
  }

  /** The type the automatic purge passes to the engine. */
  const AsWrittenType: string := "key-collection"

  /** As written, every derived key sends one request, and it goes to the purge-all URI. */
  lemma AsWrittenPurgesAll(keys: seq<string>, env: PurgeRequest.Env, net: PurgeRequest.Net, i: nat)
    requires i < |keys|
    ensures var o := KeyPurges(AsWrittenType, keys, env, net)[i];
      |o.sent| == 1 && o.sent[0].url == PurgeRequest.PurgeAllUri(env)
  {
    PurgeRequest.UnknownTypePurgesAll(AsWrittenType, PurgeRequest.One(keys[i]), map[], env, net);
  }

  // ---------------------------------------------------------------------------
  // Corrected variant

  /** `purge` with the derivation given the normalised post id. */
  function IntendedTrigger(s: Purges, arg: PostArg, w: World): (r: Step)
    ensures !r.run.Crashed?
    ensures r.state == Trigger(s, arg, w).state
    ensures r.run.Purged? <==> !InArray(GetPostId(arg), s.processed) && PurgeableStatus(w.status) && w.connected
    ensures r.run.Purged? ==> |r.run.keys| > 0 && r.run.keys[0] == RelatedKeys.PostKey(GetPostId(arg))
    ensures r.run.Purged? ==> r.run.keys == RelatedKeys.LocateAll(GetPostId(arg), w.taxonomies, w.lookup, w.post)
  {
    var id := GetPostId(arg);
    if InArray(id, s.processed) then Step(s, Skipped)
    else
      var s' := Purges(s.processed + [id]);
      if !PurgeableStatus(w.status) then Step(s', Skipped)
      else if !w.connected then Step(s', NoConnection)
      else Step(s', Purged(RelatedKeys.LocateAll(id, w.taxonomies, w.lookup, w.post)))
  }

  /** On a scalar post id the corrected trigger does exactly what the written one does. */
  lemma IntendedAgreesOnScalars(s: Purges, v: Value, w: World)
    ensures IntendedTrigger(s, Scalar(v), w) == Trigger(s, Scalar(v), w)
  {
  }

  /** The scheduled-publish hook passes a WP_Post: as written the call aborts, corrected it purges. */
  lemma PostObjectCounterexample(w: World)
    requires w.status == Some("publish") && w.connected
    ensures Trigger(Purges([]), PostObject(Int(7)), w).run == Crashed
    ensures IntendedTrigger(Purges([]), PostObject(Int(7)), w).run.Purged?
  {
  }

  /** The type that names a single surrogate key. */
  const IntendedType: string := "surrogate-key"

  /** Corrected, every derived key sends one POST to that key's own purge URI. */
  lemma IntendedPurgesKey(keys: seq<string>, env: PurgeRequest.Env, net: PurgeRequest.Net, i: nat)
    requires i < |keys|
    ensures var o := KeyPurges(IntendedType, keys, env, net)[i];
      && |o.sent| == 1 && o.sent[0].url == PurgeRequest.KeyUri(env, keys[i]) && o.sent[0].verb == "POST"
      && o.sent[0].url != PurgeRequest.PurgeAllUri(env)
  {
    PurgeRequest.KeyPurgeSendsKeyUri(keys[i], map[], env, net);
    PurgeRequest.PurgeAllIsNoKeyUri(env, keys[i]);
  }
}
